=== FILE: README.md ===
# Procedural dungeon generator: a Dafny model

This project models the grid logic of a procedural dungeon generator for a game engine. It covers:

- **The cell grid.** A dense 3-D array of cells laid out X fastest, then Y, then Z. Each cell carries a type (Empty, Room, RoomWall, Hallway, Staircase, StaircaseHead, Door, Entrance) and byte-sized room and hallway indices.
- **The validator.** Nine structural checks append issues to one list, and the dungeon passes when the list is empty. Each check is modelled as a function producing the issues in the source's order. Each is paired with a declarative predicate that holds exactly when the check is silent.
- **Room placement.** Rejection sampling of axis-aligned boxes with a buffered overlap test, and stamping the boxes into the grid.
- **Room semantics.** Entrance selection by placement rule, and breadth-first graph metrics: distance, farthest room, main path, leaf and multi-floor flags. Also rule-driven room-type assignment with count limits and the boss guarantee.
- **Graph construction.** Prim's spanning tree over an abstract weight function, with the heap order as the code writes it (heaviest candidate first, see Findings) and the lightest-first order it intends. The combinatorial skeleton of 3-D and 2-D Bowyer-Watson: face and edge canonicalisation, small inputs, boundary extraction, and the sorted, unique edge output restricted to input points.
- **The hallway pathfinder.** The cell-cost table, the staircase-feasibility predicate and the A* search (soundness of the returned path). Also hallway carving: hallway cells, staircases and doors.
- **The generator's deterministic glue.** Entrance marking, final-edge assembly, hallway numbering and connection lists, and the metric counts.
- **The tile mapper.** Which tile instances are emitted for which cell faces, as (cell, face, tile type) tags.
- **The voxel layer.** The boundary tests and room-type lookup of the voxel stamper, and its boundary-voxel index map and staircase step heights. The voxel configuration's material table and voxels-per-cell rule. The world mode's material lookup, neighbour test and density-branch selection.

Randomness comes from a seeded stream that the generator forks per stage. It is modelled as an abstract oracle `draw: nat -> int` with a position. `RandRange(a, b)` returns a value in `[a, b]` for every oracle, and every property that depends on randomness is stated for all oracles. Floating-point geometry is modelled through oracles too: circumsphere and circumcircle tests, orientation, and the Euclidean weights of the spanning tree. The A* costs are modelled on reals.

Where the documentation and the code disagree, the model follows the code, with one exception: the spanning tree's heap order. The tree computation is modelled both ways. `MinimumSpanningTree.Compute` pops heaviest first, as the code does. The generator builds its tree with the lightest-first order that the code's comments intend, which is the corrected definition of the one finding below (see "## Findings" and the `DungeonGenerator.BuildEdges` line under "## Left out"). Three places where the model follows the code:

- the world mode's neighbour test seals two hallways with different indices, but the stamper leaves them open (`VoxelDungeonWorldMode.HallwayJunctionSealed`);
- a Door cell's material in the world mode ignores the door-frame material when a room-type override exists, while the stamper uses the override in both places (`VoxelDungeonWorldMode.MaterialMatchesStamper`);
- the 2-D triangulation has no special case for three points, while the 3-D one does.

## Model

| member | source | states |
|---|---|---|
| DungeonTypes.CellIndexRoundTrip | Source/DungeonCore/Public/DungeonTypes.h:69-80 | the flat index X + Y*SX + Z*SX*SY of an in-bounds coordinate lies in [0, SX*SY*SZ), and the coordinate is recovered from it |
| DungeonTypes.CellIndexInjective | Source/DungeonCore/Public/DungeonTypes.h:77-80 | two in-bounds coordinates share a flat index exactly when they are equal |
| DungeonTypes.DecodeIndexRoundTrip | Source/DungeonCore/Public/DungeonTypes.h:69-80 | every index below the cell count is the flat index of exactly one in-bounds coordinate |
| DungeonTypes.Initialize | Source/DungeonCore/Private/DungeonTypes.cpp:7-11 | on a fresh grid, as Generate uses it (DungeonGenerator.cpp:60), the grid takes the requested size and holds exactly X*Y*Z default cells (Empty, every byte field 0) |
| DungeonTypes.SetCell | Source/DungeonCore/Private/DungeonTypes.cpp:13-18 | writing through the cell accessor changes the addressed in-bounds cell and no other |
| DungeonTypes.GetCellCoversGrid | Source/DungeonCore/Private/DungeonTypes.cpp:20-25 | every stored cell is the cell of some in-bounds coordinate |
| DungeonTypes.MapGrid | Source/DungeonCore/Private/DungeonTypes.cpp:13-18 | a per-cell rewrite keeps the size and gives every in-bounds cell its rewritten value |
| DungeonTypes.GridExtensionality | Source/DungeonCore/Public/DungeonTypes.h:69-73 | two grids of one size that agree on every in-bounds cell are the same grid |
| DungeonTypes.FindRoomByType | Source/DungeonCore/Private/DungeonTypes.cpp:53-63 | the first room of the type when one exists, and none exactly when no room has it |
| DungeonTypes.GetEntranceRoom | Source/DungeonCore/Private/DungeonTypes.cpp:65-72 | the entrance room exactly when the entrance index is in [0, room count), none otherwise |
| DungeonValidator.EntranceIssues | Source/DungeonCore/Private/DungeonValidator.cpp:50-88 | at most one issue, filed under Entrance; none exactly when the index names a room and the entrance cell is an in-bounds Entrance cell |
| DungeonValidator.ClassOf | Source/DungeonCore/Private/DungeonValidator.cpp:100-119 | Room, Door and Entrance count as room cells, Hallway as hallway cells, Staircase and StaircaseHead as staircase cells, anything else nowhere |
| DungeonValidator.CountCellClasses | Source/DungeonCore/Private/DungeonValidator.cpp:96-119 | the loop's three counters equal the numbers of cells of each class |
| DungeonValidator.MetricsIssues | Source/DungeonCore/Private/DungeonValidator.cpp:121-141 | one Metrics issue per reported total that differs from the count, so none exactly when all three agree |
| DungeonValidator.BoundsIssuesMember | Source/DungeonCore/Private/DungeonValidator.cpp:148-191 | an issue is reported exactly for each out-of-bounds room origin, room far corner and staircase cell |
| DungeonValidator.BoundsIssuesEmpty | Source/DungeonCore/Private/DungeonValidator.cpp:148-191 | the bounds check is silent exactly when every room box and staircase cell lies in the grid |
| DungeonValidator.PairIssuesMember | Source/DungeonCore/Private/DungeonValidator.cpp:199-220 | the double loop i < j reports exactly the issues of the pairs it visits |
| DungeonValidator.OverlapIssuesMember | Source/DungeonCore/Private/DungeonValidator.cpp:197-221 | exactly the pairs i < j whose half-open boxes intersect on all three axes are reported; touching boxes are not |
| DungeonValidator.OverlapIssuesEmpty | Source/DungeonCore/Private/DungeonValidator.cpp:197-221 | the overlap check is silent exactly when no two boxes intersect |
| DungeonValidator.BufferIssuesMember | Source/DungeonCore/Private/DungeonValidator.cpp:227-257 | with a positive buffer, exactly the pairs within the buffer on X and Y that overlap on Z are reported; with a buffer of 0 or less, nothing |
| DungeonValidator.BufferIssuesEmpty | Source/DungeonCore/Private/DungeonValidator.cpp:227-257 | the buffer check is silent exactly when the buffer is respected by every pair |
| DungeonValidator.HallwayEdges | Source/DungeonCore/Private/DungeonValidator.cpp:274-280 | the hallway graph has one undirected edge RoomA-RoomB per hallway |
| DungeonValidator.Enqueue | Source/DungeonCore/Private/DungeonValidator.cpp:296-303 | an unseen neighbour of a reached room is marked, enqueued and reachable; a seen one changes nothing |
| DungeonValidator.EnqueueFrom | Source/DungeonCore/Private/DungeonValidator.cpp:293-303 | after the neighbour loop every neighbour is visited, the queue only grew at its end, and visited and queued rooms coincide |
| DungeonValidator.BfsStep | Source/DungeonCore/Private/DungeonValidator.cpp:289-304 | one dequeue keeps the search invariant and the termination measure |
| DungeonValidator.BreadthFirstVisit | Source/DungeonCore/Private/DungeonValidator.cpp:282-304 | the search visits exactly the rooms reachable from the entrance in the hallway graph |
| DungeonValidator.ConnectivitySpecMember | Source/DungeonCore/Private/DungeonValidator.cpp:263-317 | with more than one room and a valid entrance index, exactly the rooms unreachable from the entrance are reported; otherwise nothing |
| DungeonValidator.ConnectivitySpecEmpty | Source/DungeonCore/Private/DungeonValidator.cpp:263-317 | the connectivity check is silent exactly when the check is skipped or every room is reachable |
| DungeonValidator.ValidateRoomConnectivity | Source/DungeonCore/Private/DungeonValidator.cpp:263-317 | the BFS implementation reports exactly the declarative connectivity issues, in room order |
| DungeonValidator.HeadroomIssuesMember | Source/DungeonCore/Private/DungeonValidator.cpp:323-347 | exactly the in-bounds staircase cells above the bottom cell that are Room or RoomWall are reported |
| DungeonValidator.HeadroomIssuesEmpty | Source/DungeonCore/Private/DungeonValidator.cpp:323-347 | the headroom check is silent exactly when no such cell exists |
| DungeonValidator.SemanticsIssuesEmpty | Source/DungeonCore/Private/DungeonValidator.cpp:353-434 | silent exactly when: there is one Entrance room; a Boss exists when guaranteed with more than one room; no non-Entrance rule's type exceeds its count; the entrance room's distance is 0 |
| DungeonValidator.CellWalkStep | Source/DungeonCore/Private/DungeonValidator.cpp:517-536 | a connected cell's open face neighbour is connected too |
| DungeonValidator.ClosedContainsConnected | Source/DungeonCore/Private/DungeonValidator.cpp:513-538 | a cell set containing the start and closed under open face steps contains every connected cell |
| DungeonValidator.TryVisit | Source/DungeonCore/Private/DungeonValidator.cpp:519-536 | an open unvisited neighbour is marked and pushed, and only a connected open cell is ever added |
| DungeonValidator.VisitAround | Source/DungeonCore/Private/DungeonValidator.cpp:517-537 | after the six directions every open neighbour of the popped cell is visited and the fill invariant holds |
| DungeonValidator.FloodStep | Source/DungeonCore/Private/DungeonValidator.cpp:513-538 | one pop keeps the fill invariant, and either a cell is added or the stack shrinks |
| DungeonValidator.FloodFill | Source/DungeonCore/Private/DungeonValidator.cpp:485-539 | nothing is visited from an out-of-bounds or Empty start; otherwise exactly the cells 6-connected to it through non-Empty cells |
| DungeonValidator.GridIssuesMember | Source/DungeonCore/Private/DungeonValidator.cpp:457-478 | the Z, Y, X scan reports exactly the non-Empty cells outside the visited set |
| DungeonValidator.ScanUnvisited | Source/DungeonCore/Private/DungeonValidator.cpp:457-478 | the triple loop produces the scan's issues in Z, Y, X order |
| DungeonValidator.ReachabilitySpecMember | Source/DungeonCore/Private/DungeonValidator.cpp:440-478 | when the entrance cell is open, exactly the open cells not connected to it are reported; otherwise nothing |
| DungeonValidator.ReachabilitySpecEmpty | Source/DungeonCore/Private/DungeonValidator.cpp:440-478 | the reachability check is silent exactly when every open cell is connected to an open entrance cell |
| DungeonValidator.ValidateReachability | Source/DungeonCore/Private/DungeonValidator.cpp:440-479 | flood fill plus scan produce exactly the declarative reachability issues |
| DungeonValidator.AllIssuesEmpty | Source/DungeonCore/Private/DungeonValidator.cpp:28-44 | the nine checks together are silent exactly when all nine declarative properties hold |
| DungeonValidator.ValidateAll | Source/DungeonCore/Private/DungeonValidator.cpp:28-44 | the issues are the nine checks' in fixed order, and the dungeon passes exactly when there are none, that is, when it is valid |
| RoomPlacement.DoesRoomOverlap | Source/DungeonCore/Private/RoomPlacement.cpp:74-101 | a candidate is rejected exactly when some existing room meets it under the validator's buffer test: X and Y widened by the buffer, Z exact |
| RoomPlacement.OverlapImpliesBuffered | Source/DungeonCore/Private/RoomPlacement.cpp:80-98 | with a non-negative buffer, every true box overlap is also a buffered overlap |
| RoomPlacement.BufferedOverlapSymmetric | Source/DungeonCore/Private/RoomPlacement.cpp:83-93 | the buffered test gives the same answer whichever room is the candidate |
| RoomPlacement.StampRoomToGrid | Source/DungeonCore/Private/RoomPlacement.cpp:103-121 | every in-bounds cell of the box becomes a Room cell with the room's index and its Z layer (truncated to a byte) as floor; its other fields and every other cell keep their values |
| RoomPlacement.StampIdempotent | Source/DungeonCore/Private/RoomPlacement.cpp:103-121 | stamping the same room a second time changes nothing |
| RoomPlacement.StampAllCell | Source/DungeonCore/Private/RoomPlacement.cpp:55-56 | after stamping pairwise-disjoint rooms, a cell in room k's box carries room k's index, and a cell outside every box is untouched |
| RoomPlacement.StampCellStep | Source/DungeonCore/Private/RoomPlacement.cpp:55-56 | one more stamp, by a room sharing the cell with no earlier room, keeps that per-cell description |
| RoomPlacement.SharedCellOverlaps | Source/DungeonCore/Private/RoomPlacement.cpp:105-117 | two boxes containing a common cell overlap |
| RoomPlacement.NewRoom | Source/DungeonCore/Private/RoomPlacement.cpp:47-53 | the new room gets the 1-based index truncated to a byte, the Generic type, the drawn origin and size, and the origin's Z as floor level; its center lies in its box |
| RoomPlacement.DrawSize | Source/DungeonCore/Private/RoomPlacement.cpp:23-25 | three draws, each within the configured range of its axis |
| RoomPlacement.DrawPosition | Source/DungeonCore/Private/RoomPlacement.cpp:28-40 | three more draws, keeping the buffer from the grid's X and Y edges and the box inside the grid on Z |
| RoomPlacement.TryAttempt | Source/DungeonCore/Private/RoomPlacement.cpp:22-59 | a box too large to fit costs three draws and fails; otherwise six draws are made, and a kept room is admissible: in range, fitted, and clear of every earlier room |
| RoomPlacement.PlaceOne | Source/DungeonCore/Private/RoomPlacement.cpp:20-60 | the first successful attempt wins, at most MaxPlacementAttempts attempts are made, and a kept room is admissible |
| RoomPlacement.PlaceFrom | Source/DungeonCore/Private/RoomPlacement.cpp:16-68 | the list only grows at its end, by at most one admissible room per requested room, and does not grow at all without attempts |
| RoomPlacement.GrowStep | Source/DungeonCore/Private/RoomPlacement.cpp:16-68 | admissible growth composes across one loop iteration |
| RoomPlacement.PlaceRooms | Source/DungeonCore/Private/RoomPlacement.cpp:8-72 | the placer forks stream 1 and succeeds exactly when at least two rooms exist; it adds at most RoomCount admissible rooms after the given ones, and the grid is the input with every new room stamped |
| RoomPlacement.PlacedIndices | Source/DungeonCore/Private/RoomPlacement.cpp:47-53 | the room at position k carries index k+1 (as a byte), the Generic type and its origin's Z as floor level |
| RoomPlacement.AdmissibleRoomSound | Source/DungeonCore/Private/RoomPlacement.cpp:28-45 | a kept room fails the buffered test against every earlier room, so it overlaps none of them; with a non-negative buffer and sizes of at least one, it lies inside the grid |
| RoomPlacement.DrawnSizePositive | Source/DungeonCore/Private/RoomPlacement.cpp:23-25 | with minimum sizes of at least one, every drawn extent is at least one |
| RoomPlacement.PlacementPassesChecks | Source/DungeonCore/Private/RoomPlacement.cpp:8-72 | placed rooms pass the validator's overlap, buffer and bounds checks, given a non-negative buffer and minimum sizes of at least one |
| RoomPlacement.PlacedRoomsStamped | Source/DungeonCore/Private/RoomPlacement.cpp:8-72 | in the placed grid every cell of a room's box is a Room cell of that room, and every cell outside all boxes is unchanged |
| RoomSemantics.CandidatesFrom | Source/DungeonCore/Private/RoomSemantics.cpp:24-58 | the candidate list holds exactly the rooms qualifying under the placement rule (BoundaryEdge, BottomFloor, TopFloor, Any), in increasing order |
| RoomSemantics.AllPositions | Source/DungeonCore/Private/RoomSemantics.cpp:61-70 | the fallback list is every room position, in order |
| RoomSemantics.SelectEntranceRoom | Source/DungeonCore/Private/RoomSemantics.cpp:12-74 | -1 with no draw exactly when there are no rooms; otherwise one draw picks a room, and a qualifying one whenever any room qualifies |
| RoomSemantics.AdjacentInRange | Source/DungeonCore/Private/RoomSemantics.cpp:91-99 | an edge between existing rooms only names existing rooms |
| RoomSemantics.LabelKeepsState | Source/DungeonCore/Private/RoomSemantics.cpp:130-135 | labelling an unlabelled neighbour one past the current room keeps the labels, parents and queue consistent |
| RoomSemantics.LabelNeighbor | Source/DungeonCore/Private/RoomSemantics.cpp:128-136 | an unlabelled neighbour gets the current label plus one, the current room as parent, and joins the queue; labelled rooms keep their labels |
| RoomSemantics.BfsVisit | Source/DungeonCore/Private/RoomSemantics.cpp:122-138 | one dequeue keeps the search state and labels every neighbour of the dequeued room, with the termination measure unchanged |
| RoomSemantics.BfsVisitProgress | Source/DungeonCore/Private/RoomSemantics.cpp:124-137 | after a dequeue the queue spans at most two levels, and every dequeued room's neighbours are labelled |
| RoomSemantics.BreadthFirstDistances | Source/DungeonCore/Private/RoomSemantics.cpp:101-138 | the labels are hop distances from the entrance over the final edges, -1 exactly for unreachable rooms, and each parent is a neighbour one hop closer |
| RoomSemantics.FarthestRoom | Source/DungeonCore/Private/RoomSemantics.cpp:140-155 | the maximum distance (at least 0) and the lowest room index reaching it, or the entrance when no room is farther away |
| RoomSemantics.ParentStep | Source/DungeonCore/Private/RoomSemantics.cpp:160-165 | the entrance has no parent; any other reached room's parent is adjacent to it and one hop closer |
| RoomSemantics.TraceMainPath | Source/DungeonCore/Private/RoomSemantics.cpp:157-166 | following parents from the farthest room gives a walk down the distances, one edge per step, ending at the entrance |
| RoomSemantics.Dedup | Source/DungeonCore/Private/RoomSemantics.cpp:97-98 | the per-room neighbour list holds each neighbour once |
| RoomSemantics.IsLeaf | Source/DungeonCore/Private/RoomSemantics.cpp:178-186 | a room is a leaf exactly when it has at most one distinct neighbour, which includes a room in no edge |
| RoomSemantics.NormalizedDistance | Source/DungeonCore/Private/RoomSemantics.cpp:174-176 | the distance over the maximum lies in [0, 1] and is 1 at the maximum; it is 0 for the entrance, for unreachable rooms, and when the maximum is 0 |
| RoomSemantics.BuildContexts | Source/DungeonCore/Private/RoomSemantics.cpp:168-190 | each context records the room's index, distance, normalised distance, leaf flag, main-path flag, and whether it is taller than one floor |
| RoomSemantics.WriteBack | Source/DungeonCore/Private/RoomSemantics.cpp:191-193 | each room gets its distance and main-path flag written back; nothing else changes |
| RoomSemantics.ComputeGraphMetrics | Source/DungeonCore/Private/RoomSemantics.cpp:80-201 | with no rooms or no entrance, default contexts and untouched rooms; otherwise true hop distances, the first farthest room, a shortest path from it back to the entrance, and exact flags |
| RoomSemantics.MetricsFromParts | Source/DungeonCore/Private/RoomSemantics.cpp:101-194 | the metrics built from a distance labelling, the farthest room and the main path meet the whole contract |
| RoomSemantics.DistancesFromLabelling | Source/DungeonCore/Private/RoomSemantics.cpp:101-138 | a breadth-first labelling gives hop distances in the contexts, -1 exactly for unreachable rooms |
| RoomSemantics.FarthestFromParts | Source/DungeonCore/Private/RoomSemantics.cpp:140-155 | the farthest room read back from the contexts is the first room at the largest distance |
| RoomSemantics.MainPathFromParts | Source/DungeonCore/Private/RoomSemantics.cpp:157-188 | the main-path flag is set exactly for the rooms of a shortest walk from the farthest room to the entrance |
| RoomSemantics.FlagsFromParts | Source/DungeonCore/Private/RoomSemantics.cpp:174-189 | the normalised distance, leaf and multi-floor flags agree with their definitions |
| RoomSemantics.WriteBackFromParts | Source/DungeonCore/Private/RoomSemantics.cpp:191-193 | the written-back rooms carry the context's distance and main-path flag |
| Graphs.Neighbors | Source/DungeonCore/Private/RoomSemantics.cpp:91-99 | the adjacency list of a room holds exactly the rooms sharing an edge with it, in either direction |
| Graphs.WalkExtend | Source/DungeonCore/Private/RoomSemantics.cpp:128-135 | a walk of k edges to a room extends to a walk of k+1 edges to each of its neighbours |
| Graphs.ClosedContainsReachable | Source/DungeonCore/Private/RoomSemantics.cpp:122-138 | a room set that holds the entrance and is closed under neighbours holds every reachable room |
| Graphs.LabelHasWalk | Source/DungeonCore/Private/RoomSemantics.cpp:130-135 | a room labelled k has a walk of k edges from the entrance |
| Graphs.WalkBoundsLabel | Source/DungeonCore/Private/RoomSemantics.cpp:128-135 | a walk of k edges from the entrance ends at a labelled room with label at most k |
| Graphs.LabellingIsDistance | Source/DungeonCore/Private/RoomSemantics.cpp:101-138 | a breadth-first labelling is non-negative exactly for the reachable rooms, and there it is the hop distance |
| Graphs.AdjacentSymmetric | Source/DungeonCore/Private/RoomSemantics.cpp:97-98 | adjacency holds in both directions, as the map adds both endpoints |
| RoomTypeAssignment.InsertByPriority | Source/DungeonCore/Private/RoomSemantics.cpp:227-232 | inserting a rule into the sorted list keeps the same rules plus the new one |
| RoomTypeAssignment.InsertByPrioritySorted | Source/DungeonCore/Private/RoomSemantics.cpp:227-232 | insertion keeps the list in descending priority |
| RoomTypeAssignment.InsertKeepsOrder | Source/DungeonCore/Private/RoomSemantics.cpp:227-232 | an inserted rule goes after every rule of its own priority |
| RoomTypeAssignment.SortRules | Source/DungeonCore/Private/RoomSemantics.cpp:227-232 | the sorted rules are a permutation of the configured ones, in descending priority |
| RoomTypeAssignment.SortRulesStable | Source/DungeonCore/Private/RoomSemantics.cpp:227-232 | rules of equal priority keep their configured order, so the sort is stable |
| RoomTypeAssignment.Score | Source/DungeonCore/Private/RoomSemantics.cpp:287-300 | a candidate's score is at most 2.5: one point for a preferred leaf, one for the preferred main path, and at most half a point for closeness to the middle of the distance band |
| RoomTypeAssignment.EligibleFrom | Source/DungeonCore/Private/RoomSemantics.cpp:247-303 | the candidate list holds exactly the rooms passing the hard filters, in ascending order: untaken, reachable, inside the distance band, multi-floor when required, and at least the minimum size when one is set |
| RoomTypeAssignment.SortCandidates | Source/DungeonCore/Private/RoomSemantics.cpp:305-313 | the sorted candidates are a permutation of the eligible ones |
| RoomTypeAssignment.SortCandidatesRanked | Source/DungeonCore/Private/RoomSemantics.cpp:305-313 | after sorting, each candidate has a higher score than every later one, or the same score and a lower index |
| RoomTypeAssignment.RankedUnique | Source/DungeonCore/Private/RoomSemantics.cpp:305-313 | only one ranking exists for a set of candidates, so the stable sort's result is determined |
| RoomTypeAssignment.HeadBest | Source/DungeonCore/Private/RoomSemantics.cpp:305-313 | the first ranked candidate outranks every other |
| RoomTypeAssignment.TakeCount | Source/DungeonCore/Private/RoomSemantics.cpp:315-322 | a rule types min(Count, candidates) rooms, and none when Count is 0 or less |
| RoomTypeAssignment.RuleChoiceIsTop | Source/DungeonCore/Private/RoomSemantics.cpp:244-332 | a rule types exactly as many eligible rooms as its clamped count, all distinct, each outranking every eligible room left out |
| RoomTypeAssignment.BestFrom | Source/DungeonCore/Private/RoomSemantics.cpp:344-363 | the scan keeps the first candidate scoring strictly above the best so far |
| RoomTypeAssignment.PickBest | Source/DungeonCore/Private/RoomSemantics.cpp:341-370 | no room is picked exactly when every candidate scores -1 or less; otherwise the pick has the highest score, and every earlier candidate scores strictly less |
| RoomTypeAssignment.OpenFrom | Source/DungeonCore/Private/RoomSemantics.cpp:344-350 | the fallback candidates are exactly the reachable untaken rooms, ascending |
| RoomTypeAssignment.FallbackScores | Source/DungeonCore/Private/RoomSemantics.cpp:351-356 | the relaxed Boss score is non-negative whenever the normalised distance is |
| RoomTypeAssignment.GlobalScores | Source/DungeonCore/Private/RoomSemantics.cpp:390-395 | the global Boss score adds 10 for main-path rooms on top of the normalised distance |
| RoomTypeAssignment.Retype | Source/DungeonCore/Private/RoomSemantics.cpp:324 | listed rooms take the rule's type; the others keep theirs |
| RoomTypeAssignment.WithTypes | Source/DungeonCore/Private/RoomSemantics.cpp:324 | writing the types back changes only each room's type |
| RoomTypeAssignment.AssignRoomTypes | Source/DungeonCore/Private/RoomSemantics.cpp:207-217 | only the room types change, and an empty room list is returned as is |
| RoomTypeAssignment.TakeSound | Source/DungeonCore/Private/RoomSemantics.cpp:324-326 | typing fresh rooms keeps the assignment sound and only grows the taken set; every newly taken room has the given type |
| RoomTypeAssignment.MainStepSound | Source/DungeonCore/Private/RoomSemantics.cpp:315-332 | a rule's main phase takes exactly its top choice, gives it the rule's type, and records a Boss exactly when a Boss rule took a room |
| RoomTypeAssignment.FallbackSound | Source/DungeonCore/Private/RoomSemantics.cpp:334-371 | the relaxed Boss pass takes at most one room, as Boss, and records it |
| RoomTypeAssignment.TakeBossSound | Source/DungeonCore/Private/RoomSemantics.cpp:365-370 | taking one fresh room as Boss keeps soundness and types exactly that room |
| RoomTypeAssignment.ApplyRuleSound | Source/DungeonCore/Private/RoomSemantics.cpp:236-372 | an Entrance rule changes nothing; any other rule takes its top choice, or a Boss rule with an empty choice falls back to at most one room, and newly taken rooms get the rule's type |
| RoomTypeAssignment.ApplyRulesSound | Source/DungeonCore/Private/RoomSemantics.cpp:236-372 | the rules in order keep soundness and never retype a taken room |
| RoomTypeAssignment.GlobalBossSound | Source/DungeonCore/Private/RoomSemantics.cpp:374-409 | with a Boss guaranteed, the last pass leaves a Boss unless no reachable room is left untaken, and it takes at most one room |
| RoomTypeAssignment.InitialSound | Source/DungeonCore/Private/RoomSemantics.cpp:219-225 | a valid entrance is typed Entrance and taken first, and no Boss is recorded yet |
| RoomTypeAssignment.AssignRoomTypesSound | Source/DungeonCore/Private/RoomSemantics.cpp:207-409 | the entrance is typed Entrance; every other retyped room is reachable; untaken rooms keep their type; with a Boss guaranteed some room is Boss unless every reachable room is taken |
| MinimumSpanningTree.ValidEdges | Source/DungeonCore/Private/MinimumSpanningTree.cpp:27-33 | exactly the input edges with both endpoints in [0, n) are used; the rest are skipped |
| MinimumSpanningTree.AdjacencyOf | Source/DungeonCore/Private/MinimumSpanningTree.cpp:27-37 | a vertex's adjacency list names exactly its neighbours over the kept edges |
| MinimumSpanningTree.AdjacencyStep | Source/DungeonCore/Private/MinimumSpanningTree.cpp:35-36 | appending one edge's entries keeps the adjacency list exact |
| MinimumSpanningTree.Pushes | Source/DungeonCore/Private/MinimumSpanningTree.cpp:66-71 | every pushed candidate leaves the given vertex along one of its adjacency entries, skipping targets already in the tree, and every such entry is pushed |
| PriorityQueue.FirstMinimum | Source/DungeonCore/Private/MinimumSpanningTree.cpp:75-77 | the first pooled entry of least key, strictly below every entry before it |
| PriorityQueue.Pop | Source/DungeonCore/Private/MinimumSpanningTree.cpp:69-77 | the heap pops an entry least under its predicate's key, the tie-breaking choice when that is one; for the tree's predicate `A.Weight > B.Weight` the key is the negated weight, so that is a heaviest candidate |
| PriorityQueue.RemoveAt | Source/DungeonCore/Private/MinimumSpanningTree.cpp:75-77 | popping removes one entry and keeps all the others |
| MinimumSpanningTree.DistinctBound | Source/DungeonCore/Private/MinimumSpanningTree.cpp:58-61 | distinct vertices below n number at most n |
| MinimumSpanningTree.GrownTreeSize | Source/DungeonCore/Private/MinimumSpanningTree.cpp:73 | the tree never has more than n - 1 edges |
| MinimumSpanningTree.GrownTreeConnected | Source/DungeonCore/Private/MinimumSpanningTree.cpp:84-89 | every tree vertex is reachable from the root along the tree's own edges |
| MinimumSpanningTree.GrownTreeAcyclic | Source/DungeonCore/Private/MinimumSpanningTree.cpp:79-89 | each added edge brings in a vertex no earlier tree edge touches, so the edges form no cycle |
| MinimumSpanningTree.GrownTreeInComponent | Source/DungeonCore/Private/MinimumSpanningTree.cpp:84-89 | every tree vertex is in the root's component over the kept edges |
| MinimumSpanningTree.DistinctCovers | Source/DungeonCore/Private/MinimumSpanningTree.cpp:73 | n distinct vertices below n are all of them, which is when the loop stops early |
| MinimumSpanningTree.SeedState | Source/DungeonCore/Private/MinimumSpanningTree.cpp:58-71 | the root alone, with all its edges queued, satisfies the loop invariant |
| MinimumSpanningTree.SkipStep | Source/DungeonCore/Private/MinimumSpanningTree.cpp:79-82 | popping a candidate whose target is already in the tree keeps the invariant |
| MinimumSpanningTree.AddStep | Source/DungeonCore/Private/MinimumSpanningTree.cpp:84-99 | popping a candidate to a new vertex adds the edge (min, max), pushes the new vertex's edges to outside vertices, and keeps the invariant |
| MinimumSpanningTree.GrowStep | Source/DungeonCore/Private/MinimumSpanningTree.cpp:84-89 | adding an edge from a tree vertex to a new neighbour keeps a grown tree |
| MinimumSpanningTree.ExhaustedSpans | Source/DungeonCore/Private/MinimumSpanningTree.cpp:73 | when the heap runs dry, the tree holds the root's whole component |
| MinimumSpanningTree.FullSpans | Source/DungeonCore/Private/MinimumSpanningTree.cpp:73 | once all n vertices are in, the tree spans everything |
| MinimumSpanningTree.Compute | Source/DungeonCore/Private/MinimumSpanningTree.cpp:3-101 | as written, with the heap predicate `A.Weight > B.Weight`: empty with at most one vertex or no edges; otherwise a spanning tree of the root's component, edges stored (min, max), each bringing in a new vertex, and each a HEAVIEST kept edge leaving the vertices already in the tree |
| MinimumSpanningTree.KeyOf | Source/DungeonCore/Private/MinimumSpanningTree.cpp:69-77 | the source's predicate makes the heap key the negated weight; lightest-first makes it the weight |
| MinimumSpanningTree.AdjacencyHas | Source/DungeonCore/Private/MinimumSpanningTree.cpp:27-37 | every kept edge at v puts its far end, with its weight, in v's adjacency list |
| MinimumSpanningTree.AdjacencyFrom | Source/DungeonCore/Private/MinimumSpanningTree.cpp:27-37 | every adjacency entry of v comes from a kept edge at v and carries that edge's weight |
| MinimumSpanningTree.SeedWeighed | Source/DungeonCore/Private/MinimumSpanningTree.cpp:66-71 | after seeding, every candidate carries a kept edge's weight and every kept edge leaving the root is queued as its candidate |
| MinimumSpanningTree.SkipWeighed | Source/DungeonCore/Private/MinimumSpanningTree.cpp:79-82 | dropping a candidate into the tree keeps every kept edge leaving the tree queued |
| MinimumSpanningTree.AddWeighed | Source/DungeonCore/Private/MinimumSpanningTree.cpp:84-99 | adding a vertex and pushing its edges to outside vertices keeps every kept edge leaving the grown tree queued, with its weight |
| MinimumSpanningTree.GreedyStep | Source/DungeonCore/Private/MinimumSpanningTree.cpp:75-89 | an edge added from a candidate of least heap key has a key no greater than any kept edge leaving the tree at that moment |
| MinimumSpanningTree.SkipPrim | Source/DungeonCore/Private/MinimumSpanningTree.cpp:79-82 | a pop into the tree keeps the whole loop state |
| MinimumSpanningTree.AddPrim | Source/DungeonCore/Private/MinimumSpanningTree.cpp:84-99 | a pop to a new vertex keeps the whole loop state for the grown tree, including the greedy history |
| MinimumSpanningTree.PopStep | Source/DungeonCore/Private/MinimumSpanningTree.cpp:73-99 | one iteration keeps the loop state, and either grows the tree or shrinks the heap |
| MinimumSpanningTree.Prim | Source/DungeonCore/Private/MinimumSpanningTree.cpp:3-101 | Prim's loop under either heap order: a spanning tree of the root's component, each edge a greedy choice under that order's key |
| MinimumSpanningTree.ComputeLightestFirst | Source/DungeonCore/Private/MinimumSpanningTree.cpp:3-101 | the min-heap the code's comments intend: a spanning tree of the root's component in which each edge is a LIGHTEST kept edge leaving the tree so far, the cut rule of Prim's algorithm |
| MinimumSpanningTree.HeaviestFirstPicks | Source/DungeonCore/Private/MinimumSpanningTree.cpp:69-77 | on three vertices with weights 1, 2, 3 on (0,1), (0,2), (1,2), a heaviest-first tree from 0 is (0,2), (1,2), of weight 5 |
| MinimumSpanningTree.LightestFirstPicks | Source/DungeonCore/Private/MinimumSpanningTree.cpp:46-63 | on the same graph a lightest-first tree from 0 is (0,1), (0,2), of weight 3 |
| MinimumSpanningTree.HeaviestFirstExample | Source/DungeonCore/Private/MinimumSpanningTree.cpp:3-101 | the source's loop returns (0,2), (1,2) on that graph |
| MinimumSpanningTree.LightestFirstExample | Source/DungeonCore/Private/MinimumSpanningTree.cpp:3-101 | the corrected loop returns (0,1), (0,2) on that graph |
| MinimumSpanningTree.ConnectedTreeSize | Source/DungeonCore/Private/MinimumSpanningTree.cpp:3-101 | when every vertex is reachable from the root, the tree has exactly n - 1 edges |
| DelaunayTetrahedralization.MakeFace | Source/DungeonCore/Private/DelaunayTetrahedralization.cpp:7-14 | three compare-and-swaps store a face's corners ascending, keeping the given corners, and strictly ascending when they are distinct |
| DelaunayTetrahedralization.MakeFacePermutes | Source/DungeonCore/Private/DelaunayTetrahedralization.cpp:7-14 | a face holds exactly the corners it was made from, as a multiset |
| DelaunayTetrahedralization.FaceEquality | Source/DungeonCore/Private/DelaunayTetrahedralization.cpp:16-19 | two faces compare equal exactly when they were made from the same corners in any order |
| DelaunayTetrahedralization.SortedTripleUnique | Source/DungeonCore/Private/DelaunayTetrahedralization.cpp:16-19 | two ascending triples with the same corners are equal |
| DelaunayTetrahedralization.AllFaces | Source/DungeonCore/Private/DelaunayTetrahedralization.cpp:227-236 | four faces per bad tetrahedron, each a face of one of them |
| DelaunayTetrahedralization.Bad | Source/DungeonCore/Private/DelaunayTetrahedralization.cpp:209-217 | the bad tetrahedra are exactly those whose circumsphere holds the point, in their order in the list |
| DelaunayTetrahedralization.Good | Source/DungeonCore/Private/DelaunayTetrahedralization.cpp:253-258 | the surviving tetrahedra are exactly those whose circumsphere does not hold the point, in their order in the list |
| DelaunayTetrahedralization.CountFaces | Source/DungeonCore/Private/DelaunayTetrahedralization.cpp:226-242 | the counting table holds exactly the faces listed, each with its number of occurrences |
| DelaunayTetrahedralization.OnceCounted | Source/DungeonCore/Private/DelaunayTetrahedralization.cpp:244-251 | the boundary holds exactly the faces counted once |
| DelaunayTetrahedralization.BoundaryFaces | Source/DungeonCore/Private/DelaunayTetrahedralization.cpp:225-251 | the cavity's boundary is exactly the faces occurring in one bad tetrahedron |
| DelaunayTetrahedralization.Orient | Source/DungeonCore/Private/DelaunayTetrahedralization.cpp:269-274 | a negatively oriented new tetrahedron has its second and third corners swapped, keeping the same corners |
| DelaunayTetrahedralization.Cone | Source/DungeonCore/Private/DelaunayTetrahedralization.cpp:260-277 | one new tetrahedron per boundary face, joining the face to the point, oriented |
| DelaunayTetrahedralization.MakeFaceOk | Source/DungeonCore/Private/DelaunayTetrahedralization.cpp:7-14 | a face of three distinct known corners is well formed |
| DelaunayTetrahedralization.TetFacesOk | Source/DungeonCore/Private/DelaunayTetrahedralization.cpp:230-235 | the four faces of a well-formed tetrahedron are well formed |
| DelaunayTetrahedralization.FacesOk | Source/DungeonCore/Private/DelaunayTetrahedralization.cpp:227-242 | every counted face of well-formed tetrahedra is well formed |
| DelaunayTetrahedralization.ConeOk | Source/DungeonCore/Private/DelaunayTetrahedralization.cpp:260-277 | coning well-formed faces to a new point gives tetrahedra of four distinct known corners |
| DelaunayTetrahedralization.BoundaryOk | Source/DungeonCore/Private/DelaunayTetrahedralization.cpp:225-251 | every boundary face comes from a bad tetrahedron, so it is well formed |
| DelaunayTetrahedralization.ConeMembers | Source/DungeonCore/Private/DelaunayTetrahedralization.cpp:260-277 | the new tetrahedra are exactly the cones on faces occurring once among the bad ones |
| DelaunayTetrahedralization.Insert | Source/DungeonCore/Private/DelaunayTetrahedralization.cpp:205-278 | inserting point p is `Inserted`: with no bad tetrahedra nothing changes; otherwise the result holds exactly the tetrahedra whose circumsphere misses p and the cone from p on the cavity's boundary faces; all corners stay distinct and known |
| DelaunayTetrahedralization.TetEdges | Source/DungeonCore/Private/DelaunayTetrahedralization.cpp:283-297 | a tetrahedron contributes exactly its corner pairs i < j whose corners are both input points, stored (min, max) |
| DelaunayTetrahedralization.PickedEdges | Source/DungeonCore/Private/DelaunayTetrahedralization.cpp:285-296 | the double loop's six picks are exactly the tetrahedron's input-point edges |
| DelaunayTetrahedralization.PickedComplete | Source/DungeonCore/Private/DelaunayTetrahedralization.cpp:287-296 | every input-point edge of the tetrahedron is picked |
| DelaunayTetrahedralization.PickedSound | Source/DungeonCore/Private/DelaunayTetrahedralization.cpp:287-296 | every picked pair is an input-point edge of the tetrahedron |
| DelaunayTetrahedralization.EdgeSet | Source/DungeonCore/Private/DelaunayTetrahedralization.cpp:280-297 | the edge set holds exactly the input-point edges of the final tetrahedra |
| DelaunayTetrahedralization.TetEdgeProper | Source/DungeonCore/Private/DelaunayTetrahedralization.cpp:291-293 | an input-point edge joins two distinct input points, smaller first |
| DelaunayTetrahedralization.EdgesProper | Source/DungeonCore/Private/DelaunayTetrahedralization.cpp:280-297 | every collected edge (a, b) has 0 <= a < b < n |
| DelaunayTetrahedralization.Super | Source/DungeonCore/Private/DelaunayTetrahedralization.cpp:174-202 | the super-tetrahedron has the four distinct corners n..n+3 |
| DelaunayTetrahedralization.Tetrahedralize | Source/DungeonCore/Private/DelaunayTetrahedralization.cpp:126-309 | no edges below two points, (0,1) for two, the triangle's three edges for three; otherwise the returned stages start with the super-tetrahedron alone, each next stage is the previous one with point q inserted (q = 0, 1, ..., n-1, in that order), and the edges are the input-point edges of the last stage, proper, strictly ascending and unique |
| Graphs.Normalize | Source/DungeonCore/Private/DelaunayTetrahedralization.cpp:21-25 | an edge is stored (min, max) and joins the two given vertices |
| Graphs.NormalizeSame | Source/DungeonCore/Private/DelaunayTetrahedralization.cpp:27-30 | two stored edges are equal exactly when they join the same two vertices |
| Graphs.Enumerate | Source/DungeonCore/Private/DelaunayTetrahedralization.cpp:299-302 | the set's members, each once, in some order |
| Graphs.InsertEdge | Source/DungeonCore/Private/DelaunayTetrahedralization.cpp:304-308 | inserting an absent edge into an ascending list keeps it ascending and adds exactly that edge |
| Graphs.SortEdges | Source/DungeonCore/Private/DelaunayTetrahedralization.cpp:304-308 | sorting distinct edges gives the same edges in strictly ascending (first, second) order |
| Graphs.AscendingUnique | Source/DungeonCore/Private/DelaunayTetrahedralization.cpp:304-308 | a set of edges has only one ascending listing, so the sorted output does not depend on the set's iteration order |
| Graphs.SortedEdgeList | Source/DungeonCore/Private/DelaunayTetrahedralization.cpp:299-308 | the set's edges listed once each, ascending |
| DelaunayTriangulation.Bad | Source/DungeonCore/Private/DelaunayTriangulation.cpp:137-145 | the bad triangles are exactly those whose circumcircle holds the point, in their order in the list |
| DelaunayTriangulation.RemoveAll | Source/DungeonCore/Private/DelaunayTriangulation.cpp:191-198 | the kept triangles are exactly those equal to no bad triangle, in their order in the list |
| DelaunayTriangulation.IsShared | Source/DungeonCore/Private/DelaunayTriangulation.cpp:159-182 | the inner search reports a side as shared exactly when another bad triangle has the same (min, max) side |
| DelaunayTriangulation.BoundaryPolygon | Source/DungeonCore/Private/DelaunayTriangulation.cpp:147-189 | the polygon holds exactly the sides of bad triangles that no other bad triangle has |
| DelaunayTriangulation.Wind | Source/DungeonCore/Private/DelaunayTriangulation.cpp:200-222 | a new triangle joins the side's two endpoints, in one order or the other, to the inserted point last |
| DelaunayTriangulation.Fan | Source/DungeonCore/Private/DelaunayTriangulation.cpp:200-225 | one new triangle per polygon side, wound by the orientation test |
| DelaunayTriangulation.SidesOk | Source/DungeonCore/Private/DelaunayTriangulation.cpp:153-157 | the sides of a well-formed triangle join two distinct known vertices |
| DelaunayTriangulation.PolygonOk | Source/DungeonCore/Private/DelaunayTriangulation.cpp:147-189 | every polygon side comes from a bad triangle, so it is well formed |
| DelaunayTriangulation.FanOk | Source/DungeonCore/Private/DelaunayTriangulation.cpp:200-225 | the new triangles have three distinct known corners |
| DelaunayTriangulation.RemoveAllOk | Source/DungeonCore/Private/DelaunayTriangulation.cpp:191-198 | removal keeps only well-formed triangles |
| DelaunayTriangulation.FanMembers | Source/DungeonCore/Private/DelaunayTriangulation.cpp:200-225 | the new triangles are exactly the windings of the cavity's boundary sides |
| DelaunayTriangulation.Insert | Source/DungeonCore/Private/DelaunayTriangulation.cpp:132-226 | inserting point p is `Inserted`: the result holds exactly the triangles whose circumcircle misses p and the fan from p on the cavity's boundary sides; the survivors come first in their old order and the new triangles follow; all are well formed |
| DelaunayTriangulation.DropSuper | Source/DungeonCore/Private/DelaunayTriangulation.cpp:228-232 | exactly the triangles touching none of the three super-corners are kept |
| DelaunayTriangulation.SideSet | Source/DungeonCore/Private/DelaunayTriangulation.cpp:234-241 | the edge set holds exactly the sides of the remaining triangles |
| DelaunayTriangulation.DropSuperProper | Source/DungeonCore/Private/DelaunayTriangulation.cpp:228-241 | every remaining side (a, b) has 0 <= a < b < n |
| DelaunayTriangulation.Super | Source/DungeonCore/Private/DelaunayTriangulation.cpp:100-130 | the super-triangle has the three distinct corners n..n+2 |
| DelaunayTriangulation.Triangulate | Source/DungeonCore/Private/DelaunayTriangulation.cpp:61-253 | no edges below two points and (0,1) for two; otherwise the returned stages start with the super-triangle alone, each next stage is the previous one with point q inserted (q = 0, 1, ..., n-1), the kept triangles are the last stage's triangles that avoid the super-corners, and the edges are their sides, proper, strictly ascending and unique |
| HallwayPathfinder.CellCost | Source/DungeonCore/Private/HallwayPathfinder.cpp:34-73 | Empty costs 1, Hallway and Door the merge multiplier, Staircase, StaircaseHead and Entrance are blocked (-1) |
| HallwayPathfinder.CostBlocksExactly | Source/DungeonCore/Private/HallwayPathfinder.cpp:22-73 | with non-negative multipliers, a cell is blocked exactly when it is a stair or entrance cell, or a room cell or wall above its room's ground floor; a ground-floor cell of the source or destination room costs 0 |
| HallwayPathfinder.GroundFloorNotUpper | Source/DungeonCore/Private/HallwayPathfinder.cpp:24-32 | a cell on the bottom layer is never an upper room cell, because the cell below it is out of bounds |
| HallwayPathfinder.BodyFrom | Source/DungeonCore/Private/HallwayPathfinder.cpp:114-139 | the body scan succeeds exactly when every body cell is in bounds, Empty, and has no in-bounds stair neighbour |
| HallwayPathfinder.ColumnFrom | Source/DungeonCore/Private/HallwayPathfinder.cpp:144-168 | the scan of one headroom column succeeds exactly when each of its cells is above the grid, or is Empty with no stair neighbour |
| HallwayPathfinder.HeadroomFrom | Source/DungeonCore/Private/HallwayPathfinder.cpp:141-169 | the headroom scan succeeds exactly when every headroom cell above every body cell passes |
| HallwayPathfinder.CanBuildStaircase | Source/DungeonCore/Private/HallwayPathfinder.cpp:96-193 | an exit exactly when both floors are in the grid, the body and headroom are free, and the exit one step past the stair on the target floor is an in-bounds Empty, Hallway or Room cell; it returns that exit |
| HallwayPathfinder.StaircaseFloors | Source/DungeonCore/Private/HallwayPathfinder.cpp:105-112 | a buildable staircase has both floors inside the grid, and its exit is one floor up when rising and one floor down otherwise |
| HallwayPathfinder.StairStepShape | Source/DungeonCore/Private/HallwayPathfinder.cpp:171-176 | a staircase move changes the floor by one and covers riseToRun + 1 cells along one axis |
| HallwayPathfinder.ExitShape | Source/DungeonCore/Private/HallwayPathfinder.cpp:173-176 | the exit lies riseToRun + 1 cells from the entry along the stair's direction |
| HallwayPathfinder.MoveShape | Source/DungeonCore/Private/HallwayPathfinder.cpp:291-421 | every search move ends in the grid: either one cell sideways on the same floor, or a staircase of one floor and riseToRun + 1 cells |
| HallwayPathfinder.SearchCellsInBounds | Source/DungeonCore/Private/HallwayPathfinder.cpp:250-298 | every cell the search touches lies in the grid |
| HallwayPathfinder.StairClaim | Source/DungeonCore/Private/HallwayPathfinder.cpp:400-416 | a planned staircase reserves only in-bounds cells |
| HallwayPathfinder.Relax | Source/DungeonCore/Private/HallwayPathfinder.cpp:304-311 | a successor is recorded, with its parent, its g-score and a heap entry, only when it has no score yet or the new score is lower; otherwise nothing changes |
| HallwayPathfinder.RelaxOk | Source/DungeonCore/Private/HallwayPathfinder.cpp:304-311 | recording a legal move out of a closed cell keeps the search invariant |
| HallwayPathfinder.ExpandFlatOk | Source/DungeonCore/Private/HallwayPathfinder.cpp:291-312 | a same-floor expansion keeps the search invariant and the closed list |
| HallwayPathfinder.ExpandStairOk | Source/DungeonCore/Private/HallwayPathfinder.cpp:314-419 | a staircase expansion, with its reservation checks and claims, keeps the search invariant and the closed list |
| HallwayPathfinder.Expand | Source/DungeonCore/Private/HallwayPathfinder.cpp:291-421 | all twelve moves out of the closed cell keep the search invariant |
| HallwayPathfinder.CloseOk | Source/DungeonCore/Private/HallwayPathfinder.cpp:279-283 | closing a popped cell that is neither closed nor the end keeps the invariant |
| HallwayPathfinder.CloseRank | Source/DungeonCore/Private/HallwayPathfinder.cpp:279-283 | after closing, every closed cell but the start has a parent closed strictly earlier |
| HallwayPathfinder.ParentRanksLower | Source/DungeonCore/Private/HallwayPathfinder.cpp:266-274 | following a parent link goes to a cell closed strictly earlier, so reconstruction terminates |
| HallwayPathfinder.Reconstruct | Source/DungeonCore/Private/HallwayPathfinder.cpp:263-276 | walking the parents back from the end gives a route from start to end of legal moves with no repeated cell; the source appends each parent and reverses, while the model prepends, which yields the same sequence |
| HallwayPathfinder.InitialOk | Source/DungeonCore/Private/HallwayPathfinder.cpp:250-256 | the search starts with only the start cell open, at g-score 0, satisfying the invariant |
| HallwayPathfinder.ClosingShrinks | Source/DungeonCore/Private/HallwayPathfinder.cpp:279-283 | each closing shrinks the set of unclosed cells, which bounds the search |
| HallwayPathfinder.FindPath | Source/DungeonCore/Private/HallwayPathfinder.cpp:199-425 | out-of-grid endpoints fail; equal endpoints give the one-cell route; a route found runs from start to end, every step a legal move, no cell visited twice; a failure returns an empty route |
| HallwayCarving.Sign | Source/DungeonCore/Private/HallwayPathfinder.cpp:459-461 | the unit step of a coordinate difference: -1, 0 or 1, with the sign of the difference |
| HallwayCarving.DirectionCode | Source/DungeonCore/Private/HallwayPathfinder.cpp:469-472 | the stored climb direction is a code below 4 |
| HallwayCarving.DirectionCodeRoundTrip | Source/DungeonCore/Private/HallwayPathfinder.cpp:9-20 | the code of a horizontal direction is its position in the direction table, and the table maps the code back to the direction |
| HallwayCarving.BodyRun | Source/DungeonCore/Private/HallwayPathfinder.cpp:477-488 | the recorded body cells are exactly the in-bounds cells 1..riseToRun steps along the stair on the lower floor |
| HallwayCarving.HeadColumn | Source/DungeonCore/Private/HallwayPathfinder.cpp:495-510 | the recorded cells of one headroom column are exactly its in-bounds cells |
| HallwayCarving.HeadRun | Source/DungeonCore/Private/HallwayPathfinder.cpp:493-511 | the recorded headroom cells are exactly the in-bounds cells 1..headroom floors above the body cells |
| HallwayCarving.ShapeOf | Source/DungeonCore/Private/HallwayPathfinder.cpp:452-462 | the stair's lower floor is the lower of the two route cells, and it rises exactly when the route climbs |
| HallwayCarving.StaircaseFor | Source/DungeonCore/Private/HallwayPathfinder.cpp:464-474 | the record's bottom is the lower route cell and its top the higher, the direction code is below 4, the ratio and headroom are the configured ones, and every occupied cell is in the grid |
| HallwayCarving.StaircaseOccupies | Source/DungeonCore/Private/HallwayPathfinder.cpp:476-511 | the occupied cells are exactly the in-bounds body and headroom cells |
| HallwayCarving.CarvedAsPlanned | Source/DungeonCore/Private/HallwayPathfinder.cpp:322-323 | a staircase move the search took is carved with the direction, rise and lower floor that CanBuildStaircase checked |
| HallwayCarving.ShapeOfExit | Source/DungeonCore/Private/HallwayPathfinder.cpp:173-176 | the step from an entry to its staircase's exit has that staircase's shape |
| HallwayCarving.CarveStaircase | Source/DungeonCore/Private/HallwayPathfinder.cpp:476-511 | body cells become Staircase cells of this hallway facing the climb direction; Empty or Hallway headroom cells become StaircaseHead; every other cell is kept |
| HallwayCarving.CarveStaircaseEffect | Source/DungeonCore/Private/HallwayPathfinder.cpp:476-511 | after carving, body cells are stairs of this hallway, headroom cells are too unless they held something else, and only occupied cells change |
| HallwayCarving.CarveCell | Source/DungeonCore/Private/HallwayPathfinder.cpp:518-540 | the main pass changes at most the route cell itself |
| HallwayCarving.CarveCellOnlyEmpty | Source/DungeonCore/Private/HallwayPathfinder.cpp:518-540 | a route cell changes exactly when it is Empty, and then it becomes a Hallway cell of this hallway |
| HallwayCarving.DoorTestStable | Source/DungeonCore/Private/HallwayPathfinder.cpp:543-564 | marking doors never makes or unmakes a Hallway cell, so each later test reads as it would have before the pass |
| HallwayCarving.MarkDoorsFromEffect | Source/DungeonCore/Private/HallwayPathfinder.cpp:544-564 | the door loop from any position reaches the full door description |
| HallwayCarving.MarkDoors | Source/DungeonCore/Private/HallwayPathfinder.cpp:543-564 | a cell becomes a door of this hallway exactly when it is at an interior route position, is a source or destination room cell, and the route cell before or after it is Hallway; every other cell is untouched |
| HallwayCarving.StairsOf | Source/DungeonCore/Private/HallwayPathfinder.cpp:443-515 | at most one staircase per route cell |
| HallwayCarving.StaircaseStepOk | Source/DungeonCore/Private/HallwayPathfinder.cpp:449-515 | carving a staircase keeps every change inside cells the emitted staircases occupy |
| HallwayCarving.CellStepOk | Source/DungeonCore/Private/HallwayPathfinder.cpp:518-540 | carving a route cell keeps every change inside route cells and as a cell of this hallway |
| HallwayCarving.CarveHallway | Source/DungeonCore/Private/HallwayPathfinder.cpp:431-565 | one staircase is emitted per in-bounds change of floor, in route order; only route cells and occupied cells change, each changed cell is a hallway, door or stair cell of this hallway, and `CarvedCell` gives every cell's outcome against the grid before carving: a staircase body cell becomes a Staircase cell of this hallway facing the climb of the last staircase whose body holds it, with its other fields kept; Empty or Hallway headroom becomes a StaircaseHead cell facing the climb of the first staircase that occupies it; an Empty route cell no staircase claims becomes Hallway; doors are exactly the cells the door rule names; everything else keeps its contents |
| HallwayCarving.StaircaseLayers | Source/DungeonCore/Private/HallwayPathfinder.cpp:476-511 | a staircase's occupied cells on its lower floor are its body cells, and those above are its headroom |
| HallwayCarving.StaircaseStepExact | Source/DungeonCore/Private/HallwayPathfinder.cpp:448-515 | carving one staircase keeps the exact per-cell account of the main pass: bodies become Staircase cells facing this staircase's climb, Empty or Hallway headroom becomes StaircaseHead facing it, and other cells are kept |
| HallwayCarving.StaircaseCellExact | Source/DungeonCore/Private/HallwayPathfinder.cpp:476-510 | the same account for one cell: a new body cell takes this staircase's direction whatever it held, and a headroom cell takes it only if no earlier staircase has occupied it |
| HallwayCarving.LastBody | Source/DungeonCore/Private/HallwayPathfinder.cpp:476-488 | the last emitted staircase whose body holds the cell, or -1 exactly when none does; no later staircase's body holds it |
| HallwayCarving.FirstOccupant | Source/DungeonCore/Private/HallwayPathfinder.cpp:490-510 | the first emitted staircase that occupies the cell, or -1 exactly when none does; no earlier staircase occupies it |
| HallwayCarving.CellStepExact | Source/DungeonCore/Private/HallwayPathfinder.cpp:518-540 | carving one route cell keeps the exact account: an Empty cell becomes Hallway, and room cells of the two end rooms, hallway and stair cells and any other type are left alone |
| HallwayCarving.DoorAtExact | Source/DungeonCore/Private/HallwayPathfinder.cpp:544-559 | the door test at one route position, read on the carved grid, is the door rule read on the grid before carving |
| HallwayCarving.DoorsExact | Source/DungeonCore/Private/HallwayPathfinder.cpp:543-564 | the door pass marks exactly the cells the door rule, read on the grid before carving, names |
| HallwayCarving.CarvedFromMain | Source/DungeonCore/Private/HallwayPathfinder.cpp:543-564 | the door pass after an exactly described main pass gives each cell's outcome as `CarvedCell` states it |
| HallwayCarving.CarvedRouteFacts | Source/DungeonCore/Private/HallwayPathfinder.cpp:518-564 | from `CarvedCell`: an Empty route cell no staircase claims becomes a Hallway cell of this hallway; existing hallway and stair cells outside the new staircases are not overwritten; staircase bodies are Staircase cells of this hallway facing the climb of the last staircase through them; every new door is one the door rule names |
| DungeonGenerator.MarkEntranceRoom | Source/DungeonCore/Private/DungeonGenerator.cpp:88-94 | with a selected room, that room alone is retyped Entrance and its center becomes the entrance cell; with none, nothing changes |
| DungeonGenerator.ToByteEdges | Source/DungeonCore/Private/DungeonGenerator.cpp:137-144 | every endpoint is cast to uint8, edge by edge |
| DungeonGenerator.ToByteEdgesInRange | Source/DungeonCore/Private/DungeonGenerator.cpp:137-144 | the cast keeps an edge between existing rooms between existing rooms |
| DungeonGenerator.NotInMst | Source/DungeonCore/Private/DungeonGenerator.cpp:176-189 | the reference list holds exactly the Delaunay edges the tree lacks, in either orientation |
| DungeonGenerator.Readd | Source/DungeonCore/Private/DungeonGenerator.cpp:173-194 | each Delaunay edge the tree lacks costs one draw and may be kept, in order; chance 0 or less keeps none and chance 1 or more keeps all |
| DungeonGenerator.FinalEdges | Source/DungeonCore/Private/DungeonGenerator.cpp:173-194 | the final list is the tree edges followed by an in-order selection of the Delaunay edges the tree lacks |
| DungeonGenerator.InRangeEdges | Source/DungeonCore/Private/DungeonGenerator.cpp:212-220 | the hallway loop acts on exactly the edges whose two rooms exist |
| DungeonGenerator.AddUnique | Source/DungeonCore/Private/DungeonGenerator.cpp:271-272 | appending to a connection list adds the room unless present, and keeps the list free of repeats |
| DungeonGenerator.Connect | Source/DungeonCore/Private/DungeonGenerator.cpp:270-272 | a hallway adds each of its rooms to the other's list, and changes nothing else |
| DungeonGenerator.ConnectStep | Source/DungeonCore/Private/DungeonGenerator.cpp:270-272 | one more hallway keeps the connection lists exactly the rooms the hallways link |
| DungeonGenerator.EdgesOf | Source/DungeonCore/Private/DungeonGenerator.cpp:254-257 | one room pair per hallway |
| DungeonGenerator.CarvedStep | Source/DungeonCore/Private/DungeonGenerator.cpp:247-249 | every cell the loop changed is a hallway, door or stair cell of a hallway number it issued |
| DungeonGenerator.IssuedNext | Source/DungeonCore/Private/DungeonGenerator.cpp:274 | the next hallway number is one the counter has issued |
| DungeonGenerator.ByteIncrement | Source/DungeonCore/Private/DungeonGenerator.cpp:210-274 | the uint8 counter holds the hallway count plus one, wrapping at 256 |
| DungeonGenerator.NoHallwayStep | Source/DungeonCore/Private/DungeonGenerator.cpp:217-281 | a skipped edge or a failed search changes nothing |
| DungeonGenerator.RecordedStep | Source/DungeonCore/Private/DungeonGenerator.cpp:254-268 | the hallway list grows by one recorded hallway |
| DungeonGenerator.HallwayStep | Source/DungeonCore/Private/DungeonGenerator.cpp:242-274 | a carved hallway records its number, rooms, route, tree flag and staircase flag, adds its staircases, and connects its rooms |
| DungeonGenerator.VisitEdge | Source/DungeonCore/Private/DungeonGenerator.cpp:212-282 | one loop iteration keeps the invariant; an edge naming a missing room, or a failed search, adds no hallway and leaves the counter alone; a found route adds exactly one hallway and advances the uint8 counter |
| DungeonGenerator.AddHallway | Source/DungeonCore/Private/DungeonGenerator.cpp:241-274 | a found route is carved under the current number, recorded as the next hallway with that route, and the invariant holds with both rooms linked; the counter becomes the byte of the new hallway count plus one |
| DungeonGenerator.NextHallwayIndex | Source/DungeonCore/Private/DungeonGenerator.cpp:274 | incrementing the uint8 counter gives the byte of the new hallway count plus one |
| DungeonGenerator.CarvedInTurnStep | Source/DungeonCore/Private/DungeonGenerator.cpp:242-249 | one more carving extends the record of grids: hallway k changed grid k into grid k+1 exactly as CarveHallway states |
| DungeonGenerator.NoHallwaysYet | Source/DungeonCore/Private/DungeonGenerator.cpp:210 | the loop starts with no hallways, no staircases and the grid unchanged |
| DungeonGenerator.CarveFrom | Source/DungeonCore/Private/DungeonGenerator.cpp:212-282 | the loop from any edge on reaches the full invariant |
| DungeonGenerator.CarveHallways | Source/DungeonCore/Private/DungeonGenerator.cpp:207-285 | each existing-room edge gets one search; hallways are numbered by a uint8 counter from 1; staircases are collected in order; connection lists are exact; every changed cell belongs to a numbered hallway; and there is a run of grids from the input to the output in which hallway k turned grid k into grid k+1 exactly as CarveHallway states |
| DungeonGenerator.CarveAndLink | Source/DungeonCore/Private/DungeonGenerator.cpp:207-285 | from empty connection lists, step 9 changes only the rooms' connection lists, records each hallway, visits existing-room edges in order, collects the staircases in order, and leaves the lists symmetric and free of repeats |
| DungeonGenerator.ConnectionsSymmetric | Source/DungeonCore/Private/DungeonGenerator.cpp:270-272 | connection lists that start empty end up symmetric and free of repeats |
| DungeonGenerator.HallwayNumbersDistinct | Source/DungeonCore/Private/DungeonGenerator.cpp:210-274 | below 256 hallways, the numbers are 1, 2, 3, ... and never repeat |
| DungeonGenerator.WithEntranceFlag | Source/DungeonCore/Private/DungeonGenerator.cpp:300 | the flag byte gets its low bit set, and its other bits are kept |
| DungeonGenerator.MarkEntranceCell | Source/DungeonCore/Private/DungeonGenerator.cpp:287-302 | with an entrance, a Room or Door cell at the entrance cell becomes Entrance with the flag set; every other cell, and any other case, is unchanged |
| DungeonGenerator.EntranceCellValid | Source/DungeonCore/Private/DungeonGenerator.cpp:287-302 | after step 10 the validator accepts the entrance exactly when the cell was a Room, Door or Entrance cell |
| DungeonGenerator.ComputeMetrics | Source/DungeonCore/Private/DungeonGenerator.cpp:304-330 | only the three totals change, and they match the grid, so the validator's metrics check is silent |
| DungeonGenerator.PlacedRooms | Source/DungeonCore/Private/DungeonGenerator.cpp:47-53 | placed rooms start unconnected, and their centers lie in the grid |
| DungeonGenerator.CenterOnAxis | Source/DungeonCore/Private/DungeonGenerator.cpp:52 | on one axis, a size of at least one and a drawn origin put the center, origin plus size/2 truncated, inside the grid |
| DungeonGenerator.ZeroSizeCenterOffAxis | Source/DungeonCore/Private/RoomPlacement.cpp:23-52 | without the minimum of one, a size-0 room drawn at the last admissible origin (MaxPos = extent - size) has its center on the coordinate just past the grid |
| DungeonGenerator.TreeEdgesInRange | Source/DungeonCore/Private/DungeonGenerator.cpp:156-166 | every tree edge joins two existing rooms |
| DungeonGenerator.FinalEdgesBounds | Source/DungeonCore/Private/DungeonGenerator.cpp:173-194 | the final list keeps byte endpoints naming existing rooms |
| DungeonGenerator.BuildEdges | Source/DungeonCore/Private/DungeonGenerator.cpp:99-198 | the Delaunay, tree and final edge lists are byte edges, and the final list names only existing rooms; the tree step is `MinimumSpanningTree.ComputeLightestFirst`, the corrected lightest-first order, where the code at DungeonGenerator.cpp:157 calls the heaviest-first `Compute` (see Findings and Left out) |
| DungeonGenerator.Classify | Source/DungeonCore/Private/DungeonGenerator.cpp:200-205 | metrics and typing keep every room's center, index and connections, and the entrance room stays Entrance |
| DungeonGenerator.GeneratedHallways | Source/DungeonCore/Private/DungeonGenerator.cpp:207-285 | after step 9 only connection lists change; every hallway is recorded as carved; connections are symmetric and free of repeats |
| DungeonGenerator.Arrange | Source/DungeonCore/Private/DungeonGenerator.cpp:85-205 | the entrance is a valid room typed Entrance whose center is the entrance cell; the final edges are the tree edges followed by re-added Delaunay edges |
| DungeonGenerator.Finish | Source/DungeonCore/Private/DungeonGenerator.cpp:207-330 | steps 9-10 and the totals change only the grid, rooms, hallways, staircases and totals, and establish what a built dungeon promises |
| DungeonGenerator.Generate | Source/DungeonCore/Private/DungeonGenerator.cpp:35-355 | a missing configuration gives the default result; seed 0 is replaced by the clock; fewer than two placed rooms end the run after placement; otherwise every stage runs in order; requires `Buildable`, which the code does not check (see Left out) |
| DungeonSeed.Next | Source/DungeonCore/Private/DungeonSeed.cpp:8-16 | a draw advances the stream by exactly one position and keeps the stream and its spawning rule |
| DungeonSeed.RandRange | Source/DungeonCore/Private/DungeonSeed.cpp:8-11 | the value lies in [Min, Max] inclusive, an empty range gives Min, and one draw is spent |
| DungeonSeed.FRand | Source/DungeonCore/Private/DungeonSeed.cpp:13-16 | the value lies in [0, 1) and one draw is spent |
| DungeonSeed.RandBool | Source/DungeonCore/Private/DungeonSeed.cpp:18-21 | true exactly when the drawn fraction is below the probability; never at 0 or below, always at 1 or above |
| DungeonSeed.Fork | Source/DungeonCore/Private/DungeonSeed.cpp:23-30 | the parent spends one draw in [0, MAX_int32 - 1]; the child is a fresh stream determined by that draw and the subsystem id |
| DungeonConfig.DefaultConfigurationInRanges | Source/DungeonCore/Private/DungeonConfig.cpp:4-22 | the default rules are one Boss rule and one Treasure rule, and every default lies in the editor ranges |
| DungeonTileMapper.Slot | Source/DungeonOutput/Public/DungeonTileMapper.h:9-20 | every tile type's slot lies below TypeCount |
| DungeonTileMapper.TypeOfSlot | Source/DungeonOutput/Public/DungeonTileMapper.h:9-28 | every slot below TypeCount is the slot of a tile type |
| DungeonTileMapper.TotalInstanceCount | Source/DungeonOutput/Private/DungeonTileMapper.cpp:10-18 | the total is zero exactly when every tile type's list is empty |
| DungeonTileMapper.SumLengthsAppend | Source/DungeonOutput/Private/DungeonTileMapper.cpp:10-18 | one more instance in one list raises the total by one |
| DungeonTileMapper.SlotsCover | Source/DungeonOutput/Private/DungeonTileMapper.cpp:10-18 | summing over the slots and over the tile types means the same |
| DungeonTileMapper.Reset | Source/DungeonOutput/Private/DungeonTileMapper.cpp:20-26 | afterwards every list is empty and the total is zero |
| DungeonTileMapper.Emplace | Source/DungeonOutput/Private/DungeonTileMapper.cpp:102-203 | the instance is appended to its type's list, no other list changes, and the total grows by one |
| DungeonTileMapper.EmplaceMembers | Source/DungeonOutput/Private/DungeonTileMapper.cpp:102-141 | after an append a type lists an instance exactly when it listed it before or it is the new one |
| DungeonTileMapper.IsSolid | Source/DungeonOutput/Private/DungeonTileMapper.cpp:32-41 | solid exactly when out of bounds or an Empty or RoomWall cell |
| DungeonTileMapper.StairYaw | Source/DungeonOutput/Private/DungeonTileMapper.cpp:86-94 | a code outside 0-3 keeps yaw 0 (codes 0-3 are tied to the wall checks by OrientationsAgree) |
| DungeonTileMapper.OrientationsAgree | Source/DungeonOutput/Private/DungeonTileMapper.cpp:86-158 | climb code d and wall check d face the same side with the same yaw, the same side the route search calls direction d, and no two codes share a yaw |
| DungeonTileMapper.WallCheckFacts | Source/DungeonOutput/Private/DungeonTileMapper.cpp:152-158 | each wall check is a horizontal side with its own yaw |
| DungeonTileMapper.FaceTiles | Source/DungeonOutput/Private/DungeonTileMapper.cpp:164-208 | at most one instance per face, sitting on that face with that face's yaw |
| DungeonTileMapper.FaceTilesExact | Source/DungeonOutput/Private/DungeonTileMapper.cpp:164-208 | a face gets a wall towards a solid neighbour, or a door or entrance frame towards an open non-Room neighbour, exactly when the mesh is set |
| DungeonTileMapper.CellParts | Source/DungeonOutput/Private/DungeonTileMapper.cpp:66-208 | Empty and RoomWall cells get nothing; a walkable cell gets one part per face, each of at most one instance on that face of that cell |
| DungeonTileMapper.PartExact | Source/DungeonOutput/Private/DungeonTileMapper.cpp:84-208 | each part holds exactly the instance the rule allows on its face |
| DungeonTileMapper.CellTilesExact | Source/DungeonOutput/Private/DungeonTileMapper.cpp:69-208 | a cell's instances are exactly the tiles the rule allows on its faces |
| DungeonTileMapper.CellTilesDistinct | Source/DungeonOutput/Private/DungeonTileMapper.cpp:84-208 | no instance is added twice for one cell |
| DungeonTileMapper.CellTilesLocal | Source/DungeonOutput/Private/DungeonTileMapper.cpp:76-208 | every instance of a cell sits on that cell |
| DungeonTileMapper.EmplaceAll | Source/DungeonOutput/Private/DungeonTileMapper.cpp:84-208 | adding a cell's instances adds exactly them and raises the total by their number |
| DungeonTileMapper.EmplaceAllDistinct | Source/DungeonOutput/Private/DungeonTileMapper.cpp:84-208 | adding new instances, none twice, keeps every list free of repeats |
| DungeonTileMapper.ScanOrder | Source/DungeonOutput/Private/DungeonTileMapper.cpp:60-64 | the three nested loops visit as many cells as the grid holds |
| DungeonTileMapper.ScanOrderExact | Source/DungeonOutput/Private/DungeonTileMapper.cpp:60-64 | the loops visit only in-bounds cells, each once, and all of them |
| DungeonTileMapper.ScanExact | Source/DungeonOutput/Private/DungeonTileMapper.cpp:60-211 | after any prefix of the scan each list holds, once each, the tiles the rule allows on the visited cells |
| DungeonTileMapper.ScanExactStep | Source/DungeonOutput/Private/DungeonTileMapper.cpp:66-208 | visiting one more cell keeps the lists exact |
| DungeonTileMapper.FreshTiles | Source/DungeonOutput/Private/DungeonTileMapper.cpp:66-208 | the tiles of a cell not visited before are not listed yet |
| DungeonTileMapper.MapToTiles | Source/DungeonOutput/Private/DungeonTileMapper.cpp:43-217 | each list holds exactly the tiles the rule allows on the grid's faces, each once |
| DungeonTileMapper.NoWalkableNoTiles | Source/DungeonOutput/Private/DungeonTileMapper.cpp:69-74 | a grid with no walkable cell gives no instance |
| DungeonTileMapper.OneMarkerPerStaircase | Source/DungeonOutput/Private/DungeonTileMapper.cpp:84-104 | with the mesh set, a Staircase cell gets one marker, turned to its climb direction |
| DungeonTileMapper.NoFloorBetweenStacked | Source/DungeonOutput/Private/DungeonTileMapper.cpp:129-142 | between two stacked walkable cells there is neither a floor nor a ceiling |
| DungeonVoxelConfig.RoundToInt | Source/DungeonVoxelIntegration/Private/DungeonVoxelConfig.cpp:9 | the result is the integer nearest the quotient, halves rounding up |
| DungeonVoxelConfig.GetEffectiveVoxelsPerCell | Source/DungeonVoxelIntegration/Private/DungeonVoxelConfig.cpp:3-10 | a positive override wins; otherwise the integer nearest CellWorldSize / VoxelSize, but never below one |
| DungeonVoxelConfig.GetMaterialForCell | Source/DungeonVoxelIntegration/Private/DungeonVoxelConfig.cpp:12-47 | a room-type override wins for Room, Door and Entrance cells; then stairs get the staircase material, doors the door-frame material, and the face picks floor (5), ceiling (4) or wall |
| DungeonVoxelConfig.MaterialIsConfigured | Source/DungeonVoxelIntegration/Private/DungeonVoxelConfig.cpp:12-47 | every answer is one of the five materials or an override value |
| DungeonVoxelConfig.HallwayIgnoresOverrides | Source/DungeonVoxelIntegration/Private/DungeonVoxelConfig.cpp:14-21 | hallway, staircase and headroom cells depend neither on the room type nor on the overrides |
| DungeonVoxelConfig.NoOverridesIgnoresRoomType | Source/DungeonVoxelIntegration/Private/DungeonVoxelConfig.cpp:14-21 | without overrides the room type plays no part |
| DungeonVoxelConfig.DefaultsAreUniform | Source/DungeonVoxelIntegration/Private/DungeonVoxelConfig.cpp:12-47 | with the default materials every boundary gets material 2 |
| DungeonVoxelStamper.IsOpenCell | Source/DungeonVoxelIntegration/Private/DungeonVoxelStamper.cpp:14-22 | open exactly for room-family and hallway-family cells, that is for every type but Empty and RoomWall |
| DungeonVoxelStamper.OpenIsNotSolid | Source/DungeonVoxelIntegration/Private/DungeonVoxelStamper.cpp:10-22 | an in-bounds cell is carved exactly when the tile mapper does not call it solid |
| DungeonVoxelStamper.NeedsWall | Source/DungeonVoxelIntegration/Private/DungeonVoxelStamper.cpp:24-86 | solid or outside neighbours are walled; doorway neighbours are not; a doorway opens onto hallways; one room is open inside; two hallway cells are walled only at staircase headroom of another hallway; a room cell of another room and a hallway seen from outside are walled |
| DungeonVoxelStamper.NeedsVerticalBoundary | Source/DungeonVoxelIntegration/Private/DungeonVoxelStamper.cpp:88-142 | as the wall test, except that two hallway cells are sealed exactly when their hallway numbers differ |
| DungeonVoxelStamper.VerticalDiffersOnlyAtHallwayJunctions | Source/DungeonVoxelIntegration/Private/DungeonVoxelStamper.cpp:72-141 | the two tests disagree between hallway cells of different hallways with no headroom cell: open sideways, sealed vertically |
| DungeonVoxelStamper.SolidNeighbourGetsBoundary | Source/DungeonVoxelIntegration/Private/DungeonVoxelStamper.cpp:26-106 | both tests seal a face towards what the tile mapper calls solid, and both leave a face towards a doorway open |
| DungeonVoxelStamper.BoundariesAgreeAcrossFace | Source/DungeonVoxelIntegration/Private/DungeonVoxelStamper.cpp:24-142 | between two open non-doorway cells both sides agree on sealing the shared face |
| DungeonVoxelStamper.DoorwaySealsOwnSide | Source/DungeonVoxelIntegration/Private/DungeonVoxelStamper.cpp:38-70 | a Room cell leaves its face towards a doorway open, and the doorway seals its side exactly when it belongs to another room |
| DungeonVoxelStamper.GetRoomTypeForCell | Source/DungeonVoxelIntegration/Private/DungeonVoxelStamper.cpp:144-152 | an index in 1 .. the uint8-truncated room count gives that room's type; anything else gives Generic |
| DungeonVoxelStamper.RoomTypeOfStampedCell | Source/DungeonVoxelIntegration/Private/DungeonVoxelStamper.cpp:144-152 | with rooms numbered in order and fewer than 256, a cell of room k reports room k's type |
| DungeonVoxelStamper.UnnumberedCellIsGeneric | Source/DungeonVoxelIntegration/Private/DungeonVoxelStamper.cpp:146-151 | a cell of no room reports Generic |
| DungeonVoxelStamper.BoundaryVoxel | Source/DungeonVoxelIntegration/Private/DungeonVoxelStamper.cpp:212-255 | the voxel sits Layer voxels in from its face along the normal, with A and B along the face's two other axes |
| DungeonVoxelStamper.FaceCoords | Source/DungeonVoxelIntegration/Private/DungeonVoxelStamper.cpp:212-255 | every voxel is written by some loop iteration of a valid face |
| DungeonVoxelStamper.FaceCoordsOfBoundaryVoxel | Source/DungeonVoxelIntegration/Private/DungeonVoxelStamper.cpp:212-255 | the iteration that writes a voxel is unique |
| DungeonVoxelStamper.PlaceBoundary | Source/DungeonVoxelIntegration/Private/DungeonVoxelStamper.cpp:199-270 | a face code outside 0..5 writes nothing; otherwise the voxels written are exactly the face's Thickness layers, each once, Thickness*vpc*vpc of them |
| DungeonVoxelStamper.BoundaryInsideCell | Source/DungeonVoxelIntegration/Private/DungeonVoxelStamper.cpp:212-255 | a boundary no thicker than the cell stays inside the cell |
| DungeonVoxelStamper.OppositeBoundariesDisjoint | Source/DungeonVoxelIntegration/Private/DungeonVoxelStamper.cpp:212-255 | opposite faces' boundaries do not overlap while together at most a cell thick |
| DungeonVoxelStamper.ClimbTableMatchesCarving | Source/DungeonVoxelIntegration/Private/DungeonVoxelStamper.cpp:293-297 | the climb table is the route search's direction table, and carving encodes each direction back to its code |
| DungeonVoxelStamper.StepTop | Source/DungeonVoxelIntegration/Private/DungeonVoxelStamper.cpp:313-320 | the step top lies between the cell's bottom and top voxel |
| DungeonVoxelStamper.RunBounds | Source/DungeonVoxelIntegration/Private/DungeonVoxelStamper.cpp:316-317 | the run index lies in [0, RiseToRun*vpc) |
| DungeonVoxelStamper.AxisVoxelIsRun | Source/DungeonVoxelIntegration/Private/DungeonVoxelStamper.cpp:304-317 | counted along the climb, a voxel's axis coordinate is the run index plus a fixed offset |
| DungeonVoxelStamper.StepsNeverDescend | Source/DungeonVoxelIntegration/Private/DungeonVoxelStamper.cpp:304-320 | further along the climb the step is never lower |
| DungeonVoxelStamper.StepsSpanTheCell | Source/DungeonVoxelIntegration/Private/DungeonVoxelStamper.cpp:316-320 | the first column at the entry is one voxel high, the last reaches the cell's top voxel |
| VoxelDungeonWorldMode.Initialize | Source/DungeonVoxelIntegration/Private/VoxelDungeonWorldMode.cpp:9-52 | the grid and rooms are copied and the mode is marked initialised; a configuration also sets the voxel count, wall thickness, materials, biome and overrides; without one those settings stay as they were |
| VoxelDungeonWorldMode.IsOpenCell | Source/DungeonVoxelIntegration/Private/VoxelDungeonWorldMode.cpp:58-66 | the world mode's open-cell test is the stamper's |
| VoxelDungeonWorldMode.GetMaterialForPosition | Source/DungeonVoxelIntegration/Private/VoxelDungeonWorldMode.cpp:79-111 | outside the grid: wall; stairs: staircase; doors: door frame; a cell with a room index in 1 .. the uint8-truncated room count takes its room type's override if any; anything else: wall |
| VoxelDungeonWorldMode.MaterialMatchesStamper | Source/DungeonVoxelIntegration/Private/VoxelDungeonWorldMode.cpp:79-111 | on generated cells the world mode picks the stamper's interior material, except on doors, where the two agree only when no override applies or it equals the door-frame material |
| VoxelDungeonWorldMode.NeedsWallCheck | Source/DungeonVoxelIntegration/Private/VoxelDungeonWorldMode.cpp:186-207 | outside the grid or towards a closed cell: a boundary; towards an open cell: open exactly when the room indices match and are non-zero or the hallway indices match too, or when the hallway indices match and are non-zero |
| VoxelDungeonWorldMode.WallCheckSymmetric | Source/DungeonVoxelIntegration/Private/VoxelDungeonWorldMode.cpp:186-207 | between two open cells both sides agree |
| VoxelDungeonWorldMode.WallCheckMatchesStamperInRooms | Source/DungeonVoxelIntegration/Private/VoxelDungeonWorldMode.cpp:186-207 | between two Room cells outside any hallway the check agrees with the stamper's wall and floor tests and seals exactly between different rooms |
| VoxelDungeonWorldMode.HallwayJunctionSealed | Source/DungeonVoxelIntegration/Private/VoxelDungeonWorldMode.cpp:186-207 | where two hallways meet side by side the world mode seals the face the stamper leaves open |
| VoxelDungeonWorldMode.GetDensityAt | Source/DungeonVoxelIntegration/Private/VoxelDungeonWorldMode.cpp:117-234 | solid before initialisation and on closed cells; the outside taper exactly outside the grid; otherwise the distance field counts exactly the six faces the wall check marks |
| VoxelDungeonWorldMode.GridEdgeIsBoundary | Source/DungeonVoxelIntegration/Private/VoxelDungeonWorldMode.cpp:186-220 | an open cell counts every face that leaves the grid |
| VoxelDungeonWorldMode.GetMaterialAtDepth | Source/DungeonVoxelIntegration/Private/VoxelDungeonWorldMode.cpp:277-295 | wall before initialisation and outside the grid; otherwise the position's material |

## Left out

- DungeonSeed.Fork: the child seed's hash (the XOR with the subsystem id times 2654435761, then the 64-to-32-bit fold) is abstracted into the stream's spawning function, because the engine's random stream behind it is not part of this model; the draw it spends and the range of that draw are modelled.
- DungeonSeed.RandRange: only the engine's range promise is stated, because the distribution and the determinism of the engine stream are properties of code outside this model; GetCurrentSeed is left out for the same reason.
- DungeonGenerator.Generate: the clock behind seed 0 is a parameter. The timing (GenerationTimeMs), the log lines and the non-shipping validation call, whose result is only logged, are left out. Generate also requires `Buildable`: every grid extent at least 0, every minimum room extent at least 1, and a room buffer of at least 0. The code checks none of these (GridSize and MinRoomSize carry no clamp, RoomBuffer only an editor clamp) and runs on other values too. There a room's center can leave the grid: for example, a minimum and maximum room height of 0 gives rooms that stamp no cell and may sit at Z = GridSize.Z (`DungeonGenerator.ZeroSizeCenterOffAxis`). The run then stops at the asserting GetCell on the entrance cell (DungeonGenerator.cpp:295), a failure path the model does not represent.
- DungeonGenerator.Arrange: the coplanar check and the Z jitter of the room centers are float geometry. They only move the points handed to the tetrahedralization, which is modelled through geometry oracles, so the jitter is absorbed into those oracles.
- GetCellWorldPositionsByType, GridToWorld, WorldToGrid (generator and result types) and WorldToGridCoord (world mode) are float conversions between grid and world space; the world mode's queries take grid coordinates directly.
- DelaunayTetrahedralization.Tetrahedralize: the empty-circumsphere property is not stated, because the circumsphere determinant and Orientation are floating-point computations, modelled as oracles. What is stated is combinatorial: the run of insertions, each one `Inserted`, and the sorted, unique, proper edges of the last stage. The super-tetrahedron's coordinates are left out for the same reason.
- DelaunayTetrahedralization.Insert: the order of the surviving and new tetrahedra in the list is not stated; only which tetrahedra it holds. Nothing downstream reads that order: the edges go through a set and are sorted.
- DelaunayTriangulation.Triangulate: the empty-circumcircle property is not stated, for the same reason; IsInCircumcircle and the super-triangle's coordinates are oracles and parameters.
- MinimumSpanningTree.ComputeLightestFirst: the tree is proved to be a spanning tree of the root's component built by the cut rule (each edge a lightest one leaving the tree so far), but minimality of its total weight is not proved from that rule. Weights are an abstract function standing for float Euclidean distances, and the heap's choice among equal keys is a parameter.
- DungeonGenerator.BuildEdges: the generator's tree is the corrected lightest-first tree, not the heaviest-first tree that DungeonGenerator.cpp:157 obtains from FMinimumSpanningTree::Compute. On the three-room example of "## Findings", the code keeps (0,2),(1,2) where the model keeps (0,1),(0,2). The code as written is `MinimumSpanningTree.Compute`, proved on that input by `MinimumSpanningTree.HeaviestFirstExample`. No generator contract depends on which tree order is used: each one holds for either tree.
- DungeonTypes.Initialize: models the call on a fresh grid. On a grid that already holds cells, SetNum keeps the old cells in the overlap, which the generator never relies on.
- HallwayPathfinder.FindPath: soundness only. A returned path leads from start to end through allowed moves and repeats no cell; completeness and optimality are not proved. The g-scores and the heuristic are reals rather than floats, and the heap's tie order is a parameter.
- RoomTypeAssignment.AssignRoomTypes: scores are reals, and the IsNearlyEqual tolerance in the candidate ordering is an exact comparison, so two scores closer than KINDA_SMALL_NUMBER are ordered by value rather than by room index. The random stream the code passes in is never read there, so the model takes none. In the fallback and global-boss scans the tolerance only guards an `i < BestIdx` tie-break that never fires, so those scans are exact.
- DungeonTileMapper.MapToTiles: an instance's FTransform is reduced to its cell, the face it sits on and its yaw; positions, scales and the world offset are float arithmetic and are left out.
- Tile-set assets, actors, HISM components, debug drawing, the editor module, the console command and the build rules are engine plumbing outside this model; a tile set is modelled as which mesh slots are set.
- DungeonVoxelConfig.GetEffectiveVoxelsPerCell: requires a non-zero voxel size when no override is set. The code divides floats there, and the engine's rounding of an infinite or NaN quotient is not part of this model.
- VoxelDungeonWorldMode.Initialize: carries the same voxel-size requirement when a configuration is given. The chunk Z bounds, world offset, cell size and voxel size are float state and are left out.
- VoxelDungeonWorldMode.GetDensityAt: the answer is the branch taken and the faces whose distances count. The signed-distance values themselves are float arithmetic; so are GetTerrainHeightAt, WorldToChunkCoord and ChunkCoordToWorld.
- DungeonVoxelStamper.PlaceBoundary: returns the voxels written rather than the number of edits the voxel engine accepted, because ApplyEdit is engine code outside this model.
- StampDungeon, CarveCell and the voxel writes of PlaceStaircaseSteps are voxel-engine side effects (edits, chunk dirty-marking, timing); their index arithmetic and step heights are modelled. Wall thicknesses above the voxels-per-cell count are outside the disjointness and containment lemmas.
- DungeonEntranceStitcher is not part of this model: it is float surface detection and tunnel carving over voxel-engine edits.
- Integer widths: grid sizes and coordinates are unbounded integers, so int32 overflow of X + Y*SizeX + Z*SizeX*SizeY for very large grids is not modelled. The uint8 casts the code makes are modelled: room and hallway indices, edge endpoints, the hallway counter, and the room count in GetRoomTypeForCell.
- Validation issue messages and GetSummary are strings for people; each issue is modelled by its category and the data it names.
- Loops that only accumulate (the generator's hallway loop, placement attempts, the validator's scans) are modelled as recursive functions over the same sequence in the same order.

## Findings

| source | as written | input that shows it | evidently intended | confidence | as-written member | corrected member |
|---|---|---|---|---|---|---|
| Source/DungeonCore/Private/MinimumSpanningTree.cpp:69-77 | every HeapPush and HeapPop passes the predicate `A.Weight > B.Weight`; the heap pops the element that is least under its predicate, which is then a heaviest candidate, so Prim's loop grows a heaviest-edge tree | three vertices, weights w(0,1)=1, w(0,2)=2, w(1,2)=3, root 0: the loop returns (0,2), (1,2) of total weight 5, while the minimum spanning tree is (0,1), (0,2) of weight 3 | a min-heap, so that each pop yields a lightest candidate, as the comments at lines 51 and 63 and the name of the function say | not executed | MinimumSpanningTree.HeaviestFirstExample | MinimumSpanningTree.LightestFirstExample |

=== FILE: arith.dfy ===
/** Small facts about integer multiplication and division used by the grid layout proofs. */
module Arith {
  lemma MulNonneg(a: int, b: int)
    requires 0 <= a && 0 <= b
    ensures 0 <= a * b
  {}

  lemma MulDistSub(a: int, b: int, d: int)
    ensures (a - b) * d == a * d - b * d
  {}

  lemma MulAtLeast(k: int, d: int)
    requires 1 <= k && 0 < d
    ensures d <= k * d
  {
    MulDistSub(k, 1, d);
    MulNonneg(k - 1, d);
  }

  lemma MulLe(a: int, b: int, c: int)
    requires a <= b && 0 <= c
    ensures a * c <= b * c
  {
    MulDistSub(b, a, c);
    MulNonneg(b - a, c);
  }

  /** Quotient and remainder are determined by any decomposition with a remainder in [0, d). */
  lemma DivModUnique(a: int, d: int, q: int, r: int)
    requires 0 < d && 0 <= r < d && a == q * d + r
    ensures a / d == q && a % d == r
  {
    var q', r' := a / d, a % d;
    assert a == q' * d + r';
    if q' < q {
      MulDistSub(q, q', d);
      MulAtLeast(q - q', d);
    } else if q' > q {
      MulDistSub(q', q, d);
      MulAtLeast(q' - q, d);
    }
  }

  lemma MulPosCancel(k: int, d: int)
    requires 0 < d && 0 < k * d
    ensures 0 < k
  {}

  lemma MulLtCancel(a: int, b: int, c: int)
    requires 0 < c && a * c < b * c
    ensures a < b
  {
    MulDistSub(b, a, c);
    MulPosCancel(b - a, c);
  }

  /** C++ integer division by a positive divisor: the quotient is truncated toward zero. */
  function TruncDiv(a: int, b: int): (q: int)
    requires 0 < b
    ensures 0 <= a ==> q == a / b
    ensures a < 0 ==> q == -((-a) / b)
  {
    if 0 <= a then a / b else -((-a) / b)
  }
}

=== FILE: delaunay_tetrahedralization.dfy ===
/**
 * The combinatorial skeleton of 3-D Bowyer-Watson. The geometry is left to
 * two oracles over vertex indices: whether a point lies strictly inside a
 * tetrahedron's circumsphere (false for a flat tetrahedron), and whether a
 * tetrahedron is negatively oriented. Points 0..n-1 are the input; n..n+3
 * are the super-tetrahedron's corners.
 */
module DelaunayTetrahedralization {
  import opened Graphs
  import SeqUtils

  datatype Tet = Tet(v0: int, v1: int, v2: int, v3: int)

  /** A triangular face, its corners stored ascending. */
  datatype Face = Face(a: int, b: int, c: int)

  predicate HasVertex(t: Tet, idx: int) {
    t.v0 == idx || t.v1 == idx || t.v2 == idx || t.v3 == idx
  }

  /** The face on three corners, put in order by three compare-and-swaps. */
  function MakeFace(x: int, y: int, z: int): (f: Face)
    ensures f.a <= f.b <= f.c
    ensures OneOf(f.a, x, y, z) && OneOf(f.b, x, y, z) && OneOf(f.c, x, y, z)
    ensures x != y && x != z && y != z ==> f.a < f.b < f.c
  {
    var (p0, p1) := if x > y then (y, x) else (x, y);
    var (q1, q2) := if p1 > z then (z, p1) else (p1, z);
    var (r0, r1) := if p0 > q1 then (q1, p0) else (p0, q1);
    Face(r0, r1, q2)
  }

  predicate OneOf(v: int, x: int, y: int, z: int) {
    v == x || v == y || v == z
  }

  /** A face keeps exactly the corners it was made from. */
  lemma MakeFacePermutes(x: int, y: int, z: int)
    ensures var f := MakeFace(x, y, z); multiset{f.a, f.b, f.c} == multiset{x, y, z}
  {
    var f := MakeFace(x, y, z);
    if x <= y && y <= z { assert f == Face(x, y, z); }
    else if x <= z && z < y { assert f == Face(x, z, y); }
    else if y < x && x <= z { assert f == Face(y, x, z); }
    else if y <= z && z < x { assert f == Face(y, z, x); }
    else if z < x && x <= y { assert f == Face(z, x, y); }
    else { assert f == Face(z, y, x); }
  }

  /** Two faces are equal exactly when they have the same corners. */
  lemma FaceEquality(x: int, y: int, z: int, x': int, y': int, z': int)
    ensures MakeFace(x, y, z) == MakeFace(x', y', z') <==> multiset{x, y, z} == multiset{x', y', z'}
  {
    var f, g := MakeFace(x, y, z), MakeFace(x', y', z');
    MakeFacePermutes(x, y, z);
    MakeFacePermutes(x', y', z');
    if multiset{x, y, z} == multiset{x', y', z'} {
      SortedTripleUnique(f.a, f.b, f.c, g.a, g.b, g.c);
    }
  }

  lemma SortedTripleUnique(a: int, b: int, c: int, a': int, b': int, c': int)
    requires a <= b <= c && a' <= b' <= c'
    requires multiset{a, b, c} == multiset{a', b', c'}
    ensures a == a' && b == b' && c == c'
  {
    assert a in multiset{a', b', c'} && a' in multiset{a, b, c};
    assert c in multiset{a', b', c'} && c' in multiset{a, b, c};
    assert a == a' && c == c';
    assert multiset{a, b, c} - multiset{a, c} == multiset{b};
    assert multiset{a', b', c'} - multiset{a', c'} == multiset{b'};
  }

  /** The four faces of a tetrahedron, in the order the insertion step lists them. */
  function FacesOf(t: Tet): seq<Face> {
    [MakeFace(t.v0, t.v1, t.v2), MakeFace(t.v0, t.v1, t.v3),
     MakeFace(t.v0, t.v2, t.v3), MakeFace(t.v1, t.v2, t.v3)]
  }

  /** The faces of all the given tetrahedra, one entry per occurrence. */
  function AllFaces(ts: seq<Tet>): (fs: seq<Face>)
    ensures |fs| == 4 * |ts|
    ensures forall f :: f in fs ==> exists t :: t in ts && f in FacesOf(t)
  {
    if |ts| == 0 then []
    else
      var rest := AllFaces(ts[1..]);
      assert forall t :: t in ts[1..] ==> t in ts;
      FacesOf(ts[0]) + rest
  }

  // ------------------------------------------------------------ One insertion

  /** The tetrahedra whose circumsphere holds point p, in order. */
  function Bad(ts: seq<Tet>, p: int, inSphere: (Tet, int) -> bool): (bad: seq<Tet>)
    ensures forall t :: t in bad <==> t in ts && inSphere(t, p)
    ensures SeqUtils.Subsequence(bad, ts)
  {
    SeqUtils.Filter(ts, t => inSphere(t, p))
  }

  /** The tetrahedra that survive the insertion of p, in order. */
  function Good(ts: seq<Tet>, p: int, inSphere: (Tet, int) -> bool): (good: seq<Tet>)
    ensures forall t :: t in good <==> t in ts && !inSphere(t, p)
    ensures SeqUtils.Subsequence(good, ts)
  {
    SeqUtils.Filter(ts, t => !inSphere(t, p))
  }

  /** The number of times each face occurs, gathered in a map as a counting table would. */
  method CountFaces(faces: seq<Face>) returns (counts: map<Face, int>)
    ensures forall f :: f in counts <==> f in faces
    ensures forall f :: f in counts ==> counts[f] == multiset(faces)[f]
  {
    counts := map[];
    for i := 0 to |faces|
      invariant forall f :: f in counts <==> f in faces[..i]
      invariant forall f :: f in counts ==> counts[f] == multiset(faces[..i])[f]
    {
      var f := faces[i];
      var c := if f in counts then counts[f] else 0;
      counts := counts[f := c + 1];
      assert faces[..i + 1] == faces[..i] + [f];
    }
    assert faces[..|faces|] == faces;
  }

  /** The faces counted exactly once, in the table's (unspecified) order. */
  method OnceCounted(counts: map<Face, int>) returns (boundary: seq<Face>)
    ensures forall f :: f in boundary <==> f in counts && counts[f] == 1
  {
    boundary := [];
    var rest := counts.Keys;
    while rest != {}
      invariant rest <= counts.Keys
      invariant forall f :: f in boundary <==> f in counts && counts[f] == 1 && f !in rest
      decreases |rest|
    {
      var f :| f in rest;
      if counts[f] == 1 {
        boundary := boundary + [f];
      }
      rest := rest - {f};
    }
  }

  /** The boundary of the cavity: the faces that occur in exactly one bad tetrahedron. */
  method BoundaryFaces(bad: seq<Tet>) returns (boundary: seq<Face>)
    ensures forall f :: f in boundary <==> multiset(AllFaces(bad))[f] == 1
  {
    var counts := CountFaces(AllFaces(bad));
    boundary := OnceCounted(counts);
  }

  /** The tetrahedron with its second and third corners swapped when negatively oriented. */
  function Orient(t: Tet, negative: Tet -> bool): (r: Tet)
    ensures multiset{r.v0, r.v1, r.v2, r.v3} == multiset{t.v0, t.v1, t.v2, t.v3}
    ensures r.v0 == t.v0 && r.v3 == t.v3
  {
    if negative(t) then Tet(t.v0, t.v2, t.v1, t.v3) else t
  }

  /** The new tetrahedra joining each boundary face to p. */
  function Cone(boundary: seq<Face>, p: int, negative: Tet -> bool): (ts: seq<Tet>)
    ensures |ts| == |boundary|
    ensures forall k :: 0 <= k < |ts| ==> ts[k] == Orient(Tet(boundary[k].a, boundary[k].b, boundary[k].c, p), negative)
  {
    if |boundary| == 0 then []
    else [Orient(Tet(boundary[0].a, boundary[0].b, boundary[0].c, p), negative)] + Cone(boundary[1..], p, negative)
  }

  // ------------------------------------------------------------ Well-formedness

  /** v is an inserted point below p or a super-tetrahedron corner. */
  predicate Known(v: int, n: int, p: int) {
    (0 <= v < p) || (n <= v < n + 4)
  }

  /** Four distinct corners, each already known. */
  predicate TetOk(t: Tet, n: int, p: int) {
    && t.v0 != t.v1 && t.v0 != t.v2 && t.v0 != t.v3
    && t.v1 != t.v2 && t.v1 != t.v3 && t.v2 != t.v3
    && Known(t.v0, n, p) && Known(t.v1, n, p) && Known(t.v2, n, p) && Known(t.v3, n, p)
  }

  predicate AllOk(ts: seq<Tet>, n: int, p: int) {
    forall k :: 0 <= k < |ts| ==> TetOk(ts[k], n, p)
  }

  predicate FaceOk(f: Face, n: int, p: int) {
    f.a < f.b < f.c && Known(f.a, n, p) && Known(f.b, n, p) && Known(f.c, n, p)
  }

  lemma MakeFaceOk(x: int, y: int, z: int, n: int, p: int)
    requires x != y && x != z && y != z
    requires Known(x, n, p) && Known(y, n, p) && Known(z, n, p)
    ensures FaceOk(MakeFace(x, y, z), n, p)
  {
  }

  lemma TetFacesOk(t: Tet, n: int, p: int)
    requires TetOk(t, n, p)
    ensures forall f :: f in FacesOf(t) ==> FaceOk(f, n, p)
  {
    MakeFaceOk(t.v0, t.v1, t.v2, n, p);
    MakeFaceOk(t.v0, t.v1, t.v3, n, p);
    MakeFaceOk(t.v0, t.v2, t.v3, n, p);
    MakeFaceOk(t.v1, t.v2, t.v3, n, p);
  }

  lemma FacesOk(ts: seq<Tet>, n: int, p: int)
    requires AllOk(ts, n, p)
    ensures forall f :: f in AllFaces(ts) ==> FaceOk(f, n, p)
  {
    forall f | f in AllFaces(ts) ensures FaceOk(f, n, p) {
      var t :| t in ts && f in FacesOf(t);
      var k :| 0 <= k < |ts| && ts[k] == t;
      TetFacesOk(ts[k], n, p);
    }
  }

  lemma ConeOk(boundary: seq<Face>, n: int, p: int, negative: Tet -> bool)
    requires 0 <= p < n
    requires forall f :: f in boundary ==> FaceOk(f, n, p)
    ensures AllOk(Cone(boundary, p, negative), n, p + 1)
  {
    var ts := Cone(boundary, p, negative);
    forall k | 0 <= k < |ts| ensures TetOk(ts[k], n, p + 1) {
      var f := boundary[k];
      assert FaceOk(f, n, p);
      var t := Tet(f.a, f.b, f.c, p);
      assert TetOk(t, n, p + 1);
      assert Orient(t, negative) == t || Orient(t, negative) == Tet(t.v0, t.v2, t.v1, t.v3);
    }
  }

  lemma OkWiden(ts: seq<Tet>, n: int, p: int)
    requires AllOk(ts, n, p)
    ensures AllOk(ts, n, p + 1)
  {
  }

  lemma GoodOk(ts: seq<Tet>, p: int, inSphere: (Tet, int) -> bool, n: int, q: int)
    requires AllOk(ts, n, q)
    ensures AllOk(Good(ts, p, inSphere), n, q)
  {
    var g := Good(ts, p, inSphere);
    forall k | 0 <= k < |g| ensures TetOk(g[k], n, q) {
      assert g[k] in ts;
    }
  }

  lemma BadOk(ts: seq<Tet>, p: int, inSphere: (Tet, int) -> bool, n: int, q: int)
    requires AllOk(ts, n, q)
    ensures AllOk(Bad(ts, p, inSphere), n, q)
  {
    var b := Bad(ts, p, inSphere);
    forall k | 0 <= k < |b| ensures TetOk(b[k], n, q) {
      assert b[k] in ts;
    }
  }

  /** t is the new tetrahedron on a face that occurs exactly once among the bad ones' faces. */
  ghost predicate FromCavity(t: Tet, bad: seq<Tet>, p: int, negative: Tet -> bool) {
    exists f: Face :: t == Orient(Tet(f.a, f.b, f.c, p), negative) && multiset(AllFaces(bad))[f] == 1
  }

  lemma ConeMembers(boundary: seq<Face>, bad: seq<Tet>, p: int, negative: Tet -> bool)
    requires forall f :: f in boundary <==> multiset(AllFaces(bad))[f] == 1
    ensures forall t :: t in Cone(boundary, p, negative) <==> FromCavity(t, bad, p, negative)
  {
    var cone := Cone(boundary, p, negative);
    forall t ensures t in cone <==> FromCavity(t, bad, p, negative) {
      if t in cone {
        var k :| 0 <= k < |cone| && cone[k] == t;
        assert boundary[k] in boundary;
      }
      if FromCavity(t, bad, p, negative) {
        var f: Face :| t == Orient(Tet(f.a, f.b, f.c, p), negative) && multiset(AllFaces(bad))[f] == 1;
        var k :| 0 <= k < |boundary| && boundary[k] == f;
        assert cone[k] == t;
      }
    }
  }

  /** Every face of the cavity's boundary is a face of some bad tetrahedron, so it is well formed. */
  lemma BoundaryOk(ts: seq<Tet>, p: int, n: int, inSphere: (Tet, int) -> bool, boundary: seq<Face>)
    requires AllOk(ts, n, p)
    requires forall f :: f in boundary <==> multiset(AllFaces(Bad(ts, p, inSphere)))[f] == 1
    ensures forall f :: f in boundary ==> FaceOk(f, n, p)
  {
    var bad := Bad(ts, p, inSphere);
    BadOk(ts, p, inSphere, n, p);
    FacesOk(bad, n, p);
    forall f | f in boundary ensures FaceOk(f, n, p) {
      assert f in multiset(AllFaces(bad));
    }
  }

  /**
   * What inserting point p does to the tetrahedra ts: when no circumsphere
   * holds p nothing changes; otherwise the result holds exactly the
   * tetrahedra whose circumsphere misses p and the new tetrahedra on the
   * cavity's boundary faces.
   */
  ghost predicate Inserted(ts: seq<Tet>, p: int, inSphere: (Tet, int) -> bool, negative: Tet -> bool, ts': seq<Tet>) {
    && (|Bad(ts, p, inSphere)| == 0 ==> ts' == ts)
    && (|Bad(ts, p, inSphere)| > 0 ==>
          forall t :: t in ts' <==> (t in ts && !inSphere(t, p)) || FromCavity(t, Bad(ts, p, inSphere), p, negative))
  }

  /**
   * Inserting point p: the bad tetrahedra go and the boundary of their
   * cavity is coned to p. The order of the surviving and new tetrahedra is
   * not modelled; nothing downstream depends on it.
   */
  method Insert(ts: seq<Tet>, p: int, n: int, inSphere: (Tet, int) -> bool, negative: Tet -> bool)
    returns (ts': seq<Tet>)
    requires 0 <= p < n && AllOk(ts, n, p)
    ensures AllOk(ts', n, p + 1)
    ensures Inserted(ts, p, inSphere, negative, ts')
  {
    var bad := Bad(ts, p, inSphere);
    if |bad| == 0 {
      OkWiden(ts, n, p);
      return ts;
    }
    var boundary := BoundaryFaces(bad);
    BoundaryOk(ts, p, n, inSphere, boundary);
    ConeOk(boundary, n, p, negative);
    ConeMembers(boundary, bad, p, negative);
    GoodOk(ts, p, inSphere, n, p);
    OkWiden(Good(ts, p, inSphere), n, p);
    var good, cone := Good(ts, p, inSphere), Cone(boundary, p, negative);
    ts' := good + cone;
    assert forall t :: t in ts' <==> t in good || t in cone;
  }

  // ------------------------------------------------------------ Edge output

  function Corners(t: Tet): (cs: seq<int>)
    ensures |cs| == 4
  {
    [t.v0, t.v1, t.v2, t.v3]
  }

  /** The edge between corners i and j when both are input points. */
  function Pick(cs: seq<int>, i: int, j: int, n: int): seq<Edge>
    requires 0 <= i < |cs| && 0 <= j < |cs|
  {
    if cs[i] < n && cs[j] < n then [Normalize(cs[i], cs[j])] else []
  }

  /** An input-point edge of t: corners i < j, both below n. */
  ghost predicate IsTetEdge(t: Tet, n: int, e: Edge) {
    exists i, j :: 0 <= i < j < 4 && Corners(t)[i] < n && Corners(t)[j] < n && e == Normalize(Corners(t)[i], Corners(t)[j])
  }

  /** The edges of t between input points, each (min, max), in the double loop's order. */
  function TetEdges(t: Tet, n: int): (es: seq<Edge>)
    ensures forall e :: e in es <==> IsTetEdge(t, n, e)
  {
    var es := PickAll(Corners(t), n);
    forall e ensures e in es <==> IsTetEdge(t, n, e) {
      PickedEdges(t, n, e);
    }
    es
  }

  /** The six picks of the double loop over corner pairs. */
  function PickAll(cs: seq<int>, n: int): seq<Edge>
    requires |cs| == 4
  {
    Pick(cs, 0, 1, n) + Pick(cs, 0, 2, n) + Pick(cs, 0, 3, n) + Pick(cs, 1, 2, n) + Pick(cs, 1, 3, n) + Pick(cs, 2, 3, n)
  }

  lemma PickedEdges(t: Tet, n: int, e: Edge)
    ensures e in PickAll(Corners(t), n) <==> IsTetEdge(t, n, e)
  {
    if IsTetEdge(t, n, e) {
      PickedComplete(t, n, e);
    }
    if e in PickAll(Corners(t), n) {
      PickedSound(t, n, e);
    }
  }

  lemma PickedComplete(t: Tet, n: int, e: Edge)
    requires IsTetEdge(t, n, e)
    ensures e in PickAll(Corners(t), n)
  {
    var cs := Corners(t);
    var i, j :| 0 <= i < j < 4 && cs[i] < n && cs[j] < n && e == Normalize(cs[i], cs[j]);
    assert e in Pick(cs, i, j, n);
    var p01, p02, p03 := Pick(cs, 0, 1, n), Pick(cs, 0, 2, n), Pick(cs, 0, 3, n);
    var p12, p13, p23 := Pick(cs, 1, 2, n), Pick(cs, 1, 3, n), Pick(cs, 2, 3, n);
    assert PickAll(cs, n) == p01 + p02 + p03 + p12 + p13 + p23;
    if i == 0 && j == 1 {
      assert e in p01;
    } else if i == 0 && j == 2 {
      assert e in p02;
    } else if i == 0 {
      assert e in p03;
    } else if i == 1 && j == 2 {
      assert e in p12;
    } else if i == 1 {
      assert e in p13;
    } else {
      assert e in p23;
    }
  }

  lemma PickedSound(t: Tet, n: int, e: Edge)
    requires e in PickAll(Corners(t), n)
    ensures IsTetEdge(t, n, e)
  {
    var cs := Corners(t);
    var p01, p02, p03 := Pick(cs, 0, 1, n), Pick(cs, 0, 2, n), Pick(cs, 0, 3, n);
    var p12, p13, p23 := Pick(cs, 1, 2, n), Pick(cs, 1, 3, n), Pick(cs, 2, 3, n);
    assert PickAll(cs, n) == p01 + p02 + p03 + p12 + p13 + p23;
    if e in p01 { PickWitness(t, n, 0, 1, e); }
    else if e in p02 { PickWitness(t, n, 0, 2, e); }
    else if e in p03 { PickWitness(t, n, 0, 3, e); }
    else if e in p12 { PickWitness(t, n, 1, 2, e); }
    else if e in p13 { PickWitness(t, n, 1, 3, e); }
    else { PickWitness(t, n, 2, 3, e); }
  }

  lemma PickWitness(t: Tet, n: int, i: int, j: int, e: Edge)
    requires 0 <= i < j < 4 && e in Pick(Corners(t), i, j, n)
    ensures IsTetEdge(t, n, e)
  {
    assert Corners(t)[i] < n && Corners(t)[j] < n && e == Normalize(Corners(t)[i], Corners(t)[j]);
  }

  /** The input-point edges of all the tetrahedra. */
  function EdgeSet(ts: seq<Tet>, n: int): (s: set<Edge>)
    ensures forall e :: e in s <==> exists k :: 0 <= k < |ts| && IsTetEdge(ts[k], n, e)
  {
    if |ts| == 0 then {}
    else
      var rest := EdgeSet(ts[1..], n);
      assert forall k :: 1 <= k < |ts| ==> ts[k] == ts[1..][k - 1];
      (set e | e in TetEdges(ts[0], n)) + rest
  }

  lemma TetEdgeProper(t: Tet, n: int, e: Edge)
    requires TetOk(t, n, n) && IsTetEdge(t, n, e)
    ensures 0 <= e.0 < e.1 < n
  {
    var cs := Corners(t);
    var i, j :| 0 <= i < j < 4 && cs[i] < n && cs[j] < n && e == Normalize(cs[i], cs[j]);
    assert cs[i] != cs[j];
  }

  /** The corners of well-formed tetrahedra are distinct and non-negative, so their input-point edges are proper. */
  lemma EdgesProper(ts: seq<Tet>, n: int)
    requires AllOk(ts, n, n)
    ensures forall e :: e in EdgeSet(ts, n) ==> 0 <= e.0 < e.1 < n
  {
    forall e | e in EdgeSet(ts, n) ensures 0 <= e.0 < e.1 < n {
      var k :| 0 <= k < |ts| && IsTetEdge(ts[k], n, e);
      TetEdgeProper(ts[k], n, e);
    }
  }

  // ------------------------------------------------------------ The whole run

  /** The super-tetrahedron on corners n..n+3, made positively oriented. */
  function Super(n: int, negative: Tet -> bool): (t: Tet)
    ensures TetOk(t, n, 0)
  {
    var t := Tet(n, n + 1, n + 2, n + 3);
    if negative(t) then Tet(n, n + 1, n + 3, n + 2) else t
  }

  /**
   * Fewer than two points give no edges, two give (0, 1) and three give
   * the triangle's three edges. Otherwise all points are inserted in index
   * order and the result is the set of input-point edges of the final
   * tetrahedra, super-corner edges dropped, ascending without duplicates.
   * `stages` is the run of tetrahedra sets: the super-tetrahedron alone,
   * then the set after each insertion.
   */
  method Tetrahedralize(n: int, inSphere: (Tet, int) -> bool, negative: Tet -> bool)
    returns (edges: seq<Edge>, ts: seq<Tet>, stages: seq<seq<Tet>>)
    ensures n < 2 ==> edges == []
    ensures n == 2 ==> edges == [(0, 1)]
    ensures n == 3 ==> edges == [(0, 1), (0, 2), (1, 2)]
    ensures 3 < n ==> |stages| == n + 1 && stages[0] == [Super(n, negative)] && ts == stages[n]
    ensures 3 < n ==> forall q :: 0 <= q < n ==> Inserted(stages[q], q, inSphere, negative, stages[q + 1])
    ensures 3 < n ==> AllOk(ts, n, n) && Ascending(edges)
    ensures 3 < n ==> forall e :: e in edges <==> exists k :: 0 <= k < |ts| && IsTetEdge(ts[k], n, e)
    ensures 3 < n ==> forall e :: e in edges ==> 0 <= e.0 < e.1 < n
  {
    ts, stages := [], [];
    if n < 2 {
      return [], ts, stages;
    }
    if n == 2 {
      return [(0, 1)], ts, stages;
    }
    if n == 3 {
      return [(0, 1), (0, 2), (1, 2)], ts, stages;
    }
    ts := [Super(n, negative)];
    stages := [ts];
    for p := 0 to n
      invariant AllOk(ts, n, p)
      invariant |stages| == p + 1 && stages[0] == [Super(n, negative)] && ts == stages[p]
      invariant forall q :: 0 <= q < p ==> Inserted(stages[q], q, inSphere, negative, stages[q + 1])
    {
      var next := Insert(ts, p, n, inSphere, negative);
      stages := stages + [next];
      ts := next;
    }
    EdgesProper(ts, n);
    edges := SortedEdgeList(EdgeSet(ts, n));
  }
}

=== FILE: delaunay_triangulation.dfy ===
/**
 * The combinatorial skeleton of 2-D Bowyer-Watson. The geometry is left to
 * two oracles over vertex indices: whether a point lies strictly inside a
 * triangle's circumcircle, and whether the turn a -> b -> p is
 * counter-clockwise. Points 0..n-1 are the input; n..n+2 are the
 * super-triangle's corners.
 */
module DelaunayTriangulation {
  import opened Graphs
  import SeqUtils

  datatype Tri = Tri(v0: int, v1: int, v2: int)

  predicate HasVertex(t: Tri, idx: int) {
    t.v0 == idx || t.v1 == idx || t.v2 == idx
  }

  /** The three sides of t, each (min, max), in the order the boundary search visits them. */
  function Sides(t: Tri): seq<Edge> {
    [Normalize(t.v0, t.v1), Normalize(t.v1, t.v2), Normalize(t.v2, t.v0)]
  }

  // ------------------------------------------------------------ One insertion

  /** The triangles whose circumcircle holds point p, in order. */
  function Bad(ts: seq<Tri>, p: int, inCircle: (Tri, int) -> bool): (bad: seq<Tri>)
    ensures forall t :: t in bad <==> t in ts && inCircle(t, p)
    ensures SeqUtils.Subsequence(bad, ts)
  {
    SeqUtils.Filter(ts, t => inCircle(t, p))
  }

  /** ts with every triangle equal to one in `gone` removed, the rest in order. */
  function RemoveAll(ts: seq<Tri>, gone: seq<Tri>): (kept: seq<Tri>)
    ensures forall t :: t in kept <==> t in ts && t !in gone
    ensures SeqUtils.Subsequence(kept, ts)
  {
    SeqUtils.Filter(ts, t => t !in gone)
  }

  /** Some bad triangle other than the i-th has side e. */
  ghost predicate SharedElsewhere(bad: seq<Tri>, i: int, e: Edge) {
    exists j :: 0 <= j < |bad| && j != i && e in Sides(bad[j])
  }

  /** Whether a bad triangle other than the i-th has side e, searched in order. */
  method IsShared(bad: seq<Tri>, i: int, e: Edge) returns (shared: bool)
    ensures shared <==> SharedElsewhere(bad, i, e)
  {
    shared := false;
    var j := 0;
    while j < |bad|
      invariant 0 <= j <= |bad|
      invariant !shared
      invariant forall k :: 0 <= k < j && k != i ==> e !in Sides(bad[k])
    {
      if j != i && e in Sides(bad[j]) {
        return true;
      }
      j := j + 1;
    }
  }

  /** A side of the i-th bad triangle that no other bad triangle has. */
  ghost predicate OnBoundary(bad: seq<Tri>, e: Edge) {
    exists i :: 0 <= i < |bad| && e in Sides(bad[i]) && !SharedElsewhere(bad, i, e)
  }

  /** The boundary polygon of the cavity: each bad triangle's unshared sides, in order. */
  method BoundaryPolygon(bad: seq<Tri>) returns (polygon: seq<Edge>)
    ensures forall e :: e in polygon <==> OnBoundary(bad, e)
  {
    polygon := [];
    for i := 0 to |bad|
      invariant forall e :: e in polygon <==> exists k :: 0 <= k < i && e in Sides(bad[k]) && !SharedElsewhere(bad, k, e)
    {
      var sides := Sides(bad[i]);
      for s := 0 to 3
        invariant forall e :: e in polygon <==>
          (exists k :: 0 <= k < i && e in Sides(bad[k]) && !SharedElsewhere(bad, k, e))
          || (e in sides[..s] && !SharedElsewhere(bad, i, e))
      {
        var shared := IsShared(bad, i, sides[s]);
        if !shared {
          polygon := polygon + [sides[s]];
        }
        assert sides[..s + 1] == sides[..s] + [sides[s]];
      }
      assert sides[..3] == sides;
    }
  }

  /** The new triangle on side e and point p, wound counter-clockwise. */
  function Wind(e: Edge, p: int, ccw: (int, int, int) -> bool): (t: Tri)
    ensures t.v2 == p
    ensures (t.v0 == e.0 && t.v1 == e.1) || (t.v0 == e.1 && t.v1 == e.0)
  {
    if ccw(e.0, e.1, p) then Tri(e.0, e.1, p) else Tri(e.1, e.0, p)
  }

  /** The new triangles joining each boundary side to p. */
  function Fan(polygon: seq<Edge>, p: int, ccw: (int, int, int) -> bool): (ts: seq<Tri>)
    ensures |ts| == |polygon|
    ensures forall k :: 0 <= k < |ts| ==> ts[k] == Wind(polygon[k], p, ccw)
  {
    if |polygon| == 0 then []
    else [Wind(polygon[0], p, ccw)] + Fan(polygon[1..], p, ccw)
  }

  // ------------------------------------------------------------ Well-formedness

  /** v is an inserted point below p or a super-triangle corner. */
  predicate Known(v: int, n: int, p: int) {
    (0 <= v < p) || (n <= v < n + 3)
  }

  /** Three distinct corners, each already known. */
  predicate TriOk(t: Tri, n: int, p: int) {
    t.v0 != t.v1 && t.v0 != t.v2 && t.v1 != t.v2
    && Known(t.v0, n, p) && Known(t.v1, n, p) && Known(t.v2, n, p)
  }

  predicate AllOk(ts: seq<Tri>, n: int, p: int) {
    forall k :: 0 <= k < |ts| ==> TriOk(ts[k], n, p)
  }

  predicate SideOk(e: Edge, n: int, p: int) {
    e.0 < e.1 && Known(e.0, n, p) && Known(e.1, n, p)
  }

  lemma SidesOk(t: Tri, n: int, p: int)
    requires TriOk(t, n, p)
    ensures forall e :: e in Sides(t) ==> SideOk(e, n, p)
  {
  }

  lemma PolygonOk(ts: seq<Tri>, p: int, n: int, inCircle: (Tri, int) -> bool, polygon: seq<Edge>)
    requires AllOk(ts, n, p)
    requires forall e :: e in polygon <==> OnBoundary(Bad(ts, p, inCircle), e)
    ensures forall e :: e in polygon ==> SideOk(e, n, p)
  {
    var bad := Bad(ts, p, inCircle);
    forall e | e in polygon ensures SideOk(e, n, p) {
      var i :| 0 <= i < |bad| && e in Sides(bad[i]) && !SharedElsewhere(bad, i, e);
      assert bad[i] in ts;
      SidesOk(bad[i], n, p);
    }
  }

  lemma FanOk(polygon: seq<Edge>, n: int, p: int, ccw: (int, int, int) -> bool)
    requires 0 <= p < n
    requires forall e :: e in polygon ==> SideOk(e, n, p)
    ensures AllOk(Fan(polygon, p, ccw), n, p + 1)
  {
    var ts := Fan(polygon, p, ccw);
    forall k | 0 <= k < |ts| ensures TriOk(ts[k], n, p + 1) {
      assert SideOk(polygon[k], n, p);
    }
  }

  lemma RemoveAllOk(ts: seq<Tri>, gone: seq<Tri>, n: int, p: int)
    requires AllOk(ts, n, p)
    ensures AllOk(RemoveAll(ts, gone), n, p + 1)
  {
    var kept := RemoveAll(ts, gone);
    forall k | 0 <= k < |kept| ensures TriOk(kept[k], n, p + 1) {
      assert kept[k] in ts;
    }
  }

  /** t is the new triangle on a side of the cavity's boundary. */
  ghost predicate FromCavity(t: Tri, bad: seq<Tri>, p: int, ccw: (int, int, int) -> bool) {
    exists e: Edge :: t == Wind(e, p, ccw) && OnBoundary(bad, e)
  }

  lemma FanMembers(polygon: seq<Edge>, bad: seq<Tri>, p: int, ccw: (int, int, int) -> bool)
    requires forall e :: e in polygon <==> OnBoundary(bad, e)
    ensures forall t :: t in Fan(polygon, p, ccw) <==> FromCavity(t, bad, p, ccw)
  {
    var fan := Fan(polygon, p, ccw);
    forall t ensures t in fan <==> FromCavity(t, bad, p, ccw) {
      if t in fan {
        var k :| 0 <= k < |fan| && fan[k] == t;
        assert polygon[k] in polygon;
      }
      if FromCavity(t, bad, p, ccw) {
        var e: Edge :| t == Wind(e, p, ccw) && OnBoundary(bad, e);
        var k :| 0 <= k < |polygon| && polygon[k] == e;
        assert fan[k] == t;
      }
    }
  }

  /**
   * What inserting point p does to the triangles ts: the result holds
   * exactly the triangles whose circumcircle misses p and the new triangles
   * on the cavity's boundary sides; the survivors come first, in their old
   * order, and the new triangles follow them.
   */
  ghost predicate Inserted(ts: seq<Tri>, p: int, inCircle: (Tri, int) -> bool, ccw: (int, int, int) -> bool, ts': seq<Tri>) {
    && (forall t :: t in ts' <==> (t in ts && !inCircle(t, p)) || FromCavity(t, Bad(ts, p, inCircle), p, ccw))
    && exists k :: 0 <= k <= |ts'| && SeqUtils.Subsequence(ts'[..k], ts)
         && forall i :: k <= i < |ts'| ==> FromCavity(ts'[i], Bad(ts, p, inCircle), p, ccw)
  }

  /**
   * Inserting point p: the bad triangles are removed and each side of the
   * cavity's boundary is joined to p.
   */
  method Insert(ts: seq<Tri>, p: int, n: int, inCircle: (Tri, int) -> bool, ccw: (int, int, int) -> bool)
    returns (ts': seq<Tri>)
    requires 0 <= p < n && AllOk(ts, n, p)
    ensures AllOk(ts', n, p + 1)
    ensures Inserted(ts, p, inCircle, ccw, ts')
  {
    var bad := Bad(ts, p, inCircle);
    var polygon := BoundaryPolygon(bad);
    PolygonOk(ts, p, n, inCircle, polygon);
    FanOk(polygon, n, p, ccw);
    FanMembers(polygon, bad, p, ccw);
    RemoveAllOk(ts, bad, n, p);
    var kept, fan := RemoveAll(ts, bad), Fan(polygon, p, ccw);
    ts' := kept + fan;
    assert forall t :: t in ts' <==> t in kept || t in fan;
    assert ts'[..|kept|] == kept;
    assert forall i :: |kept| <= i < |ts'| ==> ts'[i] == fan[i - |kept|];
  }

  // ------------------------------------------------------------ Edge output

  /** The triangles touching none of the super-triangle's corners. */
  function DropSuper(ts: seq<Tri>, n: int): (kept: seq<Tri>)
    ensures forall t :: t in kept <==> t in ts && !HasVertex(t, n) && !HasVertex(t, n + 1) && !HasVertex(t, n + 2)
  {
    if |ts| == 0 then []
    else
      var t := ts[0];
      (if HasVertex(t, n) || HasVertex(t, n + 1) || HasVertex(t, n + 2) then [] else [t]) + DropSuper(ts[1..], n)
  }

  /** The sides of all the triangles. */
  function SideSet(ts: seq<Tri>): (s: set<Edge>)
    ensures forall e :: e in s <==> exists t :: t in ts && e in Sides(t)
  {
    if |ts| == 0 then {}
    else
      assert forall t :: t in ts <==> t == ts[0] || t in ts[1..];
      (set e | e in Sides(ts[0])) + SideSet(ts[1..])
  }

  lemma DropSuperProper(ts: seq<Tri>, n: int)
    requires AllOk(ts, n, n)
    ensures forall e :: e in SideSet(DropSuper(ts, n)) ==> 0 <= e.0 < e.1 < n
  {
    forall e | e in SideSet(DropSuper(ts, n)) ensures 0 <= e.0 < e.1 < n {
      var t :| t in DropSuper(ts, n) && e in Sides(t);
      var k :| 0 <= k < |ts| && ts[k] == t;
      KeptSidesProper(t, n);
    }
  }

  /** A well-formed triangle with no super-corner has sides between input points only. */
  lemma KeptSidesProper(t: Tri, n: int)
    requires TriOk(t, n, n) && !HasVertex(t, n) && !HasVertex(t, n + 1) && !HasVertex(t, n + 2)
    ensures forall e :: e in Sides(t) ==> 0 <= e.0 < e.1 < n
  {
    SidesOk(t, n, n);
  }

  /** The super-triangle on corners n..n+2. */
  function Super(n: int): (t: Tri)
    ensures TriOk(t, n, 0)
  {
    Tri(n, n + 1, n + 2)
  }

  /**
   * Fewer than two points give no edges and two give (0, 1); from three
   * points on, all points are inserted in index order, the triangles
   * touching the super-triangle are dropped, and the result is the set of
   * the remaining triangles' sides, ascending without duplicates.
   * `stages` is the run of triangle sets: the super-triangle alone, then
   * the set after each insertion; ts is the last stage without the
   * super-triangle's triangles.
   */
  method Triangulate(n: int, inCircle: (Tri, int) -> bool, ccw: (int, int, int) -> bool)
    returns (edges: seq<Edge>, ts: seq<Tri>, stages: seq<seq<Tri>>)
    ensures n < 2 ==> edges == []
    ensures n == 2 ==> edges == [(0, 1)]
    ensures 2 < n ==> |stages| == n + 1 && stages[0] == [Super(n)] && ts == DropSuper(stages[n], n)
    ensures 2 < n ==> forall q :: 0 <= q < n ==> Inserted(stages[q], q, inCircle, ccw, stages[q + 1])
    ensures 2 < n ==> AllOk(ts, n, n) && Ascending(edges)
    ensures 2 < n ==> forall t :: t in ts ==> !HasVertex(t, n) && !HasVertex(t, n + 1) && !HasVertex(t, n + 2)
    ensures 2 < n ==> forall e :: e in edges <==> exists t :: t in ts && e in Sides(t)
    ensures 2 < n ==> forall e :: e in edges ==> 0 <= e.0 < e.1 < n
  {
    ts, stages := [], [];
    if n < 2 {
      return [], ts, stages;
    }
    if n == 2 {
      return [(0, 1)], ts, stages;
    }
    ts := [Super(n)];
    stages := [ts];
    for p := 0 to n
      invariant AllOk(ts, n, p)
      invariant |stages| == p + 1 && stages[0] == [Super(n)] && ts == stages[p]
      invariant forall q :: 0 <= q < p ==> Inserted(stages[q], q, inCircle, ccw, stages[q + 1])
    {
      var next := Insert(ts, p, n, inCircle, ccw);
      stages := stages + [next];
      ts := next;
    }
    DropSuperProper(ts, n);
    var all := ts;
    ts := DropSuper(all, n);
    forall k | 0 <= k < |ts| ensures TriOk(ts[k], n, n) {
      assert ts[k] in all;
    }
    edges := SortedEdgeList(SideSet(ts));
  }
}

=== FILE: dungeon_config.dfy ===
/** Generator settings and the declarative room-type rules, with their default values. */
module DungeonConfig {
  import opened DungeonTypes

  /**
   * One room-type rule. Distances are normalised to [0, 1] (0 next to the
   * entrance, 1 the farthest room); a zero MinSize means "no size override".
   */
  datatype RoomTypeRule = RoomTypeRule(
    roomType: RoomType,
    count: int,
    priority: int,
    minGraphDistanceFromEntrance: real,
    maxGraphDistanceFromEntrance: real,
    preferLeafNodes: bool,
    preferMainPath: bool,
    requireMultiFloor: bool,
    minSize: Vec3)

  const DefaultRule := RoomTypeRule(Generic, 1, 0, 0.0, 1.0, false, false, false, ZeroVec)

  datatype DungeonConfiguration = DungeonConfiguration(
    gridSize: Vec3,
    cellWorldSize: real,
    roomCount: int,
    minRoomSize: Vec3,
    maxRoomSize: Vec3,
    roomBuffer: int,
    maxPlacementAttempts: int,
    roomTypeRules: seq<RoomTypeRule>,
    guaranteeEntrance: bool,
    guaranteeBossRoom: bool,
    edgeReadditionChance: real,
    hallwayMergeCostMultiplier: real,
    roomPassthroughCostMultiplier: real,
    staircaseRiseToRun: int,
    staircaseHeadroom: int,
    entrancePlacement: EntrancePlacement,
    useFixedSeed: bool,
    fixedSeed: int)

  /** The constructor's rules: one Boss far along the main path, one Treasure in a leaf. */
  const BossRule := DefaultRule.(roomType := Boss, count := 1, priority := 100,
    minGraphDistanceFromEntrance := 0.7, preferMainPath := true)
  const TreasureRule := DefaultRule.(roomType := Treasure, count := 1, priority := 50,
    preferLeafNodes := true)

  const DefaultConfiguration := DungeonConfiguration(
    Vec3(30, 30, 5), 400.0, 8, Vec3(3, 3, 1), Vec3(7, 7, 2), 1, 100,
    [BossRule, TreasureRule], true, true, 0.125, 0.5, 3.0, 2, 2, BoundaryEdge, false, 0)

  /**
   * The ranges the editor clamps each setting to. The code itself never
   * re-checks them, so the model states each guarantee under the clamps it needs.
   */
  predicate InEditorRanges(c: DungeonConfiguration) {
    && 2 <= c.roomCount <= 255
    && 0 <= c.roomBuffer <= 5
    && 10 <= c.maxPlacementAttempts <= 1000
    && 1 <= c.staircaseRiseToRun <= 5
    && 1 <= c.staircaseHeadroom <= 5
    && 0.0 <= c.edgeReadditionChance <= 1.0
  }

  /** The defaults lie inside the editor ranges. */
  lemma DefaultConfigurationInRanges()
    ensures InEditorRanges(DefaultConfiguration)
    ensures DefaultConfiguration.roomTypeRules[0].roomType == Boss
    ensures DefaultConfiguration.roomTypeRules[1].roomType == Treasure
  {}
}

=== FILE: dungeon_generator.dfy ===
/**
 * The generator's glue between its stages: marking the entrance room, the
 * final edge list (the spanning tree plus randomly re-added Delaunay
 * edges), the hallway loop with its numbering and room connections, the
 * entrance cell and the cell totals, and Generate, which runs every stage
 * in order. The random stream, the geometric predicates, the Euclidean
 * tree weights and the open-set tie order are parameters.
 */
module DungeonGenerator {
  import opened Wrappers
  import opened DungeonTypes
  import opened DungeonConfig
  import opened DungeonSeed
  import Arith
  import SeqUtils
  import Graphs
  import RoomPlacement
  import RoomSemantics
  import RoomTypeAssignment
  import DelaunayTetrahedralization
  import MinimumSpanningTree
  import HallwayPathfinder
  import HallwayCarving
  import DungeonValidator

  // ------------------------------------------------------------ Step 4: the entrance room

  /** Step 4: the selected room, if any, is retyped Entrance and its center becomes the entrance cell. */
  function MarkEntranceRoom(rooms: seq<DungeonRoom>, index: int, cell: Vec3): (res: (seq<DungeonRoom>, Vec3))
    requires index < |rooms|
    ensures |res.0| == |rooms|
    ensures 0 <= index ==> res.0[index].roomType == RoomType.Entrance && res.1 == rooms[index].center
    ensures forall i :: 0 <= i < |rooms| ==> res.0[i] == rooms[i].(roomType := res.0[i].roomType)
    ensures forall i :: 0 <= i < |rooms| && i != index ==> res.0[i] == rooms[i]
    ensures index < 0 ==> res.1 == cell
  {
    if index < 0 then (rooms, cell)
    else (rooms[index := rooms[index].(roomType := RoomType.Entrance)], rooms[index].center)
  }

  // ------------------------------------------------------------ Steps 5-7: the edge lists

  /** The stored edges hold uint8 endpoints. */
  predicate ByteEdges(es: seq<RoomEdge>) {
    forall k :: 0 <= k < |es| ==> 0 <= es[k].0 < 256 && 0 <= es[k].1 < 256
  }

  /** The cast of both endpoints of every edge to uint8. */
  function ToByteEdges(es: seq<Graphs.Edge>): (r: seq<RoomEdge>)
    ensures |r| == |es| && ByteEdges(r)
    ensures forall k :: 0 <= k < |es| ==> r[k] == (ToByte(es[k].0), ToByte(es[k].1))
  {
    seq(|es|, k requires 0 <= k < |es| => (ToByte(es[k].0), ToByte(es[k].1)))
  }

  /** The cast keeps an edge between two of n rooms between two of them, whatever n is. */
  lemma ToByteEdgesInRange(es: seq<Graphs.Edge>, n: int)
    requires RoomSemantics.EdgesInRange(es, n)
    ensures RoomSemantics.EdgesInRange(ToByteEdges(es), n)
  {
    forall k | 0 <= k < |es|
      ensures 0 <= ToByte(es[k].0) < n && 0 <= ToByte(es[k].1) < n
    {
      ByteBelow(es[k].0, n);
      ByteBelow(es[k].1, n);
    }
  }

  lemma ByteBelow(v: int, n: int)
    requires 0 <= v < n
    ensures 0 <= ToByte(v) < n
  {
    if 256 <= v {
      assert ToByte(v) < 256;
    }
  }

  /** An edge is in the spanning tree when a tree edge joins the same rooms, in either orientation. */
  predicate InMst(mst: seq<RoomEdge>, e: RoomEdge) {
    Graphs.Adjacent(mst, e.0, e.1)
  }

  /** Reference list: the Delaunay edges the tree lacks, in their order. */
  function NotInMst(delaunay: seq<RoomEdge>, mst: seq<RoomEdge>): (r: seq<RoomEdge>)
    ensures forall e :: e in r <==> e in delaunay && !InMst(mst, e)
  {
    if |delaunay| == 0 then []
    else
      var e := delaunay[|delaunay| - 1];
      var init := delaunay[..|delaunay| - 1];
      assert delaunay == init + [e];
      NotInMst(init, mst) + (if InMst(mst, e) then [] else [e])
  }

  /**
   * The re-addition loop: every Delaunay edge the tree lacks spends one
   * RandBool draw and is kept when the draw comes up true; tree edges
   * spend nothing.
   */
  function Readd(delaunay: seq<RoomEdge>, mst: seq<RoomEdge>, chance: real, rng: Rng): (res: (seq<RoomEdge>, Rng))
    ensures SeqUtils.Subsequence(res.0, NotInMst(delaunay, mst))
    ensures res.1.raw == rng.raw && res.1.spawn == rng.spawn
    ensures res.1.pos == rng.pos + |NotInMst(delaunay, mst)|
    ensures chance <= 0.0 ==> res.0 == []
    ensures 1.0 <= chance ==> res.0 == NotInMst(delaunay, mst)
    decreases |delaunay|
  {
    if |delaunay| == 0 then ([], rng)
    else
      var e := delaunay[|delaunay| - 1];
      var init := delaunay[..|delaunay| - 1];
      var (kept, rng') := Readd(init, mst, chance, rng);
      var prev := NotInMst(init, mst);
      if InMst(mst, e) then
        assert NotInMst(delaunay, mst) == prev + [] == prev;
        (kept, rng')
      else
        var (keep, rng'') := RandBool(rng', chance);
        assert NotInMst(delaunay, mst) == prev + [e];
        SeqUtils.SubsequenceSnoc(kept, prev, e);
        (if keep then kept + [e] else kept, rng'')
  }

  /** Step 7: the tree edges first, then the re-added Delaunay edges. */
  function FinalEdges(mst: seq<RoomEdge>, delaunay: seq<RoomEdge>, chance: real, rng: Rng): (res: (seq<RoomEdge>, Rng))
    ensures |mst| <= |res.0| && res.0[..|mst|] == mst
    ensures SeqUtils.Subsequence(res.0[|mst|..], NotInMst(delaunay, mst))
    ensures forall e :: e in res.0 ==> e in mst || (e in delaunay && !InMst(mst, e))
    ensures chance <= 0.0 ==> res.0 == mst
    ensures 1.0 <= chance ==> res.0 == mst + NotInMst(delaunay, mst)
  {
    var (added, rng') := Readd(delaunay, mst, chance, rng);
    assert (mst + added)[|mst|..] == added;
    forall e | e in added
      ensures e in NotInMst(delaunay, mst)
    {
      SeqUtils.SubsequenceMembers(added, NotInMst(delaunay, mst), e);
    }
    (mst + added, rng')
  }

  // ------------------------------------------------------------ Step 9: hallways

  /** The edges whose endpoints both name rooms: the ones the hallway loop does not skip. */
  function InRangeEdges(es: seq<RoomEdge>, n: int): (r: seq<RoomEdge>)
    ensures forall e :: e in r <==> e in es && e.0 < n && e.1 < n
  {
    if |es| == 0 then []
    else
      var e := es[|es| - 1];
      var init := es[..|es| - 1];
      assert es == init + [e];
      InRangeEdges(init, n) + (if e.0 < n && e.1 < n then [e] else [])
  }

  /** TArray::AddUnique: the value is appended unless it is already present. */
  function AddUnique(xs: seq<Byte>, x: Byte): (r: seq<Byte>)
    ensures forall y :: y in r <==> y in xs || y == x
    ensures |xs| <= |r| && r[..|xs|] == xs
    ensures SeqUtils.Distinct(xs) ==> SeqUtils.Distinct(r)
  {
    if x in xs then xs else xs + [x]
  }

  /** Hallway h links room i to room x, as either of its two ends. */
  predicate Links(h: DungeonHallway, i: int, x: int) {
    (h.roomA == i && h.roomB == x) || (h.roomB == i && h.roomA == x)
  }

  /**
   * The connection lists after the loop: only they change; each grows by
   * appending, stays free of repeats, and gains exactly the rooms some
   * hallway links it to.
   */
  ghost predicate Connected(rooms: seq<DungeonRoom>, rooms': seq<DungeonRoom>, hs: seq<DungeonHallway>) {
    && |rooms'| == |rooms|
    && (forall i :: 0 <= i < |rooms| ==>
          rooms'[i] == rooms[i].(connectedRoomIndices := rooms'[i].connectedRoomIndices))
    && (forall i :: 0 <= i < |rooms| ==> Extends(rooms[i].connectedRoomIndices, rooms'[i].connectedRoomIndices))
    && (forall i, x :: 0 <= i < |rooms| ==>
          (x in rooms'[i].connectedRoomIndices <==>
             x in rooms[i].connectedRoomIndices || exists k :: 0 <= k < |hs| && Links(hs[k], i, x)))
  }

  /** ys is xs with elements appended, and without repeats whenever xs has none. */
  predicate Extends(xs: seq<Byte>, ys: seq<Byte>) {
    && |xs| <= |ys| && ys[..|xs|] == xs
    && (SeqUtils.Distinct(xs) ==> SeqUtils.Distinct(ys))
  }

  /** Both rooms of an edge record each other (room a's list first). */
  function Connect(rooms: seq<DungeonRoom>, a: Byte, b: Byte): (rs: seq<DungeonRoom>)
    requires a < |rooms| && b < |rooms|
    ensures |rs| == |rooms|
    ensures forall i :: 0 <= i < |rooms| ==>
      rs[i] == rooms[i].(connectedRoomIndices := rs[i].connectedRoomIndices)
    ensures forall i :: 0 <= i < |rooms| ==> Extends(rooms[i].connectedRoomIndices, rs[i].connectedRoomIndices)
    ensures forall i, x :: 0 <= i < |rooms| ==>
      (x in rs[i].connectedRoomIndices <==>
         x in rooms[i].connectedRoomIndices || (i == a && x == b) || (i == b && x == a))
  {
    var ra := rooms[a := rooms[a].(connectedRoomIndices := AddUnique(rooms[a].connectedRoomIndices, b))];
    ra[b := ra[b].(connectedRoomIndices := AddUnique(ra[b].connectedRoomIndices, a))]
  }

  /** One more hallway between a and b keeps the connection lists exact. */
  lemma ConnectStep(rooms: seq<DungeonRoom>, rooms': seq<DungeonRoom>, hs: seq<DungeonHallway>, h: DungeonHallway)
    requires Connected(rooms, rooms', hs)
    requires h.roomA < |rooms| && h.roomB < |rooms|
    ensures Connected(rooms, Connect(rooms', h.roomA, h.roomB), hs + [h])
  {
    var rs := Connect(rooms', h.roomA, h.roomB);
    var hs' := hs + [h];
    forall i | 0 <= i < |rooms|
      ensures Extends(rooms[i].connectedRoomIndices, rs[i].connectedRoomIndices)
    {
      var xs, ys, zs := rooms[i].connectedRoomIndices, rooms'[i].connectedRoomIndices, rs[i].connectedRoomIndices;
      assert Extends(xs, ys) && Extends(ys, zs);
      assert zs[..|xs|] == ys[..|ys|][..|xs|];
    }
    forall i, x | 0 <= i < |rooms|
      ensures x in rs[i].connectedRoomIndices <==>
        x in rooms[i].connectedRoomIndices || exists k :: 0 <= k < |hs'| && Links(hs'[k], i, x)
    {
      if exists k :: 0 <= k < |hs'| && Links(hs'[k], i, x) {
        var k :| 0 <= k < |hs'| && Links(hs'[k], i, x);
        if k < |hs| {
          assert hs'[k] == hs[k];
        }
      }
      if exists k :: 0 <= k < |hs| && Links(hs[k], i, x) {
        var k :| 0 <= k < |hs| && Links(hs[k], i, x);
        assert hs'[k] == hs[k];
      }
      assert Links(hs'[|hs|], i, x) <==> (i == h.roomA && x == h.roomB) || (i == h.roomB && x == h.roomA);
    }
  }

  /** What the loop records for the k-th hallway it carves (0-based). */
  predicate Recorded(h: DungeonHallway, k: int, rooms: seq<DungeonRoom>, mst: seq<RoomEdge>,
                     size: Vec3, cfg: DungeonConfiguration)
  {
    && h.hallwayIndex == ToByte(k + 1)
    && h.roomA < |rooms| && h.roomB < |rooms|
    && h.isFromMst == InMst(mst, (h.roomA, h.roomB))
    && |h.pathCells| > 0
    && h.pathCells[0] == rooms[h.roomA].center
    && h.pathCells[|h.pathCells| - 1] == rooms[h.roomB].center
    && h.hasStaircase == (|HallwayCarving.StairsOf(size, h.pathCells, cfg.staircaseRiseToRun, cfg.staircaseHeadroom)| > 0)
  }

  /** The (RoomA, RoomB) pair of every hallway. */
  function EdgesOf(hs: seq<DungeonHallway>): (es: seq<RoomEdge>)
    ensures |es| == |hs|
  {
    if |hs| == 0 then [] else EdgesOf(hs[..|hs| - 1]) + [(hs[|hs| - 1].roomA, hs[|hs| - 1].roomB)]
  }

  /** The staircases of every hallway, in hallway order. */
  function StairsOfAll(size: Vec3, hs: seq<DungeonHallway>, riseToRun: int, headroom: int): seq<DungeonStaircase> {
    if |hs| == 0 then []
    else
      var last := hs[|hs| - 1];
      StairsOfAll(size, hs[..|hs| - 1], riseToRun, headroom) + HallwayCarving.StairsOf(size, last.pathCells, riseToRun, headroom)
  }

  /** A hallway index handed out once n hallways exist: 1..n, and every byte once the counter has wrapped. */
  predicate Issued(b: Byte, n: int) {
    1 <= b <= n || 256 <= n
  }

  /** Every cell the loop changed is a hallway, door or stair cell of a hallway it numbered. */
  ghost predicate CarvedSoFar(g: DungeonGrid, g': DungeonGrid, n: int)
    requires WellFormed(g) && WellFormed(g') && g'.size == g.size
  {
    forall c :: IsInBounds(g, c) && GetCell(g', c) != GetCell(g, c) ==>
      && GetCell(g', c).cellType in {Hallway, Door, Staircase, StaircaseHead}
      && Issued(GetCell(g', c).hallwayIndex, n)
  }

  lemma CarvedStep(g: DungeonGrid, g1: DungeonGrid, g2: DungeonGrid, n: nat)
    requires WellFormed(g) && WellFormed(g1) && WellFormed(g2) && g1.size == g.size && g2.size == g.size
    requires CarvedSoFar(g, g1, n)
    requires forall c :: IsInBounds(g1, c) ==> HallwayCarving.Written(g1, g2, ToByte(n + 1), c)
    ensures CarvedSoFar(g, g2, n + 1)
  {
    forall c | IsInBounds(g, c) && GetCell(g2, c) != GetCell(g, c)
      ensures GetCell(g2, c).cellType in {Hallway, Door, Staircase, StaircaseHead}
      ensures Issued(GetCell(g2, c).hallwayIndex, n + 1)
    {
      var c0, c1, c2 := GetCell(g, c), GetCell(g1, c), GetCell(g2, c);
      assert HallwayCarving.Written(g1, g2, ToByte(n + 1), c);
      if c2 == c1 {
        assert c1 != c0;
        assert Issued(c1.hallwayIndex, n);
      } else {
        assert c2.hallwayIndex == ToByte(n + 1);
        IssuedNext(n);
      }
    }
  }

  lemma IssuedNext(n: nat)
    ensures Issued(ToByte(n + 1), n + 1)
  {
  }

  /** The uint8 counter: incrementing the byte of n + 1 gives the byte of n + 2. */
  lemma ByteIncrement(n: int)
    ensures ToByte(ToByte(n + 1) + 1) == ToByte(n + 2)
  {
    var b: int := ToByte(n + 1);
    var q := (n + 1) / 256;
    assert n + 1 == q * 256 + b;
    Arith.DivModUnique(n + 2, 256, q + (b + 1) / 256, (b + 1) % 256);
  }

  /**
   * The grid passes through one carving per recorded hallway: grids[0] is
   * the grid before step 9, and grids[k + 1] is grids[k] with hallway k
   * carved along its route between its two rooms, cell by cell as
   * CarveHallway describes.
   */
  ghost predicate CarvedInTurn(g: DungeonGrid, rooms: seq<DungeonRoom>, hs: seq<DungeonHallway>,
                               cfg: DungeonConfiguration, grids: seq<DungeonGrid>)
  {
    && |grids| == |hs| + 1 && grids[0] == g
    && (forall k :: 0 <= k < |grids| ==> WellFormed(grids[k]) && grids[k].size == g.size)
    && forall k, c :: 0 <= k < |hs| && hs[k].roomA < |rooms| && hs[k].roomB < |rooms| && IsInBounds(grids[k], c) ==>
         HallwayCarving.CarvedCell(grids[k], grids[k + 1], hs[k].pathCells,
           HallwayCarving.StairsOf(g.size, hs[k].pathCells, cfg.staircaseRiseToRun, cfg.staircaseHeadroom),
           hs[k].hallwayIndex, rooms[hs[k].roomA].roomIndex, rooms[hs[k].roomB].roomIndex, c)
  }

  /** The loop's invariant after the edges in `done`: everything CarveHallways promises, so far. */
  ghost predicate HallwaysSoFar(g: DungeonGrid, rooms: seq<DungeonRoom>, mst: seq<RoomEdge>, cfg: DungeonConfiguration,
                                done: seq<RoomEdge>, g': DungeonGrid, rooms': seq<DungeonRoom>,
                                hs: seq<DungeonHallway>, stairs: seq<DungeonStaircase>)
    requires WellFormed(g)
  {
    && WellFormed(g') && g'.size == g.size
    && Connected(rooms, rooms', hs)
    && (forall k :: 0 <= k < |hs| ==> Recorded(hs[k], k, rooms, mst, g.size, cfg))
    && SeqUtils.Subsequence(EdgesOf(hs), InRangeEdges(done, |rooms|))
    && stairs == StairsOfAll(g.size, hs, cfg.staircaseRiseToRun, cfg.staircaseHeadroom)
    && CarvedSoFar(g, g', |hs|)
    && exists grids :: CarvedInTurn(g, rooms, hs, cfg, grids) && grids[|hs|] == g'
  }

  /** An edge the loop skips or fails on leaves everything but the edge count as it was. */
  lemma NoHallwayStep(g: DungeonGrid, rooms: seq<DungeonRoom>, mst: seq<RoomEdge>, cfg: DungeonConfiguration,
                      done: seq<RoomEdge>, e: RoomEdge, g': DungeonGrid, rooms': seq<DungeonRoom>,
                      hs: seq<DungeonHallway>, stairs: seq<DungeonStaircase>)
    requires WellFormed(g) && HallwaysSoFar(g, rooms, mst, cfg, done, g', rooms', hs, stairs)
    ensures HallwaysSoFar(g, rooms, mst, cfg, done + [e], g', rooms', hs, stairs)
  {
    var before := InRangeEdges(done, |rooms|);
    assert (done + [e])[..|done|] == done;
    if e.0 < |rooms| && e.1 < |rooms| {
      assert InRangeEdges(done + [e], |rooms|) == before + [e];
      SeqUtils.SubsequenceSnoc(EdgesOf(hs), before, e);
    } else {
      assert InRangeEdges(done + [e], |rooms|) == before + [] == before;
    }
  }

  lemma RecordedStep(hs: seq<DungeonHallway>, h: DungeonHallway, rooms: seq<DungeonRoom>, mst: seq<RoomEdge>,
                     size: Vec3, cfg: DungeonConfiguration)
    requires forall k :: 0 <= k < |hs| ==> Recorded(hs[k], k, rooms, mst, size, cfg)
    requires Recorded(h, |hs|, rooms, mst, size, cfg)
    ensures forall k :: 0 <= k < |hs| + 1 ==> Recorded((hs + [h])[k], k, rooms, mst, size, cfg)
  {
    assert forall k :: 0 <= k < |hs| ==> (hs + [h])[k] == hs[k];
  }

  /** A carved hallway between a and b extends every part of the invariant. */
  lemma HallwayStep(g: DungeonGrid, rooms: seq<DungeonRoom>, mst: seq<RoomEdge>, cfg: DungeonConfiguration,
                    done: seq<RoomEdge>, g': DungeonGrid, rooms': seq<DungeonRoom>,
                    hs: seq<DungeonHallway>, stairs: seq<DungeonStaircase>,
                    h: DungeonHallway, g2: DungeonGrid, st: seq<DungeonStaircase>)
    requires WellFormed(g) && HallwaysSoFar(g, rooms, mst, cfg, done, g', rooms', hs, stairs)
    requires h.roomA < |rooms| && h.roomB < |rooms|
    requires h.hallwayIndex == ToByte(|hs| + 1) && h.isFromMst == InMst(mst, (h.roomA, h.roomB))
    requires |h.pathCells| > 0 && h.pathCells[0] == rooms'[h.roomA].center
    requires h.pathCells[|h.pathCells| - 1] == rooms'[h.roomB].center
    requires WellFormed(g2) && g2.size == g.size
    requires st == HallwayCarving.StairsOf(g.size, h.pathCells, cfg.staircaseRiseToRun, cfg.staircaseHeadroom)
    requires h.hasStaircase == (|st| > 0)
    requires forall c :: IsInBounds(g', c) ==> HallwayCarving.Written(g', g2, h.hallwayIndex, c)
    requires forall c :: IsInBounds(g', c) ==> HallwayCarving.CarvedCell(g', g2, h.pathCells, st, h.hallwayIndex,
      rooms[h.roomA].roomIndex, rooms[h.roomB].roomIndex, c)
    ensures HallwaysSoFar(g, rooms, mst, cfg, done + [(h.roomA, h.roomB)], g2,
                          Connect(rooms', h.roomA, h.roomB), hs + [h], stairs + st)
  {
    var e := (h.roomA, h.roomB);
    var hs' := hs + [h];
    var before := InRangeEdges(done, |rooms|);
    assert (done + [e])[..|done|] == done;
    assert InRangeEdges(done + [e], |rooms|) == before + [e];
    SeqUtils.SubsequenceSnoc(EdgesOf(hs), before, e);
    assert hs'[..|hs|] == hs;
    assert EdgesOf(hs') == EdgesOf(hs) + [e];
    assert StairsOfAll(g.size, hs', cfg.staircaseRiseToRun, cfg.staircaseHeadroom) == stairs + st;
    assert rooms'[h.roomA].center == rooms[h.roomA].center && rooms'[h.roomB].center == rooms[h.roomB].center;
    RecordedStep(hs, h, rooms, mst, g.size, cfg);
    ConnectStep(rooms, rooms', hs, h);
    CarvedStep(g, g', g2, |hs|);
    CarvedInTurnStep(g, rooms, hs, cfg, g', h, g2);
  }

  /** One more carving extends the sequence of grids. */
  lemma CarvedInTurnStep(g: DungeonGrid, rooms: seq<DungeonRoom>, hs: seq<DungeonHallway>, cfg: DungeonConfiguration,
                         g': DungeonGrid, h: DungeonHallway, g2: DungeonGrid)
    requires WellFormed(g) && WellFormed(g') && WellFormed(g2) && g'.size == g.size && g2.size == g.size
    requires exists grids :: CarvedInTurn(g, rooms, hs, cfg, grids) && grids[|hs|] == g'
    requires h.roomA < |rooms| && h.roomB < |rooms|
    requires forall c :: IsInBounds(g', c) ==> HallwayCarving.CarvedCell(g', g2, h.pathCells,
      HallwayCarving.StairsOf(g.size, h.pathCells, cfg.staircaseRiseToRun, cfg.staircaseHeadroom), h.hallwayIndex,
      rooms[h.roomA].roomIndex, rooms[h.roomB].roomIndex, c)
    ensures exists grids :: CarvedInTurn(g, rooms, hs + [h], cfg, grids) && grids[|hs| + 1] == g2
  {
    var grids :| CarvedInTurn(g, rooms, hs, cfg, grids) && grids[|hs|] == g';
    var grids', hs' := grids + [g2], hs + [h];
    assert forall k :: 0 <= k < |grids| ==> grids'[k] == grids[k];
    assert forall k :: 0 <= k < |hs| ==> hs'[k] == hs[k];
    forall k, c | 0 <= k < |hs'| && hs'[k].roomA < |rooms| && hs'[k].roomB < |rooms| && IsInBounds(grids'[k], c)
      ensures HallwayCarving.CarvedCell(grids'[k], grids'[k + 1], hs'[k].pathCells,
        HallwayCarving.StairsOf(g.size, hs'[k].pathCells, cfg.staircaseRiseToRun, cfg.staircaseHeadroom),
        hs'[k].hallwayIndex, rooms[hs'[k].roomA].roomIndex, rooms[hs'[k].roomB].roomIndex, c)
    {
      if k < |hs| {
        assert grids'[k] == grids[k] && grids'[k + 1] == grids[k + 1] && hs'[k] == hs[k];
      } else {
        assert grids'[k] == g' && grids'[k + 1] == g2 && hs'[k] == h;
      }
    }
    assert CarvedInTurn(g, rooms, hs', cfg, grids');
  }

  /**
   * One iteration of step 9: an edge naming a missing room is skipped;
   * otherwise search a path between the two centers on the current grid,
   * and on success carve it with the current hallway number, record the
   * hallway, collect its staircases and connect the two rooms. A failed
   * search changes nothing.
   */
  method VisitEdge(g: DungeonGrid, rooms: seq<DungeonRoom>, mst: seq<RoomEdge>, cfg: DungeonConfiguration,
                   choose: seq<HallwayPathfinder.Node> -> int, done: seq<RoomEdge>, e: RoomEdge, idx: Byte,
                   g': DungeonGrid, rooms': seq<DungeonRoom>, hs: seq<DungeonHallway>, stairs: seq<DungeonStaircase>)
    returns (g'': DungeonGrid, rooms'': seq<DungeonRoom>, hs': seq<DungeonHallway>, stairs': seq<DungeonStaircase>,
             next: Byte)
    requires WellFormed(g) && HallwaysSoFar(g, rooms, mst, cfg, done, g', rooms', hs, stairs)
    requires 0 <= e.0 < 256 && 0 <= e.1 < 256 && idx == ToByte(|hs| + 1)
    ensures HallwaysSoFar(g, rooms, mst, cfg, done + [e], g'', rooms'', hs', stairs')
    ensures |hs'| == |hs| || |hs'| == |hs| + 1
    ensures next == ToByte(|hs'| + 1)
    ensures next == if |hs'| == |hs| then idx else ToByte(idx + 1)
  {
    var (a, b) := e;
    if a >= |rooms| || b >= |rooms| {
      NoHallwayStep(g, rooms, mst, cfg, done, e, g', rooms', hs, stairs);
      return g', rooms', hs, stairs, idx;
    }
    var roomA, roomB := rooms'[a], rooms'[b];
    var found, path := HallwayPathfinder.FindPath(g', roomA.center, roomB.center, cfg,
                                                  roomA.roomIndex, roomB.roomIndex, choose);
    if found {
      g'', rooms'', hs', stairs', next := AddHallway(g, rooms, mst, cfg, done, a, b, idx, g', rooms', hs, stairs, path);
    } else {
      NoHallwayStep(g, rooms, mst, cfg, done, e, g', rooms', hs, stairs);
      return g', rooms', hs, stairs, idx;
    }
  }

  /** A route found between rooms a and b is carved, recorded as the next hallway, and both rooms are linked. */
  method AddHallway(g: DungeonGrid, rooms: seq<DungeonRoom>, mst: seq<RoomEdge>, cfg: DungeonConfiguration,
                    done: seq<RoomEdge>, a: nat, b: nat, idx: Byte,
                    g': DungeonGrid, rooms': seq<DungeonRoom>, hs: seq<DungeonHallway>, stairs: seq<DungeonStaircase>,
                    path: seq<Vec3>)
    returns (g'': DungeonGrid, rooms'': seq<DungeonRoom>, hs': seq<DungeonHallway>, stairs': seq<DungeonStaircase>,
             next: Byte)
    requires WellFormed(g) && HallwaysSoFar(g, rooms, mst, cfg, done, g', rooms', hs, stairs)
    requires a < |rooms| && b < |rooms| && a < 256 && b < 256 && idx == ToByte(|hs| + 1)
    requires 0 < |path| && path[0] == rooms'[a].center && path[|path| - 1] == rooms'[b].center
    ensures HallwaysSoFar(g, rooms, mst, cfg, done + [(a, b)], g'', rooms'', hs', stairs')
    ensures |hs'| == |hs| + 1 && hs'[|hs|].pathCells == path
    ensures next == ToByte(idx + 1) && next == ToByte(|hs'| + 1)
  {
    var roomA, roomB := rooms'[a], rooms'[b];
    var isMst := InMst(mst, (a, b));
    var g2, st := HallwayCarving.CarveHallway(g', path, idx, roomA.roomIndex, roomB.roomIndex,
                                             cfg.staircaseRiseToRun, cfg.staircaseHeadroom);
    var h := DungeonHallway(idx, a, b, path, |st| > 0, isMst);
    assert roomA.roomIndex == rooms[a].roomIndex && roomB.roomIndex == rooms[b].roomIndex;
    HallwayStep(g, rooms, mst, cfg, done, g', rooms', hs, stairs, h, g2, st);
    assert (h.roomA, h.roomB) == (a, b);
    g'', rooms'', hs', stairs' := g2, Connect(rooms', a, b), hs + [h], stairs + st;
    next := NextHallwayIndex(hs, idx, h);
  }

  /** The uint8 counter after one more hallway: the byte of the new count plus one. */
  function NextHallwayIndex(hs: seq<DungeonHallway>, idx: Byte, h: DungeonHallway): (next: Byte)
    requires idx == ToByte(|hs| + 1)
    ensures next == ToByte(|hs + [h]| + 1)
  {
    ByteIncrement(|hs|);
    assert |hs + [h]| + 1 == |hs| + 2;
    ToByte(idx + 1)
  }

  lemma NoHallwaysYet(g: DungeonGrid, rooms: seq<DungeonRoom>, mst: seq<RoomEdge>, cfg: DungeonConfiguration)
    requires WellFormed(g)
    ensures HallwaysSoFar(g, rooms, mst, cfg, [], g, rooms, [], [])
  {
    assert CarvedInTurn(g, rooms, [], cfg, [g]);
    forall i | 0 <= i < |rooms|
      ensures Extends(rooms[i].connectedRoomIndices, rooms[i].connectedRoomIndices)
    {
      assert rooms[i].connectedRoomIndices[..|rooms[i].connectedRoomIndices|] == rooms[i].connectedRoomIndices;
    }
  }

  /**
   * Step 9: every final edge whose rooms exist gets a search; the
   * successful ones become hallways numbered by a uint8 counter from 1.
   */
  method CarveHallways(g: DungeonGrid, rooms: seq<DungeonRoom>, edges: seq<RoomEdge>, mst: seq<RoomEdge>,
                       cfg: DungeonConfiguration, choose: seq<HallwayPathfinder.Node> -> int)
    returns (g': DungeonGrid, rooms': seq<DungeonRoom>, hs: seq<DungeonHallway>, stairs: seq<DungeonStaircase>)
    requires WellFormed(g) && ByteEdges(edges)
    ensures HallwaysSoFar(g, rooms, mst, cfg, edges, g', rooms', hs, stairs)
  {
    NoHallwaysYet(g, rooms, mst, cfg);
    g', rooms', hs, stairs := CarveFrom(g, rooms, edges, mst, cfg, choose, 0, 1, g, rooms, [], []);
  }

  /**
   * The step 9 loop from edge `i` on, with hallway number `idx` next to be
   * issued (the source's 8-bit counter, incremented after each carved
   * hallway).
   */
  method CarveFrom(g: DungeonGrid, rooms: seq<DungeonRoom>, edges: seq<RoomEdge>, mst: seq<RoomEdge>,
                   cfg: DungeonConfiguration, choose: seq<HallwayPathfinder.Node> -> int, i: nat, idx: Byte,
                   g0: DungeonGrid, rooms0: seq<DungeonRoom>, hs0: seq<DungeonHallway>, stairs0: seq<DungeonStaircase>)
    returns (g': DungeonGrid, rooms': seq<DungeonRoom>, hs: seq<DungeonHallway>, stairs: seq<DungeonStaircase>)
    requires WellFormed(g) && ByteEdges(edges) && i <= |edges| && idx == ToByte(|hs0| + 1)
    requires HallwaysSoFar(g, rooms, mst, cfg, edges[..i], g0, rooms0, hs0, stairs0)
    ensures HallwaysSoFar(g, rooms, mst, cfg, edges, g', rooms', hs, stairs)
    decreases |edges| - i
  {
    if i == |edges| {
      assert edges[..i] == edges;
      return g0, rooms0, hs0, stairs0;
    }
    var g1, rooms1, hs1, stairs1, next := VisitEdge(g, rooms, mst, cfg, choose, edges[..i], edges[i], idx, g0, rooms0, hs0, stairs0);
    SeqUtils.PrefixSnoc(edges, i);
    g', rooms', hs, stairs := CarveFrom(g, rooms, edges, mst, cfg, choose, i + 1, next, g1, rooms1, hs1, stairs1);
  }

  /** Connection lists that start empty end up symmetric and free of repeats. */
  lemma ConnectionsSymmetric(rooms: seq<DungeonRoom>, rooms': seq<DungeonRoom>, hs: seq<DungeonHallway>)
    requires Connected(rooms, rooms', hs)
    requires forall i :: 0 <= i < |rooms| ==> rooms[i].connectedRoomIndices == []
    ensures forall i, j :: 0 <= i < |rooms| && 0 <= j < |rooms| ==>
      (j in rooms'[i].connectedRoomIndices <==> i in rooms'[j].connectedRoomIndices)
    ensures forall i :: 0 <= i < |rooms| ==> SeqUtils.Distinct(rooms'[i].connectedRoomIndices)
  {
    forall i, j | 0 <= i < |rooms| && 0 <= j < |rooms|
      ensures j in rooms'[i].connectedRoomIndices <==> i in rooms'[j].connectedRoomIndices
    {
      if j in rooms'[i].connectedRoomIndices {
        var k :| 0 <= k < |hs| && Links(hs[k], i, j);
        assert Links(hs[k], j, i);
      }
      if i in rooms'[j].connectedRoomIndices {
        var k :| 0 <= k < |hs| && Links(hs[k], j, i);
        assert Links(hs[k], i, j);
      }
    }
    forall i | 0 <= i < |rooms|
      ensures SeqUtils.Distinct(rooms'[i].connectedRoomIndices)
    {
      assert Extends(rooms[i].connectedRoomIndices, rooms'[i].connectedRoomIndices);
    }
  }

  /** While fewer than 256 hallways exist their numbers are 1, 2, 3, ... and never repeat. */
  lemma HallwayNumbersDistinct(hs: seq<DungeonHallway>, rooms: seq<DungeonRoom>, mst: seq<RoomEdge>,
                               size: Vec3, cfg: DungeonConfiguration)
    requires |hs| < 256
    requires forall k :: 0 <= k < |hs| ==> Recorded(hs[k], k, rooms, mst, size, cfg)
    ensures forall k :: 0 <= k < |hs| ==> hs[k].hallwayIndex == k + 1
    ensures forall k, l :: 0 <= k < l < |hs| ==> hs[k].hallwayIndex != hs[l].hallwayIndex
  {
  }

  // ------------------------------------------------------------ Step 10: the entrance cell

  /** Flags |= 0x01: the low bit set, the others kept. */
  function WithEntranceFlag(flags: Byte): (f: Byte)
    ensures f % 2 == 1 && f / 2 == flags / 2
  {
    if flags % 2 == 1 then flags else flags + 1
  }

  /** Step 10: with an entrance, a Room or Door cell at the entrance cell becomes an Entrance with its flag set. */
  function MarkEntranceCell(g: DungeonGrid, index: int, cell: Vec3): (g': DungeonGrid)
    requires WellFormed(g) && (0 <= index ==> IsInBounds(g, cell))
    ensures WellFormed(g') && g'.size == g.size
    ensures forall c :: IsInBounds(g, c) && c != cell ==> GetCell(g', c) == GetCell(g, c)
    ensures 0 <= index && GetCell(g, cell).cellType in {Room, Door} ==>
      GetCell(g', cell) == GetCell(g, cell).(cellType := CellType.Entrance,
                                             flags := WithEntranceFlag(GetCell(g, cell).flags))
    ensures !(0 <= index && GetCell(g, cell).cellType in {Room, Door}) ==> g' == g
  {
    if 0 <= index && GetCell(g, cell).cellType in {Room, Door} then
      var old_ := GetCell(g, cell);
      SetCell(g, cell, old_.(cellType := CellType.Entrance, flags := WithEntranceFlag(old_.flags)))
    else g
  }

  /** After step 10 the validator accepts the entrance exactly when the cell was a Room, Door or Entrance cell. */
  lemma EntranceCellValid(r: DungeonResult, g: DungeonGrid)
    requires WellFormed(g) && 0 <= r.entranceRoomIndex < |r.rooms| && IsInBounds(g, r.entranceCell)
    requires r.grid == MarkEntranceCell(g, r.entranceRoomIndex, r.entranceCell)
    ensures DungeonValidator.EntranceValid(r) <==> GetCell(g, r.entranceCell).cellType in {Room, Door, CellType.Entrance}
  {
  }

  // ------------------------------------------------------------ Metrics

  /** The totals: room, door and entrance cells; hallway cells; stair and headroom cells. */
  method ComputeMetrics(r: DungeonResult) returns (r': DungeonResult)
    ensures r' == r.(totalRoomCells := r'.totalRoomCells, totalHallwayCells := r'.totalHallwayCells,
                     totalStaircaseCells := r'.totalStaircaseCells)
    ensures DungeonValidator.MetricsIssues(r') == []
  {
    var rooms, hallways, stairs := DungeonValidator.CountCellClasses(r.grid.cells);
    r' := r.(totalRoomCells := rooms, totalHallwayCells := hallways, totalStaircaseCells := stairs);
  }

  // ------------------------------------------------------------ The pipeline

  /**
   * What the model leaves open: the stream a seed starts and the stream a
   * fork starts, the in-sphere and orientation tests on the (possibly
   * jittered) room centers, the Euclidean tree weights, and the tie orders
   * of Prim's pool and the A* open set.
   */
  datatype Oracles = Oracles(
    engine: int -> (nat -> int),
    spawn: (int, int) -> (nat -> int),
    inSphere: (DelaunayTetrahedralization.Tet, int) -> bool,
    negative: DelaunayTetrahedralization.Tet -> bool,
    distance: (int, int) -> real,
    treeTies: seq<MinimumSpanningTree.Candidate> -> int,
    pathTies: seq<HallwayPathfinder.Node> -> int)

  /**
   * What the pipeline needs of a configuration: a grid the cell array can
   * hold, and room sizes and buffer that keep every room center on the
   * grid (the entrance cell is read with the asserting GetCell). The
   * configuration asset clamps none of these in code: other values run
   * until that GetCell fails, a path the model does not represent.
   */
  predicate Buildable(cfg: DungeonConfiguration) {
    && 0 <= cfg.gridSize.x && 0 <= cfg.gridSize.y && 0 <= cfg.gridSize.z
    && 1 <= cfg.minRoomSize.x && 1 <= cfg.minRoomSize.y && 1 <= cfg.minRoomSize.z
    && 0 <= cfg.roomBuffer
  }

  /** Placed rooms start unconnected, and their centers lie on the grid. */
  lemma PlacedRooms(cfg: DungeonConfiguration, rooms: seq<DungeonRoom>)
    requires Buildable(cfg) && RoomPlacement.GrownAdmissibly(cfg, rooms, 0)
    ensures forall k :: 0 <= k < |rooms| ==> rooms[k].connectedRoomIndices == []
    ensures forall k :: 0 <= k < |rooms| ==> InBox(cfg.gridSize, rooms[k].center)
  {
    forall k | 0 <= k < |rooms|
      ensures rooms[k].connectedRoomIndices == [] && InBox(cfg.gridSize, rooms[k].center)
    {
      assert RoomPlacement.Admissible(cfg, rooms[..k], rooms[k]);
      var p, sz := rooms[k].position, rooms[k].size;
      assert rooms[k] == RoomPlacement.NewRoom(k, p, sz);
      CenterOnAxis(cfg.gridSize.x, cfg.roomBuffer, cfg.minRoomSize.x, cfg.maxRoomSize.x, p.x, sz.x);
      CenterOnAxis(cfg.gridSize.y, cfg.roomBuffer, cfg.minRoomSize.y, cfg.maxRoomSize.y, p.y, sz.y);
      CenterOnAxis(cfg.gridSize.z, 0, cfg.minRoomSize.z, cfg.maxRoomSize.z, p.z, sz.z);
    }
  }

  /** On one axis: a drawn size of at least one and a drawn origin put the midpoint inside [0, extent). */
  lemma CenterOnAxis(extent: int, buffer: int, lo: int, hi: int, p: int, sz: int)
    requires 0 <= buffer && 1 <= lo
    requires RoomPlacement.SizeInRange(lo, hi, sz)
    requires buffer <= p <= extent - sz - buffer
    ensures 0 <= p + Arith.TruncDiv(sz, 2) < extent
  {
  }

  /**
   * Why CenterOnAxis needs a minimum size of one: with a minimum of 0 and
   * no buffer, a size of 0 drawn at the last admissible origin puts the
   * center on the coordinate just past the grid.
   */
  lemma ZeroSizeCenterOffAxis(extent: int, hi: int)
    requires 0 <= extent && 0 <= hi
    ensures RoomPlacement.SizeInRange(0, hi, 0) && 0 <= extent <= extent - 0 - 0
    ensures extent + Arith.TruncDiv(0, 2) == extent
  {
  }

  /** Every entry of a tree Prim grows over edges between n rooms joins two of them. */
  lemma TreeEdgesInRange(valid: seq<Graphs.Edge>, n: int, root: int, out: seq<Graphs.Edge>, order: seq<int>)
    requires forall t :: 0 <= t < |valid| ==> MinimumSpanningTree.EdgeInRange(valid[t], n)
    requires MinimumSpanningTree.GrownTree(valid, n, root, out, order)
    ensures RoomSemantics.EdgesInRange(out, n)
  {
    forall i | 0 <= i < |out|
      ensures 0 <= out[i].0 < n && 0 <= out[i].1 < n
    {
      assert Graphs.Adjacent(valid, out[i].0, out[i].1);
      var t :| 0 <= t < |valid| && Graphs.Joins(valid[t], out[i].0, out[i].1);
    }
  }

  /** The final list keeps the endpoints of the two lists it draws from. */
  lemma FinalEdgesBounds(mst: seq<RoomEdge>, delaunay: seq<RoomEdge>, chance: real, rng: Rng, n: int)
    requires ByteEdges(mst) && ByteEdges(delaunay)
    requires RoomSemantics.EdgesInRange(mst, n) && RoomSemantics.EdgesInRange(delaunay, n)
    ensures ByteEdges(FinalEdges(mst, delaunay, chance, rng).0)
    ensures RoomSemantics.EdgesInRange(FinalEdges(mst, delaunay, chance, rng).0, n)
  {
    var final := FinalEdges(mst, delaunay, chance, rng).0;
    forall k | 0 <= k < |final|
      ensures 0 <= final[k].0 < 256 && 0 <= final[k].1 < 256
      ensures 0 <= final[k].0 < n && 0 <= final[k].1 < n
    {
      assert final[k] in final;
      if final[k] in mst {
        var j :| 0 <= j < |mst| && mst[j] == final[k];
      } else {
        var j :| 0 <= j < |delaunay| && delaunay[j] == final[k];
      }
    }
  }

  /** Steps 5-7: Delaunay edges over the room centers, the tree rooted at the entrance, the final list. */
  method BuildEdges(n: int, entrance: int, chance: real, edgeSeed: Rng, o: Oracles)
    returns (delaunay: seq<RoomEdge>, mst: seq<RoomEdge>, final: seq<RoomEdge>)
    requires 2 <= n && 0 <= entrance < n
    ensures ByteEdges(delaunay) && ByteEdges(mst) && ByteEdges(final)
    ensures final == FinalEdges(mst, delaunay, chance, edgeSeed).0
    ensures RoomSemantics.EdgesInRange(final, n)
  {
    var tetra, _, _ := DelaunayTetrahedralization.Tetrahedralize(n, o.inSphere, o.negative);
    assert RoomSemantics.EdgesInRange(tetra, n) by {
      forall k | 0 <= k < |tetra|
        ensures 0 <= tetra[k].0 < n && 0 <= tetra[k].1 < n
      {
        assert tetra[k] in tetra;
      }
    }
    var tree, order := MinimumSpanningTree.ComputeLightestFirst(n, tetra, o.distance, entrance, o.treeTies);
    if 0 < |tetra| {
      TreeEdgesInRange(MinimumSpanningTree.ValidEdges(tetra, n), n, entrance, tree, order);
    }
    delaunay := ToByteEdges(tetra);
    mst := ToByteEdges(tree);
    ToByteEdgesInRange(tetra, n);
    ToByteEdgesInRange(tree, n);
    FinalEdgesBounds(mst, delaunay, chance, edgeSeed, n);
    final := FinalEdges(mst, delaunay, chance, edgeSeed).0;
  }

  /** Step 8: graph metrics and room types; only the types, distances and main-path flags change. */
  method Classify(rooms: seq<DungeonRoom>, entrance: int, final: seq<RoomEdge>, cfg: DungeonConfiguration)
    returns (rooms': seq<DungeonRoom>)
    requires 0 <= entrance < |rooms| && RoomSemantics.EdgesInRange(final, |rooms|)
    ensures |rooms'| == |rooms|
    ensures rooms'[entrance].roomType == RoomType.Entrance
    ensures forall i :: 0 <= i < |rooms| ==>
      && rooms'[i].center == rooms[i].center
      && rooms'[i].roomIndex == rooms[i].roomIndex
      && rooms'[i].connectedRoomIndices == rooms[i].connectedRoomIndices
  {
    var m := RoomSemantics.ComputeGraphMetrics(rooms, entrance, final);
    rooms' := RoomTypeAssignment.AssignRoomTypes(m.rooms, entrance, m.contexts, cfg);
    RoomTypeAssignment.AssignRoomTypesSound(m.rooms, entrance, m.contexts, cfg);
  }

  /** Every room center shares the first one's Z: with four or more rooms, the case that gets a Z jitter. */
  predicate Coplanar(rooms: seq<DungeonRoom>) {
    forall i :: 0 <= i < |rooms| ==> rooms[i].center.z == rooms[0].center.z
  }

  /** Step 9 on rooms that start unconnected, restated over the rooms it returns. */
  lemma GeneratedHallways(cfg: DungeonConfiguration, rooms: seq<DungeonRoom>, mst: seq<RoomEdge>, final: seq<RoomEdge>,
                          g: DungeonGrid, g': DungeonGrid, rooms': seq<DungeonRoom>,
                          hs: seq<DungeonHallway>, stairs: seq<DungeonStaircase>)
    requires WellFormed(g) && HallwaysSoFar(g, rooms, mst, cfg, final, g', rooms', hs, stairs)
    requires forall i :: 0 <= i < |rooms| ==> rooms[i].connectedRoomIndices == []
    ensures |rooms'| == |rooms|
    ensures forall i :: 0 <= i < |rooms| ==>
      rooms'[i] == rooms[i].(connectedRoomIndices := rooms'[i].connectedRoomIndices)
    ensures forall k :: 0 <= k < |hs| ==> Recorded(hs[k], k, rooms', mst, g.size, cfg)
    ensures forall i, j :: 0 <= i < |rooms| && 0 <= j < |rooms| ==>
      (j in rooms'[i].connectedRoomIndices <==> i in rooms'[j].connectedRoomIndices)
    ensures forall i :: 0 <= i < |rooms| ==> SeqUtils.Distinct(rooms'[i].connectedRoomIndices)
  {
    ConnectionsSymmetric(rooms, rooms', hs);
    forall k | 0 <= k < |hs|
      ensures Recorded(hs[k], k, rooms', mst, g.size, cfg)
    {
      var h := hs[k];
      assert Recorded(h, k, rooms, mst, g.size, cfg);
      assert rooms'[h.roomA].center == rooms[h.roomA].center;
      assert rooms'[h.roomB].center == rooms[h.roomB].center;
    }
  }

  /** What a run that placed at least two rooms promises. */
  ghost predicate Built(cfg: DungeonConfiguration, r: DungeonResult)
    requires WellFormed(r.grid)
  {
    && 0 <= r.entranceRoomIndex < |r.rooms|
    && r.rooms[r.entranceRoomIndex].roomType == RoomType.Entrance
    && r.entranceCell == r.rooms[r.entranceRoomIndex].center
    && IsInBounds(r.grid, r.entranceCell)
    && ByteEdges(r.delaunayEdges) && ByteEdges(r.mstEdges)
    && |r.mstEdges| <= |r.finalEdges| && r.finalEdges[..|r.mstEdges|] == r.mstEdges
    && SeqUtils.Subsequence(r.finalEdges[|r.mstEdges|..], NotInMst(r.delaunayEdges, r.mstEdges))
    && (forall k :: 0 <= k < |r.hallways| ==>
          Recorded(r.hallways[k], k, r.rooms, r.mstEdges, cfg.gridSize, cfg))
    && SeqUtils.Subsequence(EdgesOf(r.hallways), InRangeEdges(r.finalEdges, |r.rooms|))
    && r.staircases == StairsOfAll(cfg.gridSize, r.hallways, cfg.staircaseRiseToRun, cfg.staircaseHeadroom)
    && (forall i, j :: 0 <= i < |r.rooms| && 0 <= j < |r.rooms| ==>
          (j in r.rooms[i].connectedRoomIndices <==> i in r.rooms[j].connectedRoomIndices))
    && (forall i :: 0 <= i < |r.rooms| ==> SeqUtils.Distinct(r.rooms[i].connectedRoomIndices))
    && DungeonValidator.MetricsIssues(r) == []
  }

  /** What Generate promises for a configuration. */
  ghost predicate Generated(cfg: DungeonConfiguration, seed: int, r: DungeonResult) {
    && r.seed == seed && r.gridSize == cfg.gridSize && r.cellWorldSize == cfg.cellWorldSize
    && WellFormed(r.grid) && r.grid.size == cfg.gridSize
    && (|r.rooms| < 2 ==>
          r.hallways == [] && r.staircases == [] && r.finalEdges == [] && r.entranceRoomIndex == -1)
    && (2 <= |r.rooms| ==> Built(cfg, r))
  }

  /**
   * Steps 4-8: the entrance room from stream 3, the jitter fork when the
   * centers are coplanar, the edge lists with stream 2, then metrics and
   * room types.
   */
  method Arrange(cfg: DungeonConfiguration, rooms: seq<DungeonRoom>, seed: Rng, o: Oracles)
    returns (entrance: int, cell: Vec3, rooms': seq<DungeonRoom>,
             delaunay: seq<RoomEdge>, mst: seq<RoomEdge>, final: seq<RoomEdge>)
    requires 2 <= |rooms|
    requires forall k :: 0 <= k < |rooms| ==> rooms[k].connectedRoomIndices == []
    requires forall k :: 0 <= k < |rooms| ==> InBox(cfg.gridSize, rooms[k].center)
    ensures 0 <= entrance < |rooms'| == |rooms|
    ensures rooms'[entrance].roomType == RoomType.Entrance && cell == rooms'[entrance].center
    ensures InBox(cfg.gridSize, cell)
    ensures forall k :: 0 <= k < |rooms'| ==> rooms'[k].connectedRoomIndices == []
    ensures ByteEdges(delaunay) && ByteEdges(mst) && ByteEdges(final)
    ensures |mst| <= |final| && final[..|mst|] == mst
    ensures SeqUtils.Subsequence(final[|mst|..], NotInMst(delaunay, mst))
  {
    var (entranceSeed, main1) := Fork(seed, 3);
    var (e, _) := RoomSemantics.SelectEntranceRoom(rooms, cfg.gridSize, cfg.entrancePlacement, entranceSeed);
    entrance := e;
    var marked := MarkEntranceRoom(rooms, entrance, ZeroVec);
    var rooms4 := marked.0;
    cell := marked.1;
    // The jitter stream is forked only when four or more centers share one Z.
    var main2 := if Coplanar(rooms) && 4 <= |rooms| then Fork(main1, 99).1 else main1;
    var (edgeSeed, _) := Fork(main2, 2);
    delaunay, mst, final := BuildEdges(|rooms|, entrance, cfg.edgeReadditionChance, edgeSeed, o);
    rooms' := Classify(rooms4, entrance, final, cfg);
  }

  /** Step 9 as Finish sees it: the parts of the hallway loop's outcome that the result records. */
  method CarveAndLink(cfg: DungeonConfiguration, r0: DungeonResult, o: Oracles)
    returns (g9: DungeonGrid, rooms9: seq<DungeonRoom>, hs: seq<DungeonHallway>, stairs: seq<DungeonStaircase>)
    requires WellFormed(r0.grid) && r0.grid.size == cfg.gridSize && ByteEdges(r0.finalEdges)
    requires forall k :: 0 <= k < |r0.rooms| ==> r0.rooms[k].connectedRoomIndices == []
    ensures WellFormed(g9) && g9.size == cfg.gridSize && |rooms9| == |r0.rooms|
    ensures forall i :: 0 <= i < |r0.rooms| ==>
      rooms9[i] == r0.rooms[i].(connectedRoomIndices := rooms9[i].connectedRoomIndices)
    ensures forall k :: 0 <= k < |hs| ==> Recorded(hs[k], k, rooms9, r0.mstEdges, cfg.gridSize, cfg)
    ensures SeqUtils.Subsequence(EdgesOf(hs), InRangeEdges(r0.finalEdges, |r0.rooms|))
    ensures stairs == StairsOfAll(cfg.gridSize, hs, cfg.staircaseRiseToRun, cfg.staircaseHeadroom)
    ensures forall i, j :: 0 <= i < |rooms9| && 0 <= j < |rooms9| ==>
      (j in rooms9[i].connectedRoomIndices <==> i in rooms9[j].connectedRoomIndices)
    ensures forall i :: 0 <= i < |rooms9| ==> SeqUtils.Distinct(rooms9[i].connectedRoomIndices)
  {
    g9, rooms9, hs, stairs := CarveHallways(r0.grid, r0.rooms, r0.finalEdges, r0.mstEdges, cfg, o.pathTies);
    GeneratedHallways(cfg, r0.rooms, r0.mstEdges, r0.finalEdges, r0.grid, g9, rooms9, hs, stairs);
  }

  /** Steps 9-10 and the totals, on the grid and rooms that steps 1-8 produced. */
  method Finish(cfg: DungeonConfiguration, r0: DungeonResult, o: Oracles) returns (r: DungeonResult)
    requires WellFormed(r0.grid) && r0.grid.size == cfg.gridSize
    requires 0 <= r0.entranceRoomIndex < |r0.rooms|
    requires r0.rooms[r0.entranceRoomIndex].roomType == RoomType.Entrance
    requires r0.entranceCell == r0.rooms[r0.entranceRoomIndex].center && InBox(cfg.gridSize, r0.entranceCell)
    requires forall k :: 0 <= k < |r0.rooms| ==> r0.rooms[k].connectedRoomIndices == []
    requires ByteEdges(r0.delaunayEdges) && ByteEdges(r0.mstEdges) && ByteEdges(r0.finalEdges)
    requires |r0.mstEdges| <= |r0.finalEdges| && r0.finalEdges[..|r0.mstEdges|] == r0.mstEdges
    requires SeqUtils.Subsequence(r0.finalEdges[|r0.mstEdges|..], NotInMst(r0.delaunayEdges, r0.mstEdges))
    ensures r == r0.(grid := r.grid, rooms := r.rooms, hallways := r.hallways, staircases := r.staircases,
                     totalRoomCells := r.totalRoomCells, totalHallwayCells := r.totalHallwayCells,
                     totalStaircaseCells := r.totalStaircaseCells)
    ensures WellFormed(r.grid) && r.grid.size == cfg.gridSize && |r.rooms| == |r0.rooms|
    ensures Built(cfg, r)
  {
    var g9, rooms9, hs, stairs := CarveAndLink(cfg, r0, o);
    var g10 := MarkEntranceCell(g9, r0.entranceRoomIndex, r0.entranceCell);
    r := r0.(grid := g10, rooms := rooms9, hallways := hs, staircases := stairs);
    r := ComputeMetrics(r);
  }

  /**
   * Generate: a missing configuration gives the default result. Otherwise
   * seed 0 is replaced by the clock, the grid is sized from the
   * configuration and rooms are placed; fewer than two rooms end the run
   * there, and otherwise steps 4-10 and the totals follow.
   */
  method Generate(config: Option<DungeonConfiguration>, seed: int, clock: int, o: Oracles)
    returns (r: DungeonResult)
    requires config.Some? ==> Buildable(config.value)
    ensures config.None? ==> r == DefaultResult
    ensures config.Some? ==> Generated(config.value, if seed == 0 then clock else seed, r)
  {
    if config.None? {
      return DefaultResult;
    }
    var cfg := config.value;
    var s := if seed == 0 then clock else seed;
    var main := Rng(o.engine(s), 0, o.spawn);
    var placed := RoomPlacement.PlaceRooms(Initialize(cfg.gridSize), cfg, main, []);
    r := DefaultResult.(seed := s, gridSize := cfg.gridSize, cellWorldSize := cfg.cellWorldSize,
                        grid := placed.grid, rooms := placed.rooms);
    if !placed.ok {
      return;
    }
    assert placed.rooms[0..] == placed.rooms;
    PlacedRooms(cfg, placed.rooms);
    var entrance, cell, rooms, delaunay, mst, final := Arrange(cfg, placed.rooms, placed.seed, o);
    r := r.(rooms := rooms, delaunayEdges := delaunay, mstEdges := mst, finalEdges := final,
            entranceRoomIndex := entrance, entranceCell := cell);
    r := Finish(cfg, r, o);
  }
}

=== FILE: dungeon_seed.dfy ===
/**
 * The generator's random source. The engine stream it wraps is not part of
 * this model: a stream is any function from draw number to raw value, and a
 * forked stream is whatever the spawning function makes of the parent's draw
 * and the subsystem id. Every property that depends on randomness is stated
 * for all such streams.
 */
module DungeonSeed {
  const MaxInt32 := 0x7fff_ffff
  const FractionBits := 0x100_0000

  datatype Rng = Rng(raw: nat -> int, pos: nat, spawn: (int, int) -> (nat -> int))

  /** Takes the next raw value and advances the stream by one draw. */
  function Next(r: Rng): (res: (int, Rng))
    ensures res.1.pos == r.pos + 1 && res.1.raw == r.raw && res.1.spawn == r.spawn
  {
    (r.raw(r.pos), r.(pos := r.pos + 1))
  }

  /** RandRange: a value in [lo, hi] inclusive; an empty range yields lo. */
  function RandRange(r: Rng, lo: int, hi: int): (res: (int, Rng))
    ensures lo <= hi ==> lo <= res.0 <= hi
    ensures hi < lo ==> res.0 == lo
    ensures res.1.pos == r.pos + 1 && res.1.raw == r.raw && res.1.spawn == r.spawn
  {
    var (v, r') := Next(r);
    if hi < lo then (lo, r') else (lo + v % (hi - lo + 1), r')
  }

  /** FRand: a fraction in [0, 1). */
  function FRand(r: Rng): (res: (real, Rng))
    ensures 0.0 <= res.0 < 1.0
    ensures res.1.pos == r.pos + 1 && res.1.raw == r.raw && res.1.spawn == r.spawn
  {
    var (v, r') := Next(r);
    ((v % FractionBits) as real / FractionBits as real, r')
  }

  /** RandBool: true exactly when the drawn fraction is below the probability. */
  function RandBool(r: Rng, p: real): (res: (bool, Rng))
    ensures res.0 <==> FRand(r).0 < p
    ensures p <= 0.0 ==> !res.0
    ensures 1.0 <= p ==> res.0
    ensures res.1 == FRand(r).1
  {
    var (f, r') := FRand(r);
    (f < p, r')
  }

  /** Fork: spends one draw in [0, MAX_int32 - 1] and starts a child stream from it. */
  function Fork(r: Rng, subsystem: int): (res: (Rng, Rng))
    ensures res.0.pos == 0 && res.0.spawn == r.spawn
    ensures res.1.pos == r.pos + 1 && res.1.raw == r.raw
    ensures res.0.raw == r.spawn(RandRange(r, 0, MaxInt32 - 1).0, subsystem)
  {
    var (derived, r') := RandRange(r, 0, MaxInt32 - 1);
    (Rng(r.spawn(derived, subsystem), 0, r.spawn), r')
  }
}

=== FILE: dungeon_tile_mapper.dfy ===
/**
 * The tile mapper: turns a generated grid into one instance list per tile
 * type. An instance transform is abstracted to the cell it belongs to, the
 * face of that cell it sits on and its yaw in degrees; world positions and
 * scales are left out.
 */
module DungeonTileMapper {
  import opened DungeonTypes
  import SeqUtils
  import HallwayPathfinder

  datatype TileType =
    | RoomFloor
    | HallwayFloor
    | RoomCeiling
    | HallwayCeiling
    | WallSegment
    | DoorFrame
    | EntranceFrame
    | StaircaseMesh

  /** The number of tile slots of a tile map. */
  const TypeCount := 8

  /** The slot of a tile type: its position in the enumeration. */
  function Slot(t: TileType): (k: nat)
    ensures k < TypeCount
  {
    match t
    case RoomFloor => 0
    case HallwayFloor => 1
    case RoomCeiling => 2
    case HallwayCeiling => 3
    case WallSegment => 4
    case DoorFrame => 5
    case EntranceFrame => 6
    case StaircaseMesh => 7
  }

  /** The tile type stored in a slot; slots and tile types correspond one to one. */
  function TypeOfSlot(k: nat): (t: TileType)
    requires k < TypeCount
    ensures Slot(t) == k
  {
    [RoomFloor, HallwayFloor, RoomCeiling, HallwayCeiling, WallSegment, DoorFrame, EntranceFrame, StaircaseMesh][k]
  }

  /** Where on its cell an instance sits: a horizontal face is named by the offset to the neighbour. */
  datatype Face = Floor | Ceiling | Marker | Side(dx: int, dy: int)

  /** An instance transform, reduced to its cell, its face and its yaw in degrees. */
  datatype Tile = Tile(cell: Vec3, face: Face, yaw: int)

  /** Which mesh slots of the tile set hold a mesh. */
  datatype TileSet = TileSet(
    roomFloor: bool,
    hallwayFloor: bool,
    roomCeiling: bool,
    hallwayCeiling: bool,
    wallSegment: bool,
    doorFrame: bool,
    entranceFrame: bool,
    staircaseMesh: bool)

  predicate HasMesh(ts: TileSet, t: TileType) {
    match t
    case RoomFloor => ts.roomFloor
    case HallwayFloor => ts.hallwayFloor
    case RoomCeiling => ts.roomCeiling
    case HallwayCeiling => ts.hallwayCeiling
    case WallSegment => ts.wallSegment
    case DoorFrame => ts.doorFrame
    case EntranceFrame => ts.entranceFrame
    case StaircaseMesh => ts.staircaseMesh
  }

  /** The mapper's output: one list of instances per slot. */
  datatype TileMap = TileMap(transforms: seq<seq<Tile>>)

  predicate Shaped(m: TileMap) {
    |m.transforms| == TypeCount
  }

  const EmptyMap := TileMap([[], [], [], [], [], [], [], []])

  // ------------------------------------------------------------ Instance counts

  function SumLengths(ls: seq<seq<Tile>>): (n: nat)
    ensures n == 0 <==> forall k :: 0 <= k < |ls| ==> ls[k] == []
  {
    if ls == [] then 0 else SumLengths(ls[..|ls| - 1]) + |ls[|ls| - 1]|
  }

  /** Appending one instance to one list raises the sum of the lengths by one. */
  lemma {:induction false} SumLengthsAppend(ls: seq<seq<Tile>>, k: nat, x: Tile)
    requires k < |ls|
    ensures SumLengths(ls[k := ls[k] + [x]]) == SumLengths(ls) + 1
    decreases |ls|
  {
    var ls' := ls[k := ls[k] + [x]];
    var n := |ls| - 1;
    assert ls'[..n] == if k == n then ls[..n] else ls[..n][k := ls[k] + [x]];
    if k < n {
      SumLengthsAppend(ls[..n], k, x);
    }
  }

  /** GetTotalInstanceCount: the number of instances over all tile types. */
  function TotalInstanceCount(m: TileMap): (n: nat)
    requires Shaped(m)
    ensures n == 0 <==> forall t: TileType :: m.transforms[Slot(t)] == []
  {
    SlotsCover(m);
    SumLengths(m.transforms)
  }

  /** Every slot is the slot of some tile type, so "all slots" and "all tile types" agree. */
  lemma SlotsCover(m: TileMap)
    requires Shaped(m)
    ensures (forall k :: 0 <= k < |m.transforms| ==> m.transforms[k] == []) <==> forall t: TileType :: m.transforms[Slot(t)] == []
  {
    if forall t: TileType :: m.transforms[Slot(t)] == [] {
      forall k | 0 <= k < |m.transforms|
        ensures m.transforms[k] == []
      {
        assert Slot(TypeOfSlot(k)) == k;
      }
    }
  }

  /** Reset: every list is emptied, so the map holds no instance. */
  function Reset(m: TileMap): (m': TileMap)
    requires Shaped(m)
    ensures Shaped(m')
    ensures forall t: TileType :: m'.transforms[Slot(t)] == []
    ensures TotalInstanceCount(m') == 0
  {
    EmptyMap
  }

  /** Adds one instance to the list of its tile type. */
  function Emplace(m: TileMap, t: TileType, x: Tile): (m': TileMap)
    requires Shaped(m)
    ensures Shaped(m')
    ensures m'.transforms[Slot(t)] == m.transforms[Slot(t)] + [x]
    ensures forall u :: u != t ==> m'.transforms[Slot(u)] == m.transforms[Slot(u)]
    ensures TotalInstanceCount(m') == TotalInstanceCount(m) + 1
  {
    SumLengthsAppend(m.transforms, Slot(t), x);
    TileMap(m.transforms[Slot(t) := m.transforms[Slot(t)] + [x]])
  }

  // ------------------------------------------------------------ Solidity

  /** The cells that get geometry: room interiors, doors, entrances, hallways and stairs. */
  predicate Walkable(t: CellType) {
    IsRoomFamily(t) || IsHallwayFamily(t)
  }

  /** IsSolid: out of bounds, Empty or RoomWall. */
  function IsSolid(g: DungeonGrid, c: Vec3): (b: bool)
    requires WellFormed(g)
    ensures b <==> !IsInBounds(g, c) || !Walkable(GetCell(g, c).cellType)
  {
    !IsInBounds(g, c) || GetCell(g, c).cellType == Empty || GetCell(g, c).cellType == RoomWall
  }

  function Below(c: Vec3): Vec3 { Vec3(c.x, c.y, c.z - 1) }

  function Above(c: Vec3): Vec3 { Vec3(c.x, c.y, c.z + 1) }

  function Beside(c: Vec3, dx: int, dy: int): Vec3 { Vec3(c.x + dx, c.y + dy, c.z) }

  // ------------------------------------------------------------ Orientation

  /** The four horizontal faces in the order they are examined, with the yaw of a tile on each. */
  const WallChecks: seq<(int, int, int)> := [(1, 0, 0), (-1, 0, 180), (0, 1, 90), (0, -1, -90)]

  /** The yaw of the staircase marker for each climb-direction code; an unknown code keeps yaw 0. */
  function StairYaw(direction: Byte): (yaw: int)
    ensures direction >= 4 ==> yaw == 0
  {
    match direction
    case 0 => 0
    case 1 => 180
    case 2 => 90
    case 3 => -90
    case _ => 0
  }

  /** The yaw of a tile on the face towards (dx, dy). */
  function SideYaw(dx: int, dy: int): int {
    if dx == 1 then 0 else if dx == -1 then 180 else if dy == 1 then 90 else -90
  }

  predicate IsSide(dx: int, dy: int) {
    (dx, dy) in HallwayPathfinder.HorizontalDirs
  }

  /**
   * The wall table faces the same four directions as the route search, in
   * the same order, and a staircase marker takes the yaw of the face it
   * climbs towards, so direction code d and wall check d agree.
   */
  lemma OrientationsAgree(d: nat)
    requires d < 4
    ensures (WallChecks[d].0, WallChecks[d].1) == HallwayPathfinder.HorizontalDirs[d]
    ensures WallChecks[d].2 == SideYaw(WallChecks[d].0, WallChecks[d].1) == StairYaw(d)
    ensures forall e :: 0 <= e < 4 && StairYaw(e) == StairYaw(d) ==> e == d
  {
  }

  // ------------------------------------------------------------ Which tiles a cell gets

  function FloorType(t: CellType): TileType {
    if t == Hallway then HallwayFloor else RoomFloor
  }

  function CeilingType(t: CellType): TileType {
    if t == Hallway then HallwayCeiling else RoomCeiling
  }

  function FrameType(t: CellType): TileType {
    if t == Door then DoorFrame else EntranceFrame
  }

  /**
   * The rule for every tile type: a tile of type t sits on a face of a
   * walkable cell exactly when t's mesh is set and
   * - RoomFloor / HallwayFloor: on the floor of a non-hallway / hallway cell above a solid cell;
   * - RoomCeiling / HallwayCeiling: on the ceiling of such a cell below a solid cell;
   * - WallSegment: on a horizontal face towards a solid neighbour;
   * - DoorFrame / EntranceFrame: on a horizontal face of a Door / Entrance cell
   *   towards an open neighbour that is not a Room cell;
   * - StaircaseMesh: as the marker of a Staircase cell, turned to its climb direction.
   * Floors and ceilings have yaw 0 and a face tile has the yaw of its face.
   */
  predicate Emits(g: DungeonGrid, ts: TileSet, t: TileType, x: Tile)
    requires WellFormed(g)
  {
    && IsInBounds(g, x.cell)
    && Walkable(GetCell(g, x.cell).cellType)
    && HasMesh(ts, t)
    && var cell := GetCell(g, x.cell);
    match t
    case RoomFloor =>
      x.face == Floor && x.yaw == 0 && cell.cellType != Hallway && IsSolid(g, Below(x.cell))
    case HallwayFloor =>
      x.face == Floor && x.yaw == 0 && cell.cellType == Hallway && IsSolid(g, Below(x.cell))
    case RoomCeiling =>
      x.face == Ceiling && x.yaw == 0 && cell.cellType != Hallway && IsSolid(g, Above(x.cell))
    case HallwayCeiling =>
      x.face == Ceiling && x.yaw == 0 && cell.cellType == Hallway && IsSolid(g, Above(x.cell))
    case WallSegment =>
      x.face.Side? && IsSide(x.face.dx, x.face.dy) && x.yaw == SideYaw(x.face.dx, x.face.dy)
      && IsSolid(g, Beside(x.cell, x.face.dx, x.face.dy))
    case DoorFrame =>
      x.face.Side? && IsSide(x.face.dx, x.face.dy) && x.yaw == SideYaw(x.face.dx, x.face.dy)
      && cell.cellType == Door && OpensOntoNonRoom(g, x.cell, x.face.dx, x.face.dy)
    case EntranceFrame =>
      x.face.Side? && IsSide(x.face.dx, x.face.dy) && x.yaw == SideYaw(x.face.dx, x.face.dy)
      && cell.cellType == CellType.Entrance && OpensOntoNonRoom(g, x.cell, x.face.dx, x.face.dy)
    case StaircaseMesh =>
      x.face == Marker && cell.cellType == Staircase && x.yaw == StairYaw(cell.staircaseDirection)
  }

  /** The neighbour on the given side is open and is not a Room cell. */
  predicate OpensOntoNonRoom(g: DungeonGrid, c: Vec3, dx: int, dy: int)
    requires WellFormed(g)
  {
    !IsSolid(g, Beside(c, dx, dy)) && GetCell(g, Beside(c, dx, dy)).cellType != Room
  }

  /** The tile, if any, on the k-th horizontal face of a cell (the per-face branch of the mapper). */
  function FaceTiles(g: DungeonGrid, ts: TileSet, c: Vec3, k: nat): (out: seq<(TileType, Tile)>)
    requires WellFormed(g) && IsInBounds(g, c) && k < 4
    ensures |out| <= 1
    ensures forall i :: 0 <= i < |out| ==> out[i].1 == Tile(c, Side(WallChecks[k].0, WallChecks[k].1), WallChecks[k].2)
  {
    var (dx, dy, yaw) := WallChecks[k];
    var t := GetCell(g, c).cellType;
    var n := Beside(c, dx, dy);
    if IsSolid(g, n) then
      if ts.wallSegment then [(WallSegment, Tile(c, Side(dx, dy), yaw))] else []
    else if t == Door || t == CellType.Entrance then
      if GetCell(g, n).cellType != Room && HasMesh(ts, FrameType(t)) then
        [(FrameType(t), Tile(c, Side(dx, dy), yaw))]
      else []
    else []
  }

  /** The faces of a cell in the order the mapper fills them: marker, floor, ceiling, then the wall checks. */
  const PartFaces: seq<Face> := [Marker, Floor, Ceiling, Side(1, 0), Side(-1, 0), Side(0, 1), Side(0, -1)]

  /**
   * The body of the mapper's loop for one cell, one part per face in the
   * order the instances are added; Empty and RoomWall cells are skipped.
   */
  function CellParts(g: DungeonGrid, ts: TileSet, c: Vec3): (ps: seq<seq<(TileType, Tile)>>)
    requires WellFormed(g) && IsInBounds(g, c)
    ensures |ps| == if Walkable(GetCell(g, c).cellType) then |PartFaces| else 0
    ensures forall i :: 0 <= i < |ps| ==> |ps[i]| <= 1
    ensures forall i, j :: 0 <= i < |ps| && 0 <= j < |ps[i]| ==> ps[i][j].1.cell == c && ps[i][j].1.face == PartFaces[i]
  {
    var cell := GetCell(g, c);
    var t := cell.cellType;
    if t == Empty || t == RoomWall then []
    else
      var stair := if t == Staircase && ts.staircaseMesh then [(StaircaseMesh, Tile(c, Marker, StairYaw(cell.staircaseDirection)))] else [];
      var floor := if HasMesh(ts, FloorType(t)) && IsSolid(g, Below(c)) then [(FloorType(t), Tile(c, Floor, 0))] else [];
      var ceiling := if HasMesh(ts, CeilingType(t)) && IsSolid(g, Above(c)) then [(CeilingType(t), Tile(c, Ceiling, 0))] else [];
      [stair, floor, ceiling, FaceTiles(g, ts, c, 0), FaceTiles(g, ts, c, 1), FaceTiles(g, ts, c, 2), FaceTiles(g, ts, c, 3)]
  }

  /** A cell's instances in the order they are added. */
  function CellTiles(g: DungeonGrid, ts: TileSet, c: Vec3): (out: seq<(TileType, Tile)>)
    requires WellFormed(g) && IsInBounds(g, c)
  {
    SeqUtils.Flatten(CellParts(g, ts, c))
  }

  /** Each wall check names a horizontal side, with that side's yaw, and no two name the same side. */
  lemma WallCheckFacts(k: nat)
    requires k < 4
    ensures IsSide(WallChecks[k].0, WallChecks[k].1)
    ensures SideYaw(WallChecks[k].0, WallChecks[k].1) == WallChecks[k].2
    ensures HallwayPathfinder.HorizontalDirs[k] == (WallChecks[k].0, WallChecks[k].1)
  {
  }

  /** The face tiles of one face of a walkable cell are exactly the face tiles the rule allows there. */
  lemma FaceTilesExact(g: DungeonGrid, ts: TileSet, c: Vec3, k: nat, t: TileType, x: Tile)
    requires WellFormed(g) && IsInBounds(g, c) && Walkable(GetCell(g, c).cellType) && k < 4
    requires x.face == Side(WallChecks[k].0, WallChecks[k].1)
    ensures (t, x) in FaceTiles(g, ts, c, k) <==> x.cell == c && Emits(g, ts, t, x)
  {
    WallCheckFacts(k);
    var (dx, dy, yaw) := WallChecks[k];
    var out := FaceTiles(g, ts, c, k);
    var n := Beside(c, dx, dy);
    var tc := GetCell(g, c).cellType;
    if x.cell != c || x.yaw != yaw {
      assert (t, x) !in out;
    } else if IsSolid(g, n) {
      assert out == if ts.wallSegment then [(WallSegment, x)] else [];
    } else if tc == Door || tc == CellType.Entrance {
      assert out == if GetCell(g, n).cellType != Room && HasMesh(ts, FrameType(tc)) then [(FrameType(tc), x)] else [];
    } else {
      assert out == [];
    }
  }

  /** The part for face i of a walkable cell holds exactly the tile the rule allows on that face. */
  lemma PartExact(g: DungeonGrid, ts: TileSet, c: Vec3, i: nat, t: TileType, x: Tile)
    requires WellFormed(g) && IsInBounds(g, c) && Walkable(GetCell(g, c).cellType) && i < |PartFaces|
    ensures (t, x) in CellParts(g, ts, c)[i] <==> x.face == PartFaces[i] && x.cell == c && Emits(g, ts, t, x)
  {
    if i >= 3 && x.face == PartFaces[i] {
      FaceTilesExact(g, ts, c, i - 3, t, x);
    }
  }

  /**
   * A cell's instances are exactly the tiles the rule allows on its faces.
   */
  lemma CellTilesExact(g: DungeonGrid, ts: TileSet, c: Vec3, t: TileType, x: Tile)
    requires WellFormed(g) && IsInBounds(g, c)
    ensures (t, x) in CellTiles(g, ts, c) <==> x.cell == c && Emits(g, ts, t, x)
  {
    var ps := CellParts(g, ts, c);
    SeqUtils.FlattenMember(ps, (t, x));
    if Walkable(GetCell(g, c).cellType) {
      forall i | 0 <= i < |ps|
        ensures (t, x) in ps[i] <==> x.face == PartFaces[i] && x.cell == c && Emits(g, ts, t, x)
      {
        PartExact(g, ts, c, i, t, x);
      }
      if x.cell == c && Emits(g, ts, t, x) {
        var i := FaceSlot(x.face);
        assert x.face == PartFaces[i];
      }
    }
  }

  /** The part a face belongs to, for the faces the rule can put a tile on. */
  function FaceSlot(f: Face): (i: nat)
    ensures i < |PartFaces|
    ensures (f.Side? ==> IsSide(f.dx, f.dy)) ==> PartFaces[i] == f
  {
    match f
    case Marker => 0
    case Floor => 1
    case Ceiling => 2
    case Side(dx, dy) =>
      if (dx, dy) == (1, 0) then 3 else if (dx, dy) == (-1, 0) then 4 else if (dx, dy) == (0, 1) then 5 else 6
  }

  /** A concatenation of repeat-free lists with no common element is repeat-free. */
  lemma DistinctConcat<T>(a: seq<T>, b: seq<T>)
    requires SeqUtils.Distinct(a) && SeqUtils.Distinct(b)
    requires forall i :: 0 <= i < |a| ==> a[i] !in b
    ensures SeqUtils.Distinct(a + b)
  {
    forall i, j | 0 <= i < j < |a + b|
      ensures (a + b)[i] != (a + b)[j]
    {
      if i < |a| && j >= |a| {
        assert (a + b)[j] == b[j - |a|];
      }
    }
  }

  /**
   * Parts of at most one instance each, the i-th on the i-th face, concatenate
   * to a repeat-free list.
   */
  lemma {:induction false} PartsDistinct(ps: seq<seq<(TileType, Tile)>>)
    requires |ps| <= |PartFaces|
    requires forall i :: 0 <= i < |ps| ==> |ps[i]| <= 1
    requires forall i, j :: 0 <= i < |ps| && 0 <= j < |ps[i]| ==> ps[i][j].1.face == PartFaces[i]
    ensures SeqUtils.Distinct(SeqUtils.Flatten(ps))
    decreases |ps|
  {
    if |ps| > 0 {
      var n := |ps| - 1;
      var init := ps[..n];
      PartsDistinct(init);
      var head := SeqUtils.Flatten(init);
      forall i | 0 <= i < |head|
        ensures head[i] !in ps[n]
      {
        SeqUtils.FlattenMember(init, head[i]);
        var k :| 0 <= k < |init| && head[i] in init[k];
        assert head[i].1.face == PartFaces[k];
      }
      DistinctConcat(head, ps[n]);
    }
  }

  /** No instance appears twice among a cell's instances. */
  lemma CellTilesDistinct(g: DungeonGrid, ts: TileSet, c: Vec3)
    requires WellFormed(g) && IsInBounds(g, c)
    ensures SeqUtils.Distinct(CellTiles(g, ts, c))
  {
    PartsDistinct(CellParts(g, ts, c));
  }

  /** Every instance of a cell belongs to that cell. */
  lemma CellTilesLocal(g: DungeonGrid, ts: TileSet, c: Vec3)
    requires WellFormed(g) && IsInBounds(g, c)
    ensures forall i :: 0 <= i < |CellTiles(g, ts, c)| ==> CellTiles(g, ts, c)[i].1.cell == c
  {
    var ps := CellParts(g, ts, c);
    forall i | 0 <= i < |CellTiles(g, ts, c)|
      ensures CellTiles(g, ts, c)[i].1.cell == c
    {
      var y := CellTiles(g, ts, c)[i];
      SeqUtils.FlattenMember(ps, y);
      var k :| 0 <= k < |ps| && y in ps[k];
    }
  }

  // ------------------------------------------------------------ The scan

  /** Every list of the map is free of repeats. */
  predicate ListsDistinct(m: TileMap)
    requires Shaped(m)
  {
    forall k :: 0 <= k < TypeCount ==> SeqUtils.Distinct(m.transforms[k])
  }

  /** Adds a cell's instances, in order, to the lists of their tile types. */
  function EmplaceAll(m: TileMap, tiles: seq<(TileType, Tile)>): (m': TileMap)
    requires Shaped(m)
    ensures Shaped(m')
    ensures forall t, x :: x in m'.transforms[Slot(t)] <==> x in m.transforms[Slot(t)] || (t, x) in tiles
    ensures TotalInstanceCount(m') == TotalInstanceCount(m) + |tiles|
    decreases |tiles|
  {
    if tiles == [] then m
    else
      var last := tiles[|tiles| - 1];
      var prev := EmplaceAll(m, tiles[..|tiles| - 1]);
      assert tiles == tiles[..|tiles| - 1] + [last];
      var m' := Emplace(prev, last.0, last.1);
      EmplaceMembers(prev, last.0, last.1);
      m'
  }

  /** After Emplace, an instance is listed under a type iff it was before or it is the new one. */
  lemma EmplaceMembers(m: TileMap, u: TileType, y: Tile)
    requires Shaped(m)
    ensures forall t, x :: x in Emplace(m, u, y).transforms[Slot(t)] <==> x in m.transforms[Slot(t)] || (t, x) == (u, y)
  {
    var m' := Emplace(m, u, y);
    forall t, x
      ensures x in m'.transforms[Slot(t)] <==> x in m.transforms[Slot(t)] || (t, x) == (u, y)
    {
      if t != u {
        assert TypeOfSlot(Slot(t)) == t;
      }
    }
  }

  /** Adding instances none of which is already listed, and none twice, keeps every list free of repeats. */
  lemma {:induction false} EmplaceAllDistinct(m: TileMap, tiles: seq<(TileType, Tile)>)
    requires Shaped(m) && ListsDistinct(m) && SeqUtils.Distinct(tiles)
    requires forall i :: 0 <= i < |tiles| ==> tiles[i].1 !in m.transforms[Slot(tiles[i].0)]
    ensures ListsDistinct(EmplaceAll(m, tiles))
    decreases |tiles|
  {
    if tiles != [] {
      var last := tiles[|tiles| - 1];
      var init := tiles[..|tiles| - 1];
      assert tiles == init + [last];
      var prev := EmplaceAll(m, init);
      EmplaceAllDistinct(m, init);
      var m' := Emplace(prev, last.0, last.1);
      forall i | 0 <= i < |init|
        ensures init[i] != last
      {
        assert tiles[i] != tiles[|tiles| - 1];
      }
      assert tiles[|tiles| - 1].1 !in m.transforms[Slot(tiles[|tiles| - 1].0)];
      assert last.1 !in prev.transforms[Slot(last.0)];
      forall k | 0 <= k < TypeCount
        ensures SeqUtils.Distinct(m'.transforms[k])
      {
        if k == Slot(last.0) {
          SeqUtils.DistinctSnoc(prev.transforms[k], last.1);
        } else {
          assert TypeOfSlot(k) != last.0;
          assert m'.transforms[Slot(TypeOfSlot(k))] == prev.transforms[Slot(TypeOfSlot(k))];
        }
      }
    }
  }

  /**
   * The order in which the mapper's three nested loops (Z outermost, X
   * innermost) visit the cells: the order of the flat cell index.
   */
  function ScanOrder(size: Vec3): (cs: seq<Vec3>)
    requires 0 < size.x && 0 < size.y && 0 <= size.z
    ensures |cs| == CellCount(size)
  {
    seq(CellCount(size), i => DecodeIndex(size, i))
  }

  /** The scan visits only in-bounds cells, each once, and every in-bounds cell. */
  lemma ScanOrderExact(size: Vec3)
    requires 0 < size.x && 0 < size.y && 0 <= size.z
    ensures forall i :: 0 <= i < |ScanOrder(size)| ==> InBox(size, ScanOrder(size)[i])
    ensures forall i, j :: 0 <= i < j < |ScanOrder(size)| ==> ScanOrder(size)[i] != ScanOrder(size)[j]
    ensures forall c :: InBox(size, c) ==> c in ScanOrder(size)
  {
    var cs := ScanOrder(size);
    forall i | 0 <= i < |cs|
      ensures InBox(size, cs[i]) && CellIndex(size, cs[i]) == i
    {
      DecodeIndexRoundTrip(size, i);
    }
    forall c | InBox(size, c)
      ensures c in cs
    {
      CellIndexRoundTrip(size, c);
      assert cs[CellIndex(size, c)] == c;
    }
  }

  /** The map after the mapper has visited the given cells in order. */
  function Scan(g: DungeonGrid, ts: TileSet, visited: seq<Vec3>): (m: TileMap)
    requires WellFormed(g) && forall i :: 0 <= i < |visited| ==> IsInBounds(g, visited[i])
    ensures Shaped(m)
  {
    if visited == [] then EmptyMap
    else
      var n := |visited| - 1;
      EmplaceAll(Scan(g, ts, visited[..n]), CellTiles(g, ts, visited[n]))
  }

  /** Each list holds, once each, the tiles the rule allows on the visited cells. */
  ghost predicate ScannedUpTo(g: DungeonGrid, ts: TileSet, visited: seq<Vec3>, m: TileMap)
    requires WellFormed(g) && Shaped(m)
  {
    && ListsDistinct(m)
    && forall t, x :: x in m.transforms[Slot(t)] <==> Emits(g, ts, t, x) && x.cell in visited
  }

  /** Visiting distinct in-bounds cells lists exactly the tiles of those cells, each once. */
  lemma {:induction false} ScanExact(g: DungeonGrid, ts: TileSet, visited: seq<Vec3>)
    requires WellFormed(g) && forall i :: 0 <= i < |visited| ==> IsInBounds(g, visited[i])
    requires SeqUtils.Distinct(visited)
    ensures ScannedUpTo(g, ts, visited, Scan(g, ts, visited))
    decreases |visited|
  {
    if visited == [] {
      NothingScanned(g, ts);
    } else {
      var n := |visited| - 1;
      var before, c := visited[..n], visited[n];
      assert visited == before + [c];
      ScanExact(g, ts, before);
      var tiles := CellTiles(g, ts, c);
      CellTilesDistinct(g, ts, c);
      CellTilesLocal(g, ts, c);
      forall t: TileType, x: Tile
        ensures (t, x) in tiles <==> x.cell == c && Emits(g, ts, t, x)
      {
        CellTilesExact(g, ts, c, t, x);
      }
      ScanExactStep(g, ts, before, c, Scan(g, ts, before), tiles);
    }
  }

  lemma NothingScanned(g: DungeonGrid, ts: TileSet)
    requires WellFormed(g)
    ensures ScannedUpTo(g, ts, [], EmptyMap)
  {
  }

  /** Adding the instances of one more cell, not visited before, keeps the scan exact. */
  lemma ScanExactStep(g: DungeonGrid, ts: TileSet, before: seq<Vec3>, c: Vec3, prev: TileMap, tiles: seq<(TileType, Tile)>)
    requires WellFormed(g) && Shaped(prev) && c !in before
    requires ScannedUpTo(g, ts, before, prev)
    requires SeqUtils.Distinct(tiles)
    requires forall i :: 0 <= i < |tiles| ==> tiles[i].1.cell == c
    requires forall t, x :: (t, x) in tiles <==> x.cell == c && Emits(g, ts, t, x)
    ensures ScannedUpTo(g, ts, before + [c], EmplaceAll(prev, tiles))
  {
    FreshTiles(prev, before, c, tiles);
    EmplaceAllDistinct(prev, tiles);
  }

  /** The instances of the cell being visited are not yet listed. */
  lemma FreshTiles(prev: TileMap, before: seq<Vec3>, c: Vec3, tiles: seq<(TileType, Tile)>)
    requires Shaped(prev) && c !in before
    requires forall t, x :: x in prev.transforms[Slot(t)] ==> x.cell in before
    requires forall i :: 0 <= i < |tiles| ==> tiles[i].1.cell == c
    ensures forall i :: 0 <= i < |tiles| ==> tiles[i].1 !in prev.transforms[Slot(tiles[i].0)]
  {
  }

  /**
   * MapToTiles: visits every cell (X fastest, then Y, then Z) and emits the
   * tiles of its faces. Each list holds exactly the tiles the rule allows,
   * each once.
   */
  function MapToTiles(g: DungeonGrid, ts: TileSet): (m: TileMap)
    requires WellFormed(g)
    ensures Shaped(m) && ListsDistinct(m)
    ensures forall t, x :: x in m.transforms[Slot(t)] <==> Emits(g, ts, t, x)
  {
    if g.size.x == 0 || g.size.y == 0 then
      assert forall t, x :: !Emits(g, ts, t, x);
      EmptyMap
    else
      ScanOrderExact(g.size);
      ScanExact(g, ts, ScanOrder(g.size));
      Scan(g, ts, ScanOrder(g.size))
  }

  // ------------------------------------------------------------ Consequences

  /** A grid with no walkable cell (an all-Empty grid, say) produces no instance. */
  lemma {:induction false} NoWalkableNoTiles(g: DungeonGrid, ts: TileSet)
    requires WellFormed(g)
    requires forall c :: IsInBounds(g, c) ==> !Walkable(GetCell(g, c).cellType)
    ensures TotalInstanceCount(MapToTiles(g, ts)) == 0
  {
    var m := MapToTiles(g, ts);
    forall t: TileType
      ensures m.transforms[Slot(t)] == []
    {
      assert forall x :: !Emits(g, ts, t, x);
      NonEmptyHasFirst(m.transforms[Slot(t)]);
    }
  }

  lemma NonEmptyHasFirst(l: seq<Tile>)
    ensures l != [] ==> l[0] in l
  {
  }

  /**
   * With its mesh set, a Staircase cell gets exactly one StaircaseMesh
   * instance, turned to its climb direction.
   */
  lemma {:induction false} OneMarkerPerStaircase(g: DungeonGrid, ts: TileSet, c: Vec3)
    requires WellFormed(g) && IsInBounds(g, c) && GetCell(g, c).cellType == Staircase && ts.staircaseMesh
    ensures var m := MapToTiles(g, ts);
            var markers := set x | x in m.transforms[Slot(StaircaseMesh)] && x.cell == c;
            markers == {Tile(c, Marker, StairYaw(GetCell(g, c).staircaseDirection))}
  {
    var m := MapToTiles(g, ts);
    var x0 := Tile(c, Marker, StairYaw(GetCell(g, c).staircaseDirection));
    assert Emits(g, ts, StaircaseMesh, x0);
  }

  /**
   * Floors and ceilings between two stacked walkable cells are never
   * emitted: a cell gets a floor only when the cell below it is solid.
   */
  lemma {:induction false} NoFloorBetweenStacked(g: DungeonGrid, ts: TileSet, c: Vec3)
    requires WellFormed(g) && IsInBounds(g, c) && IsInBounds(g, Below(c))
    requires Walkable(GetCell(g, c).cellType) && Walkable(GetCell(g, Below(c)).cellType)
    ensures var m := MapToTiles(g, ts);
            forall t, x :: x in m.transforms[Slot(t)] && x.cell == c ==> x.face != Floor
    ensures var m := MapToTiles(g, ts);
            forall t, x :: x in m.transforms[Slot(t)] && x.cell == Below(c) ==> x.face != Ceiling
  {
    var m := MapToTiles(g, ts);
    assert Above(Below(c)) == c;
  }
}

=== FILE: dungeon_types.dfy ===
/**
 * Cells, rooms, hallways, staircases and the generator result, together with
 * the flat cell grid indexed by X + Y*SizeX + Z*SizeX*SizeY.
 */
module DungeonTypes {
  import opened Wrappers
  import Arith

  /** An unsigned 8-bit value (the source's uint8 fields). */
  type Byte = b: int | 0 <= b < 256

  /** The C++ conversion to uint8: keeps the low eight bits. */
  function ToByte(v: int): (b: Byte)
    ensures 0 <= v < 256 ==> b == v
    ensures (b - v) % 256 == 0
  {
    v % 256
  }

  datatype Vec3 = Vec3(x: int, y: int, z: int)
  {
    function Plus(o: Vec3): Vec3 {
      Vec3(x + o.x, y + o.y, z + o.z)
    }
  }

  const ZeroVec := Vec3(0, 0, 0)

  datatype CellType =
    | Empty
    | Room
    | RoomWall
    | Hallway
    | Staircase
    | StaircaseHead
    | Door
    | Entrance

  datatype RoomType =
    | Generic
    | Entrance
    | Boss
    | Treasure
    | Spawn
    | Rest
    | Secret
    | Corridor
    | Stairwell
    | Custom

  datatype EntrancePlacement = BoundaryEdge | TopFloor | BottomFloor | Any

  /** Cells whose volume belongs to a room: the room interior, its doors and its entrance. */
  predicate IsRoomFamily(t: CellType) {
    t == Room || t == Door || t == CellType.Entrance
  }

  /** Cells whose volume belongs to a hallway, including stair bodies and the headroom above them. */
  predicate IsHallwayFamily(t: CellType) {
    t == Hallway || t == Staircase || t == StaircaseHead
  }

  predicate IsStairFamily(t: CellType) {
    t == Staircase || t == StaircaseHead
  }

  /** A single grid cell; every byte field defaults to 0. */
  datatype DungeonCell = DungeonCell(
    cellType: CellType,
    roomIndex: Byte,
    hallwayIndex: Byte,
    floorIndex: Byte,
    materialHint: Byte,
    staircaseDirection: Byte,
    flags: Byte,
    reserved: Byte)

  const DefaultCell := DungeonCell(Empty, 0, 0, 0, 0, 0, 0, 0)

  /** The dense grid; `cells` is laid out X fastest, then Y, then Z. */
  datatype DungeonGrid = DungeonGrid(size: Vec3, cells: seq<DungeonCell>)

  function CellCount(size: Vec3): int {
    size.x * size.y * size.z
  }

  /** The layout every grid built by Initialize has. */
  predicate WellFormed(g: DungeonGrid) {
    0 <= g.size.x && 0 <= g.size.y && 0 <= g.size.z && |g.cells| == CellCount(g.size)
  }

  predicate InBox(size: Vec3, c: Vec3) {
    0 <= c.x < size.x && 0 <= c.y < size.y && 0 <= c.z < size.z
  }

  /** IsInBounds: each coordinate lies in [0, GridSize) on its axis. */
  predicate IsInBounds(g: DungeonGrid, c: Vec3) {
    InBox(g.size, c)
  }

  function CellIndex(size: Vec3, c: Vec3): int {
    c.x + c.y * size.x + c.z * size.x * size.y
  }

  /** The inverse of CellIndex on [0, CellCount): X is the remainder by SizeX, and so on. */
  function DecodeIndex(size: Vec3, i: int): Vec3
    requires 0 < size.x && 0 < size.y
  {
    Vec3(i % size.x, (i / size.x) % size.y, i / (size.x * size.y))
  }

  /** A coordinate inside one Z-plane has a plane offset X + Y*SizeX below SizeX*SizeY. */
  lemma PlaneOffsetBound(sx: int, sy: int, x: int, y: int)
    requires 0 <= x < sx && 0 <= y < sy
    ensures 0 <= x + y * sx < sx * sy
  {
    Arith.MulLe(y, sy - 1, sx);
    Arith.MulDistSub(sy, 1, sx);
    Arith.MulNonneg(y, sx);
  }

  /** CellIndex maps the in-bounds box into [0, CellCount) and DecodeIndex undoes it. */
  lemma CellIndexRoundTrip(size: Vec3, c: Vec3)
    requires InBox(size, c)
    ensures 0 <= CellIndex(size, c) < CellCount(size)
    ensures DecodeIndex(size, CellIndex(size, c)) == c
  {
    var sx, sy := size.x, size.y;
    var i := CellIndex(size, c);
    var plane := c.x + c.y * sx;
    PlaneOffsetBound(sx, sy, c.x, c.y);
    assert i == c.z * (sx * sy) + plane;
    Arith.DivModUnique(i, sx * sy, c.z, plane);
    assert i == (c.y + c.z * sy) * sx + c.x;
    Arith.DivModUnique(i, sx, c.y + c.z * sy, c.x);
    Arith.DivModUnique(c.y + c.z * sy, sy, c.z, c.y);
    Arith.MulLe(c.z, size.z - 1, sx * sy);
    Arith.MulDistSub(size.z, 1, sx * sy);
    Arith.MulNonneg(c.z, sx * sy);
    assert CellCount(size) == size.z * (sx * sy);
  }

  /** Distinct in-bounds coordinates have distinct cell indices. */
  lemma CellIndexInjective(size: Vec3, c: Vec3, d: Vec3)
    requires InBox(size, c) && InBox(size, d)
    ensures CellIndex(size, c) == CellIndex(size, d) <==> c == d
  {
    CellIndexRoundTrip(size, c);
    CellIndexRoundTrip(size, d);
  }

  /** Every index in [0, CellCount) decodes to an in-bounds coordinate with that index. */
  lemma DecodeIndexRoundTrip(size: Vec3, i: int)
    requires 0 < size.x && 0 < size.y && 0 <= size.z
    requires 0 <= i < CellCount(size)
    ensures InBox(size, DecodeIndex(size, i))
    ensures CellIndex(size, DecodeIndex(size, i)) == i
  {
    var sx, sy := size.x, size.y;
    var c := DecodeIndex(size, i);
    var z := NestedDiv(i, sx, sy);
    assert c == Vec3(i % sx, (i / sx) % sy, z);
    PlaneOffsetBound(sx, sy, c.x, c.y);
    PlaneBelowCount(size, i, z, c.x + c.y * sx);
    assert c.z * sx * sy == c.z * (sx * sy);
  }

  /**
   * Dividing by SizeX and then by SizeY divides by SizeX*SizeY, and what is
   * left over is the plane offset X + Y*SizeX.
   */
  lemma NestedDiv(i: int, sx: int, sy: int) returns (z: int)
    requires 0 <= i && 0 < sx && 0 < sy
    ensures z == i / (sx * sy) && z == (i / sx) / sy
    ensures i == z * (sx * sy) + (i % sx + ((i / sx) % sy) * sx)
  {
    var x, k := i % sx, i / sx;
    var y := k % sy;
    z := k / sy;
    SplitTwice(i, sx, sy, x, k, y, z);
    PlaneOffsetBound(sx, sy, x, y);
    Arith.DivModUnique(i, sx * sy, z, x + y * sx);
  }

  lemma SplitTwice(i: int, sx: int, sy: int, x: int, k: int, y: int, z: int)
    requires i == k * sx + x && k == z * sy + y
    ensures i == z * (sx * sy) + (x + y * sx)
  {
    assert k * sx == (z * sy + y) * sx == z * (sx * sy) + y * sx;
  }

  lemma PlaneBelowCount(size: Vec3, i: int, z: int, plane: int)
    requires 0 < size.x && 0 < size.y && 0 <= size.z
    requires 0 <= plane && i == z * (size.x * size.y) + plane && i < CellCount(size)
    ensures z < size.z
  {
    var p := size.x * size.y;
    assert CellCount(size) == size.z * p;
    assert z * p < size.z * p;
    Arith.MulLtCancel(z, size.z, p);
  }

  /** Initialize: the grid takes the given size and holds exactly X*Y*Z default cells. */
  function Initialize(size: Vec3): (g: DungeonGrid)
    requires 0 <= size.x && 0 <= size.y && 0 <= size.z
    ensures WellFormed(g) && g.size == size
    ensures forall i :: 0 <= i < |g.cells| ==> g.cells[i] == DefaultCell
  {
    DungeonGrid(size, seq(CellCount(size), _ => DefaultCell))
  }

  /** GetCell: defined only for in-bounds coordinates (the source asserts this). */
  function GetCell(g: DungeonGrid, c: Vec3): (cell: DungeonCell)
    requires WellFormed(g) && IsInBounds(g, c)
  {
    CellIndexRoundTrip(g.size, c);
    g.cells[CellIndex(g.size, c)]
  }

  /** Writing through the mutable GetCell: replaces exactly the addressed cell. */
  function SetCell(g: DungeonGrid, c: Vec3, v: DungeonCell): (g': DungeonGrid)
    requires WellFormed(g) && IsInBounds(g, c)
    ensures WellFormed(g') && g'.size == g.size
    ensures GetCell(g', c) == v
    ensures forall d :: IsInBounds(g, d) && d != c ==> GetCell(g', d) == GetCell(g, d)
  {
    CellIndexRoundTrip(g.size, c);
    var g' := DungeonGrid(g.size, g.cells[CellIndex(g.size, c) := v]);
    SetCellFrame(g, g', c);
    g'
  }

  lemma SetCellFrame(g: DungeonGrid, g': DungeonGrid, c: Vec3)
    requires WellFormed(g) && IsInBounds(g, c) && g'.size == g.size
    requires |g'.cells| == |g.cells|
    requires forall i :: 0 <= i < |g.cells| && i != CellIndex(g.size, c) ==> g'.cells[i] == g.cells[i]
    ensures forall d :: IsInBounds(g, d) && d != c ==> GetCell(g', d) == GetCell(g, d)
  {
    forall d | IsInBounds(g, d) && d != c
      ensures GetCell(g', d) == GetCell(g, d)
    {
      CellIndexInjective(g.size, c, d);
      CellIndexRoundTrip(g.size, d);
      var j := CellIndex(g.size, d);
      assert j != CellIndex(g.size, c);
      assert g'.cells[j] == g.cells[j];
    }
  }

  /** Every in-bounds coordinate addresses some cell, and every cell is addressed. */
  lemma GetCellCoversGrid(g: DungeonGrid, i: int)
    requires WellFormed(g) && 0 < g.size.x && 0 < g.size.y
    requires 0 <= i < |g.cells|
    ensures IsInBounds(g, DecodeIndex(g.size, i))
    ensures GetCell(g, DecodeIndex(g.size, i)) == g.cells[i]
  {
    DecodeIndexRoundTrip(g.size, i);
  }

  /** Rewrites every cell as a function of its coordinate and old value. */
  function MapGrid(g: DungeonGrid, f: (Vec3, DungeonCell) -> DungeonCell): (g': DungeonGrid)
    requires WellFormed(g)
    ensures WellFormed(g') && g'.size == g.size
    ensures forall c :: IsInBounds(g, c) ==> GetCell(g', c) == f(c, GetCell(g, c))
  {
    if g.size.x == 0 || g.size.y == 0 then g
    else
      var g' := DungeonGrid(g.size, seq(|g.cells|, i requires 0 <= i < |g.cells| => f(DecodeIndex(g.size, i), g.cells[i])));
      MapGridAt(g, f, g');
      g'
  }

  lemma MapGridAt(g: DungeonGrid, f: (Vec3, DungeonCell) -> DungeonCell, g': DungeonGrid)
    requires WellFormed(g) && 0 < g.size.x && 0 < g.size.y && g'.size == g.size
    requires |g'.cells| == |g.cells|
    requires forall i :: 0 <= i < |g.cells| ==> g'.cells[i] == f(DecodeIndex(g.size, i), g.cells[i])
    ensures forall c :: IsInBounds(g, c) ==> GetCell(g', c) == f(c, GetCell(g, c))
  {
    forall c | IsInBounds(g, c)
      ensures GetCell(g', c) == f(c, GetCell(g, c))
    {
      CellIndexRoundTrip(g.size, c);
    }
  }

  /** Two grids of the same size that agree on every in-bounds cell are equal. */
  lemma GridExtensionality(g: DungeonGrid, h: DungeonGrid)
    requires WellFormed(g) && WellFormed(h) && g.size == h.size
    requires forall c :: IsInBounds(g, c) ==> GetCell(g, c) == GetCell(h, c)
    ensures g == h
  {
    if 0 < g.size.x && 0 < g.size.y {
      forall i | 0 <= i < |g.cells|
        ensures g.cells[i] == h.cells[i]
      {
        GetCellCoversGrid(g, i);
        GetCellCoversGrid(h, i);
      }
    } else {
      assert CellCount(g.size) == 0;
    }
  }

  datatype DungeonRoom = DungeonRoom(
    roomIndex: Byte,
    roomType: RoomType,
    position: Vec3,
    size: Vec3,
    center: Vec3,
    connectedRoomIndices: seq<Byte>,
    onMainPath: bool,
    graphDistanceFromEntrance: int,
    floorLevel: int,
    materialHint: Byte,
    customTag: string)

  /** A fresh room: index 0 means "no room", and the distance -1 means "not computed". */
  const DefaultRoom := DungeonRoom(0, Generic, ZeroVec, ZeroVec, ZeroVec, [], false, -1, 0, 0, "")

  /** RoomA and RoomB are 0-based positions in the room list, not 1-based room indices. */
  datatype DungeonHallway = DungeonHallway(
    hallwayIndex: Byte,
    roomA: Byte,
    roomB: Byte,
    pathCells: seq<Vec3>,
    hasStaircase: bool,
    isFromMst: bool)

  datatype DungeonStaircase = DungeonStaircase(
    bottomCell: Vec3,
    topCell: Vec3,
    direction: Byte,
    riseRunRatio: int,
    headroomCells: int,
    occupiedCells: seq<Vec3>)

  /** An undirected room pair, as the 0-based room positions of its endpoints. */
  type RoomEdge = (int, int)

  datatype DungeonResult = DungeonResult(
    seed: int,
    gridSize: Vec3,
    cellWorldSize: real,
    grid: DungeonGrid,
    rooms: seq<DungeonRoom>,
    hallways: seq<DungeonHallway>,
    staircases: seq<DungeonStaircase>,
    delaunayEdges: seq<RoomEdge>,
    mstEdges: seq<RoomEdge>,
    finalEdges: seq<RoomEdge>,
    entranceRoomIndex: int,
    entranceCell: Vec3,
    totalRoomCells: int,
    totalHallwayCells: int,
    totalStaircaseCells: int)

  /** A fresh result: no rooms and no entrance (index -1). */
  const DefaultResult := DungeonResult(
    0, ZeroVec, 400.0, DungeonGrid(ZeroVec, []), [], [], [], [], [], [], -1, ZeroVec, 0, 0, 0)

  /** FindRoomByType: the position of the first room of the given type, if any. */
  function FindRoomByType(rooms: seq<DungeonRoom>, t: RoomType): (r: Option<nat>)
    ensures r.Some? ==> r.value < |rooms| && rooms[r.value].roomType == t
    ensures r.Some? ==> forall j :: 0 <= j < r.value ==> rooms[j].roomType != t
    ensures r.None? <==> forall j :: 0 <= j < |rooms| ==> rooms[j].roomType != t
  {
    FindRoomFrom(rooms, t, 0)
  }

  function FindRoomFrom(rooms: seq<DungeonRoom>, t: RoomType, from: nat): (r: Option<nat>)
    requires from <= |rooms|
    ensures r.Some? ==> from <= r.value < |rooms| && rooms[r.value].roomType == t
    ensures r.Some? ==> forall j :: from <= j < r.value ==> rooms[j].roomType != t
    ensures r.None? <==> forall j :: from <= j < |rooms| ==> rooms[j].roomType != t
    decreases |rooms| - from
  {
    if from == |rooms| then None
    else if rooms[from].roomType == t then Some(from)
    else FindRoomFrom(rooms, t, from + 1)
  }

  /** GetEntranceRoom: the entrance room when its index is a valid position, none otherwise. */
  function GetEntranceRoom(r: DungeonResult): (room: Option<DungeonRoom>)
    ensures room.Some? <==> 0 <= r.entranceRoomIndex < |r.rooms|
    ensures room.Some? ==> room.value in r.rooms && room.value == r.rooms[r.entranceRoomIndex]
  {
    if 0 <= r.entranceRoomIndex < |r.rooms| then Some(r.rooms[r.entranceRoomIndex]) else None
  }
}

=== FILE: dungeon_validator.dfy ===
/**
 * The structural checks of a generated dungeon. Each check is modelled as a
 * function (or, where the source walks a graph, a method) producing the
 * issues in the order the source appends them, and each is paired with a
 * declarative predicate that holds exactly when the check reports nothing.
 */
module DungeonValidator {
  import opened Wrappers
  import opened DungeonTypes
  import opened DungeonConfig
  import opened SeqUtils
  import Graphs

  /** One validation issue; the constructor and its data stand for the category and message. */
  datatype Issue =
    | NoEntranceDesignated
    | EntranceIndexOutOfRange(index: int, roomCount: int)
    | EntranceCellOutOfBounds(cell: Vec3)
    | EntranceCellWrongType(cell: Vec3, found: CellType)
    | RoomCellsMismatch(reported: int, actual: int)
    | HallwayCellsMismatch(reported: int, actual: int)
    | StaircaseCellsMismatch(reported: int, actual: int)
    | RoomOriginOutOfBounds(room: int, origin: Vec3)
    | RoomMaxCornerOutOfBounds(room: int, corner: Vec3)
    | StaircaseCellOutOfBounds(staircase: int, cell: Vec3)
    | RoomsOverlap(first: int, second: int)
    | BufferViolated(first: int, second: int, buffer: int)
    | RoomDisconnected(room: int)
    | HeadroomBlocked(staircase: int, cell: Vec3, found: CellType)
    | CellUnreachable(cell: Vec3, found: CellType)
    | NoEntranceRoom
    | MultipleEntranceRooms(count: int)
    | NoBossRoom
    | RoomTypeOverAssigned(roomType: RoomType, count: int, limit: int)
    | EntranceDistanceNonZero(room: int, distance: int)
  {
    /** The category string the source files the issue under. */
    function Category(): string {
      match this
      case NoEntranceDesignated | EntranceIndexOutOfRange(_, _)
        | EntranceCellOutOfBounds(_) | EntranceCellWrongType(_, _) => "Entrance"
      case RoomCellsMismatch(_, _) | HallwayCellsMismatch(_, _) | StaircaseCellsMismatch(_, _) => "Metrics"
      case RoomOriginOutOfBounds(_, _) | RoomMaxCornerOutOfBounds(_, _)
        | StaircaseCellOutOfBounds(_, _) => "Bounds"
      case RoomsOverlap(_, _) => "Overlap"
      case BufferViolated(_, _, _) => "Buffer"
      case RoomDisconnected(_) => "Connectivity"
      case HeadroomBlocked(_, _, _) => "Headroom"
      case CellUnreachable(_, _) => "Reachability"
      case NoEntranceRoom | MultipleEntranceRooms(_) | NoBossRoom
        | RoomTypeOverAssigned(_, _, _) | EntranceDistanceNonZero(_, _) => "Semantics"
    }
  }

  datatype ValidationResult = ValidationResult(passed: bool, issues: seq<Issue>)

  // ---------------------------------------------------------------- Entrance

  /** The entrance index names a room and the entrance cell is an in-bounds Entrance cell. */
  predicate EntranceValid(r: DungeonResult)
    requires WellFormed(r.grid)
  {
    && 0 <= r.entranceRoomIndex < |r.rooms|
    && IsInBounds(r.grid, r.entranceCell)
    && GetCell(r.grid, r.entranceCell).cellType == CellType.Entrance
  }

  /** ValidateEntrance: stops at the first failed condition, so it reports at most one issue. */
  function EntranceIssues(r: DungeonResult): (issues: seq<Issue>)
    requires WellFormed(r.grid)
    ensures |issues| <= 1
    ensures issues == [] <==> EntranceValid(r)
    ensures forall i :: 0 <= i < |issues| ==> issues[i].Category() == "Entrance"
  {
    if r.entranceRoomIndex < 0 then [NoEntranceDesignated]
    else if r.entranceRoomIndex >= |r.rooms| then [EntranceIndexOutOfRange(r.entranceRoomIndex, |r.rooms|)]
    else if !IsInBounds(r.grid, r.entranceCell) then [EntranceCellOutOfBounds(r.entranceCell)]
    else
      var t := GetCell(r.grid, r.entranceCell).cellType;
      if t != CellType.Entrance then [EntranceCellWrongType(r.entranceCell, t)] else []
  }

  // ---------------------------------------------------------------- Metrics

  /** The three cell classes the metrics count; every other cell type counts nowhere. */
  datatype CellClass = RoomClass | HallwayClass | StairClass

  function ClassOf(t: CellType): (c: Option<CellClass>)
    ensures c == Some(RoomClass) <==> IsRoomFamily(t)
    ensures c == Some(HallwayClass) <==> t == Hallway
    ensures c == Some(StairClass) <==> IsStairFamily(t)
  {
    match t
    case Room | Door | Entrance => Some(RoomClass)
    case Hallway => Some(HallwayClass)
    case Staircase | StaircaseHead => Some(StairClass)
    case _ => None
  }

  /** The positions among the first n cells that belong to a class. */
  function ClassPositions(cells: seq<DungeonCell>, c: CellClass, n: nat): set<int>
    requires n <= |cells|
  {
    set j | 0 <= j < n && ClassOf(cells[j].cellType) == Some(c)
  }

  /** The number of cells of a class, as the size of the set of their positions. */
  function ClassCount(cells: seq<DungeonCell>, c: CellClass): nat {
    |ClassPositions(cells, c, |cells|)|
  }

  lemma ClassPositionsStep(cells: seq<DungeonCell>, c: CellClass, n: nat)
    requires n < |cells|
    ensures |ClassPositions(cells, c, n + 1)|
         == |ClassPositions(cells, c, n)| + (if ClassOf(cells[n].cellType) == Some(c) then 1 else 0)
  {
    var a := ClassPositions(cells, c, n);
    if ClassOf(cells[n].cellType) == Some(c) {
      assert ClassPositions(cells, c, n + 1) == a + {n};
      assert n !in a;
    } else {
      assert ClassPositions(cells, c, n + 1) == a;
    }
  }

  /** The counting loop shared by the validator and the generator. */
  method CountCellClasses(cells: seq<DungeonCell>) returns (rooms: int, hallways: int, stairs: int)
    ensures rooms == ClassCount(cells, RoomClass)
    ensures hallways == ClassCount(cells, HallwayClass)
    ensures stairs == ClassCount(cells, StairClass)
  {
    rooms, hallways, stairs := 0, 0, 0;
    var i := 0;
    while i < |cells|
      invariant 0 <= i <= |cells|
      invariant rooms == |ClassPositions(cells, RoomClass, i)|
      invariant hallways == |ClassPositions(cells, HallwayClass, i)|
      invariant stairs == |ClassPositions(cells, StairClass, i)|
    {
      ClassPositionsStep(cells, RoomClass, i);
      ClassPositionsStep(cells, HallwayClass, i);
      ClassPositionsStep(cells, StairClass, i);
      match cells[i].cellType {
        case Room | Door | Entrance => rooms := rooms + 1;
        case Hallway => hallways := hallways + 1;
        case Staircase | StaircaseHead => stairs := stairs + 1;
        case _ =>
      }
      i := i + 1;
    }
  }

  predicate MetricsValid(r: DungeonResult) {
    && r.totalRoomCells == ClassCount(r.grid.cells, RoomClass)
    && r.totalHallwayCells == ClassCount(r.grid.cells, HallwayClass)
    && r.totalStaircaseCells == ClassCount(r.grid.cells, StairClass)
  }

  function Mismatches(r: DungeonResult): nat {
    (if r.totalRoomCells != ClassCount(r.grid.cells, RoomClass) then 1 else 0)
    + (if r.totalHallwayCells != ClassCount(r.grid.cells, HallwayClass) then 1 else 0)
    + (if r.totalStaircaseCells != ClassCount(r.grid.cells, StairClass) then 1 else 0)
  }

  /** ValidateMetrics: one issue per reported total that differs from the count. */
  function MetricsIssues(r: DungeonResult): (issues: seq<Issue>)
    ensures |issues| == Mismatches(r)
    ensures issues == [] <==> MetricsValid(r)
    ensures forall i :: 0 <= i < |issues| ==> issues[i].Category() == "Metrics"
  {
    var rc := ClassCount(r.grid.cells, RoomClass);
    var hc := ClassCount(r.grid.cells, HallwayClass);
    var sc := ClassCount(r.grid.cells, StairClass);
    (if rc != r.totalRoomCells then [RoomCellsMismatch(r.totalRoomCells, rc)] else [])
    + (if hc != r.totalHallwayCells then [HallwayCellsMismatch(r.totalHallwayCells, hc)] else [])
    + (if sc != r.totalStaircaseCells then [StaircaseCellsMismatch(r.totalStaircaseCells, sc)] else [])
  }

  // ---------------------------------------------------------------- Bounds

  /** The last cell of a room's box: Position + Size - (1, 1, 1). */
  function MaxCorner(room: DungeonRoom): Vec3 {
    Vec3(room.position.x + room.size.x - 1, room.position.y + room.size.y - 1, room.position.z + room.size.z - 1)
  }

  function RoomBoundsIssues(g: DungeonGrid, room: DungeonRoom, i: int): seq<Issue> {
    (if IsInBounds(g, room.position) then [] else [RoomOriginOutOfBounds(i, room.position)])
    + (if IsInBounds(g, MaxCorner(room)) then [] else [RoomMaxCornerOutOfBounds(i, MaxCorner(room))])
  }

  function StairBoundsParts(g: DungeonGrid, st: DungeonStaircase, i: int): (parts: seq<seq<Issue>>)
    ensures |parts| == |st.occupiedCells|
    ensures forall k :: 0 <= k < |parts| ==>
      parts[k] == (if IsInBounds(g, st.occupiedCells[k]) then [] else [StaircaseCellOutOfBounds(i, st.occupiedCells[k])])
  {
    var occ := st.occupiedCells;
    seq(|occ|, k requires 0 <= k < |occ| =>
      if IsInBounds(g, occ[k]) then [] else [StaircaseCellOutOfBounds(i, occ[k])])
  }

  function RoomBoundsParts(r: DungeonResult): (parts: seq<seq<Issue>>)
    ensures |parts| == |r.rooms|
    ensures forall i :: 0 <= i < |parts| ==> parts[i] == RoomBoundsIssues(r.grid, r.rooms[i], i)
  {
    seq(|r.rooms|, i requires 0 <= i < |r.rooms| => RoomBoundsIssues(r.grid, r.rooms[i], i))
  }

  function StairsBoundsParts(r: DungeonResult): (parts: seq<seq<Issue>>)
    ensures |parts| == |r.staircases|
    ensures forall i :: 0 <= i < |parts| ==> parts[i] == Flatten(StairBoundsParts(r.grid, r.staircases[i], i))
  {
    seq(|r.staircases|, i requires 0 <= i < |r.staircases| => Flatten(StairBoundsParts(r.grid, r.staircases[i], i)))
  }

  /** ValidateCellBounds: room origins and far corners first, then staircase cells. */
  function BoundsIssues(r: DungeonResult): seq<Issue> {
    Flatten(RoomBoundsParts(r)) + Flatten(StairsBoundsParts(r))
  }

  /** Every room's box and every staircase cell lies inside the grid. */
  predicate BoundsValid(r: DungeonResult) {
    && (forall i :: 0 <= i < |r.rooms| ==>
          IsInBounds(r.grid, r.rooms[i].position) && IsInBounds(r.grid, MaxCorner(r.rooms[i])))
    && (forall i, k :: 0 <= i < |r.staircases| && 0 <= k < |r.staircases[i].occupiedCells| ==>
          IsInBounds(r.grid, r.staircases[i].occupiedCells[k]))
  }

  /** The bounds check reports exactly the out-of-bounds origins, far corners and staircase cells. */
  lemma BoundsIssuesMember(r: DungeonResult, x: Issue)
    ensures x in BoundsIssues(r) <==>
      (exists i :: (0 <= i < |r.rooms| && !IsInBounds(r.grid, r.rooms[i].position)
         && x == RoomOriginOutOfBounds(i, r.rooms[i].position)))
      || (exists i :: (0 <= i < |r.rooms| && !IsInBounds(r.grid, MaxCorner(r.rooms[i]))
         && x == RoomMaxCornerOutOfBounds(i, MaxCorner(r.rooms[i]))))
      || (exists i, k :: (0 <= i < |r.staircases| && 0 <= k < |r.staircases[i].occupiedCells|
         && !IsInBounds(r.grid, r.staircases[i].occupiedCells[k])
         && x == StaircaseCellOutOfBounds(i, r.staircases[i].occupiedCells[k])))
  {
    RoomBoundsMember(r, x);
    StairsBoundsMember(r, x);
  }

  lemma RoomBoundsMember(r: DungeonResult, x: Issue)
    ensures x in Flatten(RoomBoundsParts(r)) <==>
      (exists i :: (0 <= i < |r.rooms| && !IsInBounds(r.grid, r.rooms[i].position)
         && x == RoomOriginOutOfBounds(i, r.rooms[i].position)))
      || (exists i :: (0 <= i < |r.rooms| && !IsInBounds(r.grid, MaxCorner(r.rooms[i]))
         && x == RoomMaxCornerOutOfBounds(i, MaxCorner(r.rooms[i]))))
  {
    FlattenMember(RoomBoundsParts(r), x);
  }

  lemma StairsBoundsMember(r: DungeonResult, x: Issue)
    ensures x in Flatten(StairsBoundsParts(r)) <==>
      exists i, k :: (0 <= i < |r.staircases| && 0 <= k < |r.staircases[i].occupiedCells|
         && !IsInBounds(r.grid, r.staircases[i].occupiedCells[k])
         && x == StaircaseCellOutOfBounds(i, r.staircases[i].occupiedCells[k]))
  {
    FlattenMember(StairsBoundsParts(r), x);
    forall i | 0 <= i < |r.staircases|
      ensures x in StairsBoundsParts(r)[i] <==> (exists k :: (0 <= k < |r.staircases[i].occupiedCells|
         && !IsInBounds(r.grid, r.staircases[i].occupiedCells[k])
         && x == StaircaseCellOutOfBounds(i, r.staircases[i].occupiedCells[k])))
    {
      FlattenMember(StairBoundsParts(r.grid, r.staircases[i], i), x);
    }
  }

  lemma BoundsIssuesEmpty(r: DungeonResult)
    ensures BoundsIssues(r) == [] <==> BoundsValid(r)
  {
    if BoundsIssues(r) != [] {
      BoundsIssuesMember(r, BoundsIssues(r)[0]);
    } else {
      forall i | 0 <= i < |r.rooms|
        ensures IsInBounds(r.grid, r.rooms[i].position) && IsInBounds(r.grid, MaxCorner(r.rooms[i]))
      {
        BoundsIssuesMember(r, RoomOriginOutOfBounds(i, r.rooms[i].position));
        BoundsIssuesMember(r, RoomMaxCornerOutOfBounds(i, MaxCorner(r.rooms[i])));
      }
      forall i, k | 0 <= i < |r.staircases| && 0 <= k < |r.staircases[i].occupiedCells|
        ensures IsInBounds(r.grid, r.staircases[i].occupiedCells[k])
      {
        BoundsIssuesMember(r, StaircaseCellOutOfBounds(i, r.staircases[i].occupiedCells[k]));
      }
    }
  }

  // ---------------------------------------------------------------- Overlap and buffer

  /** Two half-open intervals [a, a+sa) and [b, b+sb) share a point. */
  predicate IntervalsOverlap(a: int, sa: int, b: int, sb: int) {
    a < b + sb && b < a + sa
  }

  predicate BoxesOverlap(a: DungeonRoom, b: DungeonRoom) {
    && IntervalsOverlap(a.position.x, a.size.x, b.position.x, b.size.x)
    && IntervalsOverlap(a.position.y, a.size.y, b.position.y, b.size.y)
    && IntervalsOverlap(a.position.z, a.size.z, b.position.z, b.size.z)
  }

  /** The buffer test: X and Y intervals widened by the buffer on the low side, Z unwidened. */
  predicate BufferedOverlap(a: DungeonRoom, b: DungeonRoom, buffer: int) {
    && a.position.x - buffer < b.position.x + b.size.x && b.position.x - buffer < a.position.x + a.size.x
    && a.position.y - buffer < b.position.y + b.size.y && b.position.y - buffer < a.position.y + a.size.y
    && IntervalsOverlap(a.position.z, a.size.z, b.position.z, b.size.z)
  }

  /** The issues of the inner loop j = i+1 .. n-1 of a loop over all pairs. */
  function PairRow(n: nat, f: (int, int) -> seq<Issue>, i: nat): (parts: seq<seq<Issue>>)
    requires i < n
    ensures |parts| == n - i - 1
    ensures forall k :: 0 <= k < |parts| ==> parts[k] == f(i, i + 1 + k)
  {
    seq(n - i - 1, k => f(i, i + 1 + k))
  }

  function PairRows(n: nat, f: (int, int) -> seq<Issue>): (rows: seq<seq<Issue>>)
    ensures |rows| == n
    ensures forall i :: 0 <= i < n ==> rows[i] == Flatten(PairRow(n, f, i))
  {
    seq(n, i requires 0 <= i < n => Flatten(PairRow(n, f, i)))
  }

  /** The issues of a loop over all pairs i < j, in the order i then j. */
  function PairIssues(n: nat, f: (int, int) -> seq<Issue>): seq<Issue> {
    Flatten(PairRows(n, f))
  }

  lemma PairIssuesMember(n: nat, f: (int, int) -> seq<Issue>, x: Issue)
    ensures x in PairIssues(n, f) <==> exists i, j :: 0 <= i < j < n && x in f(i, j)
  {
    var rows := PairRows(n, f);
    FlattenMember(rows, x);
    forall i | 0 <= i < n
      ensures x in rows[i] <==> exists j :: i < j < n && x in f(i, j)
    {
      var row := PairRow(n, f, i);
      FlattenMember(row, x);
      if exists j :: i < j < n && x in f(i, j) {
        var j :| i < j < n && x in f(i, j);
        assert row[j - i - 1] == f(i, j);
      }
    }
    if exists i, j :: 0 <= i < j < n && x in f(i, j) {
      var i, j :| 0 <= i < j < n && x in f(i, j);
      assert x in rows[i];
    }
  }

  function OverlapPair(rooms: seq<DungeonRoom>): (int, int) -> seq<Issue> {
    (i, j) => if 0 <= i < |rooms| && 0 <= j < |rooms| && BoxesOverlap(rooms[i], rooms[j])
              then [RoomsOverlap(i, j)] else []
  }

  /** ValidateNoRoomOverlap. */
  function OverlapIssues(rooms: seq<DungeonRoom>): seq<Issue> {
    PairIssues(|rooms|, OverlapPair(rooms))
  }

  /** Exactly the pairs i < j whose boxes intersect on all three axes are reported. */
  lemma OverlapIssuesMember(rooms: seq<DungeonRoom>, x: Issue)
    ensures x in OverlapIssues(rooms) <==>
      exists i, j :: 0 <= i < j < |rooms| && BoxesOverlap(rooms[i], rooms[j]) && x == RoomsOverlap(i, j)
  {
    PairIssuesMember(|rooms|, OverlapPair(rooms), x);
    if exists i, j :: 0 <= i < j < |rooms| && x in OverlapPair(rooms)(i, j) {
      var i, j :| 0 <= i < j < |rooms| && x in OverlapPair(rooms)(i, j);
      assert BoxesOverlap(rooms[i], rooms[j]) && x == RoomsOverlap(i, j);
    }
    if exists i, j :: 0 <= i < j < |rooms| && BoxesOverlap(rooms[i], rooms[j]) && x == RoomsOverlap(i, j) {
      var i, j :| 0 <= i < j < |rooms| && BoxesOverlap(rooms[i], rooms[j]) && x == RoomsOverlap(i, j);
      assert x in OverlapPair(rooms)(i, j);
    }
  }

  predicate NoOverlap(rooms: seq<DungeonRoom>) {
    forall i, j :: 0 <= i < j < |rooms| ==> !BoxesOverlap(rooms[i], rooms[j])
  }

  lemma OverlapIssuesEmpty(rooms: seq<DungeonRoom>)
    ensures OverlapIssues(rooms) == [] <==> NoOverlap(rooms)
  {
    if OverlapIssues(rooms) != [] {
      OverlapIssuesMember(rooms, OverlapIssues(rooms)[0]);
    }
    forall i, j | 0 <= i < j < |rooms| && BoxesOverlap(rooms[i], rooms[j])
      ensures RoomsOverlap(i, j) in OverlapIssues(rooms)
    {
      OverlapIssuesMember(rooms, RoomsOverlap(i, j));
    }
  }

  function BufferPair(rooms: seq<DungeonRoom>, buffer: int): (int, int) -> seq<Issue> {
    (i, j) => if 0 <= i < |rooms| && 0 <= j < |rooms| && BufferedOverlap(rooms[i], rooms[j], buffer)
              then [BufferViolated(i, j, buffer)] else []
  }

  /** ValidateRoomBuffer: nothing to enforce when the buffer is not positive. */
  function BufferIssues(rooms: seq<DungeonRoom>, buffer: int): seq<Issue> {
    if buffer <= 0 then [] else PairIssues(|rooms|, BufferPair(rooms, buffer))
  }

  predicate BufferRespected(rooms: seq<DungeonRoom>, buffer: int) {
    buffer <= 0 || forall i, j :: 0 <= i < j < |rooms| ==> !BufferedOverlap(rooms[i], rooms[j], buffer)
  }

  /** With a positive buffer, exactly the pairs closer than the buffer on X and Y that share Z are reported. */
  lemma BufferIssuesMember(rooms: seq<DungeonRoom>, buffer: int, x: Issue)
    ensures x in BufferIssues(rooms, buffer) <==>
      0 < buffer && (exists i, j :: (0 <= i < j < |rooms| && BufferedOverlap(rooms[i], rooms[j], buffer)
        && x == BufferViolated(i, j, buffer)))
  {
    if 0 < buffer {
      PairIssuesMember(|rooms|, BufferPair(rooms, buffer), x);
      if exists i, j :: 0 <= i < j < |rooms| && x in BufferPair(rooms, buffer)(i, j) {
        var i, j :| 0 <= i < j < |rooms| && x in BufferPair(rooms, buffer)(i, j);
        assert BufferedOverlap(rooms[i], rooms[j], buffer) && x == BufferViolated(i, j, buffer);
      }
      if exists i, j :: 0 <= i < j < |rooms| && BufferedOverlap(rooms[i], rooms[j], buffer) && x == BufferViolated(i, j, buffer) {
        var i, j :| 0 <= i < j < |rooms| && BufferedOverlap(rooms[i], rooms[j], buffer) && x == BufferViolated(i, j, buffer);
        assert x in BufferPair(rooms, buffer)(i, j);
      }
    }
  }

  lemma BufferIssuesEmpty(rooms: seq<DungeonRoom>, buffer: int)
    ensures BufferIssues(rooms, buffer) == [] <==> BufferRespected(rooms, buffer)
  {
    if BufferIssues(rooms, buffer) != [] {
      BufferIssuesMember(rooms, buffer, BufferIssues(rooms, buffer)[0]);
    }
    forall i, j | 0 < buffer && 0 <= i < j < |rooms| && BufferedOverlap(rooms[i], rooms[j], buffer)
      ensures BufferViolated(i, j, buffer) in BufferIssues(rooms, buffer)
    {
      BufferIssuesMember(rooms, buffer, BufferViolated(i, j, buffer));
    }
  }

  // ---------------------------------------------------------------- Headroom

  /** A staircase cell above the bottom step that sits in a room or a room wall. */
  predicate HeadroomBlockedAt(g: DungeonGrid, st: DungeonStaircase, c: Vec3)
    requires WellFormed(g)
  {
    c.z > st.bottomCell.z && IsInBounds(g, c) && GetCell(g, c).cellType in {Room, RoomWall}
  }

  function HeadroomIssueAt(g: DungeonGrid, st: DungeonStaircase, i: int, c: Vec3): seq<Issue>
    requires WellFormed(g)
  {
    if HeadroomBlockedAt(g, st, c) then [HeadroomBlocked(i, c, GetCell(g, c).cellType)] else []
  }

  function StairHeadroomParts(g: DungeonGrid, st: DungeonStaircase, i: int): (parts: seq<seq<Issue>>)
    requires WellFormed(g)
    ensures |parts| == |st.occupiedCells|
    ensures forall k :: 0 <= k < |parts| ==> parts[k] == HeadroomIssueAt(g, st, i, st.occupiedCells[k])
  {
    var occ := st.occupiedCells;
    seq(|occ|, k requires 0 <= k < |occ| => HeadroomIssueAt(g, st, i, occ[k]))
  }

  function HeadroomParts(r: DungeonResult): (parts: seq<seq<Issue>>)
    requires WellFormed(r.grid)
    ensures |parts| == |r.staircases|
    ensures forall i :: 0 <= i < |parts| ==> parts[i] == Flatten(StairHeadroomParts(r.grid, r.staircases[i], i))
  {
    seq(|r.staircases|, i requires 0 <= i < |r.staircases| => Flatten(StairHeadroomParts(r.grid, r.staircases[i], i)))
  }

  /** ValidateStaircaseHeadroom. */
  function HeadroomIssues(r: DungeonResult): seq<Issue>
    requires WellFormed(r.grid)
  {
    Flatten(HeadroomParts(r))
  }

  predicate HeadroomClear(r: DungeonResult)
    requires WellFormed(r.grid)
  {
    forall i, k :: 0 <= i < |r.staircases| && 0 <= k < |r.staircases[i].occupiedCells| ==>
      !HeadroomBlockedAt(r.grid, r.staircases[i], r.staircases[i].occupiedCells[k])
  }

  /** Exactly the staircase cells above the bottom that are Room or RoomWall are reported. */
  lemma HeadroomIssuesMember(r: DungeonResult, x: Issue)
    requires WellFormed(r.grid)
    ensures x in HeadroomIssues(r) <==>
      exists i, k :: (0 <= i < |r.staircases| && 0 <= k < |r.staircases[i].occupiedCells|
        && HeadroomBlockedAt(r.grid, r.staircases[i], r.staircases[i].occupiedCells[k])
        && x == HeadroomBlocked(i, r.staircases[i].occupiedCells[k],
                                GetCell(r.grid, r.staircases[i].occupiedCells[k]).cellType))
  {
    var parts := HeadroomParts(r);
    FlattenMember(parts, x);
    forall i | 0 <= i < |r.staircases|
      ensures x in parts[i] <==> exists k :: (0 <= k < |r.staircases[i].occupiedCells|
        && x in HeadroomIssueAt(r.grid, r.staircases[i], i, r.staircases[i].occupiedCells[k]))
    {
      FlattenMember(StairHeadroomParts(r.grid, r.staircases[i], i), x);
    }
  }

  lemma HeadroomIssuesEmpty(r: DungeonResult)
    requires WellFormed(r.grid)
    ensures HeadroomIssues(r) == [] <==> HeadroomClear(r)
  {
    if HeadroomIssues(r) != [] {
      HeadroomIssuesMember(r, HeadroomIssues(r)[0]);
    }
    forall i, k | 0 <= i < |r.staircases| && 0 <= k < |r.staircases[i].occupiedCells|
        && HeadroomBlockedAt(r.grid, r.staircases[i], r.staircases[i].occupiedCells[k])
      ensures HeadroomIssues(r) != []
    {
      HeadroomIssuesMember(r, HeadroomBlocked(i, r.staircases[i].occupiedCells[k],
                                GetCell(r.grid, r.staircases[i].occupiedCells[k]).cellType));
    }
  }

  // ---------------------------------------------------------------- Semantics

  function RoomsOfType(rooms: seq<DungeonRoom>, t: RoomType): set<int> {
    set i | 0 <= i < |rooms| && rooms[i].roomType == t
  }

  function CountOfType(rooms: seq<DungeonRoom>, t: RoomType): nat {
    |RoomsOfType(rooms, t)|
  }

  function RuleIssues(rooms: seq<DungeonRoom>, rule: RoomTypeRule): seq<Issue> {
    if rule.roomType == RoomType.Entrance then []
    else
      var n := CountOfType(rooms, rule.roomType);
      if n > rule.count then [RoomTypeOverAssigned(rule.roomType, n, rule.count)] else []
  }

  function RuleParts(rooms: seq<DungeonRoom>, rules: seq<RoomTypeRule>): (parts: seq<seq<Issue>>)
    ensures |parts| == |rules|
    ensures forall k :: 0 <= k < |parts| ==> parts[k] == RuleIssues(rooms, rules[k])
  {
    seq(|rules|, k requires 0 <= k < |rules| => RuleIssues(rooms, rules[k]))
  }

  /** ValidateRoomSemantics: entrance count, boss guarantee, rule limits, entrance distance. */
  function SemanticsIssues(r: DungeonResult, cfg: DungeonConfiguration): seq<Issue> {
    var entrances := CountOfType(r.rooms, RoomType.Entrance);
    var hasBoss := exists i :: 0 <= i < |r.rooms| && r.rooms[i].roomType == Boss;
    var idx := r.entranceRoomIndex;
    (if entrances == 0 then [NoEntranceRoom] else if entrances > 1 then [MultipleEntranceRooms(entrances)] else [])
    + (if cfg.guaranteeBossRoom && |r.rooms| > 1 && !hasBoss then [NoBossRoom] else [])
    + Flatten(RuleParts(r.rooms, cfg.roomTypeRules))
    + (if 0 <= idx < |r.rooms| && r.rooms[idx].graphDistanceFromEntrance != 0
       then [EntranceDistanceNonZero(idx, r.rooms[idx].graphDistanceFromEntrance)] else [])
  }

  /**
   * Exactly one Entrance room; a Boss room when one is guaranteed and there is
   * more than one room; no non-Entrance rule's type over its count; and the
   * entrance room at distance 0 from itself.
   */
  predicate SemanticsValid(r: DungeonResult, cfg: DungeonConfiguration) {
    && CountOfType(r.rooms, RoomType.Entrance) == 1
    && (cfg.guaranteeBossRoom && |r.rooms| > 1 ==> exists i :: 0 <= i < |r.rooms| && r.rooms[i].roomType == Boss)
    && (forall k :: 0 <= k < |cfg.roomTypeRules| && cfg.roomTypeRules[k].roomType != RoomType.Entrance ==>
          CountOfType(r.rooms, cfg.roomTypeRules[k].roomType) <= cfg.roomTypeRules[k].count)
    && (0 <= r.entranceRoomIndex < |r.rooms| ==> r.rooms[r.entranceRoomIndex].graphDistanceFromEntrance == 0)
  }

  lemma SemanticsIssuesEmpty(r: DungeonResult, cfg: DungeonConfiguration)
    ensures SemanticsIssues(r, cfg) == [] <==> SemanticsValid(r, cfg)
  {
    FlattenEmpty(RuleParts(r.rooms, cfg.roomTypeRules));
  }

  // ---------------------------------------------------------------- Connectivity

  /** The undirected hallway graph: one edge RoomA-RoomB per hallway. */
  function HallwayEdges(hallways: seq<DungeonHallway>): (edges: seq<Graphs.Edge>)
    ensures |edges| == |hallways|
    ensures forall i :: 0 <= i < |hallways| ==> edges[i] == (hallways[i].roomA as int, hallways[i].roomB as int)
  {
    seq(|hallways|, i requires 0 <= i < |hallways| => (hallways[i].roomA as int, hallways[i].roomB as int))
  }

  /** Every vertex that can be visited: the start and the edges' endpoints. */
  function Endpoints(edges: seq<Graphs.Edge>, start: int): (vs: set<int>)
    ensures start in vs
    ensures forall u, v :: Graphs.Adjacent(edges, u, v) ==> v in vs
  {
    var vs := {start} + (set i | 0 <= i < |edges| :: edges[i].0) + (set i | 0 <= i < |edges| :: edges[i].1);
    assert forall u, v :: Graphs.Adjacent(edges, u, v) ==> v in vs by {
      forall u, v | Graphs.Adjacent(edges, u, v) ensures v in vs {
        var i :| 0 <= i < |edges| && Graphs.Joins(edges[i], u, v);
        assert edges[i].0 in vs && edges[i].1 in vs;
      }
    }
    vs
  }

  /** The breadth-first search's loop invariant; the queue holds each visited vertex once. */
  ghost predicate BfsInvariant(edges: seq<Graphs.Edge>, start: int, universe: set<int>,
                               visited: set<int>, queue: seq<int>, head: int)
  {
    && 0 <= head <= |queue|
    && visited <= universe
    && (forall v :: v in visited <==> v in queue)
    && start in visited
    && (forall v :: v in visited ==> Graphs.Reachable(edges, start, v))
    && (forall j, v :: 0 <= j < head && Graphs.Adjacent(edges, queue[j], v) ==> v in visited)
  }

  /** Dequeue one vertex and enqueue each of its neighbours not seen before. */
  method BfsStep(edges: seq<Graphs.Edge>, ghost start: int, ghost universe: set<int>,
                 visited: set<int>, queue: seq<int>, head: int)
    returns (visited': set<int>, queue': seq<int>)
    requires head < |queue| && BfsInvariant(edges, start, universe, visited, queue, head)
    requires forall u, v :: Graphs.Adjacent(edges, u, v) ==> v in universe
    ensures BfsInvariant(edges, start, universe, visited', queue', head + 1)
    ensures |universe - visited'| + |queue'| == |universe - visited| + |queue|
  {
    var cur := queue[head];
    var ns := Graphs.Neighbors(edges, cur);
    assert cur in visited && Graphs.Reachable(edges, start, cur);
    visited', queue' := EnqueueFrom(edges, start, universe, cur, ns, 0, visited, queue);
    BfsStepDone(edges, start, universe, visited, queue, head, ns, visited', queue');
  }

  /** The neighbour loop: enqueue ns[k..] in order; ns lists neighbours of a reached vertex. */
  method EnqueueFrom(edges: seq<Graphs.Edge>, ghost start: int, ghost universe: set<int>, ghost cur: int,
                     ns: seq<int>, k: nat, visited: set<int>, queue: seq<int>)
    returns (visited': set<int>, queue': seq<int>)
    requires k <= |ns| && visited <= universe
    requires Graphs.Reachable(edges, start, cur)
    requires forall v :: v in ns ==> Graphs.Adjacent(edges, cur, v) && v in universe
    requires forall v :: v in visited <==> v in queue
    requires forall v :: v in visited ==> Graphs.Reachable(edges, start, v)
    requires forall j :: 0 <= j < k ==> ns[j] in visited
    ensures visited <= visited' <= universe
    ensures forall v :: v in visited' <==> v in queue'
    ensures forall v :: v in visited' ==> Graphs.Reachable(edges, start, v)
    ensures forall j :: 0 <= j < |ns| ==> ns[j] in visited'
    ensures |universe - visited'| + |queue'| == |universe - visited| + |queue|
    ensures |queue| <= |queue'| && queue'[..|queue|] == queue
    decreases |ns| - k
  {
    if k == |ns| {
      return visited, queue;
    }
    var v1, q1 := Enqueue(edges, start, universe, cur, visited, queue, ns[k]);
    visited', queue' := EnqueueFrom(edges, start, universe, cur, ns, k + 1, v1, q1);
    assert queue'[..|queue|] == q1[..|q1|][..|queue|];
  }

  /** Mark one neighbour of a reached vertex as visited and enqueue it, unless it was seen before. */
  method Enqueue(edges: seq<Graphs.Edge>, ghost start: int, ghost universe: set<int>, ghost cur: int,
                 visited: set<int>, queue: seq<int>, v: int)
    returns (visited': set<int>, queue': seq<int>)
    requires visited <= universe && v in universe
    requires Graphs.Reachable(edges, start, cur) && Graphs.Adjacent(edges, cur, v)
    requires forall u :: u in visited <==> u in queue
    ensures visited + {v} == visited' && visited' <= universe
    ensures forall u :: u in visited' <==> u in queue'
    ensures Graphs.Reachable(edges, start, v)
    ensures |universe - visited'| + |queue'| == |universe - visited| + |queue|
    ensures |queue| <= |queue'| && queue'[..|queue|] == queue
  {
    Graphs.ReachableExtend(edges, start, cur, v);
    if v in visited {
      return visited, queue;
    }
    CountAfterVisit(universe, visited, v);
    visited', queue' := visited + {v}, queue + [v];
  }

  /** Visiting one more vertex of the universe moves it out of the unvisited part. */
  lemma CountAfterVisit(universe: set<int>, visited: set<int>, v: int)
    requires visited <= universe && v in universe && v !in visited
    ensures |universe - (visited + {v})| + 1 == |universe - visited|
  {
    assert universe - visited == (universe - (visited + {v})) + {v};
  }

  /** Once all neighbours of the head vertex are visited, the invariant holds one step further. */
  lemma BfsStepDone(edges: seq<Graphs.Edge>, start: int, universe: set<int>,
                    visited: set<int>, queue: seq<int>, head: int, ns: seq<int>,
                    visited': set<int>, queue': seq<int>)
    requires head < |queue| && BfsInvariant(edges, start, universe, visited, queue, head)
    requires forall v :: v in ns <==> Graphs.Adjacent(edges, queue[head], v)
    requires visited <= visited' <= universe
    requires forall v :: v in visited' <==> v in queue'
    requires forall v :: v in visited' ==> Graphs.Reachable(edges, start, v)
    requires forall j :: 0 <= j < |ns| ==> ns[j] in visited'
    requires |queue| <= |queue'| && queue'[..|queue|] == queue
    ensures BfsInvariant(edges, start, universe, visited', queue', head + 1)
  {
    forall j, v | 0 <= j < head + 1 && Graphs.Adjacent(edges, queue'[j], v)
      ensures v in visited'
    {
      assert queue'[j] == queue[j];
      if j == head {
        var i :| 0 <= i < |ns| && ns[i] == v;
      }
    }
  }

  /** Breadth-first search from the start: visits exactly the vertices reachable from it. */
  method BreadthFirstVisit(edges: seq<Graphs.Edge>, start: int) returns (visited: set<int>)
    ensures forall v :: v in visited <==> Graphs.Reachable(edges, start, v)
  {
    ghost var universe := Endpoints(edges, start);
    var queue := [start];
    visited := {start};
    Graphs.WalkOfLengthZero(edges, start);
    var head := 0;
    while head < |queue|
      invariant BfsInvariant(edges, start, universe, visited, queue, head)
      decreases |universe - visited| + |queue| - head
    {
      visited, queue := BfsStep(edges, start, universe, visited, queue, head);
      head := head + 1;
    }
    forall v | Graphs.Reachable(edges, start, v)
      ensures v in visited
    {
      var n: nat :| Graphs.WalkOfLength(edges, start, v, n);
      forall u, w | u in visited && Graphs.Adjacent(edges, u, w)
        ensures w in visited
      {
        var j :| 0 <= j < |queue| && queue[j] == u;
      }
      Graphs.ClosedContainsReachable(edges, visited, start, v, n);
    }
  }

  ghost function ConnectivityParts(r: DungeonResult): (parts: seq<seq<Issue>>)
    requires 0 <= r.entranceRoomIndex
    ensures |parts| == |r.rooms|
    ensures forall i :: 0 <= i < |parts| ==>
      parts[i] == (if Graphs.Reachable(HallwayEdges(r.hallways), r.entranceRoomIndex, i) then [] else [RoomDisconnected(i)])
  {
    seq(|r.rooms|, i requires 0 <= i < |r.rooms| =>
      if Graphs.Reachable(HallwayEdges(r.hallways), r.entranceRoomIndex, i) then [] else [RoomDisconnected(i)])
  }

  /** What ValidateRoomConnectivity reports: the rooms with no hallway route from the entrance. */
  ghost function ConnectivitySpec(r: DungeonResult): seq<Issue> {
    if |r.rooms| <= 1 || !(0 <= r.entranceRoomIndex < |r.rooms|) then []
    else Flatten(ConnectivityParts(r))
  }

  ghost predicate Connected(r: DungeonResult) {
    |r.rooms| <= 1 || !(0 <= r.entranceRoomIndex < |r.rooms|)
    || forall i :: 0 <= i < |r.rooms| ==> Graphs.Reachable(HallwayEdges(r.hallways), r.entranceRoomIndex, i)
  }

  /** The check reports exactly the rooms unreachable from the entrance, and nothing when it is skipped. */
  lemma ConnectivitySpecMember(r: DungeonResult, x: Issue)
    ensures x in ConnectivitySpec(r) <==>
      |r.rooms| > 1 && 0 <= r.entranceRoomIndex < |r.rooms|
      && exists i :: (0 <= i < |r.rooms| && !Graphs.Reachable(HallwayEdges(r.hallways), r.entranceRoomIndex, i)
                      && x == RoomDisconnected(i))
  {
    if |r.rooms| > 1 && 0 <= r.entranceRoomIndex < |r.rooms| {
      FlattenMember(ConnectivityParts(r), x);
    }
  }

  lemma ConnectivitySpecEmpty(r: DungeonResult)
    ensures ConnectivitySpec(r) == [] <==> Connected(r)
  {
    if |r.rooms| > 1 && 0 <= r.entranceRoomIndex < |r.rooms| {
      FlattenEmpty(ConnectivityParts(r));
    }
  }

  /** ValidateRoomConnectivity: BFS over the hallway graph, then one issue per unvisited room. */
  method ValidateRoomConnectivity(r: DungeonResult) returns (issues: seq<Issue>)
    ensures issues == ConnectivitySpec(r)
  {
    if |r.rooms| <= 1 {
      return [];
    }
    if r.entranceRoomIndex < 0 || r.entranceRoomIndex >= |r.rooms| {
      return [];
    }
    var visited := BreadthFirstVisit(HallwayEdges(r.hallways), r.entranceRoomIndex);
    ghost var parts := ConnectivityParts(r);
    issues := [];
    var i := 0;
    while i < |r.rooms|
      invariant 0 <= i <= |r.rooms|
      invariant issues == Flatten(parts[..i])
    {
      assert parts[..i + 1][..i] == parts[..i];
      if i !in visited {
        issues := issues + [RoomDisconnected(i)];
      }
      i := i + 1;
    }
    assert parts[..|r.rooms|] == parts;
  }

  // ---------------------------------------------------------------- Reachability

  /** The six face neighbours, in the order the flood fill tries them. */
  function Around(c: Vec3): (ns: seq<Vec3>)
    ensures |ns| == 6
  {
    [c.Plus(Vec3(1, 0, 0)), c.Plus(Vec3(-1, 0, 0)),
     c.Plus(Vec3(0, 1, 0)), c.Plus(Vec3(0, -1, 0)),
     c.Plus(Vec3(0, 0, 1)), c.Plus(Vec3(0, 0, -1))]
  }

  /** A cell the flood fill may enter: in bounds and not Empty. */
  predicate Open(g: DungeonGrid, c: Vec3)
    requires WellFormed(g)
  {
    IsInBounds(g, c) && GetCell(g, c).cellType != Empty
  }

  ghost predicate IsCellWalk(g: DungeonGrid, p: seq<Vec3>)
    requires WellFormed(g)
  {
    && |p| > 0
    && (forall i :: 0 <= i < |p| ==> Open(g, p[i]))
    && (forall i :: 0 <= i < |p| - 1 ==> p[i + 1] in Around(p[i]))
  }

  /** t is reached from s by face steps through non-Empty cells. */
  ghost predicate CellConnected(g: DungeonGrid, s: Vec3, t: Vec3)
    requires WellFormed(g)
  {
    exists p :: IsCellWalk(g, p) && p[0] == s && p[|p| - 1] == t
  }

  function AllCells(g: DungeonGrid): (cs: set<Vec3>)
    ensures forall c :: c in cs <==> IsInBounds(g, c)
  {
    var cs := set x, y, z | 0 <= x < g.size.x && 0 <= y < g.size.y && 0 <= z < g.size.z :: Vec3(x, y, z);
    assert forall c :: IsInBounds(g, c) ==> c in cs by {
      forall c | IsInBounds(g, c) ensures c in cs {
        assert c == Vec3(c.x, c.y, c.z);
      }
    }
    cs
  }

  lemma CellWalkStep(g: DungeonGrid, s: Vec3, c: Vec3, d: Vec3)
    requires WellFormed(g)
    requires CellConnected(g, s, c) && d in Around(c) && Open(g, d)
    ensures CellConnected(g, s, d)
  {
    var p :| IsCellWalk(g, p) && p[0] == s && p[|p| - 1] == c;
    var p' := p + [d];
    forall i | 0 <= i < |p'|
      ensures Open(g, p'[i])
    {
      if i < |p| {
        assert p'[i] == p[i];
      }
    }
    forall i | 0 <= i < |p'| - 1
      ensures p'[i + 1] in Around(p'[i])
    {
      assert p'[i] == p[i];
      if i + 1 < |p| {
        assert p'[i + 1] == p[i + 1];
      }
    }
    assert p'[0] == s && p'[|p'| - 1] == d;
  }

  /** A cell set holding s and closed under open face steps holds every cell connected to s. */
  lemma ClosedContainsConnected(g: DungeonGrid, vs: set<Vec3>, s: Vec3, t: Vec3)
    requires WellFormed(g)
    requires s in vs
    requires forall c, d :: c in vs && d in Around(c) && Open(g, d) ==> d in vs
    requires CellConnected(g, s, t)
    ensures t in vs
  {
    var p :| IsCellWalk(g, p) && p[0] == s && p[|p| - 1] == t;
    var i := 0;
    while i < |p| - 1
      invariant 0 <= i <= |p| - 1
      invariant p[i] in vs
    {
      assert p[i + 1] in Around(p[i]) && Open(g, p[i + 1]);
      i := i + 1;
    }
  }

  lemma CellConnectedEnds(g: DungeonGrid, s: Vec3, t: Vec3)
    requires WellFormed(g) && CellConnected(g, s, t)
    ensures Open(g, s) && Open(g, t)
  {
    var p :| IsCellWalk(g, p) && p[0] == s && p[|p| - 1] == t;
  }

  /** The flood fill's loop invariant. */
  ghost predicate FloodInvariant(g: DungeonGrid, start: Vec3, visited: set<Vec3>, stack: seq<Vec3>)
    requires WellFormed(g)
  {
    && start in visited
    && (forall c :: c in visited ==> Open(g, c) && CellConnected(g, start, c))
    && (forall c :: c in stack ==> c in visited)
    && (forall c, d :: c in visited && c !in stack && d in Around(c) && Open(g, d) ==> d in visited)
  }

  /** Visit one neighbour of the current cell: push it if it is open and unvisited. */
  method TryVisit(g: DungeonGrid, ghost start: Vec3, cur: Vec3, n: Vec3, visited: set<Vec3>, stack: seq<Vec3>)
    returns (visited': set<Vec3>, stack': seq<Vec3>)
    requires WellFormed(g) && CellConnected(g, start, cur) && n in Around(cur)
    ensures || (visited' == visited && stack' == stack)
            || (n !in visited && visited' == visited + {n} && stack' == stack + [n])
    ensures Open(g, n) ==> n in visited'
    ensures n in visited' && n !in visited ==> Open(g, n) && CellConnected(g, start, n)
    ensures visited <= visited' && forall c :: c in stack ==> c in stack'
    ensures forall c :: c in visited' && c !in stack' ==> c in visited && c !in stack
    ensures forall c :: c in stack' ==> c in stack || c == n
  {
    visited', stack' := visited, stack;
    if IsInBounds(g, n) && n !in visited && GetCell(g, n).cellType != Empty {
      CellWalkStep(g, start, cur, n);
      visited' := visited + {n};
      stack' := stack + [n];
    }
  }

  /** One iteration of the flood fill: pop a cell and push its unvisited open neighbours. */
  method FloodStep(g: DungeonGrid, ghost start: Vec3, visited: set<Vec3>, stack: seq<Vec3>)
    returns (visited': set<Vec3>, stack': seq<Vec3>)
    requires WellFormed(g) && |stack| > 0
    requires FloodInvariant(g, start, visited, stack)
    ensures FloodInvariant(g, start, visited', stack')
    ensures visited <= visited'
    ensures visited' == visited ==> |stack'| < |stack|
  {
    var cur := stack[|stack| - 1];
    var popped := stack[..|stack| - 1];
    assert forall c :: c in popped ==> c in stack;
    visited', stack' := VisitAround(g, start, cur, Around(cur), 0, visited, popped, popped);
    forall c, d | c in visited' && c !in stack' && d in Around(c) && Open(g, d)
      ensures d in visited'
    {
      if c == cur {
        var j :| 0 <= j < 6 && Around(cur)[j] == d;
      }
    }
  }

  /** The neighbour loop of FloodStep, from the k-th neighbour of cur on. */
  method VisitAround(g: DungeonGrid, ghost start: Vec3, cur: Vec3, ns: seq<Vec3>, k: nat,
                     visited: set<Vec3>, stack: seq<Vec3>, ghost stack0: seq<Vec3>)
    returns (visited': set<Vec3>, stack': seq<Vec3>)
    requires WellFormed(g) && ns == Around(cur) && k <= 6
    requires cur in visited && CellConnected(g, start, cur)
    requires forall c :: c in visited ==> Open(g, c) && CellConnected(g, start, c)
    requires forall c :: c in stack ==> c in visited
    requires forall c :: c in stack0 ==> c in stack
    requires forall c, d :: c in visited && c !in stack && c != cur && d in Around(c) && Open(g, d) ==> d in visited
    requires forall j :: 0 <= j < k && Open(g, ns[j]) ==> ns[j] in visited
    ensures visited <= visited' && (visited' == visited ==> stack' == stack)
    ensures forall c :: c in visited' ==> Open(g, c) && CellConnected(g, start, c)
    ensures forall c :: c in stack' ==> c in visited'
    ensures forall c :: c in stack0 ==> c in stack'
    ensures forall c, d :: c in visited' && c !in stack' && c != cur && d in Around(c) && Open(g, d) ==> d in visited'
    ensures forall j :: 0 <= j < 6 && Open(g, ns[j]) ==> ns[j] in visited'
    decreases 6 - k
  {
    if k == 6 {
      return visited, stack;
    }
    var v, s := TryVisit(g, start, cur, ns[k], visited, stack);
    assert forall c :: c in s ==> c in v;
    assert forall j :: 0 <= j < k + 1 && Open(g, ns[j]) ==> ns[j] in v;
    visited', stack' := VisitAround(g, start, cur, ns, k + 1, v, s, stack0);
  }

  /**
   * FloodFill: depth-first over face neighbours from the start. Visits
   * nothing when the start is outside the grid or Empty, and otherwise exactly
   * the cells connected to it. (The source records flat indices; CellIndex is
   * injective on the grid, so coordinates carry the same information.)
   */
  method FloodFill(g: DungeonGrid, start: Vec3) returns (visited: set<Vec3>)
    requires WellFormed(g)
    ensures !Open(g, start) ==> visited == {}
    ensures Open(g, start) ==> forall c :: c in visited <==> CellConnected(g, start, c)
  {
    if !IsInBounds(g, start) {
      return {};
    }
    if GetCell(g, start).cellType == Empty {
      return {};
    }
    var stack := [start];
    visited := {start};
    assert IsCellWalk(g, [start]);
    while |stack| > 0
      invariant FloodInvariant(g, start, visited, stack)
      decreases AllCells(g) - visited, |stack|
    {
      ghost var before := visited;
      visited, stack := FloodStep(g, start, visited, stack);
      if visited != before {
        var n :| n in visited && n !in before;
        assert n in AllCells(g);
      }
    }
    forall c | CellConnected(g, start, c)
      ensures c in visited
    {
      ClosedContainsConnected(g, visited, start, c);
    }
  }

  function UnreachableIssue(g: DungeonGrid, visited: set<Vec3>, c: Vec3): seq<Issue>
    requires WellFormed(g) && IsInBounds(g, c)
  {
    var t := GetCell(g, c).cellType;
    if t != Empty && c !in visited then [CellUnreachable(c, t)] else []
  }

  /** The issues of the X loop over the first n cells of row (y, z). */
  function RowIssues(g: DungeonGrid, visited: set<Vec3>, y: int, z: int, n: nat): seq<Issue>
    requires WellFormed(g) && 0 <= y < g.size.y && 0 <= z < g.size.z && n <= g.size.x
  {
    if n == 0 then [] else RowIssues(g, visited, y, z, n - 1) + UnreachableIssue(g, visited, Vec3(n - 1, y, z))
  }

  /** The issues of the Y loop over the first n rows of plane z. */
  function PlaneIssues(g: DungeonGrid, visited: set<Vec3>, z: int, n: nat): seq<Issue>
    requires WellFormed(g) && 0 <= z < g.size.z && n <= g.size.y
  {
    if n == 0 then [] else PlaneIssues(g, visited, z, n - 1) + RowIssues(g, visited, n - 1, z, g.size.x)
  }

  /** The issues of the Z loop over the first n planes. */
  function GridIssues(g: DungeonGrid, visited: set<Vec3>, n: nat): seq<Issue>
    requires WellFormed(g) && n <= g.size.z
  {
    if n == 0 then [] else GridIssues(g, visited, n - 1) + PlaneIssues(g, visited, n - 1, g.size.y)
  }

  lemma {:induction false} RowIssuesMember(g: DungeonGrid, visited: set<Vec3>, y: int, z: int, n: nat, x: Issue)
    requires WellFormed(g) && 0 <= y < g.size.y && 0 <= z < g.size.z && n <= g.size.x
    ensures x in RowIssues(g, visited, y, z, n) <==>
      exists cx :: 0 <= cx < n && x in UnreachableIssue(g, visited, Vec3(cx, y, z))
  {
    if n > 0 {
      RowIssuesMember(g, visited, y, z, n - 1, x);
    }
  }

  lemma {:induction false} PlaneIssuesMember(g: DungeonGrid, visited: set<Vec3>, z: int, n: nat, x: Issue)
    requires WellFormed(g) && 0 <= z < g.size.z && n <= g.size.y
    ensures x in PlaneIssues(g, visited, z, n) <==>
      exists c: Vec3 :: c.z == z && 0 <= c.y < n && IsInBounds(g, c) && x in UnreachableIssue(g, visited, c)
  {
    if n > 0 {
      PlaneIssuesMember(g, visited, z, n - 1, x);
      RowIssuesMember(g, visited, n - 1, z, g.size.x, x);
      if exists c: Vec3 :: c.z == z && 0 <= c.y < n && IsInBounds(g, c) && x in UnreachableIssue(g, visited, c) {
        var c: Vec3 :| c.z == z && 0 <= c.y < n && IsInBounds(g, c) && x in UnreachableIssue(g, visited, c);
        if c.y == n - 1 {
          assert c == Vec3(c.x, n - 1, z);
        }
      }
    }
  }

  lemma {:induction false} GridIssuesMember(g: DungeonGrid, visited: set<Vec3>, n: nat, x: Issue)
    requires WellFormed(g) && n <= g.size.z
    ensures x in GridIssues(g, visited, n) <==>
      exists c: Vec3 :: 0 <= c.z < n && IsInBounds(g, c) && x in UnreachableIssue(g, visited, c)
  {
    if n > 0 {
      GridIssuesMember(g, visited, n - 1, x);
      PlaneIssuesMember(g, visited, n - 1, g.size.y, x);
    }
  }

  /** The cells connected to the entrance cell, or none when that cell is outside the grid or Empty. */
  ghost function ReachedFrom(g: DungeonGrid, s: Vec3): set<Vec3>
    requires WellFormed(g)
  {
    set c | c in AllCells(g) && Open(g, s) && CellConnected(g, s, c)
  }

  /** What ValidateReachability reports, in Z, Y, X order. */
  ghost function ReachabilitySpec(r: DungeonResult): seq<Issue>
    requires WellFormed(r.grid)
  {
    if !Open(r.grid, r.entranceCell) then []
    else GridIssues(r.grid, ReachedFrom(r.grid, r.entranceCell), r.grid.size.z)
  }

  ghost predicate AllReachable(r: DungeonResult)
    requires WellFormed(r.grid)
  {
    Open(r.grid, r.entranceCell) ==>
      forall c :: Open(r.grid, c) ==> CellConnected(r.grid, r.entranceCell, c)
  }

  /** When the entrance cell is open, exactly the open cells not connected to it are reported. */
  lemma ReachabilitySpecMember(r: DungeonResult, x: Issue)
    requires WellFormed(r.grid)
    ensures x in ReachabilitySpec(r) <==>
      Open(r.grid, r.entranceCell)
      && exists c :: Open(r.grid, c) && !CellConnected(r.grid, r.entranceCell, c)
                     && x == CellUnreachable(c, GetCell(r.grid, c).cellType)
  {
    var g := r.grid;
    if Open(g, r.entranceCell) {
      GridIssuesMember(g, ReachedFrom(g, r.entranceCell), g.size.z, x);
    }
  }

  lemma ReachabilitySpecEmpty(r: DungeonResult)
    requires WellFormed(r.grid)
    ensures ReachabilitySpec(r) == [] <==> AllReachable(r)
  {
    var g := r.grid;
    if ReachabilitySpec(r) != [] {
      ReachabilitySpecMember(r, ReachabilitySpec(r)[0]);
    }
    if !AllReachable(r) {
      var c :| Open(g, c) && !CellConnected(g, r.entranceCell, c);
      ReachabilitySpecMember(r, CellUnreachable(c, GetCell(g, c).cellType));
    }
  }

  /** The X loop of the scan over row (y, z). */
  method ScanRow(g: DungeonGrid, visited: set<Vec3>, y: int, z: int) returns (row: seq<Issue>)
    requires WellFormed(g) && 0 <= y < g.size.y && 0 <= z < g.size.z
    ensures row == RowIssues(g, visited, y, z, g.size.x)
  {
    row := [];
    var x := 0;
    while x < g.size.x
      invariant 0 <= x <= g.size.x
      invariant row == RowIssues(g, visited, y, z, x)
    {
      var c := Vec3(x, y, z);
      var t := GetCell(g, c).cellType;
      if t != Empty && c !in visited {
        row := row + [CellUnreachable(c, t)];
      }
      x := x + 1;
    }
  }

  /** The Y loop of the scan over plane z. */
  method ScanPlane(g: DungeonGrid, visited: set<Vec3>, z: int) returns (plane: seq<Issue>)
    requires WellFormed(g) && 0 <= z < g.size.z
    ensures plane == PlaneIssues(g, visited, z, g.size.y)
  {
    plane := [];
    var y := 0;
    while y < g.size.y
      invariant 0 <= y <= g.size.y
      invariant plane == PlaneIssues(g, visited, z, y)
    {
      var row := ScanRow(g, visited, y, z);
      plane := plane + row;
      y := y + 1;
    }
  }

  /** The scan after the flood fill: every open cell outside the visited set, in Z, Y, X order. */
  method ScanUnvisited(g: DungeonGrid, visited: set<Vec3>) returns (issues: seq<Issue>)
    requires WellFormed(g)
    ensures issues == GridIssues(g, visited, g.size.z)
  {
    issues := [];
    var z := 0;
    while z < g.size.z
      invariant 0 <= z <= g.size.z
      invariant issues == GridIssues(g, visited, z)
    {
      var plane := ScanPlane(g, visited, z);
      issues := issues + plane;
      z := z + 1;
    }
  }

  /** ValidateReachability: flood fill from the entrance cell, then scan for open cells left out. */
  method ValidateReachability(r: DungeonResult) returns (issues: seq<Issue>)
    requires WellFormed(r.grid)
    ensures issues == ReachabilitySpec(r)
  {
    var g := r.grid;
    if !IsInBounds(g, r.entranceCell) {
      return [];
    }
    if GetCell(g, r.entranceCell).cellType == Empty {
      return [];
    }
    var visited := FloodFill(g, r.entranceCell);
    forall c | c in visited
      ensures c in ReachedFrom(g, r.entranceCell)
    {
      CellConnectedEnds(g, r.entranceCell, c);
    }
    assert visited == ReachedFrom(g, r.entranceCell);
    issues := ScanUnvisited(g, visited);
  }

  // ---------------------------------------------------------------- All checks

  /** The nine checks' issues, concatenated in the order ValidateAll runs them. */
  ghost function AllIssues(r: DungeonResult, cfg: DungeonConfiguration): seq<Issue>
    requires WellFormed(r.grid)
  {
    EntranceIssues(r) + MetricsIssues(r) + BoundsIssues(r) + OverlapIssues(r.rooms)
    + BufferIssues(r.rooms, cfg.roomBuffer) + ConnectivitySpec(r) + HeadroomIssues(r)
    + ReachabilitySpec(r) + SemanticsIssues(r, cfg)
  }

  /** A well-formed dungeon: every check holds. */
  ghost predicate DungeonValid(r: DungeonResult, cfg: DungeonConfiguration)
    requires WellFormed(r.grid)
  {
    && EntranceValid(r)
    && MetricsValid(r)
    && BoundsValid(r)
    && NoOverlap(r.rooms)
    && BufferRespected(r.rooms, cfg.roomBuffer)
    && Connected(r)
    && HeadroomClear(r)
    && AllReachable(r)
    && SemanticsValid(r, cfg)
  }

  /** No issue at all exactly when every one of the nine properties holds. */
  lemma AllIssuesEmpty(r: DungeonResult, cfg: DungeonConfiguration)
    requires WellFormed(r.grid)
    ensures AllIssues(r, cfg) == [] <==> DungeonValid(r, cfg)
  {
    BoundsIssuesEmpty(r);
    OverlapIssuesEmpty(r.rooms);
    BufferIssuesEmpty(r.rooms, cfg.roomBuffer);
    ConnectivitySpecEmpty(r);
    HeadroomIssuesEmpty(r);
    ReachabilitySpecEmpty(r);
    SemanticsIssuesEmpty(r, cfg);
  }

  /** ValidateAll: runs the nine checks in order; it passes iff no check reported an issue. */
  method ValidateAll(r: DungeonResult, cfg: DungeonConfiguration) returns (v: ValidationResult)
    requires WellFormed(r.grid)
    ensures v.issues == AllIssues(r, cfg)
    ensures v.passed <==> v.issues == []
    ensures v.passed <==> DungeonValid(r, cfg)
  {
    var connectivity := ValidateRoomConnectivity(r);
    var reachability := ValidateReachability(r);
    var issues := EntranceIssues(r) + MetricsIssues(r) + BoundsIssues(r) + OverlapIssues(r.rooms)
      + BufferIssues(r.rooms, cfg.roomBuffer) + connectivity + HeadroomIssues(r)
      + reachability + SemanticsIssues(r, cfg);
    AllIssuesEmpty(r, cfg);
    v := ValidationResult(|issues| == 0, issues);
  }
}

=== FILE: dungeon_voxel_config.dfy ===
/**
 * The voxel stamping configuration: which material each boundary voxel gets,
 * and how many voxels span one dungeon cell.
 */
module DungeonVoxelConfig {
  import opened DungeonTypes

  /** The five configurable material IDs. */
  datatype Materials = Materials(wall: Byte, floor: Byte, ceiling: Byte, staircase: Byte, doorFrame: Byte)

  /** Every material defaults to ID 2. */
  const DefaultMaterials := Materials(2, 2, 2, 2, 2)

  datatype VoxelConfig = VoxelConfig(
    materials: Materials,
    roomTypeOverrides: map<RoomType, Byte>,
    voxelsPerCellOverride: int,
    wallThickness: int,
    biome: Byte)

  /** No overrides, an automatic voxel count, one layer of wall, biome 0. */
  const DefaultVoxelConfig := VoxelConfig(DefaultMaterials, map[], 0, 1, 0)

  /** Boundary faces: 0..3 are the side walls, 4 the ceiling (+Z) and 5 the floor (-Z); -1 means "no face". */
  const CeilingFace := 4
  const FloorFace := 5

  /** The engine's round-to-nearest on a non-negative or negative quotient: halves round up. */
  function RoundToInt(q: real): (n: int)
    ensures (n as real) - 0.5 <= q < (n as real) + 0.5
  {
    (q + 0.5).Floor
  }

  /**
   * A positive override wins; otherwise the number of voxels nearest to
   * CellWorldSize / VoxelSize, but never less than one.
   */
  function GetEffectiveVoxelsPerCell(cfg: VoxelConfig, cellWorldSize: real, voxelSize: real): (n: int)
    requires cfg.voxelsPerCellOverride > 0 || voxelSize != 0.0
    ensures 1 <= n
    ensures cfg.voxelsPerCellOverride > 0 ==> n == cfg.voxelsPerCellOverride
    ensures cfg.voxelsPerCellOverride <= 0 ==>
      cellWorldSize / voxelSize < (n as real) + 0.5
      && (n == 1 || (n as real) - 0.5 <= cellWorldSize / voxelSize)
  {
    if cfg.voxelsPerCellOverride > 0 then cfg.voxelsPerCellOverride
    else
      var rounded := RoundToInt(cellWorldSize / voxelSize);
      if rounded < 1 then 1 else rounded
  }

  /**
   * The material of a boundary voxel placed for a cell of type `t` in a room
   * of type `rt` on face `face`. Room-type overrides take precedence for the
   * room family; then stairs, then door frames, then the face decides.
   */
  function GetMaterialForCell(cfg: VoxelConfig, t: CellType, rt: RoomType, face: int): (m: Byte)
    ensures IsRoomFamily(t) && rt in cfg.roomTypeOverrides ==> m == cfg.roomTypeOverrides[rt]
    ensures IsStairFamily(t) ==> m == cfg.materials.staircase
    ensures t == Door && rt !in cfg.roomTypeOverrides ==> m == cfg.materials.doorFrame
    ensures !IsStairFamily(t) && t != Door && !(IsRoomFamily(t) && rt in cfg.roomTypeOverrides) ==>
      (face == FloorFace ==> m == cfg.materials.floor)
      && (face == CeilingFace ==> m == cfg.materials.ceiling)
      && (face != FloorFace && face != CeilingFace ==> m == cfg.materials.wall)
  {
    if IsRoomFamily(t) && rt in cfg.roomTypeOverrides then cfg.roomTypeOverrides[rt]
    else if t == Staircase || t == StaircaseHead then cfg.materials.staircase
    else if t == Door then cfg.materials.doorFrame
    else if face == FloorFace then cfg.materials.floor
    else if face == CeilingFace then cfg.materials.ceiling
    else cfg.materials.wall
  }

  /** The IDs a configuration can hand out: its five materials and its override values. */
  predicate IsConfiguredMaterial(cfg: VoxelConfig, m: Byte) {
    || m == cfg.materials.wall
    || m == cfg.materials.floor
    || m == cfg.materials.ceiling
    || m == cfg.materials.staircase
    || m == cfg.materials.doorFrame
    || m in cfg.roomTypeOverrides.Values
  }

  /** No cell, room type or face yields a material the configuration does not name. */
  lemma MaterialIsConfigured(cfg: VoxelConfig, t: CellType, rt: RoomType, face: int)
    ensures IsConfiguredMaterial(cfg, GetMaterialForCell(cfg, t, rt, face))
  {
    if IsRoomFamily(t) && rt in cfg.roomTypeOverrides {
      assert cfg.roomTypeOverrides[rt] in cfg.roomTypeOverrides.Values;
    }
  }

  /**
   * Hallway, staircase and headroom cells never see a room-type override:
   * their material depends neither on the room type nor on the override map.
   */
  lemma HallwayIgnoresOverrides(cfg: VoxelConfig, t: CellType, rt: RoomType, rt': RoomType, overrides: map<RoomType, Byte>, face: int)
    requires IsHallwayFamily(t)
    ensures GetMaterialForCell(cfg, t, rt, face) == GetMaterialForCell(cfg.(roomTypeOverrides := overrides), t, rt', face)
  {
  }

  /** Without overrides the room type plays no part in the choice. */
  lemma NoOverridesIgnoresRoomType(cfg: VoxelConfig, t: CellType, rt: RoomType, rt': RoomType, face: int)
    requires cfg.roomTypeOverrides == map[]
    ensures GetMaterialForCell(cfg, t, rt, face) == GetMaterialForCell(cfg, t, rt', face)
  {
  }

  /** With the defaults every boundary is material 2, whatever the cell, room or face. */
  lemma DefaultsAreUniform(t: CellType, rt: RoomType, face: int)
    ensures GetMaterialForCell(DefaultVoxelConfig, t, rt, face) == 2
  {
  }
}

=== FILE: dungeon_voxel_stamper.dfy ===
/**
 * The grid-level decisions of the voxel stamper: which cells are carved,
 * which cell faces get boundary voxels, which voxels a boundary occupies
 * inside its cell, and how high the staircase steps rise.
 */
module DungeonVoxelStamper {
  import opened DungeonTypes
  import opened SeqUtils
  import Arith
  import DungeonTileMapper
  import HallwayPathfinder
  import HallwayCarving

  // ------------------------------------------------------------ Open cells

  /** The cell types carved to air: everything except Empty and RoomWall. */
  function IsOpenCell(t: CellType): (b: bool)
    ensures b <==> IsRoomFamily(t) || IsHallwayFamily(t)
    ensures b <==> t != Empty && t != RoomWall
  {
    t == Room || t == Hallway || t == Staircase || t == StaircaseHead || t == Door || t == CellType.Entrance
  }

  /** A grid cell is carved exactly when the tile mapper would not treat it as solid. */
  lemma OpenIsNotSolid(g: DungeonGrid, c: Vec3)
    requires WellFormed(g) && IsInBounds(g, c)
    ensures IsOpenCell(GetCell(g, c).cellType) <==> !DungeonTileMapper.IsSolid(g, c)
  {
  }

  // ------------------------------------------------------------ Boundary tests

  predicate IsDoorway(t: CellType) {
    t == Door || t == CellType.Entrance
  }

  /**
   * NeedsWall: whether the face of `cur` towards grid position `n` gets a
   * horizontal boundary.
   */
  function NeedsWall(g: DungeonGrid, cur: DungeonCell, n: Vec3): (b: bool)
    requires WellFormed(g)
    ensures !IsInBounds(g, n) ==> b
    ensures IsInBounds(g, n) ==>
      var nb := GetCell(g, n);
      && (!IsOpenCell(nb.cellType) ==> b)
      && (IsDoorway(nb.cellType) ==> !b)
      && (IsDoorway(cur.cellType) && IsHallwayFamily(nb.cellType) ==> !b)
      && (IsRoomFamily(cur.cellType) && IsRoomFamily(nb.cellType) && cur.roomIndex == nb.roomIndex ==> !b)
      && (IsHallwayFamily(cur.cellType) && IsHallwayFamily(nb.cellType) ==>
            (b <==> (cur.cellType == StaircaseHead || nb.cellType == StaircaseHead)
                    && cur.hallwayIndex != nb.hallwayIndex))
      && (nb.cellType == Room && !(IsRoomFamily(cur.cellType) && cur.roomIndex == nb.roomIndex) ==> b)
      && (IsHallwayFamily(nb.cellType) && !IsHallwayFamily(cur.cellType) && !IsDoorway(cur.cellType) ==> b)
  {
    if !IsInBounds(g, n) then true
    else
      var nb := GetCell(g, n);
      if nb.cellType == Empty || nb.cellType == RoomWall then true
      else if nb.cellType == Door || nb.cellType == CellType.Entrance then false
      else if (cur.cellType == Door || cur.cellType == CellType.Entrance) && IsHallwayFamily(nb.cellType) then false
      else if IsRoomFamily(cur.cellType) && IsRoomFamily(nb.cellType) && cur.roomIndex == nb.roomIndex then false
      else if IsHallwayFamily(cur.cellType) && IsHallwayFamily(nb.cellType) then
        if cur.cellType == StaircaseHead || nb.cellType == StaircaseHead then cur.hallwayIndex != nb.hallwayIndex
        else false
      else true
  }

  /**
   * NeedsVerticalBoundary: the floor/ceiling variant of NeedsWall, where two
   * hallway-family cells are open to each other iff they share a hallway.
   */
  function NeedsVerticalBoundary(g: DungeonGrid, cur: DungeonCell, n: Vec3): (b: bool)
    requires WellFormed(g)
    ensures !IsInBounds(g, n) ==> b
    ensures IsInBounds(g, n) ==>
      var nb := GetCell(g, n);
      && (!IsOpenCell(nb.cellType) ==> b)
      && (IsDoorway(nb.cellType) ==> !b)
      && (IsDoorway(cur.cellType) && IsHallwayFamily(nb.cellType) ==> !b)
      && (IsRoomFamily(cur.cellType) && IsRoomFamily(nb.cellType) && cur.roomIndex == nb.roomIndex ==> !b)
      && (IsHallwayFamily(cur.cellType) && IsHallwayFamily(nb.cellType) ==>
            (b <==> cur.hallwayIndex != nb.hallwayIndex))
  {
    if !IsInBounds(g, n) then true
    else
      var nb := GetCell(g, n);
      if nb.cellType == Empty || nb.cellType == RoomWall then true
      else if nb.cellType == Door || nb.cellType == CellType.Entrance then false
      else if (cur.cellType == Door || cur.cellType == CellType.Entrance) && IsHallwayFamily(nb.cellType) then false
      else if IsRoomFamily(cur.cellType) && IsRoomFamily(nb.cellType) && cur.roomIndex == nb.roomIndex then false
      else if IsHallwayFamily(cur.cellType) && IsHallwayFamily(nb.cellType) && cur.hallwayIndex == nb.hallwayIndex then false
      else true
  }

  /**
   * The two boundary tests disagree exactly between two hallway-family cells
   * of different hallways when neither is staircase headroom: sideways they
   * merge, vertically they are sealed.
   */
  lemma VerticalDiffersOnlyAtHallwayJunctions(g: DungeonGrid, cur: DungeonCell, n: Vec3)
    requires WellFormed(g)
    ensures NeedsVerticalBoundary(g, cur, n) != NeedsWall(g, cur, n) <==>
      && IsInBounds(g, n)
      && IsHallwayFamily(cur.cellType) && IsHallwayFamily(GetCell(g, n).cellType)
      && cur.cellType != StaircaseHead && GetCell(g, n).cellType != StaircaseHead
      && cur.hallwayIndex != GetCell(g, n).hallwayIndex
    ensures NeedsWall(g, cur, n) ==> NeedsVerticalBoundary(g, cur, n)
  {
  }

  /**
   * A face towards solid ground (outside the grid, Empty or RoomWall) always
   * gets a boundary, just as the tile mapper places a wall or a floor there.
   */
  lemma SolidNeighbourGetsBoundary(g: DungeonGrid, cur: DungeonCell, n: Vec3)
    requires WellFormed(g)
    ensures DungeonTileMapper.IsSolid(g, n) ==> NeedsWall(g, cur, n) && NeedsVerticalBoundary(g, cur, n)
    ensures !DungeonTileMapper.IsSolid(g, n) && IsDoorway(GetCell(g, n).cellType) ==>
      !NeedsWall(g, cur, n) && !NeedsVerticalBoundary(g, cur, n)
  {
  }

  /**
   * Between two open cells neither of which is a doorway, both sides agree on
   * whether the shared face is sealed, for walls and for floors/ceilings.
   */
  lemma BoundariesAgreeAcrossFace(g: DungeonGrid, p: Vec3, q: Vec3)
    requires WellFormed(g) && IsInBounds(g, p) && IsInBounds(g, q)
    requires IsOpenCell(GetCell(g, p).cellType) && IsOpenCell(GetCell(g, q).cellType)
    requires !IsDoorway(GetCell(g, p).cellType) && !IsDoorway(GetCell(g, q).cellType)
    ensures NeedsWall(g, GetCell(g, p), q) == NeedsWall(g, GetCell(g, q), p)
    ensures NeedsVerticalBoundary(g, GetCell(g, p), q) == NeedsVerticalBoundary(g, GetCell(g, q), p)
  {
  }

  /**
   * Doorways are one-sided: a Room cell never seals its face towards a doorway,
   * while a doorway of another room seals its face towards that Room cell.
   */
  lemma DoorwaySealsOwnSide(g: DungeonGrid, p: Vec3, q: Vec3)
    requires WellFormed(g) && IsInBounds(g, p) && IsInBounds(g, q)
    requires GetCell(g, p).cellType == Room && IsDoorway(GetCell(g, q).cellType)
    ensures !NeedsWall(g, GetCell(g, p), q)
    ensures NeedsWall(g, GetCell(g, q), p) <==> GetCell(g, p).roomIndex != GetCell(g, q).roomIndex
  {
  }

  // ------------------------------------------------------------ Room types

  /**
   * GetRoomTypeForCell: RoomIndex is 1-based; index 0 and indices beyond the
   * room count (compared after the count's truncation to 8 bits) mean Generic.
   */
  function GetRoomTypeForCell(cell: DungeonCell, rooms: seq<DungeonRoom>): (rt: RoomType)
    ensures 0 < cell.roomIndex <= ToByte(|rooms|) ==>
      cell.roomIndex <= |rooms| && rt == rooms[cell.roomIndex - 1].roomType
    ensures !(0 < cell.roomIndex <= ToByte(|rooms|)) ==> rt == Generic
  {
    if 0 < cell.roomIndex <= ToByte(|rooms|) then rooms[cell.roomIndex - 1].roomType else Generic
  }

  /** Room numbering as placement produces it: the k-th room has index k + 1. */
  predicate NumberedInOrder(rooms: seq<DungeonRoom>) {
    forall k :: 0 <= k < |rooms| ==> rooms[k].roomIndex == ToByte(k + 1)
  }

  /**
   * With rooms numbered in placement order (at most 255 of them), a cell
   * stamped by room k reports room k's type, and an unnumbered cell reports Generic.
   */
  lemma RoomTypeOfStampedCell(cell: DungeonCell, rooms: seq<DungeonRoom>, k: int)
    requires |rooms| < 256 && NumberedInOrder(rooms)
    requires 0 <= k < |rooms| && cell.roomIndex == rooms[k].roomIndex
    ensures GetRoomTypeForCell(cell, rooms) == rooms[k].roomType
  {
    assert rooms[k].roomIndex == k + 1;
  }

  lemma UnnumberedCellIsGeneric(cell: DungeonCell, rooms: seq<DungeonRoom>)
    requires cell.roomIndex == 0
    ensures GetRoomTypeForCell(cell, rooms) == Generic
  {
  }

  // ------------------------------------------------------------ Boundary voxels

  /** Faces 0..5: +X, -X, +Y, -Y, +Z (ceiling), -Z (floor). */
  predicate ValidFace(face: int) {
    0 <= face < 6
  }

  /** Face f is perpendicular to axis f / 2 (0 = X, 1 = Y, 2 = Z); even faces lie on the high side. */
  function Normal(face: int): int { face / 2 }

  function Coord(v: Vec3, axis: int): int {
    if axis == 0 then v.x else if axis == 1 then v.y else v.z
  }

  /** The two axes along a face, lower-numbered first. */
  function FirstTangent(axis: int): int { if axis == 0 then 1 else 0 }
  function SecondTangent(axis: int): int { if axis == 2 then 1 else 2 }

  /**
   * PlaceBoundary's switch: the voxel (VX, VY, VZ) written at iteration
   * (Layer, A, B) for `face`, as a position inside a cell of `vpc` voxels per side.
   * Along the normal it is `layer` voxels in from the face; A and B run along the face.
   */
  function BoundaryVoxel(vpc: int, face: int, layer: int, a: int, b: int): (v: Vec3)
    requires ValidFace(face)
    ensures Coord(v, Normal(face)) == (if face % 2 == 0 then vpc - 1 - layer else layer)
    ensures Coord(v, FirstTangent(Normal(face))) == a
    ensures Coord(v, SecondTangent(Normal(face))) == b
  {
    if face == 0 then Vec3(vpc - 1 - layer, a, b)
    else if face == 1 then Vec3(layer, a, b)
    else if face == 2 then Vec3(a, vpc - 1 - layer, b)
    else if face == 3 then Vec3(a, layer, b)
    else if face == 4 then Vec3(a, b, vpc - 1 - layer)
    else Vec3(a, b, layer)
  }

  /** The iteration (Layer, A, B) that writes voxel `v` on `face`: the inverse of BoundaryVoxel. */
  function FaceCoords(vpc: int, face: int, v: Vec3): (k: (int, int, int))
    requires ValidFace(face)
    ensures BoundaryVoxel(vpc, face, k.0, k.1, k.2) == v
  {
    var along := Coord(v, Normal(face));
    (if face % 2 == 0 then vpc - 1 - along else along,
     Coord(v, FirstTangent(Normal(face))),
     Coord(v, SecondTangent(Normal(face))))
  }

  lemma FaceCoordsOfBoundaryVoxel(vpc: int, face: int, layer: int, a: int, b: int)
    requires ValidFace(face)
    ensures FaceCoords(vpc, face, BoundaryVoxel(vpc, face, layer, a, b)) == (layer, a, b)
  {
  }

  /** The voxels a boundary of `thickness` layers on `face` occupies. */
  predicate OnFace(vpc: int, face: int, thickness: int, v: Vec3) {
    && ValidFace(face)
    && var k := FaceCoords(vpc, face, v);
    && 0 <= k.0 < thickness && 0 <= k.1 < vpc && 0 <= k.2 < vpc
  }

  /** Lexicographic order on loop iterations (Layer, A, B). */
  predicate Before(k: (int, int, int), key: (int, int, int)) {
    k.0 < key.0 || (k.0 == key.0 && (k.1 < key.1 || (k.1 == key.1 && k.2 < key.2)))
  }

  /** `placed` holds, once each, exactly the boundary voxels of the iterations before `key`. */
  ghost predicate PlacedBefore(vpc: int, face: int, thickness: int, placed: seq<Vec3>, key: (int, int, int))
    requires ValidFace(face)
  {
    && Distinct(placed)
    && (forall i :: 0 <= i < |placed| ==>
          OnFace(vpc, face, thickness, placed[i]) && Before(FaceCoords(vpc, face, placed[i]), key))
    && (forall v :: OnFace(vpc, face, thickness, v) && Before(FaceCoords(vpc, face, v), key) ==> v in placed)
  }

  /** Appending the voxel of iteration (l, a, b) extends the placed prefix by that iteration. */
  lemma PlaceOne(vpc: int, face: int, thickness: int, placed: seq<Vec3>, l: int, a: int, b: int)
    requires ValidFace(face) && 0 <= l < thickness && 0 <= a < vpc && 0 <= b < vpc
    requires PlacedBefore(vpc, face, thickness, placed, (l, a, b))
    ensures PlacedBefore(vpc, face, thickness, placed + [BoundaryVoxel(vpc, face, l, a, b)], (l, a, b + 1))
  {
    var v := BoundaryVoxel(vpc, face, l, a, b);
    FaceCoordsOfBoundaryVoxel(vpc, face, l, a, b);
    forall i | 0 <= i < |placed|
      ensures placed[i] != v
    {
      assert Before(FaceCoords(vpc, face, placed[i]), (l, a, b));
    }
    DistinctSnoc(placed, v);
  }

  /** The B loop: one row of `vpc` voxels. */
  method PlaceRow(vpc: int, face: int, thickness: int, l: int, a: int, placed: seq<Vec3>) returns (placed': seq<Vec3>)
    requires ValidFace(face) && 0 <= l < thickness && 0 <= a < vpc
    requires PlacedBefore(vpc, face, thickness, placed, (l, a, 0))
    ensures PlacedBefore(vpc, face, thickness, placed', (l, a + 1, 0))
    ensures |placed'| == |placed| + vpc
  {
    placed' := placed;
    var b := 0;
    while b < vpc
      invariant 0 <= b <= vpc
      invariant PlacedBefore(vpc, face, thickness, placed', (l, a, b))
      invariant |placed'| == |placed| + b
    {
      PlaceOne(vpc, face, thickness, placed', l, a, b);
      placed' := placed' + [BoundaryVoxel(vpc, face, l, a, b)];
      b := b + 1;
    }
  }

  /** The A loop: one layer of `vpc` rows. */
  method PlaceLayer(vpc: int, face: int, thickness: int, l: int, placed: seq<Vec3>) returns (placed': seq<Vec3>)
    requires ValidFace(face) && 0 <= l < thickness
    requires PlacedBefore(vpc, face, thickness, placed, (l, 0, 0))
    ensures PlacedBefore(vpc, face, thickness, placed', (l + 1, 0, 0))
    ensures vpc > 0 ==> |placed'| == |placed| + vpc * vpc
    ensures vpc <= 0 ==> placed' == placed
  {
    placed' := placed;
    var a := 0;
    while a < vpc
      invariant 0 <= a && (0 < vpc ==> a <= vpc)
      invariant vpc <= 0 ==> a == 0 && placed' == placed
      invariant PlacedBefore(vpc, face, thickness, placed', (l, a, 0))
      invariant |placed'| == |placed| + a * vpc
    {
      placed' := PlaceRow(vpc, face, thickness, l, a, placed');
      a := a + 1;
    }
  }

  /**
   * PlaceBoundary: the voxels written for `face` with `thickness` layers, in
   * loop order. A face code outside 0..5 writes nothing.
   */
  method PlaceBoundary(vpc: int, face: int, thickness: int) returns (placed: seq<Vec3>)
    ensures !ValidFace(face) ==> placed == []
    ensures forall v :: v in placed <==> OnFace(vpc, face, thickness, v)
    ensures Distinct(placed)
    ensures |placed| == if ValidFace(face) && 0 < vpc && 0 < thickness then thickness * (vpc * vpc) else 0
  {
    placed := [];
    if !ValidFace(face) {
      return;
    }
    var l := 0;
    while l < thickness
      invariant 0 <= l && (0 < thickness ==> l <= thickness) && (thickness <= 0 ==> l == 0)
      invariant PlacedBefore(vpc, face, thickness, placed, (l, 0, 0))
      invariant |placed| == if 0 < vpc then l * (vpc * vpc) else 0
    {
      placed := PlaceLayer(vpc, face, thickness, l, placed);
      l := l + 1;
    }
    forall v | OnFace(vpc, face, thickness, v)
      ensures v in placed
    {
      assert Before(FaceCoords(vpc, face, v), (l, 0, 0));
    }
  }

  /** A boundary no thicker than the cell stays inside the cell. */
  lemma BoundaryInsideCell(vpc: int, face: int, thickness: int, v: Vec3)
    requires thickness <= vpc && OnFace(vpc, face, thickness, v)
    ensures 0 <= v.x < vpc && 0 <= v.y < vpc && 0 <= v.z < vpc
  {
    var k := FaceCoords(vpc, face, v);
    assert BoundaryVoxel(vpc, face, k.0, k.1, k.2) == v;
  }

  /** Opposite faces' boundaries do not overlap while together they are at most a cell thick. */
  lemma OppositeBoundariesDisjoint(vpc: int, face: int, thickness: int, v: Vec3)
    requires ValidFace(face) && face % 2 == 0 && 2 * thickness <= vpc
    ensures !(OnFace(vpc, face, thickness, v) && OnFace(vpc, face + 1, thickness, v))
  {
  }

  // ------------------------------------------------------------ Staircase steps

  /** PlaceStaircaseSteps' climb table, indexed by the staircase direction code. */
  const ClimbDX: seq<int> := [1, -1, 0, 0]
  const ClimbDY: seq<int> := [0, 0, 1, -1]

  /** The climb table is the pathfinder's direction table, and carving encodes it back to the same code. */
  lemma ClimbTableMatchesCarving(d: int)
    requires 0 <= d < 4
    ensures (ClimbDX[d], ClimbDY[d]) == HallwayPathfinder.HorizontalDirs[d]
    ensures HallwayCarving.DirectionCode(ClimbDX[d], ClimbDY[d]) == d
  {
    HallwayCarving.DirectionCodeRoundTrip(d, ClimbDX[d], ClimbDY[d]);
  }

  /**
   * GlobalRunIdx: how many voxels in from the staircase entry the voxel at
   * `local` along the climb axis of body cell `ci` lies. A negative climb
   * counts the cell's voxels from its far side.
   */
  function RunIndex(vpc: int, ci: int, local: int, positive: bool): int {
    ci * vpc + (if positive then local else vpc - 1 - local)
  }

  /**
   * StepTop: the highest solid voxel of the step column; the steps rise one
   * voxel every `riseToRun` voxels of run.
   */
  function StepTop(vpc: int, riseToRun: int, ci: int, local: int, positive: bool): (top: int)
    requires 0 <= ci < riseToRun && 0 <= local < vpc
    ensures 0 <= top <= vpc - 1
  {
    var run := RunIndex(vpc, ci, local, positive);
    RunBounds(vpc, riseToRun, ci, local, positive);
    Arith.MulNonneg(riseToRun, vpc);
    assert 0 <= run < riseToRun * vpc;
    DivBelow(run, riseToRun, vpc);
    run / riseToRun
  }

  lemma RunBounds(vpc: int, riseToRun: int, ci: int, local: int, positive: bool)
    requires 0 <= ci < riseToRun && 0 <= local < vpc
    ensures 0 <= RunIndex(vpc, ci, local, positive) < riseToRun * vpc
  {
    Arith.MulNonneg(ci, vpc);
    Arith.MulLe(ci, riseToRun - 1, vpc);
    Arith.MulDistSub(riseToRun, 1, vpc);
  }

  lemma DivBelow(a: int, d: int, n: int)
    requires 0 <= a < d * n && 0 < d
    ensures 0 <= a / d < n
  {
    var q := a / d;
    assert q * d <= a;
    assert q * d < n * d;
    Arith.MulLtCancel(q, n, d);
  }

  lemma DivMonotone(a: int, b: int, d: int)
    requires 0 <= a <= b && 0 < d
    ensures a / d <= b / d
  {
    var p, q := a / d, b / d;
    assert p * d <= a;
    assert b < q * d + d;
    assert (q + 1) * d == q * d + d;
    Arith.MulLtCancel(p, q + 1, d);
  }

  /**
   * The voxel's coordinate along the climb axis in whole-grid voxel units,
   * for a staircase whose bottom cell sits at `bottom` on that axis and
   * whose climb runs in direction `sign` (+1 or -1).
   */
  function AxisVoxel(vpc: int, bottom: int, sign: int, ci: int, local: int): int {
    (bottom + sign * (ci + 1)) * vpc + local
  }

  lemma AxisVoxelIsRun(vpc: int, bottom: int, sign: int, ci: int, local: int)
    requires sign == 1 || sign == -1
    ensures sign * AxisVoxel(vpc, bottom, sign, ci, local)
      == sign * bottom * vpc + (if sign == 1 then vpc else 1) + RunIndex(vpc, ci, local, sign == 1)
  {
    assert (bottom + sign * (ci + 1)) * vpc == bottom * vpc + sign * (ci + 1) * vpc;
    if sign == 1 {
      assert (ci + 1) * vpc == ci * vpc + vpc;
    } else {
      assert -((bottom - (ci + 1)) * vpc + local) == -bottom * vpc + (ci + 1) * vpc - local;
      assert (ci + 1) * vpc == ci * vpc + vpc;
    }
  }

  /**
   * Walking in the climb direction, the step top never goes down: of two
   * step columns of the same staircase, the one further along is at least as high.
   */
  lemma StepsNeverDescend(vpc: int, riseToRun: int, bottom: int, sign: int, ci: int, local: int, ci': int, local': int)
    requires sign == 1 || sign == -1
    requires 0 <= ci < riseToRun && 0 <= local < vpc
    requires 0 <= ci' < riseToRun && 0 <= local' < vpc
    requires sign * AxisVoxel(vpc, bottom, sign, ci, local) <= sign * AxisVoxel(vpc, bottom, sign, ci', local')
    ensures StepTop(vpc, riseToRun, ci, local, sign == 1) <= StepTop(vpc, riseToRun, ci', local', sign == 1)
  {
    AxisVoxelIsRun(vpc, bottom, sign, ci, local);
    AxisVoxelIsRun(vpc, bottom, sign, ci', local');
    RunBounds(vpc, riseToRun, ci, local, sign == 1);
    DivMonotone(RunIndex(vpc, ci, local, sign == 1), RunIndex(vpc, ci', local', sign == 1), riseToRun);
  }

  /** The first column at the entry is one voxel high, and the last reaches the top voxel of the cell. */
  lemma StepsSpanTheCell(vpc: int, riseToRun: int, positive: bool)
    requires 0 < riseToRun && 0 < vpc
    ensures StepTop(vpc, riseToRun, 0, if positive then 0 else vpc - 1, positive) == 0
    ensures StepTop(vpc, riseToRun, riseToRun - 1, if positive then vpc - 1 else 0, positive) == vpc - 1
  {
    var last := RunIndex(vpc, riseToRun - 1, if positive then vpc - 1 else 0, positive);
    assert last == (riseToRun - 1) * vpc + vpc - 1;
    assert (riseToRun - 1) * vpc == riseToRun * vpc - vpc;
    Arith.DivModUnique(last, riseToRun, vpc - 1, riseToRun - 1);
  }
}

=== FILE: graphs.dfy ===
/**
 * Undirected graphs given as edge lists over integer vertices, as the
 * hallway list, the Delaunay edges and the final edges all are.
 */
module Graphs {
  type Edge = (int, int)

  predicate Joins(e: Edge, u: int, v: int) {
    (e.0 == u && e.1 == v) || (e.0 == v && e.1 == u)
  }

  predicate Adjacent(edges: seq<Edge>, u: int, v: int) {
    exists i :: 0 <= i < |edges| && Joins(edges[i], u, v)
  }

  /** A walk: consecutive vertices are joined by some edge. */
  ghost predicate IsWalk(edges: seq<Edge>, w: seq<int>) {
    |w| > 0 && forall i :: 0 <= i < |w| - 1 ==> Adjacent(edges, w[i], w[i + 1])
  }

  /** There is a walk of exactly k edges from s to t. */
  ghost predicate WalkOfLength(edges: seq<Edge>, s: int, t: int, k: nat) {
    exists w :: IsWalk(edges, w) && |w| == k + 1 && w[0] == s && w[k] == t
  }

  ghost predicate Reachable(edges: seq<Edge>, s: int, t: int) {
    exists k: nat :: WalkOfLength(edges, s, t, k)
  }

  /** d is the hop distance from s to t: a walk of d edges exists and no shorter one. */
  ghost predicate IsDistance(edges: seq<Edge>, s: int, t: int, d: nat) {
    WalkOfLength(edges, s, t, d) && forall k: nat :: k < d ==> !WalkOfLength(edges, s, t, k)
  }

  /** The neighbours of u in edge order; an edge u-u lists u twice, as a multimap would. */
  function Neighbors(edges: seq<Edge>, u: int): (ns: seq<int>)
    ensures forall v :: v in ns <==> Adjacent(edges, u, v)
  {
    if |edges| == 0 then []
    else
      var init := edges[..|edges| - 1];
      var e := edges[|edges| - 1];
      var ns := Neighbors(init, u) + (if e.0 == u then [e.1] else []) + (if e.1 == u then [e.0] else []);
      assert forall v :: Adjacent(init, u, v) ==> Adjacent(edges, u, v) by {
        forall v | Adjacent(init, u, v) ensures Adjacent(edges, u, v) {
          var i :| 0 <= i < |init| && Joins(init[i], u, v);
          assert Joins(edges[i], u, v);
        }
      }
      assert forall v :: Adjacent(edges, u, v) ==> v in ns by {
        forall v | Adjacent(edges, u, v) ensures v in ns {
          var i :| 0 <= i < |edges| && Joins(edges[i], u, v);
          if i < |init| {
            assert Joins(init[i], u, v);
          }
        }
      }
      assert forall v :: v in ns ==> Adjacent(edges, u, v) by {
        forall v | v in ns ensures Adjacent(edges, u, v) {
          if v !in Neighbors(init, u) {
            assert Joins(edges[|edges| - 1], u, v);
          }
        }
      }
      ns
  }

  lemma WalkOfLengthZero(edges: seq<Edge>, s: int)
    ensures WalkOfLength(edges, s, s, 0) && Reachable(edges, s, s)
  {
    assert IsWalk(edges, [s]);
  }

  /** A walk to u extends by one edge to any neighbour of u. */
  lemma WalkExtend(edges: seq<Edge>, s: int, u: int, v: int, k: nat)
    requires WalkOfLength(edges, s, u, k) && Adjacent(edges, u, v)
    ensures WalkOfLength(edges, s, v, k + 1) && Reachable(edges, s, v)
  {
    var w :| IsWalk(edges, w) && |w| == k + 1 && w[0] == s && w[k] == u;
    var w' := w + [v];
    assert IsWalk(edges, w');
  }

  lemma ReachableExtend(edges: seq<Edge>, s: int, u: int, v: int)
    requires Reachable(edges, s, u) && Adjacent(edges, u, v)
    ensures Reachable(edges, s, v)
  {
    var k: nat :| WalkOfLength(edges, s, u, k);
    WalkExtend(edges, s, u, v, k);
  }

  /** A walk of k+1 edges ends one edge after a walk of k edges. */
  lemma WalkLast(edges: seq<Edge>, s: int, t: int, k: nat)
    requires WalkOfLength(edges, s, t, k + 1)
    ensures exists u :: WalkOfLength(edges, s, u, k) && Adjacent(edges, u, t)
  {
    var w :| IsWalk(edges, w) && |w| == k + 2 && w[0] == s && w[k + 1] == t;
    var w' := w[..k + 1];
    assert IsWalk(edges, w');
    assert WalkOfLength(edges, s, w[k], k);
  }

  /**
   * A vertex set that contains s and is closed under taking neighbours
   * contains every vertex reachable from s.
   */
  lemma {:induction false} ClosedContainsReachable(edges: seq<Edge>, vs: set<int>, s: int, t: int, k: nat)
    requires s in vs
    requires forall u, v :: u in vs && Adjacent(edges, u, v) ==> v in vs
    requires WalkOfLength(edges, s, t, k)
    ensures t in vs
    decreases k
  {
    if k == 0 {
      var w :| IsWalk(edges, w) && |w| == 1 && w[0] == s && w[0] == t;
    } else {
      WalkLast(edges, s, t, k - 1);
      var u :| WalkOfLength(edges, s, u, k - 1) && Adjacent(edges, u, t);
      ClosedContainsReachable(edges, vs, s, u, k - 1);
    }
  }

  /**
   * A breadth-first labelling of the vertices 0..n-1 from s: s alone has label
   * 0, every other labelled vertex has a neighbour one label lower, unlabelled
   * vertices carry -1, and an edge out of a labelled vertex reaches a labelled
   * vertex at most one label higher.
   */
  ghost predicate DistanceLabelling(edges: seq<Edge>, s: int, n: int, d: seq<int>) {
    && |d| == n && 0 <= s < n
    && d[s] == 0
    && (forall v :: 0 <= v < n ==> -1 <= d[v])
    && (forall v :: 0 <= v < n && d[v] == 0 ==> v == s)
    && (forall v :: 0 <= v < n && 0 < d[v] ==>
          exists u :: 0 <= u < n && Adjacent(edges, u, v) && d[u] == d[v] - 1)
    && (forall u, v :: 0 <= u < n && 0 <= d[u] && Adjacent(edges, u, v) ==>
          0 <= v < n && 0 <= d[v] <= d[u] + 1)
  }

  lemma {:induction false} LabelHasWalk(edges: seq<Edge>, s: int, n: int, d: seq<int>, v: int, k: nat)
    requires DistanceLabelling(edges, s, n, d)
    requires 0 <= v < n && d[v] == k
    ensures WalkOfLength(edges, s, v, k)
    decreases k
  {
    if k == 0 {
      WalkOfLengthZero(edges, s);
    } else {
      var u :| 0 <= u < n && Adjacent(edges, u, v) && d[u] == d[v] - 1;
      LabelHasWalk(edges, s, n, d, u, k - 1);
      WalkExtend(edges, s, u, v, k - 1);
    }
  }

  lemma {:induction false} WalkBoundsLabel(edges: seq<Edge>, s: int, n: int, d: seq<int>, v: int, k: nat)
    requires DistanceLabelling(edges, s, n, d)
    requires WalkOfLength(edges, s, v, k)
    ensures 0 <= v < n && 0 <= d[v] <= k
    decreases k
  {
    if k == 0 {
      var w :| IsWalk(edges, w) && |w| == 1 && w[0] == s && w[0] == v;
    } else {
      WalkLast(edges, s, v, k - 1);
      var u :| WalkOfLength(edges, s, u, k - 1) && Adjacent(edges, u, v);
      WalkBoundsLabel(edges, s, n, d, u, k - 1);
    }
  }

  /** A breadth-first labelling is the hop distance, and -1 marks exactly the unreachable vertices. */
  lemma LabellingIsDistance(edges: seq<Edge>, s: int, n: int, d: seq<int>, v: int)
    requires DistanceLabelling(edges, s, n, d) && 0 <= v < n
    ensures 0 <= d[v] <==> Reachable(edges, s, v)
    ensures 0 <= d[v] ==> IsDistance(edges, s, v, d[v])
  {
    if 0 <= d[v] {
      LabelHasWalk(edges, s, n, d, v, d[v]);
      forall k: nat | k < d[v]
        ensures !WalkOfLength(edges, s, v, k)
      {
        if WalkOfLength(edges, s, v, k) {
          WalkBoundsLabel(edges, s, n, d, v, k);
        }
      }
    } else if Reachable(edges, s, v) {
      var k: nat :| WalkOfLength(edges, s, v, k);
      WalkBoundsLabel(edges, s, n, d, v, k);
    }
  }

  /** Adjacency does not depend on the direction an edge is listed in. */
  lemma AdjacentSymmetric(edges: seq<Edge>, u: int, v: int)
    ensures Adjacent(edges, u, v) <==> Adjacent(edges, v, u)
  {
    if Adjacent(edges, u, v) {
      var i :| 0 <= i < |edges| && Joins(edges[i], u, v);
      assert Joins(edges[i], v, u);
    }
    if Adjacent(edges, v, u) {
      var i :| 0 <= i < |edges| && Joins(edges[i], v, u);
      assert Joins(edges[i], u, v);
    }
  }

  /** The vertex set 0..n-1. */
  function Vertices(n: int): (vs: set<int>)
    ensures forall v :: v in vs <==> 0 <= v < n
    decreases n
  {
    if n <= 0 then {} else Vertices(n - 1) + {n - 1}
  }

  // ------------------------------------------------------------ Edge lists

  /** An edge stored as (min, max), the canonical form every edge set uses. */
  function Normalize(a: int, b: int): (e: Edge)
    ensures e.0 <= e.1 && Joins(e, a, b)
  {
    if a <= b then (a, b) else (b, a)
  }

  /** Two endpoint pairs normalise alike exactly when they name the same vertices. */
  lemma NormalizeSame(a: int, b: int, c: int, d: int)
    ensures Normalize(a, b) == Normalize(c, d) <==> (a == c && b == d) || (a == d && b == c)
  {
  }

  /** Lexicographic order on (first, second). */
  predicate EdgeLess(x: Edge, y: Edge) {
    x.0 < y.0 || (x.0 == y.0 && x.1 < y.1)
  }

  /** Strictly increasing in lexicographic order, so also free of duplicates. */
  predicate Ascending(es: seq<Edge>) {
    forall i, j :: 0 <= i < j < |es| ==> EdgeLess(es[i], es[j])
  }

  predicate DistinctEdges(es: seq<Edge>) {
    forall i, j :: 0 <= i < j < |es| ==> es[i] != es[j]
  }

  /**
   * The members of a set in some order: a hash set's iteration order is
   * unspecified, so any order is allowed here.
   */
  method Enumerate(s: set<Edge>) returns (es: seq<Edge>)
    ensures DistinctEdges(es) && |es| == |s|
    ensures forall e :: e in es <==> e in s
  {
    es := [];
    var rest := s;
    while rest != {}
      invariant rest <= s && |es| + |rest| == |s|
      invariant DistinctEdges(es)
      invariant forall e :: e in es <==> e in s && e !in rest
      decreases |rest|
    {
      var e :| e in rest;
      es := es + [e];
      rest := rest - {e};
    }
  }

  /** x placed into an ascending list it is not in. */
  function InsertEdge(x: Edge, es: seq<Edge>): (r: seq<Edge>)
    requires Ascending(es) && x !in es
    ensures Ascending(r) && |r| == |es| + 1
    ensures forall e :: e in r <==> e == x || e in es
  {
    if |es| == 0 then [x]
    else if EdgeLess(x, es[0]) then [x] + es
    else
      var tail := InsertEdge(x, es[1..]);
      assert forall e :: e in es[1..] ==> EdgeLess(es[0], e);
      [es[0]] + tail
  }

  /** A duplicate-free edge list sorted lexicographically: the same edges, ascending. */
  function SortEdges(es: seq<Edge>): (r: seq<Edge>)
    requires DistinctEdges(es)
    ensures Ascending(r) && |r| == |es|
    ensures forall e :: e in r <==> e in es
  {
    if |es| == 0 then []
    else
      assert es[0] !in es[1..];
      InsertEdge(es[0], SortEdges(es[1..]))
  }

  /** At most one ascending list holds a given set of edges. */
  lemma {:induction false} AscendingUnique(xs: seq<Edge>, ys: seq<Edge>)
    requires Ascending(xs) && Ascending(ys)
    requires forall e :: e in xs <==> e in ys
    ensures xs == ys
    decreases |xs|
  {
    assert |xs| > 0 ==> xs[0] in ys;
    assert |ys| > 0 ==> ys[0] in xs;
    if |xs| > 0 && |ys| > 0 {
      assert xs[0] == ys[0];
      forall e ensures e in xs[1..] <==> e in ys[1..] {
        if e in xs[1..] {
          assert e != xs[0] && e in ys;
        }
        if e in ys[1..] {
          assert e != ys[0] && e in xs;
        }
      }
      AscendingUnique(xs[1..], ys[1..]);
    }
  }

  /** The edges of a set, ascending, as the generators hand them out. */
  method SortedEdgeList(s: set<Edge>) returns (es: seq<Edge>)
    ensures Ascending(es) && |es| == |s|
    ensures forall e :: e in es <==> e in s
  {
    var listed := Enumerate(s);
    es := SortEdges(listed);
  }
}

=== FILE: hallway_carving.dfy ===
/**
 * CarveHallway: writing a found route into the grid. Each change of floor
 * between consecutive route cells becomes a staircase (body cells on the
 * lower floor, headroom above them); every Empty route cell becomes Hallway;
 * a final pass turns source or destination room cells next to the new
 * hallway into doors.
 */
module HallwayCarving {
  import opened DungeonTypes
  import opened Wrappers
  import opened DungeonConfig
  import opened HallwayPathfinder

  function Sign(v: int): (r: int)
    ensures r == -1 || r == 0 || r == 1
    ensures (r > 0 <==> v > 0) && (r < 0 <==> v < 0)
  {
    if v > 0 then 1 else if v < 0 then -1 else 0
  }

  /** The climb-direction code of a staircase: 0 = +X, 1 = -X, 2 = +Y, 3 = -Y. */
  function DirectionCode(cx: int, cy: int): (code: Byte)
    ensures code < 4
  {
    if cx == 1 then 0 else if cx == -1 then 1 else if cy == 1 then 2 else 3
  }

  /**
   * The code is the position of the direction in the four-direction table
   * (the source's StairClimbDX/StairClimbDY), in both directions.
   */
  lemma DirectionCodeRoundTrip(d: int, dx: int, dy: int)
    requires 0 <= d < 4
    ensures DirectionCode(HorizontalDirs[d].0, HorizontalDirs[d].1) == d
    ensures (dx, dy) in HorizontalDirs ==> HorizontalDirs[DirectionCode(dx, dy)] == (dx, dy)
  {
  }

  // ------------------------------------------------------------ One staircase

  /** The i-th body cell (h = 0) or a headroom cell (1 <= h <= headroom) of a staircase. */
  predicate IsBody(entry: Vec3, dx: int, dy: int, lz: int, riseToRun: int, c: Vec3) {
    exists i :: 1 <= i <= riseToRun && c == StairPart(entry, dx, dy, lz, i, 0)
  }

  predicate IsHead(entry: Vec3, dx: int, dy: int, lz: int, riseToRun: int, headroom: int, c: Vec3) {
    exists i, h :: 1 <= i <= riseToRun && 1 <= h <= headroom && c == StairPart(entry, dx, dy, lz, i, h)
  }

  /** The in-bounds body cells i..riseToRun, in order. */
  function BodyRun(size: Vec3, entry: Vec3, dx: int, dy: int, lz: int, i: int, riseToRun: int): (cells: seq<Vec3>)
    ensures forall c :: c in cells <==>
      InBox(size, c) && exists k :: i <= k <= riseToRun && c == StairPart(entry, dx, dy, lz, k, 0)
    decreases riseToRun - i
  {
    if i > riseToRun then []
    else
      var c := StairPart(entry, dx, dy, lz, i, 0);
      (if InBox(size, c) then [c] else []) + BodyRun(size, entry, dx, dy, lz, i + 1, riseToRun)
  }

  /** The in-bounds headroom cells above body cell i, heights h..headroom. */
  function HeadColumn(size: Vec3, entry: Vec3, dx: int, dy: int, lz: int, i: int, h: int, headroom: int): (cells: seq<Vec3>)
    ensures forall c :: c in cells <==>
      InBox(size, c) && exists k :: h <= k <= headroom && c == StairPart(entry, dx, dy, lz, i, k)
    decreases headroom - h
  {
    if h > headroom then []
    else
      var c := StairPart(entry, dx, dy, lz, i, h);
      (if InBox(size, c) then [c] else []) + HeadColumn(size, entry, dx, dy, lz, i, h + 1, headroom)
  }

  /** The in-bounds headroom cells above body cells i..riseToRun, column by column. */
  function HeadRun(size: Vec3, entry: Vec3, dx: int, dy: int, lz: int, i: int, riseToRun: int, headroom: int): (cells: seq<Vec3>)
    ensures forall c :: c in cells <==>
      InBox(size, c) && exists k, h :: i <= k <= riseToRun && 1 <= h <= headroom && c == StairPart(entry, dx, dy, lz, k, h)
    decreases riseToRun - i
  {
    if i > riseToRun then []
    else
      var col := HeadColumn(size, entry, dx, dy, lz, i, 1, headroom);
      var rest := HeadRun(size, entry, dx, dy, lz, i + 1, riseToRun, headroom);
      assert forall c :: c in col ==> exists h :: 1 <= h <= headroom && c == StairPart(entry, dx, dy, lz, i, h);
      col + rest
  }

  /** The geometry of the staircase between consecutive route cells prev and next on different floors. */
  datatype StairShape = StairShape(dx: int, dy: int, rise: int, lz: int)

  function ShapeOf(prev: Vec3, next: Vec3): (sh: StairShape)
    ensures sh.lz == prev.z || sh.lz == next.z
    ensures sh.lz <= prev.z && sh.lz <= next.z
    ensures next.z > prev.z ==> sh.rise == 1
    ensures next.z < prev.z ==> sh.rise == -1
  {
    StairShape(Sign(next.x - prev.x), Sign(next.y - prev.y), if next.z - prev.z > 0 then 1 else -1,
      if prev.z < next.z then prev.z else next.z)
  }

  /**
   * The staircase record for the step from prev to next: bottom is the lower
   * cell, top the higher, the direction is the climb direction's code, and
   * the occupied cells are the in-bounds body cells then the in-bounds
   * headroom cells.
   */
  function StaircaseFor(size: Vec3, prev: Vec3, next: Vec3, riseToRun: int, headroom: int): (st: DungeonStaircase)
    requires prev.z != next.z
    ensures st.bottomCell.z < st.topCell.z
    ensures {st.bottomCell, st.topCell} == {prev, next}
    ensures st.direction < 4
    ensures st.riseRunRatio == riseToRun && st.headroomCells == headroom
    ensures forall c :: c in st.occupiedCells ==> InBox(size, c)
  {
    var sh := ShapeOf(prev, next);
    var (cx, cy) := if sh.rise > 0 then (sh.dx, sh.dy) else (-sh.dx, -sh.dy);
    DungeonStaircase(
      if sh.rise > 0 then prev else next,
      if sh.rise > 0 then next else prev,
      DirectionCode(cx, cy),
      riseToRun,
      headroom,
      BodyRun(size, prev, sh.dx, sh.dy, sh.lz, 1, riseToRun) + HeadRun(size, prev, sh.dx, sh.dy, sh.lz, 1, riseToRun, headroom))
  }

  /** The occupied cells are exactly the in-bounds body and headroom cells. */
  lemma StaircaseOccupies(size: Vec3, prev: Vec3, next: Vec3, riseToRun: int, headroom: int, c: Vec3)
    requires prev.z != next.z
    ensures var sh := ShapeOf(prev, next);
      c in StaircaseFor(size, prev, next, riseToRun, headroom).occupiedCells <==>
        InBox(size, c) && (IsBody(prev, sh.dx, sh.dy, sh.lz, riseToRun, c) || IsHead(prev, sh.dx, sh.dy, sh.lz, riseToRun, headroom, c))
  {
  }

  /**
   * A staircase step the search took is carved where the search checked it:
   * the carving's direction, rise and lower floor are those of the
   * buildable staircase, so its body and headroom cells are the ones
   * CanBuildStaircase found free.
   */
  lemma CarvedAsPlanned(g: DungeonGrid, cfg: DungeonConfiguration, src: int, dst: int, a: Vec3, b: Vec3)
    returns (d: int, rise: int)
    requires WellFormed(g) && 0 <= cfg.staircaseRiseToRun
    requires StairStep(g, cfg, src, dst, a, b)
    ensures 0 <= d < 4 && (rise == 1 || rise == -1)
    ensures StairFrom(g, cfg, a, d, rise) == Some(b)
    ensures a.z != b.z
    ensures ShapeOf(a, b) == StairShape(HorizontalDirs[d].0, HorizontalDirs[d].1, rise, LowerZ(a, rise))
  {
    d, rise :| 0 <= d < 4 && -1 <= rise <= 1 && rise != 0 && StairFrom(g, cfg, a, d, rise) == Some(b);
    StaircaseFloors(g, a, HorizontalDirs[d].0, HorizontalDirs[d].1, rise, cfg.staircaseRiseToRun, cfg.staircaseHeadroom);
    ShapeOfExit(a, d, rise, cfg.staircaseRiseToRun);
  }

  /** The step from an entry to a staircase's exit has the staircase's own shape. */
  lemma ShapeOfExit(a: Vec3, d: int, rise: int, riseToRun: int)
    requires 0 <= d < 4 && (rise == 1 || rise == -1) && 0 <= riseToRun
    ensures var (dx, dy) := HorizontalDirs[d];
      ShapeOf(a, StairExit(a, dx, dy, rise, riseToRun)) == StairShape(dx, dy, rise, LowerZ(a, rise))
  {
    var (dx, dy) := HorizontalDirs[d];
    var b := StairExit(a, dx, dy, rise, riseToRun);
    assert b.x - a.x == dx * (riseToRun + 1) && b.y - a.y == dy * (riseToRun + 1);
  }

  /** A body cell after carving: a Staircase cell of this hallway facing the climb direction. */
  function BodyWrite(cell: DungeonCell, hallway: Byte, direction: Byte): DungeonCell {
    cell.(cellType := Staircase, hallwayIndex := hallway, staircaseDirection := direction)
  }

  /** A headroom cell after carving: Empty and Hallway cells are claimed, anything else kept. */
  function HeadWrite(cell: DungeonCell, hallway: Byte, direction: Byte): DungeonCell {
    if cell.cellType == Empty || cell.cellType == Hallway then
      cell.(cellType := StaircaseHead, hallwayIndex := hallway, staircaseDirection := direction)
    else cell
  }

  /**
   * Carves the staircase from prev to next. The source writes body cells
   * then headroom cells one at a time; body and headroom lie on different
   * floors and rewriting a cell twice gives the same cell, so the two
   * passes are whole-grid maps.
   */
  function CarveStaircase(g: DungeonGrid, prev: Vec3, next: Vec3, hallway: Byte, riseToRun: int, headroom: int): (r: (DungeonGrid, DungeonStaircase))
    requires WellFormed(g) && prev.z != next.z
    ensures WellFormed(r.0) && r.0.size == g.size
    ensures r.1 == StaircaseFor(g.size, prev, next, riseToRun, headroom)
    ensures var sh := ShapeOf(prev, next);
      forall c :: IsInBounds(g, c) ==>
        && (IsBody(prev, sh.dx, sh.dy, sh.lz, riseToRun, c) ==> GetCell(r.0, c) == BodyWrite(GetCell(g, c), hallway, r.1.direction))
        && (IsHead(prev, sh.dx, sh.dy, sh.lz, riseToRun, headroom, c) ==> GetCell(r.0, c) == HeadWrite(GetCell(g, c), hallway, r.1.direction))
        && (!IsBody(prev, sh.dx, sh.dy, sh.lz, riseToRun, c) && !IsHead(prev, sh.dx, sh.dy, sh.lz, riseToRun, headroom, c) ==> GetCell(r.0, c) == GetCell(g, c))
  {
    var sh := ShapeOf(prev, next);
    var st := StaircaseFor(g.size, prev, next, riseToRun, headroom);
    var g1 := MapGrid(g, (c, cell) => if IsBody(prev, sh.dx, sh.dy, sh.lz, riseToRun, c) then BodyWrite(cell, hallway, st.direction) else cell);
    var g2 := MapGrid(g1, (c, cell) => if IsHead(prev, sh.dx, sh.dy, sh.lz, riseToRun, headroom, c) then HeadWrite(cell, hallway, st.direction) else cell);
    assert forall c :: IsHead(prev, sh.dx, sh.dy, sh.lz, riseToRun, headroom, c) ==> !IsBody(prev, sh.dx, sh.dy, sh.lz, riseToRun, c);
    (g2, st)
  }

  /**
   * After carving, every in-bounds body cell is a Staircase cell of this
   * hallway, every in-bounds headroom cell is a stair cell of this hallway
   * or kept its non-Empty, non-Hallway contents, and nothing else moved.
   */
  lemma CarveStaircaseEffect(g: DungeonGrid, prev: Vec3, next: Vec3, hallway: Byte, riseToRun: int, headroom: int, c: Vec3)
    requires WellFormed(g) && prev.z != next.z && IsInBounds(g, c)
    ensures var (g', st) := CarveStaircase(g, prev, next, hallway, riseToRun, headroom);
      var sh := ShapeOf(prev, next);
      && (IsBody(prev, sh.dx, sh.dy, sh.lz, riseToRun, c) ==>
            GetCell(g', c).cellType == Staircase && GetCell(g', c).hallwayIndex == hallway)
      && (IsHead(prev, sh.dx, sh.dy, sh.lz, riseToRun, headroom, c) ==>
            (GetCell(g', c).cellType == StaircaseHead && GetCell(g', c).hallwayIndex == hallway)
            || (GetCell(g', c) == GetCell(g, c) && GetCell(g, c).cellType !in {Empty, Hallway}))
      && (GetCell(g', c) != GetCell(g, c) ==> c in st.occupiedCells)
  {
    StaircaseOccupies(g.size, prev, next, riseToRun, headroom, c);
  }

  // ------------------------------------------------------------ Route cells

  /** A route cell after carving: a Hallway cell of this hallway, its other fields kept. */
  function HallwayWrite(cell: DungeonCell, hallway: Byte): DungeonCell {
    cell.(cellType := Hallway, hallwayIndex := hallway)
  }

  /**
   * The main pass on one route cell: Empty becomes Hallway of this hallway.
   * Source and destination room cells, hallways and stairs are skipped, and
   * every other type is left alone as well.
   */
  function CarveCell(g: DungeonGrid, c: Vec3, hallway: Byte, src: int, dst: int): (g': DungeonGrid)
    requires WellFormed(g) && IsInBounds(g, c)
    ensures WellFormed(g') && g'.size == g.size
    ensures forall d :: IsInBounds(g, d) && d != c ==> GetCell(g', d) == GetCell(g, d)
  {
    var cell := GetCell(g, c);
    if cell.cellType == Room && (cell.roomIndex == src || cell.roomIndex == dst) then g
    else if cell.cellType == Hallway || cell.cellType == Staircase || cell.cellType == StaircaseHead then g
    else if cell.cellType == Empty then SetCell(g, c, HallwayWrite(cell, hallway))
    else g
  }

  /** Only an Empty cell is rewritten, and it becomes a Hallway cell of this hallway with its other fields kept. */
  lemma CarveCellOnlyEmpty(g: DungeonGrid, c: Vec3, hallway: Byte, src: int, dst: int)
    requires WellFormed(g) && IsInBounds(g, c)
    ensures GetCell(g, c).cellType == Empty <==> GetCell(CarveCell(g, c, hallway, src, dst), c) != GetCell(g, c)
    ensures GetCell(g, c).cellType == Empty ==>
      GetCell(CarveCell(g, c, hallway, src, dst), c) == HallwayWrite(GetCell(g, c), hallway)
  {
  }

  // ------------------------------------------------------------ Doors

  /** The door pass's test at route position i, read against grid g. */
  predicate DoorAt(g: DungeonGrid, path: seq<Vec3>, src: int, dst: int, i: int)
    requires WellFormed(g) && 0 <= i < |path|
  {
    && 1 <= i < |path| - 1
    && IsInBounds(g, path[i])
    && GetCell(g, path[i]).cellType == Room
    && (GetCell(g, path[i]).roomIndex == src || GetCell(g, path[i]).roomIndex == dst)
    && ((IsInBounds(g, path[i - 1]) && GetCell(g, path[i - 1]).cellType == Hallway)
        || (IsInBounds(g, path[i + 1]) && GetCell(g, path[i + 1]).cellType == Hallway))
  }

  /** A cell is turned into a door by the pass when some interior route position holding it passes the test. */
  predicate BecomesDoor(g: DungeonGrid, path: seq<Vec3>, src: int, dst: int, n: int, c: Vec3)
    requires WellFormed(g) && 0 <= n <= |path|
  {
    exists i :: 0 <= i < n && path[i] == c && DoorAt(g, path, src, dst, i)
  }

  function DoorWrite(cell: DungeonCell, hallway: Byte): DungeonCell {
    cell.(cellType := Door, hallwayIndex := hallway)
  }

  /** The door pass over route positions i..|path|-2, each test reading the grid as it stands. */
  function MarkDoorsFrom(g: DungeonGrid, path: seq<Vec3>, hallway: Byte, src: int, dst: int, i: nat): (g': DungeonGrid)
    requires WellFormed(g) && i <= |path|
    ensures WellFormed(g') && g'.size == g.size
    decreases |path| - i
  {
    if i >= |path| then g
    else if DoorAt(g, path, src, dst, i) then
      MarkDoorsFrom(SetCell(g, path[i], DoorWrite(GetCell(g, path[i]), hallway)), path, hallway, src, dst, i + 1)
    else MarkDoorsFrom(g, path, hallway, src, dst, i + 1)
  }

  /** The grid after doors for route positions below n, stated against the grid before the pass. */
  ghost predicate DoorsDone(g0: DungeonGrid, g: DungeonGrid, path: seq<Vec3>, hallway: Byte, src: int, dst: int, n: int)
    requires WellFormed(g0) && WellFormed(g) && 0 <= n <= |path|
  {
    && g.size == g0.size
    && forall c :: IsInBounds(g0, c) ==>
         GetCell(g, c) == if BecomesDoor(g0, path, src, dst, n, c) then DoorWrite(GetCell(g0, c), hallway) else GetCell(g0, c)
  }

  /** Marking doors never changes which cells are Hallway, so every later test reads as it would have at the start. */
  lemma DoorTestStable(g0: DungeonGrid, g: DungeonGrid, path: seq<Vec3>, hallway: Byte, src: int, dst: int, n: int)
    requires WellFormed(g0) && WellFormed(g) && 0 <= n < |path|
    requires DoorsDone(g0, g, path, hallway, src, dst, n)
    ensures DoorAt(g, path, src, dst, n) <==> DoorAt(g0, path, src, dst, n) && !BecomesDoor(g0, path, src, dst, n, path[n])
  {
    if 1 <= n < |path| - 1 && IsInBounds(g0, path[n]) {
      var a, b := path[n - 1], path[n + 1];
      if IsInBounds(g0, a) {
        assert GetCell(g, a).cellType == Hallway <==> GetCell(g0, a).cellType == Hallway;
      }
      if IsInBounds(g0, b) {
        assert GetCell(g, b).cellType == Hallway <==> GetCell(g0, b).cellType == Hallway;
      }
    }
  }

  lemma {:induction false} MarkDoorsFromEffect(g0: DungeonGrid, g: DungeonGrid, path: seq<Vec3>, hallway: Byte, src: int, dst: int, i: nat)
    requires WellFormed(g0) && WellFormed(g) && i <= |path|
    requires DoorsDone(g0, g, path, hallway, src, dst, i)
    ensures DoorsDone(g0, MarkDoorsFrom(g, path, hallway, src, dst, i), path, hallway, src, dst, |path|)
    decreases |path| - i
  {
    if i < |path| {
      DoorTestStable(g0, g, path, hallway, src, dst, i);
      var g' := if DoorAt(g, path, src, dst, i) then SetCell(g, path[i], DoorWrite(GetCell(g, path[i]), hallway)) else g;
      forall c | IsInBounds(g0, c)
        ensures GetCell(g', c) == if BecomesDoor(g0, path, src, dst, i + 1, c) then DoorWrite(GetCell(g0, c), hallway) else GetCell(g0, c)
      {
        if c == path[i] && DoorAt(g0, path, src, dst, i) {
          assert BecomesDoor(g0, path, src, dst, i + 1, c);
        }
        if BecomesDoor(g0, path, src, dst, i + 1, c) && !BecomesDoor(g0, path, src, dst, i, c) {
          assert c == path[i] && DoorAt(g0, path, src, dst, i);
        }
      }
      MarkDoorsFromEffect(g0, g', path, hallway, src, dst, i + 1);
    }
  }

  /**
   * MarkDoors: the door pass. A cell becomes a door of this hallway exactly
   * when it sits at an interior route position, is a source or destination
   * room cell, and the route cell before or after it is Hallway; every other
   * cell is untouched.
   */
  function MarkDoors(g: DungeonGrid, path: seq<Vec3>, hallway: Byte, src: int, dst: int): (g': DungeonGrid)
    requires WellFormed(g)
    ensures WellFormed(g') && g'.size == g.size
    ensures forall c :: IsInBounds(g, c) ==>
      GetCell(g', c) == if BecomesDoor(g, path, src, dst, |path|, c) then DoorWrite(GetCell(g, c), hallway) else GetCell(g, c)
  {
    MarkDoorsFromEffect(g, g, path, hallway, src, dst, 0);
    MarkDoorsFrom(g, path, hallway, src, dst, 0)
  }

  // ------------------------------------------------------------ The whole route

  /** The staircases a route produces: one per in-bounds route cell on a different floor from its predecessor. */
  function StairsOf(size: Vec3, path: seq<Vec3>, riseToRun: int, headroom: int): (stairs: seq<DungeonStaircase>)
    ensures |stairs| <= |path|
    decreases |path|
  {
    if |path| < 2 then []
    else
      var prev, next := path[|path| - 2], path[|path| - 1];
      StairsOf(size, path[..|path| - 1], riseToRun, headroom)
        + if InBox(size, next) && next.z != prev.z then [StaircaseFor(size, prev, next, riseToRun, headroom)] else []
  }

  /** A cell some emitted staircase occupies. */
  predicate Occupied(stairs: seq<DungeonStaircase>, c: Vec3) {
    exists k :: 0 <= k < |stairs| && c in stairs[k].occupiedCells
  }

  /** The cells a carving may write: route cells and cells an emitted staircase occupies. */
  predicate Touched(path: seq<Vec3>, stairs: seq<DungeonStaircase>, c: Vec3) {
    c in path || Occupied(stairs, c)
  }

  /** Every cell that differs from the input belongs to this hallway and is a hallway, door or stair cell. */
  predicate Written(g: DungeonGrid, g': DungeonGrid, hallway: Byte, c: Vec3)
    requires WellFormed(g) && WellFormed(g') && g'.size == g.size && IsInBounds(g, c)
  {
    GetCell(g', c) != GetCell(g, c) ==>
      GetCell(g', c).hallwayIndex == hallway && GetCell(g', c).cellType in {Hallway, Door, Staircase, StaircaseHead}
  }

  /** The body of staircase st holds c: c is a cell it occupies on its lower floor. */
  predicate InBody(st: DungeonStaircase, c: Vec3) {
    c in st.occupiedCells && c.z == st.bottomCell.z
  }

  /** A body cell of an emitted staircase. */
  predicate IsStairBody(stairs: seq<DungeonStaircase>, c: Vec3) {
    exists k :: 0 <= k < |stairs| && InBody(stairs[k], c)
  }

  /** A headroom cell of an emitted staircase that no staircase uses as a body cell. */
  predicate IsStairHeadOnly(stairs: seq<DungeonStaircase>, c: Vec3) {
    Occupied(stairs, c) && !IsStairBody(stairs, c)
  }

  /**
   * The last emitted staircase whose body holds c, or -1 when none does.
   * A body cell is rewritten whatever it holds, and nothing after it
   * overwrites a Staircase cell, so this staircase decides its direction.
   */
  function LastBody(stairs: seq<DungeonStaircase>, c: Vec3): (k: int)
    ensures -1 <= k < |stairs|
    ensures k == -1 <==> !IsStairBody(stairs, c)
    ensures 0 <= k ==> InBody(stairs[k], c) && forall j :: k < j < |stairs| ==> !InBody(stairs[j], c)
    decreases |stairs|
  {
    if |stairs| == 0 then -1
    else if InBody(stairs[|stairs| - 1], c) then |stairs| - 1
    else
      var k := LastBody(stairs[..|stairs| - 1], c);
      assert forall j :: 0 <= j < |stairs| - 1 ==> stairs[..|stairs| - 1][j] == stairs[j];
      k
  }

  /**
   * The first emitted staircase that occupies c, or -1 when none does.
   * Headroom claims only Empty and Hallway cells, so once a staircase has
   * claimed c no later headroom write changes it.
   */
  function FirstOccupant(stairs: seq<DungeonStaircase>, c: Vec3): (k: int)
    ensures -1 <= k < |stairs|
    ensures k == -1 <==> !Occupied(stairs, c)
    ensures 0 <= k ==> c in stairs[k].occupiedCells && forall j :: 0 <= j < k ==> c !in stairs[j].occupiedCells
    decreases |stairs|
  {
    if |stairs| == 0 then -1
    else
      var k := FirstOccupant(stairs[..|stairs| - 1], c);
      assert forall j :: 0 <= j < |stairs| - 1 ==> stairs[..|stairs| - 1][j] == stairs[j];
      if 0 <= k then k
      else if c in stairs[|stairs| - 1].occupiedCells then |stairs| - 1
      else -1
  }

  /**
   * Route cell d reads Hallway once the main pass is over: no staircase
   * claimed it, and it was a Hallway cell or an Empty cell on the route.
   */
  predicate HallwayAfterMain(g: DungeonGrid, path: seq<Vec3>, stairs: seq<DungeonStaircase>, d: Vec3)
    requires WellFormed(g)
  {
    && IsInBounds(g, d)
    && !Occupied(stairs, d)
    && (GetCell(g, d).cellType == Hallway || (GetCell(g, d).cellType == Empty && d in path))
  }

  /** Cell c is a source or destination room cell that no staircase body replaced. */
  predicate EndRoomAfterMain(g: DungeonGrid, stairs: seq<DungeonStaircase>, src: int, dst: int, c: Vec3)
    requires WellFormed(g)
  {
    && IsInBounds(g, c)
    && !IsStairBody(stairs, c)
    && GetCell(g, c).cellType == Room
    && (GetCell(g, c).roomIndex == src || GetCell(g, c).roomIndex == dst)
  }

  /**
   * The door rule read against the grid before carving: c sits at an
   * interior route position, is a source or destination room cell no
   * staircase body replaced, and the route cell before or after it reads
   * Hallway once the main pass is over.
   */
  predicate DoorBy(g: DungeonGrid, path: seq<Vec3>, stairs: seq<DungeonStaircase>, src: int, dst: int, c: Vec3)
    requires WellFormed(g)
  {
    exists i :: 1 <= i < |path| - 1 && path[i] == c && EndRoomAfterMain(g, stairs, src, dst, c)
      && (HallwayAfterMain(g, path, stairs, path[i - 1]) || HallwayAfterMain(g, path, stairs, path[i + 1]))
  }

  /**
   * What carving the route does to cell c, stated against the grid g before
   * it: a staircase body cell becomes a Staircase cell of this hallway
   * facing the climb of the last staircase whose body holds it; a headroom
   * cell that was Empty or Hallway becomes a StaircaseHead cell of this
   * hallway facing the climb of the first staircase that occupies it, and
   * any other headroom cell keeps its contents unless it
   * becomes a door; doors are exactly the cells DoorBy names; and a cell no
   * staircase occupies becomes a Hallway cell of this hallway when it is an
   * Empty route cell, and otherwise keeps its contents unless it becomes a
   * door.
   */
  predicate CarvedCell(g: DungeonGrid, g': DungeonGrid, path: seq<Vec3>, stairs: seq<DungeonStaircase>,
                       hallway: Byte, src: int, dst: int, c: Vec3)
    requires WellFormed(g) && WellFormed(g') && g'.size == g.size && IsInBounds(g, c)
  {
    var before, after := GetCell(g, c), GetCell(g', c);
    && (IsStairBody(stairs, c) ==> after == BodyWrite(before, hallway, stairs[LastBody(stairs, c)].direction))
    && (IsStairHeadOnly(stairs, c) && before.cellType in {Empty, Hallway} ==>
          after == HeadWrite(before, hallway, stairs[FirstOccupant(stairs, c)].direction))
    && (IsStairHeadOnly(stairs, c) && before.cellType !in {Empty, Hallway} && !DoorBy(g, path, stairs, src, dst, c) ==>
          after == before)
    && (DoorBy(g, path, stairs, src, dst, c) ==> after == DoorWrite(before, hallway))
    && (!Occupied(stairs, c) && !DoorBy(g, path, stairs, src, dst, c) ==>
          after == if c in path && before.cellType == Empty then HallwayWrite(before, hallway) else before)
  }

  /**
   * The main pass's exact effect after the route cells in `prefix`, with
   * `stairs` the staircases emitted so far: bodies are Staircase cells of
   * this hallway, headroom claimed if it was Empty or Hallway and kept
   * otherwise, and every other cell is a carved Empty route cell or as it was.
   */
  predicate MainCell(g: DungeonGrid, gi: DungeonGrid, prefix: seq<Vec3>, stairs: seq<DungeonStaircase>, hallway: Byte, c: Vec3)
    requires WellFormed(g) && WellFormed(gi) && gi.size == g.size && IsInBounds(g, c)
  {
    var before, now := GetCell(g, c), GetCell(gi, c);
    && (IsStairBody(stairs, c) ==> now == BodyWrite(before, hallway, stairs[LastBody(stairs, c)].direction))
    && (IsStairHeadOnly(stairs, c) ==>
          if before.cellType in {Empty, Hallway} then now == HeadWrite(before, hallway, stairs[FirstOccupant(stairs, c)].direction)
          else now == before)
    && (!Occupied(stairs, c) ==>
          now == if c in prefix && before.cellType == Empty then HallwayWrite(before, hallway) else before)
  }

  /** Occupancy and body membership after one more staircase. */
  lemma StairsSnoc(stairs: seq<DungeonStaircase>, st: DungeonStaircase, c: Vec3)
    ensures Occupied(stairs + [st], c) <==> Occupied(stairs, c) || c in st.occupiedCells
    ensures IsStairBody(stairs + [st], c) <==> IsStairBody(stairs, c) || InBody(st, c)
    ensures LastBody(stairs + [st], c) == if InBody(st, c) then |stairs| else LastBody(stairs, c)
    ensures FirstOccupant(stairs + [st], c) ==
      if Occupied(stairs, c) then FirstOccupant(stairs, c) else if c in st.occupiedCells then |stairs| else -1
  {
    var s' := stairs + [st];
    assert s'[..|stairs|] == stairs;
    assert s'[|stairs|] == st;
    if Occupied(s', c) {
      var k :| 0 <= k < |s'| && c in s'[k].occupiedCells;
      if k < |stairs| {
        assert s'[k] == stairs[k];
      }
    }
    if Occupied(stairs, c) {
      var k :| 0 <= k < |stairs| && c in stairs[k].occupiedCells;
      assert s'[k] == stairs[k];
    }
    if IsStairBody(s', c) {
      var k :| 0 <= k < |s'| && InBody(s'[k], c);
      if k < |stairs| {
        assert s'[k] == stairs[k];
      }
    }
    if IsStairBody(stairs, c) {
      var k :| 0 <= k < |stairs| && InBody(stairs[k], c);
      assert s'[k] == stairs[k];
    }
  }

  /** A staircase's occupied cells on its bottom floor are its body, the others its headroom. */
  lemma StaircaseLayers(size: Vec3, prev: Vec3, next: Vec3, riseToRun: int, headroom: int, c: Vec3)
    requires prev.z != next.z
    ensures var st := StaircaseFor(size, prev, next, riseToRun, headroom);
      var sh := ShapeOf(prev, next);
      && (c in st.occupiedCells && c.z == st.bottomCell.z <==> InBox(size, c) && IsBody(prev, sh.dx, sh.dy, sh.lz, riseToRun, c))
      && (c in st.occupiedCells && c.z != st.bottomCell.z <==> InBox(size, c) && IsHead(prev, sh.dx, sh.dy, sh.lz, riseToRun, headroom, c))
  {
    var sh := ShapeOf(prev, next);
    StaircaseOccupies(size, prev, next, riseToRun, headroom, c);
    if IsBody(prev, sh.dx, sh.dy, sh.lz, riseToRun, c) {
      var i :| 1 <= i <= riseToRun && c == StairPart(prev, sh.dx, sh.dy, sh.lz, i, 0);
    }
    if IsHead(prev, sh.dx, sh.dy, sh.lz, riseToRun, headroom, c) {
      var i, h :| 1 <= i <= riseToRun && 1 <= h <= headroom && c == StairPart(prev, sh.dx, sh.dy, sh.lz, i, h);
    }
  }

  /** Carving the staircase into a route cell keeps the main pass's exact effect, with that staircase emitted. */
  lemma StaircaseStepExact(g: DungeonGrid, gi: DungeonGrid, prefix: seq<Vec3>, prev: Vec3, next: Vec3,
                           stairs: seq<DungeonStaircase>, hallway: Byte, riseToRun: int, headroom: int)
    requires WellFormed(g) && WellFormed(gi) && gi.size == g.size && prev.z != next.z
    requires forall c :: IsInBounds(g, c) ==> MainCell(g, gi, prefix, stairs, hallway, c)
    ensures var (g1, st) := CarveStaircase(gi, prev, next, hallway, riseToRun, headroom);
      g1.size == g.size && forall c :: IsInBounds(g, c) ==> MainCell(g, g1, prefix, stairs + [st], hallway, c)
  {
    var (g1, st) := CarveStaircase(gi, prev, next, hallway, riseToRun, headroom);
    forall c | IsInBounds(g, c)
      ensures MainCell(g, g1, prefix, stairs + [st], hallway, c)
    {
      StaircaseCellExact(g, gi, prefix, prev, next, stairs, hallway, riseToRun, headroom, c);
    }
  }

  /** StaircaseStepExact for one cell: its body writes last, and its headroom claims only unclaimed cells. */
  lemma StaircaseCellExact(g: DungeonGrid, gi: DungeonGrid, prefix: seq<Vec3>, prev: Vec3, next: Vec3,
                           stairs: seq<DungeonStaircase>, hallway: Byte, riseToRun: int, headroom: int, c: Vec3)
    requires WellFormed(g) && WellFormed(gi) && gi.size == g.size && prev.z != next.z && IsInBounds(g, c)
    requires MainCell(g, gi, prefix, stairs, hallway, c)
    ensures var (g1, st) := CarveStaircase(gi, prev, next, hallway, riseToRun, headroom);
      g1.size == g.size && MainCell(g, g1, prefix, stairs + [st], hallway, c)
  {
    var (g1, st) := CarveStaircase(gi, prev, next, hallway, riseToRun, headroom);
    StairsSnoc(stairs, st, c);
    StaircaseLayers(g.size, prev, next, riseToRun, headroom, c);
    if InBody(st, c) {
      assert GetCell(g1, c) == BodyWrite(GetCell(gi, c), hallway, st.direction);
      BodyCellExact(g, gi, g1, prefix, stairs, st, hallway, c);
    } else if c in st.occupiedCells {
      assert GetCell(g1, c) == HeadWrite(GetCell(gi, c), hallway, st.direction);
      HeadCellExact(g, gi, g1, prefix, stairs, st, hallway, c);
    } else {
      assert GetCell(g1, c) == GetCell(gi, c);
    }
  }

  /** A cell in the new staircase's body is that staircase's Staircase cell, whatever it held. */
  lemma BodyCellExact(g: DungeonGrid, gi: DungeonGrid, g1: DungeonGrid, prefix: seq<Vec3>,
                      stairs: seq<DungeonStaircase>, st: DungeonStaircase, hallway: Byte, c: Vec3)
    requires WellFormed(g) && WellFormed(gi) && WellFormed(g1) && gi.size == g.size && g1.size == g.size && IsInBounds(g, c)
    requires MainCell(g, gi, prefix, stairs, hallway, c)
    requires InBody(st, c) && LastBody(stairs + [st], c) == |stairs| && IsStairBody(stairs + [st], c)
    requires GetCell(g1, c) == BodyWrite(GetCell(gi, c), hallway, st.direction)
    ensures MainCell(g, g1, prefix, stairs + [st], hallway, c)
  {
    assert (stairs + [st])[|stairs|] == st;
    assert GetCell(g1, c) == BodyWrite(GetCell(g, c), hallway, st.direction);
  }

  /** A cell in the new staircase's headroom is claimed only when no staircase has written it yet. */
  lemma HeadCellExact(g: DungeonGrid, gi: DungeonGrid, g1: DungeonGrid, prefix: seq<Vec3>,
                      stairs: seq<DungeonStaircase>, st: DungeonStaircase, hallway: Byte, c: Vec3)
    requires WellFormed(g) && WellFormed(gi) && WellFormed(g1) && gi.size == g.size && g1.size == g.size && IsInBounds(g, c)
    requires MainCell(g, gi, prefix, stairs, hallway, c)
    requires c in st.occupiedCells && !InBody(st, c)
    requires Occupied(stairs + [st], c)
    requires IsStairBody(stairs + [st], c) <==> IsStairBody(stairs, c)
    requires LastBody(stairs + [st], c) == LastBody(stairs, c)
    requires FirstOccupant(stairs + [st], c) == if Occupied(stairs, c) then FirstOccupant(stairs, c) else |stairs|
    requires GetCell(g1, c) == HeadWrite(GetCell(gi, c), hallway, st.direction)
    ensures MainCell(g, g1, prefix, stairs + [st], hallway, c)
  {
    var s' := stairs + [st];
    assert s'[|stairs|] == st;
    if IsStairBody(stairs, c) {
      assert s'[LastBody(stairs, c)] == stairs[LastBody(stairs, c)];
    } else if Occupied(stairs, c) {
      assert s'[FirstOccupant(stairs, c)] == stairs[FirstOccupant(stairs, c)];
    }
  }

  /** Carving route cell i keeps the main pass's exact effect, with that cell now counted as visited. */
  lemma CellStepExact(g: DungeonGrid, gi: DungeonGrid, path: seq<Vec3>, i: int, stairs: seq<DungeonStaircase>,
                      hallway: Byte, src: int, dst: int)
    requires WellFormed(g) && WellFormed(gi) && gi.size == g.size && 0 <= i < |path| && IsInBounds(g, path[i])
    requires forall c :: IsInBounds(g, c) ==> MainCell(g, gi, path[..i], stairs, hallway, c)
    ensures forall c :: IsInBounds(g, c) ==> MainCell(g, CarveCell(gi, path[i], hallway, src, dst), path[..i + 1], stairs, hallway, c)
  {
    var g2 := CarveCell(gi, path[i], hallway, src, dst);
    assert path[..i + 1] == path[..i] + [path[i]];
    forall c | IsInBounds(g, c)
      ensures MainCell(g, g2, path[..i + 1], stairs, hallway, c)
    {
      assert MainCell(g, gi, path[..i], stairs, hallway, c);
      CarveCellOnlyEmpty(gi, path[i], hallway, src, dst);
    }
  }

  /** After the main pass a cell is a source or destination room cell exactly when EndRoomAfterMain says so. */
  lemma EndRoomMatches(g: DungeonGrid, gi: DungeonGrid, path: seq<Vec3>, stairs: seq<DungeonStaircase>,
                       hallway: Byte, src: int, dst: int, c: Vec3)
    requires WellFormed(g) && WellFormed(gi) && gi.size == g.size && IsInBounds(g, c)
    requires MainCell(g, gi, path, stairs, hallway, c)
    ensures GetCell(gi, c).cellType == Room && (GetCell(gi, c).roomIndex == src || GetCell(gi, c).roomIndex == dst)
      <==> EndRoomAfterMain(g, stairs, src, dst, c)
  {
  }

  /** After the main pass a route cell reads Hallway exactly when HallwayAfterMain says so. */
  lemma HallwayMatches(g: DungeonGrid, gi: DungeonGrid, path: seq<Vec3>, stairs: seq<DungeonStaircase>,
                       hallway: Byte, d: Vec3)
    requires WellFormed(g) && WellFormed(gi) && gi.size == g.size && d in path
    requires IsInBounds(g, d) ==> MainCell(g, gi, path, stairs, hallway, d)
    ensures (IsInBounds(gi, d) && GetCell(gi, d).cellType == Hallway) <==> HallwayAfterMain(g, path, stairs, d)
  {
  }

  /** The door test at route position i, read on the carved grid, in terms of the grid before it. */
  lemma DoorAtExact(g: DungeonGrid, gi: DungeonGrid, path: seq<Vec3>, stairs: seq<DungeonStaircase>,
                    hallway: Byte, src: int, dst: int, i: int)
    requires WellFormed(g) && WellFormed(gi) && gi.size == g.size && 0 <= i < |path|
    requires forall c :: IsInBounds(g, c) ==> MainCell(g, gi, path, stairs, hallway, c)
    ensures DoorAt(gi, path, src, dst, i) <==>
      1 <= i < |path| - 1 && EndRoomAfterMain(g, stairs, src, dst, path[i])
      && (HallwayAfterMain(g, path, stairs, path[i - 1]) || HallwayAfterMain(g, path, stairs, path[i + 1]))
  {
    if 1 <= i < |path| - 1 {
      if IsInBounds(g, path[i]) {
        EndRoomMatches(g, gi, path, stairs, hallway, src, dst, path[i]);
      }
      HallwayMatches(g, gi, path, stairs, hallway, path[i - 1]);
      HallwayMatches(g, gi, path, stairs, hallway, path[i + 1]);
    }
  }

  /** After the main pass, the door test read on the carved grid is DoorBy read on the grid before it. */
  lemma DoorsExact(g: DungeonGrid, gi: DungeonGrid, path: seq<Vec3>, stairs: seq<DungeonStaircase>,
                   hallway: Byte, src: int, dst: int)
    requires WellFormed(g) && WellFormed(gi) && gi.size == g.size
    requires forall c :: IsInBounds(g, c) ==> MainCell(g, gi, path, stairs, hallway, c)
    ensures forall c :: IsInBounds(g, c) ==> (BecomesDoor(gi, path, src, dst, |path|, c) <==> DoorBy(g, path, stairs, src, dst, c))
  {
    forall c | IsInBounds(g, c)
      ensures BecomesDoor(gi, path, src, dst, |path|, c) <==> DoorBy(g, path, stairs, src, dst, c)
    {
      if BecomesDoor(gi, path, src, dst, |path|, c) {
        var i :| 0 <= i < |path| && path[i] == c && DoorAt(gi, path, src, dst, i);
        DoorAtExact(g, gi, path, stairs, hallway, src, dst, i);
      }
      if DoorBy(g, path, stairs, src, dst, c) {
        var i :| 1 <= i < |path| - 1 && path[i] == c && EndRoomAfterMain(g, stairs, src, dst, c)
          && (HallwayAfterMain(g, path, stairs, path[i - 1]) || HallwayAfterMain(g, path, stairs, path[i + 1]));
        DoorAtExact(g, gi, path, stairs, hallway, src, dst, i);
      }
    }
  }

  /** The door pass over an exactly described main pass gives the full per-cell description. */
  lemma CarvedFromMain(g: DungeonGrid, gi: DungeonGrid, path: seq<Vec3>, stairs: seq<DungeonStaircase>,
                       hallway: Byte, src: int, dst: int)
    requires WellFormed(g) && WellFormed(gi) && gi.size == g.size
    requires forall c :: IsInBounds(g, c) ==> MainCell(g, gi, path, stairs, hallway, c)
    ensures var g' := MarkDoors(gi, path, hallway, src, dst);
      g'.size == g.size && forall c :: IsInBounds(g, c) ==> CarvedCell(g, g', path, stairs, hallway, src, dst, c)
  {
    var g' := MarkDoors(gi, path, hallway, src, dst);
    DoorsExact(g, gi, path, stairs, hallway, src, dst);
    forall c | IsInBounds(g, c)
      ensures CarvedCell(g, g', path, stairs, hallway, src, dst, c)
    {
      assert MainCell(g, gi, path, stairs, hallway, c);
    }
  }

  /** The main pass's effect so far: untouched cells kept, changed cells written by this hallway. */
  ghost predicate MainPassOk(g: DungeonGrid, g': DungeonGrid, path: seq<Vec3>, stairs: seq<DungeonStaircase>, hallway: Byte)
    requires WellFormed(g) && WellFormed(g')
  {
    && g'.size == g.size
    && forall c :: IsInBounds(g, c) ==> Written(g, g', hallway, c) && (!Touched(path, stairs, c) ==> GetCell(g', c) == GetCell(g, c))
  }

  /** The staircase into route cell i keeps the main pass's effect, with its cells now counted as touched. */
  lemma StaircaseStepOk(g: DungeonGrid, gi: DungeonGrid, prefix: seq<Vec3>, prev: Vec3, next: Vec3,
                        stairs: seq<DungeonStaircase>, hallway: Byte, riseToRun: int, headroom: int)
    requires WellFormed(g) && WellFormed(gi) && prev.z != next.z
    requires MainPassOk(g, gi, prefix, stairs, hallway)
    ensures var (g1, st) := CarveStaircase(gi, prev, next, hallway, riseToRun, headroom);
      MainPassOk(g, g1, prefix, stairs + [st], hallway)
  {
    var (g1, st) := CarveStaircase(gi, prev, next, hallway, riseToRun, headroom);
    forall c | IsInBounds(g, c)
      ensures Written(g, g1, hallway, c)
      ensures !Touched(prefix, stairs + [st], c) ==> GetCell(g1, c) == GetCell(g, c)
    {
      CarveStaircaseEffect(gi, prev, next, hallway, riseToRun, headroom, c);
      if Occupied(stairs, c) {
        var k :| 0 <= k < |stairs| && c in stairs[k].occupiedCells;
        assert (stairs + [st])[k] == stairs[k];
      }
      if c in st.occupiedCells {
        assert (stairs + [st])[|stairs|] == st;
      }
    }
  }

  /** The main pass's rewrite of route cell i itself. */
  lemma CellStepOk(g: DungeonGrid, gi: DungeonGrid, path: seq<Vec3>, i: int, stairs: seq<DungeonStaircase>,
                   hallway: Byte, src: int, dst: int)
    requires WellFormed(g) && WellFormed(gi) && 0 <= i < |path|
    requires MainPassOk(g, gi, path[..i], stairs, hallway)
    requires IsInBounds(g, path[i])
    ensures MainPassOk(g, CarveCell(gi, path[i], hallway, src, dst), path[..i + 1], stairs, hallway)
  {
    var g2 := CarveCell(gi, path[i], hallway, src, dst);
    forall c | IsInBounds(g, c)
      ensures Written(g, g2, hallway, c)
      ensures !Touched(path[..i + 1], stairs, c) ==> GetCell(g2, c) == GetCell(g, c)
    {
      CarveCellOnlyEmpty(gi, path[i], hallway, src, dst);
      assert path[..i + 1] == path[..i] + [path[i]];
    }
  }

  /**
   * The carving rules as they read cell by cell: an Empty route cell no
   * staircase claimed becomes a Hallway cell of this hallway; an existing
   * hallway or stair cell outside this hallway's staircases is not
   * overwritten; every body cell of an emitted staircase is a Staircase
   * cell of this hallway facing the climb of the last staircase through
   * it; and a new door is a cell the door rule names.
   */
  lemma CarvedRouteFacts(g: DungeonGrid, g': DungeonGrid, path: seq<Vec3>, stairs: seq<DungeonStaircase>,
                         hallway: Byte, src: int, dst: int, c: Vec3)
    requires WellFormed(g) && WellFormed(g') && g'.size == g.size && IsInBounds(g, c)
    requires CarvedCell(g, g', path, stairs, hallway, src, dst, c)
    ensures c in path && !Occupied(stairs, c) && GetCell(g, c).cellType == Empty ==>
      GetCell(g', c) == HallwayWrite(GetCell(g, c), hallway)
    ensures !Occupied(stairs, c) && GetCell(g, c).cellType in {Hallway, Staircase, StaircaseHead} ==>
      GetCell(g', c) == GetCell(g, c)
    ensures IsStairBody(stairs, c) ==>
      && GetCell(g', c).cellType == Staircase && GetCell(g', c).hallwayIndex == hallway
      && GetCell(g', c).staircaseDirection == stairs[LastBody(stairs, c)].direction
    ensures GetCell(g', c).cellType == Door && GetCell(g, c).cellType != Door ==> DoorBy(g, path, stairs, src, dst, c)
  {
  }

  /**
   * CarveHallway: carves the route for hallway `hallway` and returns the
   * staircases it emitted, one per change of floor, in route order. Only
   * route cells and cells those staircases occupy change, every changed
   * cell is a hallway, door or stair cell of this hallway, and CarvedCell
   * says exactly what each cell becomes.
   */
  method CarveHallway(g: DungeonGrid, path: seq<Vec3>, hallway: Byte, src: int, dst: int, riseToRun: int, headroom: int)
    returns (g': DungeonGrid, stairs: seq<DungeonStaircase>)
    requires WellFormed(g)
    ensures WellFormed(g') && g'.size == g.size
    ensures stairs == StairsOf(g.size, path, riseToRun, headroom)
    ensures forall c :: IsInBounds(g, c) && !Touched(path, stairs, c) ==> GetCell(g', c) == GetCell(g, c)
    ensures forall c :: IsInBounds(g, c) ==> Written(g, g', hallway, c)
    ensures forall c :: IsInBounds(g, c) ==> CarvedCell(g, g', path, stairs, hallway, src, dst, c)
  {
    var gi := g;
    stairs := [];
    for i := 0 to |path|
      invariant WellFormed(gi) && gi.size == g.size
      invariant MainPassOk(g, gi, path[..i], stairs, hallway)
      invariant forall c :: IsInBounds(g, c) ==> MainCell(g, gi, path[..i], stairs, hallway, c)
      invariant stairs == StairsOf(g.size, path[..i], riseToRun, headroom)
    {
      assert path[..i + 1][..i] == path[..i];
      if IsInBounds(gi, path[i]) {
        if 0 < i && path[i].z != path[i - 1].z {
          StaircaseStepOk(g, gi, path[..i], path[i - 1], path[i], stairs, hallway, riseToRun, headroom);
          StaircaseStepExact(g, gi, path[..i], path[i - 1], path[i], stairs, hallway, riseToRun, headroom);
          var (g1, st) := CarveStaircase(gi, path[i - 1], path[i], hallway, riseToRun, headroom);
          CellStepOk(g, g1, path, i, stairs + [st], hallway, src, dst);
          CellStepExact(g, g1, path, i, stairs + [st], hallway, src, dst);
          gi := CarveCell(g1, path[i], hallway, src, dst);
          stairs := stairs + [st];
        } else {
          CellStepOk(g, gi, path, i, stairs, hallway, src, dst);
          CellStepExact(g, gi, path, i, stairs, hallway, src, dst);
          gi := CarveCell(gi, path[i], hallway, src, dst);
        }
      } else {
        assert path[..i + 1] == path[..i] + [path[i]];
        forall c | IsInBounds(g, c)
          ensures MainCell(g, gi, path[..i + 1], stairs, hallway, c)
        {
          assert MainCell(g, gi, path[..i], stairs, hallway, c);
          assert c in path[..i + 1] <==> c in path[..i];
        }
      }
    }
    assert path[..|path|] == path;
    CarvedFromMain(g, gi, path, stairs, hallway, src, dst);
    g' := MarkDoors(gi, path, hallway, src, dst);
    forall c | IsInBounds(g, c)
      ensures Written(g, g', hallway, c)
    {
      if BecomesDoor(gi, path, src, dst, |path|, c) {
        var i :| 0 <= i < |path| && path[i] == c && DoorAt(gi, path, src, dst, i);
      }
    }
  }
}

=== FILE: hallway_pathfinder.dfy ===
/**
 * The hallway pathfinder's cell rules: the move-cost table, the staircase
 * feasibility test, and the search that links two cells. The search keeps
 * every combinatorial branch of the source; the floating-point g-score
 * comparison and the heap's pop order are oracles, so every property below
 * holds for any outcome of either.
 */
module HallwayPathfinder {
  import opened DungeonTypes
  import opened DungeonConfig
  import opened Wrappers
  import opened SeqUtils
  import opened PriorityQueue

  /** The four horizontal directions: +X, -X, +Y, -Y. */
  const HorizontalDirs: seq<(int, int)> := [(1, 0), (-1, 0), (0, 1), (0, -1)]

  function Shift(c: Vec3, dx: int, dy: int, dz: int): Vec3 {
    Vec3(c.x + dx, c.y + dy, c.z + dz)
  }

  /** The horizontal neighbour of c in direction d. */
  function Neighbour(c: Vec3, d: int): Vec3
    requires 0 <= d < 4
  {
    Shift(c, HorizontalDirs[d].0, HorizontalDirs[d].1, 0)
  }

  // ------------------------------------------------------------ Move costs

  /**
   * A room cell above its room's ground floor: the cell below lies in the
   * grid and is a Room or RoomWall cell of the same room.
   */
  predicate IsUpperRoomCell(g: DungeonGrid, c: Vec3, roomIndex: int)
    requires WellFormed(g)
  {
    var below := Shift(c, 0, 0, -1);
    IsInBounds(g, below)
      && (GetCell(g, below).cellType == Room || GetCell(g, below).cellType == RoomWall)
      && GetCell(g, below).roomIndex == roomIndex
  }

  /**
   * The cost of stepping onto c; a negative cost blocks the cell. Empty cells
   * cost 1, hallways and doors the merge multiplier, the source and
   * destination rooms nothing, other rooms the pass-through multiplier and
   * walls 5; upper room cells and walls, stairs and entrances are blocked.
   */
  function CellCost(g: DungeonGrid, c: Vec3, cfg: DungeonConfiguration, src: int, dst: int): (cost: real)
    requires WellFormed(g) && IsInBounds(g, c)
    ensures GetCell(g, c).cellType == Empty ==> cost == 1.0
    ensures GetCell(g, c).cellType in {Hallway, Door} ==> cost == cfg.hallwayMergeCostMultiplier
    ensures GetCell(g, c).cellType in {Staircase, StaircaseHead, CellType.Entrance} ==> cost == -1.0
  {
    var cell := GetCell(g, c);
    match cell.cellType
    case Empty => 1.0
    case Hallway => cfg.hallwayMergeCostMultiplier
    case Door => cfg.hallwayMergeCostMultiplier
    case Room =>
      if IsUpperRoomCell(g, c, cell.roomIndex) then -1.0
      else if cell.roomIndex == src || cell.roomIndex == dst then 0.0
      else cfg.roomPassthroughCostMultiplier
    case RoomWall =>
      if IsUpperRoomCell(g, c, cell.roomIndex) then -1.0 else 5.0
    case _ => -1.0
  }

  /** The cells the search may never step onto. */
  predicate Blocked(g: DungeonGrid, c: Vec3)
    requires WellFormed(g) && IsInBounds(g, c)
  {
    var t := GetCell(g, c).cellType;
    t == Staircase || t == StaircaseHead || t == CellType.Entrance
      || ((t == Room || t == RoomWall) && IsUpperRoomCell(g, c, GetCell(g, c).roomIndex))
  }

  /**
   * With the multipliers in their editor ranges, a cell is blocked exactly
   * when it is a stair, an entrance, or a room cell or wall above its room's
   * ground floor; the source and destination rooms' ground floor is free.
   */
  lemma CostBlocksExactly(g: DungeonGrid, c: Vec3, cfg: DungeonConfiguration, src: int, dst: int)
    requires WellFormed(g) && IsInBounds(g, c)
    requires 0.0 <= cfg.hallwayMergeCostMultiplier && 0.0 <= cfg.roomPassthroughCostMultiplier
    ensures CellCost(g, c, cfg, src, dst) < 0.0 <==> Blocked(g, c)
    ensures (GetCell(g, c).cellType == Room && !Blocked(g, c)
             && (GetCell(g, c).roomIndex == src || GetCell(g, c).roomIndex == dst))
            ==> CellCost(g, c, cfg, src, dst) == 0.0
  {
  }

  /** The cell directly below a ground-floor cell is never part of the same room. */
  lemma GroundFloorNotUpper(g: DungeonGrid, c: Vec3, roomIndex: int)
    requires WellFormed(g) && IsInBounds(g, c) && c.z == 0
    ensures !IsUpperRoomCell(g, c, roomIndex)
  {
  }

  // ------------------------------------------------------------ Staircases

  /** The floor the stair body sits on: the entry's floor going up, the one below going down. */
  function LowerZ(entry: Vec3, rise: int): int {
    if rise > 0 then entry.z else entry.z - 1
  }

  /** The i-th cell of a stair body (or, at height h above it, of its headroom). */
  function StairCell(entry: Vec3, dx: int, dy: int, i: int, z: int): Vec3 {
    Vec3(entry.x + dx * i, entry.y + dy * i, z)
  }

  /** The cell one step past the stair on the floor the stair leads to. */
  function StairExit(entry: Vec3, dx: int, dy: int, rise: int, riseToRun: int): Vec3 {
    var lz := LowerZ(entry, rise);
    StairCell(entry, dx, dy, riseToRun + 1, if rise > 0 then lz + 1 else lz)
  }

  predicate Available(g: DungeonGrid, c: Vec3)
    requires WellFormed(g)
  {
    IsInBounds(g, c) && GetCell(g, c).cellType == Empty
  }

  predicate StairAt(g: DungeonGrid, c: Vec3)
    requires WellFormed(g)
  {
    IsInBounds(g, c) && IsStairFamily(GetCell(g, c).cellType)
  }

  /** Some in-bounds horizontal neighbour of c is a stair body or headroom cell. */
  predicate NextToStairs(g: DungeonGrid, c: Vec3)
    requires WellFormed(g)
  {
    StairAt(g, Neighbour(c, 0)) || StairAt(g, Neighbour(c, 1)) || StairAt(g, Neighbour(c, 2)) || StairAt(g, Neighbour(c, 3))
  }

  /** A body cell is free: in the grid, Empty, and not beside existing stairs. */
  predicate BodyCellFits(g: DungeonGrid, c: Vec3)
    requires WellFormed(g)
  {
    Available(g, c) && !NextToStairs(g, c)
  }

  /** A headroom cell is free, or lies above the grid (open sky). */
  predicate HeadCellFits(g: DungeonGrid, c: Vec3)
    requires WellFormed(g)
  {
    IsInBounds(g, c) ==> Available(g, c) && !NextToStairs(g, c)
  }

  predicate ExitFits(g: DungeonGrid, c: Vec3)
    requires WellFormed(g)
  {
    IsInBounds(g, c) && GetCell(g, c).cellType in {Empty, Hallway, Room}
  }

  /** The i-th body cell of a stair on floor lz is free. */
  predicate BodyOkAt(g: DungeonGrid, entry: Vec3, dx: int, dy: int, lz: int, i: int)
    requires WellFormed(g)
  {
    BodyCellFits(g, StairCell(entry, dx, dy, i, lz))
  }

  /** The headroom cell h floors above the i-th body cell is free or above the grid. */
  predicate HeadOkAt(g: DungeonGrid, entry: Vec3, dx: int, dy: int, lz: int, i: int, h: int)
    requires WellFormed(g)
  {
    HeadCellFits(g, StairCell(entry, dx, dy, i, lz + h))
  }

  /** Everything a staircase from entry needs, stated over all its cells at once. */
  predicate StaircaseFits(g: DungeonGrid, entry: Vec3, dx: int, dy: int, rise: int, riseToRun: int, headroom: int)
    requires WellFormed(g)
  {
    var lz := LowerZ(entry, rise);
    && 0 <= lz && lz + 1 < g.size.z
    && (forall i :: 1 <= i <= riseToRun ==> BodyOkAt(g, entry, dx, dy, lz, i))
    && (forall i, h :: 1 <= i <= riseToRun && 1 <= h <= headroom ==> HeadOkAt(g, entry, dx, dy, lz, i, h))
    && ExitFits(g, StairExit(entry, dx, dy, rise, riseToRun))
  }

  /** Scans body cells i..riseToRun. */
  function BodyFrom(g: DungeonGrid, entry: Vec3, dx: int, dy: int, lz: int, i: int, riseToRun: int): (ok: bool)
    requires WellFormed(g)
    ensures ok <==> forall k :: i <= k <= riseToRun ==> BodyOkAt(g, entry, dx, dy, lz, k)
    decreases riseToRun - i
  {
    if i > riseToRun then true
    else BodyOkAt(g, entry, dx, dy, lz, i) && BodyFrom(g, entry, dx, dy, lz, i + 1, riseToRun)
  }

  /** Scans the headroom column above body cell i, heights h..headroom. */
  function ColumnFrom(g: DungeonGrid, entry: Vec3, dx: int, dy: int, lz: int, i: int, h: int, headroom: int): (ok: bool)
    requires WellFormed(g)
    ensures ok <==> forall k :: h <= k <= headroom ==> HeadOkAt(g, entry, dx, dy, lz, i, k)
    decreases headroom - h
  {
    if h > headroom then true
    else HeadOkAt(g, entry, dx, dy, lz, i, h) && ColumnFrom(g, entry, dx, dy, lz, i, h + 1, headroom)
  }

  /** Scans the headroom above body cells i..riseToRun. */
  function HeadroomFrom(g: DungeonGrid, entry: Vec3, dx: int, dy: int, lz: int, i: int, riseToRun: int, headroom: int): (ok: bool)
    requires WellFormed(g)
    ensures ok <==> forall k, h :: i <= k <= riseToRun && 1 <= h <= headroom ==> HeadOkAt(g, entry, dx, dy, lz, k, h)
    decreases riseToRun - i
  {
    if i > riseToRun then true
    else ColumnFrom(g, entry, dx, dy, lz, i, 1, headroom) && HeadroomFrom(g, entry, dx, dy, lz, i + 1, riseToRun, headroom)
  }

  /**
   * CanBuildStaircase: the exit cell when a staircase of riseToRun body
   * cells can go from entry in direction (dx, dy), rising (rise > 0) or
   * falling; nothing otherwise. The checks run in the source's order:
   * floor range, body cells, their neighbours, headroom, exit.
   */
  function CanBuildStaircase(g: DungeonGrid, entry: Vec3, dx: int, dy: int, rise: int, riseToRun: int, headroom: int): (exit: Option<Vec3>)
    requires WellFormed(g)
    ensures exit.Some? <==> StaircaseFits(g, entry, dx, dy, rise, riseToRun, headroom)
    ensures exit.Some? ==> exit.value == StairExit(entry, dx, dy, rise, riseToRun)
  {
    var lz := LowerZ(entry, rise);
    if lz < 0 || lz + 1 >= g.size.z then None
    else if !BodyFrom(g, entry, dx, dy, lz, 1, riseToRun) then None
    else if !HeadroomFrom(g, entry, dx, dy, lz, 1, riseToRun, headroom) then None
    else if !ExitFits(g, StairExit(entry, dx, dy, rise, riseToRun)) then None
    else Some(StairExit(entry, dx, dy, rise, riseToRun))
  }

  /** A feasible staircase leaves the floor range intact: both floors lie inside the grid. */
  lemma StaircaseFloors(g: DungeonGrid, entry: Vec3, dx: int, dy: int, rise: int, riseToRun: int, headroom: int)
    requires WellFormed(g) && StaircaseFits(g, entry, dx, dy, rise, riseToRun, headroom)
    ensures 0 <= LowerZ(entry, rise) && LowerZ(entry, rise) + 1 < g.size.z
    ensures rise > 0 ==> StairExit(entry, dx, dy, rise, riseToRun).z == entry.z + 1
    ensures rise <= 0 ==> StairExit(entry, dx, dy, rise, riseToRun).z == entry.z - 1
  {
  }

  // ------------------------------------------------------------ Moves

  /** A cell the search may enter: inside the grid and not blocked by its cost. */
  predicate Passable(g: DungeonGrid, cfg: DungeonConfiguration, src: int, dst: int, c: Vec3)
    requires WellFormed(g)
  {
    IsInBounds(g, c) && CellCost(g, c, cfg, src, dst) >= 0.0
  }

  /** A same-floor step to one of the four horizontal neighbours. */
  predicate FlatStep(g: DungeonGrid, cfg: DungeonConfiguration, src: int, dst: int, a: Vec3, b: Vec3)
    requires WellFormed(g)
  {
    Passable(g, cfg, src, dst, b)
      && (b == Neighbour(a, 0) || b == Neighbour(a, 1) || b == Neighbour(a, 2) || b == Neighbour(a, 3))
  }

  /** The staircase from a in direction d, rising or falling, with the configured shape. */
  function StairFrom(g: DungeonGrid, cfg: DungeonConfiguration, a: Vec3, d: int, rise: int): Option<Vec3>
    requires WellFormed(g) && 0 <= d < 4
  {
    CanBuildStaircase(g, a, HorizontalDirs[d].0, HorizontalDirs[d].1, rise, cfg.staircaseRiseToRun, cfg.staircaseHeadroom)
  }

  /** A staircase step: in a grid of several floors, a buildable staircase from a whose exit is b. */
  predicate StairStep(g: DungeonGrid, cfg: DungeonConfiguration, src: int, dst: int, a: Vec3, b: Vec3)
    requires WellFormed(g)
  {
    1 < g.size.z && Passable(g, cfg, src, dst, b)
      && exists d, rise :: 0 <= d < 4 && -1 <= rise <= 1 && rise != 0 && StairFrom(g, cfg, a, d, rise) == Some(b)
  }

  predicate Move(g: DungeonGrid, cfg: DungeonConfiguration, src: int, dst: int, a: Vec3, b: Vec3)
    requires WellFormed(g)
  {
    FlatStep(g, cfg, src, dst, a, b) || StairStep(g, cfg, src, dst, a, b)
  }

  function Abs(a: int): nat {
    if a < 0 then -a else a
  }

  /** A staircase step climbs or descends one floor and covers riseToRun + 1 cells along one axis. */
  lemma StairStepShape(g: DungeonGrid, cfg: DungeonConfiguration, src: int, dst: int, a: Vec3, b: Vec3)
    requires WellFormed(g) && 0 <= cfg.staircaseRiseToRun
    requires StairStep(g, cfg, src, dst, a, b)
    ensures Abs(b.z - a.z) == 1 && Abs(b.x - a.x) + Abs(b.y - a.y) == cfg.staircaseRiseToRun + 1
  {
    var d, rise :| 0 <= d < 4 && -1 <= rise <= 1 && rise != 0 && StairFrom(g, cfg, a, d, rise) == Some(b);
    var R := cfg.staircaseRiseToRun;
    var dx, dy := HorizontalDirs[d].0, HorizontalDirs[d].1;
    StaircaseFloors(g, a, dx, dy, rise, R, cfg.staircaseHeadroom);
    assert b == StairExit(a, dx, dy, rise, R);
    ExitShape(a, d, rise, R);
  }

  /** The exit of a staircase along direction d lies riseToRun + 1 cells away along that axis. */
  lemma ExitShape(a: Vec3, d: int, rise: int, riseToRun: int)
    requires 0 <= d < 4 && 0 <= riseToRun
    ensures var e := StairExit(a, HorizontalDirs[d].0, HorizontalDirs[d].1, rise, riseToRun);
      Abs(e.x - a.x) + Abs(e.y - a.y) == riseToRun + 1
  {
  }

  /**
   * The shape of every move: one cell sideways on the same floor, or one
   * floor up or down and riseToRun + 1 cells along one horizontal axis.
   */
  lemma MoveShape(g: DungeonGrid, cfg: DungeonConfiguration, src: int, dst: int, a: Vec3, b: Vec3)
    requires WellFormed(g) && 0 <= cfg.staircaseRiseToRun
    requires Move(g, cfg, src, dst, a, b)
    ensures IsInBounds(g, b)
    ensures FlatStep(g, cfg, src, dst, a, b) ==> b.z == a.z && Abs(b.x - a.x) + Abs(b.y - a.y) == 1
    ensures StairStep(g, cfg, src, dst, a, b) ==>
      Abs(b.z - a.z) == 1 && Abs(b.x - a.x) + Abs(b.y - a.y) == cfg.staircaseRiseToRun + 1
  {
    if StairStep(g, cfg, src, dst, a, b) {
      StairStepShape(g, cfg, src, dst, a, b);
    }
  }

  /** A route the search may return: from start to end, each step a move, no cell twice. */
  predicate IsPath(g: DungeonGrid, cfg: DungeonConfiguration, src: int, dst: int, start: Vec3, end: Vec3, path: seq<Vec3>)
    requires WellFormed(g)
  {
    && 0 < |path| && path[0] == start && path[|path| - 1] == end
    && (forall i :: 0 <= i < |path| - 1 ==> Move(g, cfg, src, dst, path[i], path[i + 1]))
    && Distinct(path)
  }

  // ------------------------------------------------------------ Search state

  /** The admissible estimate: horizontal distance plus riseToRun + 1 per floor. */
  function Heuristic(a: Vec3, b: Vec3, riseToRun: int): real {
    (Abs(a.x - b.x) + Abs(a.y - b.y)) as real + (Abs(a.z - b.z) as real) * ((riseToRun + 1) as real)
  }

  /** An open-set entry: a cell and its f-score. */
  datatype Node = Node(f: real, cell: Vec3)

  function FScore(n: Node): real {
    n.f
  }

  /**
   * The search's tables: the open heap, g-scores (a missing key is the
   * source's MAX_flt), parents, the closed cells in closing order, and the
   * cells claimed by staircases planned so far.
   */
  datatype Search = Search(
    open: seq<Node>,
    gScore: map<Vec3, real>,
    cameFrom: map<Vec3, Vec3>,
    closed: seq<Vec3>,
    reserved: set<Vec3>)

  /**
   * Closed-cell lookups in the invariant go through this predicate, so that
   * facts about a parent do not by themselves unfold facts about its parent.
   */
  predicate Closed(closed: seq<Vec3>, c: Vec3) {
    c in closed
  }

  /** The closing position of a cell; cells never closed (the end) rank after all of them. */
  function Rank(closed: seq<Vec3>, c: Vec3): nat {
    if c in closed then IndexOf(closed, c) else |closed|
  }

  /**
   * What the search keeps true: every open cell is the start or has a
   * parent; a parent is a closed cell one move away; every closed cell but
   * the start has a parent closed before it; the end is never closed.
   */
  ghost predicate SearchOk(g: DungeonGrid, cfg: DungeonConfiguration, src: int, dst: int, start: Vec3, end: Vec3, s: Search)
    requires WellFormed(g)
  {
    && IsInBounds(g, start) && start != end
    && s.gScore.Keys == s.cameFrom.Keys + {start}
    && start !in s.cameFrom
    && end !in s.closed
    && Distinct(s.closed)
    && (0 < |s.closed| ==> s.closed[0] == start)
    && (forall n :: n in s.open ==> n.cell == start || n.cell in s.cameFrom)
    && (forall x :: x in s.cameFrom ==> s.cameFrom[x] in s.closed && Move(g, cfg, src, dst, s.cameFrom[x], x))
    && (forall c {:trigger Closed(s.closed, c)} :: Closed(s.closed, c) ==>
          c == start || (c in s.cameFrom && Rank(s.closed, s.cameFrom[c]) < Rank(s.closed, c)))
  }

  /** Every cell of the grid. */
  function AllCells(size: Vec3): set<Vec3> {
    set x, y, z | 0 <= x < size.x && 0 <= y < size.y && 0 <= z < size.z :: Vec3(x, y, z)
  }

  lemma InAllCells(g: DungeonGrid, c: Vec3)
    requires IsInBounds(g, c)
    ensures c in AllCells(g.size)
  {
    assert c == Vec3(c.x, c.y, c.z);
  }

  /** Cells on the open list and closed cells lie inside the grid. */
  lemma SearchCellsInBounds(g: DungeonGrid, cfg: DungeonConfiguration, src: int, dst: int, start: Vec3, end: Vec3, s: Search, c: Vec3)
    requires WellFormed(g) && SearchOk(g, cfg, src, dst, start, end, s)
    requires c == start || c in s.cameFrom || c in s.closed
    ensures c in AllCells(g.size)
  {
    if c in s.closed {
      assert Closed(s.closed, c);
    }
    if c != start {
      assert Move(g, cfg, src, dst, s.cameFrom[c], c);
    }
    InAllCells(g, c);
  }

  // ------------------------------------------------------------ Relaxation

  /** A cell claimed by a planned staircase. */
  predicate ReservedAt(g: DungeonGrid, reserved: set<Vec3>, c: Vec3) {
    IsInBounds(g, c) && c in reserved
  }

  /** The cell h floors above the i-th body cell (h = 0 is the body cell itself). */
  function StairPart(entry: Vec3, dx: int, dy: int, lz: int, i: int, h: int): Vec3 {
    StairCell(entry, dx, dy, i, lz + h)
  }

  /** Some body or headroom cell of the staircase is already claimed. */
  predicate OverlapsReserved(g: DungeonGrid, reserved: set<Vec3>, entry: Vec3, dx: int, dy: int, lz: int, riseToRun: int, headroom: int) {
    exists i, h :: 1 <= i <= riseToRun && 0 <= h <= headroom && ReservedAt(g, reserved, StairPart(entry, dx, dy, lz, i, h))
  }

  /** Some body or headroom cell of the staircase has a claimed horizontal neighbour. */
  predicate AdjacentToReserved(g: DungeonGrid, reserved: set<Vec3>, entry: Vec3, dx: int, dy: int, lz: int, riseToRun: int, headroom: int) {
    exists i, h, a :: 1 <= i <= riseToRun && 0 <= h <= headroom && 0 <= a < 4
      && ReservedAt(g, reserved, Neighbour(StairPart(entry, dx, dy, lz, i, h), a))
  }

  /** The in-bounds body and headroom cells a planned staircase claims. */
  function StairClaim(g: DungeonGrid, entry: Vec3, dx: int, dy: int, lz: int, riseToRun: int, headroom: int): (claim: set<Vec3>)
    ensures forall c :: c in claim ==> IsInBounds(g, c)
  {
    set i, h | 1 <= i <= riseToRun && 0 <= h <= headroom && IsInBounds(g, StairPart(entry, dx, dy, lz, i, h))
      :: StairPart(entry, dx, dy, lz, i, h)
  }

  function Max(a: real, b: real): real {
    if a < b then b else a
  }

  /**
   * Offers b as a successor of the closed cell cur reached at g-score
   * tentative: recorded only when b has no score yet or the new one is lower.
   */
  function Relax(s: Search, cur: Vec3, b: Vec3, tentative: real, end: Vec3, riseToRun: int): (s': Search)
    ensures s'.closed == s.closed && s'.reserved == s.reserved
    ensures b !in s.gScore || tentative < s.gScore[b] ==>
      s'.cameFrom == s.cameFrom[b := cur] && s'.gScore == s.gScore[b := tentative]
      && s'.open == s.open + [Node(tentative + Heuristic(b, end, riseToRun), b)]
    ensures !(b !in s.gScore || tentative < s.gScore[b]) ==> s' == s
  {
    if b !in s.gScore || tentative < s.gScore[b] then
      s.(gScore := s.gScore[b := tentative], cameFrom := s.cameFrom[b := cur],
         open := s.open + [Node(tentative + Heuristic(b, end, riseToRun), b)])
    else s
  }

  /** Recording a move from a closed cell to a cell not yet closed keeps the search invariant. */
  lemma RelaxOk(g: DungeonGrid, cfg: DungeonConfiguration, src: int, dst: int, start: Vec3, end: Vec3,
                s: Search, cur: Vec3, b: Vec3, tentative: real, claim: set<Vec3>)
    requires WellFormed(g) && SearchOk(g, cfg, src, dst, start, end, s)
    requires cur in s.closed && b !in s.closed && Move(g, cfg, src, dst, cur, b)
    ensures SearchOk(g, cfg, src, dst, start, end,
      Relax(s, cur, b, tentative, end, cfg.staircaseRiseToRun).(reserved := s.reserved + claim))
    ensures SearchOk(g, cfg, src, dst, start, end, Relax(s, cur, b, tentative, end, cfg.staircaseRiseToRun))
  {
    var s' := Relax(s, cur, b, tentative, end, cfg.staircaseRiseToRun);
    assert start in s.closed;
    forall c | Closed(s'.closed, c)
      ensures c == start || (c in s'.cameFrom && Rank(s'.closed, s'.cameFrom[c]) < Rank(s'.closed, c))
    {
      assert c != b;
    }
  }

  /** The same-floor move from the closed cell cur in direction d, with the source's checks. */
  function ExpandFlat(g: DungeonGrid, cfg: DungeonConfiguration, src: int, dst: int, end: Vec3, s: Search, cur: Vec3, d: int): (s': Search)
    requires WellFormed(g) && 0 <= d < 4 && cur in s.gScore
  {
    var b := Neighbour(cur, d);
    if !IsInBounds(g, b) || b in s.closed || b in s.reserved then s
    else
      var cost := CellCost(g, b, cfg, src, dst);
      if cost < 0.0 then s
      else Relax(s, cur, b, s.gScore[cur] + Max(cost, 0.001), end, cfg.staircaseRiseToRun)
  }

  lemma ExpandFlatOk(g: DungeonGrid, cfg: DungeonConfiguration, src: int, dst: int, start: Vec3, end: Vec3, s: Search, cur: Vec3, d: int)
    requires WellFormed(g) && 0 <= d < 4 && SearchOk(g, cfg, src, dst, start, end, s) && cur in s.closed
    ensures cur in s.gScore
    ensures SearchOk(g, cfg, src, dst, start, end, ExpandFlat(g, cfg, src, dst, end, s, cur, d))
    ensures ExpandFlat(g, cfg, src, dst, end, s, cur, d).closed == s.closed
  {
    assert Closed(s.closed, cur);
    var b := Neighbour(cur, d);
    var s' := ExpandFlat(g, cfg, src, dst, end, s, cur, d);
    if IsInBounds(g, b) && b !in s.closed && b !in s.reserved && CellCost(g, b, cfg, src, dst) >= 0.0 {
      var tentative := s.gScore[cur] + Max(CellCost(g, b, cfg, src, dst), 0.001);
      assert s' == Relax(s, cur, b, tentative, end, cfg.staircaseRiseToRun);
      assert FlatStep(g, cfg, src, dst, cur, b);
      RelaxOk(g, cfg, src, dst, start, end, s, cur, b, tentative, {});
    } else {
      assert s' == s;
    }
  }

  /**
   * The staircase move from the closed cell cur in direction d, rising or
   * falling: it must be buildable, its exit neither closed nor claimed, its
   * cells neither claimed nor beside a claimed cell, and its exit passable.
   * A recorded staircase claims its cells.
   */
  function ExpandStair(g: DungeonGrid, cfg: DungeonConfiguration, src: int, dst: int, end: Vec3, s: Search, cur: Vec3, d: int, rise: int): (s': Search)
    requires WellFormed(g) && 0 <= d < 4 && cur in s.gScore
  {
    var R := cfg.staircaseRiseToRun;
    var H := cfg.staircaseHeadroom;
    var (dx, dy) := HorizontalDirs[d];
    var exit := StairFrom(g, cfg, cur, d, rise);
    if exit.None? then s
    else
      var b := exit.value;
      var lz := LowerZ(cur, rise);
      if b in s.closed || b in s.reserved then s
      else if OverlapsReserved(g, s.reserved, cur, dx, dy, lz, R, H) then s
      else if AdjacentToReserved(g, s.reserved, cur, dx, dy, lz, R, H) then s
      else
        var cost := CellCost(g, b, cfg, src, dst);
        if cost < 0.0 then s
        else
          var tentative := s.gScore[cur] + (R + 1) as real * 5.0 + Max(cost, 0.001);
          if b !in s.gScore || tentative < s.gScore[b] then
            Relax(s, cur, b, tentative, end, R).(reserved := s.reserved + StairClaim(g, cur, dx, dy, lz, R, H))
          else s
  }

  /** A stair move either leaves the search alone or relaxes a passable, unclosed exit and claims its cells. */
  lemma ExpandStairCases(g: DungeonGrid, cfg: DungeonConfiguration, src: int, dst: int, end: Vec3,
                         s: Search, cur: Vec3, d: int, rise: int)
    requires WellFormed(g) && 0 <= d < 4 && cur in s.gScore
    ensures var s' := ExpandStair(g, cfg, src, dst, end, s, cur, d, rise);
      s' == s || exists b, tentative, claim ::
        && StairFrom(g, cfg, cur, d, rise) == Some(b) && b !in s.closed && Passable(g, cfg, src, dst, b)
        && s' == Relax(s, cur, b, tentative, end, cfg.staircaseRiseToRun).(reserved := s.reserved + claim)
  {
    var exit := StairFrom(g, cfg, cur, d, rise);
    if exit.Some? {
      var b := exit.value;
      var (dx, dy) := HorizontalDirs[d];
      var R := cfg.staircaseRiseToRun;
      var H := cfg.staircaseHeadroom;
      var lz := LowerZ(cur, rise);
      var s' := ExpandStair(g, cfg, src, dst, end, s, cur, d, rise);
      if s' != s {
        var tentative := s.gScore[cur] + (R + 1) as real * 5.0 + Max(CellCost(g, b, cfg, src, dst), 0.001);
        assert s' == Relax(s, cur, b, tentative, end, R).(reserved := s.reserved + StairClaim(g, cur, dx, dy, lz, R, H));
      }
    }
  }

  lemma ExpandStairOk(g: DungeonGrid, cfg: DungeonConfiguration, src: int, dst: int, start: Vec3, end: Vec3,
                      s: Search, cur: Vec3, d: int, rise: int)
    requires WellFormed(g) && 1 < g.size.z && 0 <= d < 4 && (rise == 1 || rise == -1)
    requires SearchOk(g, cfg, src, dst, start, end, s) && cur in s.closed
    ensures cur in s.gScore
    ensures SearchOk(g, cfg, src, dst, start, end, ExpandStair(g, cfg, src, dst, end, s, cur, d, rise))
    ensures ExpandStair(g, cfg, src, dst, end, s, cur, d, rise).closed == s.closed
  {
    assert Closed(s.closed, cur);
    var s' := ExpandStair(g, cfg, src, dst, end, s, cur, d, rise);
    ExpandStairCases(g, cfg, src, dst, end, s, cur, d, rise);
    if s' != s {
      var b, tentative, claim :| StairFrom(g, cfg, cur, d, rise) == Some(b) && b !in s.closed
        && Passable(g, cfg, src, dst, b)
        && s' == Relax(s, cur, b, tentative, end, cfg.staircaseRiseToRun).(reserved := s.reserved + claim);
      assert StairStep(g, cfg, src, dst, cur, b);
      RelaxOk(g, cfg, src, dst, start, end, s, cur, b, tentative, claim);
    }
  }

  /** All twelve moves out of the newly closed cell cur, in the source's order. */
  method Expand(g: DungeonGrid, cfg: DungeonConfiguration, src: int, dst: int, start: Vec3, end: Vec3, s: Search, cur: Vec3)
    returns (s': Search)
    requires WellFormed(g) && SearchOk(g, cfg, src, dst, start, end, s) && cur in s.closed
    ensures SearchOk(g, cfg, src, dst, start, end, s') && s'.closed == s.closed
  {
    s' := s;
    for d := 0 to 4
      invariant SearchOk(g, cfg, src, dst, start, end, s') && s'.closed == s.closed
    {
      ExpandFlatOk(g, cfg, src, dst, start, end, s', cur, d);
      s' := ExpandFlat(g, cfg, src, dst, end, s', cur, d);
    }
    if 1 < g.size.z {
      for d := 0 to 4
        invariant SearchOk(g, cfg, src, dst, start, end, s') && s'.closed == s.closed
      {
        ExpandStairOk(g, cfg, src, dst, start, end, s', cur, d, 1);
        s' := ExpandStair(g, cfg, src, dst, end, s', cur, d, 1);
        ExpandStairOk(g, cfg, src, dst, start, end, s', cur, d, -1);
        s' := ExpandStair(g, cfg, src, dst, end, s', cur, d, -1);
      }
    }
  }

  /** Closing the popped cell cur, which is neither closed nor the end, keeps the search invariant. */
  lemma CloseOk(g: DungeonGrid, cfg: DungeonConfiguration, src: int, dst: int, start: Vec3, end: Vec3, s: Search, k: int)
    requires WellFormed(g) && SearchOk(g, cfg, src, dst, start, end, s) && 0 <= k < |s.open|
    requires s.open[k].cell != end && s.open[k].cell !in s.closed
    ensures SearchOk(g, cfg, src, dst, start, end,
      s.(open := RemoveAt(s.open, k), closed := s.closed + [s.open[k].cell]))
  {
    var cur := s.open[k].cell;
    var closed' := s.closed + [cur];
    assert s.open[k] in s.open;
    assert cur in s.cameFrom ==> s.cameFrom[cur] in s.closed;
    forall c | Closed(closed', c)
      ensures c == start || (c in s.cameFrom && Rank(closed', s.cameFrom[c]) < Rank(closed', c))
    {
      CloseRank(g, cfg, src, dst, start, end, s, cur, c);
    }
  }

  /** After closing cur, every closed cell but the start still has a parent closed before it. */
  lemma CloseRank(g: DungeonGrid, cfg: DungeonConfiguration, src: int, dst: int, start: Vec3, end: Vec3, s: Search, cur: Vec3, c: Vec3)
    requires WellFormed(g) && SearchOk(g, cfg, src, dst, start, end, s)
    requires cur !in s.closed && (cur == start || cur in s.cameFrom) && c in s.closed + [cur]
    ensures c == start || (c in s.cameFrom && Rank(s.closed + [cur], s.cameFrom[c]) < Rank(s.closed + [cur], c))
  {
    if c in s.closed {
      assert Closed(s.closed, c);
      if c != start {
        IndexOfAppend(s.closed, cur, s.cameFrom[c]);
      }
      IndexOfAppend(s.closed, cur, c);
    } else {
      IndexOfAppend(s.closed, cur, cur);
      if cur != start {
        IndexOfAppend(s.closed, cur, s.cameFrom[cur]);
      }
    }
  }

  // ------------------------------------------------------------ Path reconstruction

  /** Following a parent link goes to a cell closed strictly earlier. */
  lemma ParentRanksLower(g: DungeonGrid, cfg: DungeonConfiguration, src: int, dst: int, start: Vec3, end: Vec3, s: Search, c: Vec3)
    requires WellFormed(g) && SearchOk(g, cfg, src, dst, start, end, s)
    requires c in s.cameFrom && (c == end || c in s.closed)
    ensures Rank(s.closed, s.cameFrom[c]) < Rank(s.closed, c)
  {
    if c in s.closed {
      assert Closed(s.closed, c);
    }
  }

  /**
   * Walks the parent links back from the end. The source appends each
   * parent and reverses the list at the end; prepending each parent gives
   * the same start-to-end route directly.
   */
  method Reconstruct(g: DungeonGrid, cfg: DungeonConfiguration, src: int, dst: int, start: Vec3, end: Vec3, s: Search)
    returns (path: seq<Vec3>)
    requires WellFormed(g) && SearchOk(g, cfg, src, dst, start, end, s) && end in s.cameFrom
    ensures IsPath(g, cfg, src, dst, start, end, path)
  {
    path := [end];
    var cur := end;
    while cur != start
      invariant 0 < |path| && path[0] == cur && path[|path| - 1] == end
      invariant cur == end || cur in s.closed
      invariant cur != start ==> cur in s.cameFrom
      invariant forall i :: 0 <= i < |path| - 1 ==> Move(g, cfg, src, dst, path[i], path[i + 1])
      invariant forall i, j :: 0 <= i < j < |path| ==> Rank(s.closed, path[i]) < Rank(s.closed, path[j])
      decreases Rank(s.closed, cur)
    {
      var p := s.cameFrom[cur];
      ParentRanksLower(g, cfg, src, dst, start, end, s, cur);
      assert Closed(s.closed, p);
      path := [p] + path;
      cur := p;
    }
    RanksDistinct(s.closed, path);
  }

  /** Cells whose ranks strictly rise along a sequence are pairwise distinct. */
  lemma RanksDistinct(closed: seq<Vec3>, path: seq<Vec3>)
    requires forall i, j :: 0 <= i < j < |path| ==> Rank(closed, path[i]) < Rank(closed, path[j])
    ensures Distinct(path)
  {
    forall i, j | 0 <= i < j < |path|
      ensures path[i] != path[j]
    {
      assert Rank(closed, path[i]) < Rank(closed, path[j]);
    }
  }

  /** The search before its first pop: only the start is open, with g-score 0. */
  function InitialSearch(start: Vec3, end: Vec3, riseToRun: int): Search {
    Search([Node(Heuristic(start, end, riseToRun), start)], map[start := 0.0], map[], [], {})
  }

  lemma InitialOk(g: DungeonGrid, cfg: DungeonConfiguration, src: int, dst: int, start: Vec3, end: Vec3)
    requires WellFormed(g) && IsInBounds(g, start) && start != end
    ensures SearchOk(g, cfg, src, dst, start, end, InitialSearch(start, end, cfg.staircaseRiseToRun))
  {
  }

  /** The cells not yet closed: what each newly closed cell shrinks. */
  function Unclosed(size: Vec3, closed: seq<Vec3>): set<Vec3> {
    AllCells(size) - (set c | c in closed)
  }

  lemma ClosingShrinks(size: Vec3, closed: seq<Vec3>, c: Vec3)
    requires c in AllCells(size) && c !in closed
    ensures Unclosed(size, closed + [c]) < Unclosed(size, closed)
  {
    assert c in Unclosed(size, closed);
  }

  /**
   * FindPath: A* from start to end over same-floor moves and staircases.
   * Out-of-grid endpoints fail; equal endpoints give the one-cell route; a
   * route found runs from start to end, every step a legal move, no cell
   * visited twice. The heap's tie order is the parameter `choose`.
   */
  method FindPath(g: DungeonGrid, start: Vec3, end: Vec3, cfg: DungeonConfiguration, src: int, dst: int,
                  choose: seq<Node> -> int)
    returns (found: bool, path: seq<Vec3>)
    requires WellFormed(g)
    ensures !(IsInBounds(g, start) && IsInBounds(g, end)) ==> !found
    ensures IsInBounds(g, start) && start == end ==> found && path == [start]
    ensures found ==> IsPath(g, cfg, src, dst, start, end, path)
    ensures !found ==> path == []
  {
    if !IsInBounds(g, start) || !IsInBounds(g, end) {
      return false, [];
    }
    if start == end {
      return true, [start];
    }
    var s := InitialSearch(start, end, cfg.staircaseRiseToRun);
    InitialOk(g, cfg, src, dst, start, end);
    while 0 < |s.open|
      invariant SearchOk(g, cfg, src, dst, start, end, s)
      decreases Unclosed(g.size, s.closed), |s.open|
    {
      var k := Pop(s.open, FScore, choose);
      var cur := s.open[k].cell;
      if cur == end {
        assert s.open[k] in s.open;
        path := Reconstruct(g, cfg, src, dst, start, end, s);
        return true, path;
      }
      if cur in s.closed {
        s := s.(open := RemoveAt(s.open, k));
      } else {
        assert s.open[k] in s.open;
        SearchCellsInBounds(g, cfg, src, dst, start, end, s, cur);
        ClosingShrinks(g.size, s.closed, cur);
        CloseOk(g, cfg, src, dst, start, end, s, k);
        s := s.(open := RemoveAt(s.open, k), closed := s.closed + [cur]);
        s := Expand(g, cfg, src, dst, start, end, s, cur);
      }
    }
    return false, [];
  }
}

=== FILE: minimum_spanning_tree.dfy ===
/**
 * Prim's algorithm over the candidate edges. Weights are an abstract
 * function of the two endpoints (the source uses the Euclidean distance
 * between the vertex positions), and the binary heap is modelled as a pool
 * from which any candidate of least heap key may be popped. The source's
 * heap predicate makes the key the negated weight, so it pops the heaviest
 * candidate; the model keeps that order as `Compute` and states the
 * lightest-first order Prim's algorithm needs as `ComputeLightestFirst`.
 */
module MinimumSpanningTree {
  import opened Graphs
  import opened PriorityQueue
  import SeqUtils

  /** Both endpoints lie in [0, n). */
  predicate EdgeInRange(e: Edge, n: int) {
    0 <= e.0 < n && 0 <= e.1 < n
  }

  /** The input edges Compute keeps, in input order: the others are ignored. */
  function ValidEdges(edges: seq<Edge>, n: int): (r: seq<Edge>)
    ensures forall e :: e in r <==> e in edges && EdgeInRange(e, n)
    ensures forall k :: 0 <= k < |r| ==> EdgeInRange(r[k], n)
  {
    if |edges| == 0 then []
    else (if EdgeInRange(edges[0], n) then [edges[0]] else []) + ValidEdges(edges[1..], n)
  }

  /** The endpoint of e that is not v (v itself for a loop). */
  function OtherEnd(e: Edge, v: int): int {
    if e.0 == v then e.1 else e.0
  }

  /** One adjacency-list entry: the far vertex and the edge's weight. */
  datatype WeightedEdge = WeightedEdge(to: int, weight: real)

  /**
   * The adjacency list of v: for each edge in order, an entry for the far end
   * when v is the first endpoint, then one when v is the second.
   */
  function AdjacencyOf(valid: seq<Edge>, weight: (int, int) -> real, v: int): (adj: seq<WeightedEdge>)
    ensures forall a :: a in adj ==> Adjacent(valid, v, a.to)
    ensures forall u :: Adjacent(valid, v, u) ==> exists a :: a in adj && a.to == u
  {
    if |valid| == 0 then []
    else
      var init := valid[..|valid| - 1];
      var e := valid[|valid| - 1];
      var w := weight(e.0, e.1);
      var pre := AdjacencyOf(init, weight, v);
      var post := (if e.0 == v then [WeightedEdge(e.1, w)] else []) + (if e.1 == v then [WeightedEdge(e.0, w)] else []);
      AdjacencyStep(valid, init, e, v, pre, post);
      pre + post
  }

  lemma AdjacencyStep(valid: seq<Edge>, init: seq<Edge>, e: Edge, v: int, pre: seq<WeightedEdge>, post: seq<WeightedEdge>)
    requires valid == init + [e]
    requires forall a :: a in pre ==> Adjacent(init, v, a.to)
    requires forall u :: Adjacent(init, v, u) ==> exists a :: a in pre && a.to == u
    requires forall a :: a in post ==> Joins(e, v, a.to)
    requires Joins(e, v, e.0) ==> exists a :: a in post && a.to == e.0
    requires Joins(e, v, e.1) ==> exists a :: a in post && a.to == e.1
    ensures forall a :: a in pre + post ==> Adjacent(valid, v, a.to)
    ensures forall u :: Adjacent(valid, v, u) ==> exists a :: a in pre + post && a.to == u
  {
    forall a | a in pre + post ensures Adjacent(valid, v, a.to) {
      if a in pre {
        var i :| 0 <= i < |init| && Joins(init[i], v, a.to);
        assert valid[i] == init[i];
      } else {
        assert valid[|init|] == e;
      }
    }
    forall u | Adjacent(valid, v, u) ensures exists a :: a in pre + post && a.to == u {
      var i :| 0 <= i < |valid| && Joins(valid[i], v, u);
      if i < |init| {
        assert init[i] == valid[i];
        assert Adjacent(init, v, u);
        var a :| a in pre && a.to == u;
        assert a in pre + post;
      } else {
        assert valid[i] == e;
        var a :| a in post && a.to == u;
        assert a in pre + post;
      }
    }
  }

  /** A heap entry: the edge from a tree vertex to a candidate vertex, with its weight. */
  datatype Candidate = Candidate(weight: real, from: int, to: int)

  /** The candidates pushed for the entries of adj, leaving out those into `skip`. */
  function Pushes(adj: seq<WeightedEdge>, from: int, skip: set<int>): (ps: seq<Candidate>)
    ensures forall c :: c in ps ==> c.from == from && c.to !in skip && WeightedEdge(c.to, c.weight) in adj
    ensures forall a :: a in adj && a.to !in skip ==> Candidate(a.weight, from, a.to) in ps
  {
    if |adj| == 0 then []
    else
      var rest := Pushes(adj[1..], from, skip);
      assert forall a :: a in adj ==> a == adj[0] || a in adj[1..];
      (if adj[0].to !in skip then [Candidate(adj[0].weight, from, adj[0].to)] else []) + rest
  }

  // ------------------------------------------------------------ The tree shape

  /**
   * out grows a tree from root: order lists its vertices in the order they
   * joined (distinct, in range, starting at root), and edge i is a kept
   * input edge, stored (min, max), that joins vertex i+1 to an earlier one.
   */
  ghost predicate GrownTree(valid: seq<Edge>, n: int, root: int, out: seq<Edge>, order: seq<int>) {
    && |order| == |out| + 1 && order[0] == root
    && SeqUtils.Distinct(order)
    && (forall i :: 0 <= i < |order| ==> 0 <= order[i] < n)
    && (forall i :: 0 <= i < |out| ==> out[i].0 <= out[i].1 && Adjacent(valid, out[i].0, out[i].1))
    && (forall i :: 0 <= i < |out| ==> Joins(out[i], order[i + 1], OtherEnd(out[i], order[i + 1])))
    && (forall i :: 0 <= i < |out| ==> OtherEnd(out[i], order[i + 1]) in order[..i + 1])
  }

  lemma DistinctBound(vs: seq<int>, n: int)
    requires 0 <= n
    requires SeqUtils.Distinct(vs) && forall i :: 0 <= i < |vs| ==> 0 <= vs[i] < n
    ensures |vs| <= n
  {
    var s := set i | i in vs;
    forall x | x in s ensures x in Vertices(n) {
      var i :| 0 <= i < |vs| && vs[i] == x;
    }
    CardSubset(s, Vertices(n));
    VerticesCard(n);
    DistinctCard(vs);
  }

  lemma DistinctCard(vs: seq<int>)
    requires SeqUtils.Distinct(vs)
    ensures |set i | i in vs| == |vs|
  {
    if |vs| > 0 {
      var init := vs[..|vs| - 1];
      DistinctCard(init);
      assert (set i | i in vs) == (set i | i in init) + {vs[|vs| - 1]};
    }
  }

  lemma VerticesCard(n: int)
    ensures n <= 0 ==> |Vertices(n)| == 0
    ensures 0 <= n ==> |Vertices(n)| == n
    decreases n
  {
    if n > 0 {
      VerticesCard(n - 1);
      assert n - 1 !in Vertices(n - 1);
    }
  }

  lemma CardSubset(a: set<int>, b: set<int>)
    requires a <= b
    ensures |a| <= |b|
  {
    assert b == a + (b - a);
  }

  /** A grown tree has at most n - 1 edges. */
  lemma GrownTreeSize(valid: seq<Edge>, n: int, root: int, out: seq<Edge>, order: seq<int>)
    requires GrownTree(valid, n, root, out, order)
    ensures |out| <= n - 1
  {
    DistinctBound(order, n);
  }

  /** Every vertex of a grown tree is reachable from the root along its own edges. */
  lemma {:induction false} GrownTreeConnected(valid: seq<Edge>, n: int, root: int, out: seq<Edge>, order: seq<int>, i: int)
    requires GrownTree(valid, n, root, out, order) && 0 <= i < |order|
    ensures Reachable(out, root, order[i])
    decreases i
  {
    if i == 0 {
      WalkOfLengthZero(out, root);
    } else {
      var p := OtherEnd(out[i - 1], order[i]);
      var j :| 0 <= j < i && order[..i][j] == p;
      GrownTreeConnected(valid, n, root, out, order, j);
      assert Joins(out[i - 1], p, order[i]);
      ReachableExtend(out, root, p, order[i]);
    }
  }

  /** Each edge of a grown tree brings in a vertex no earlier edge touched, so the edges form no cycle. */
  lemma GrownTreeAcyclic(valid: seq<Edge>, n: int, root: int, out: seq<Edge>, order: seq<int>, i: int, k: int)
    requires GrownTree(valid, n, root, out, order) && 0 <= k < i < |out|
    ensures order[i + 1] != out[k].0 && order[i + 1] != out[k].1
  {
    var p := OtherEnd(out[k], order[k + 1]);
    var j :| 0 <= j < k + 1 && order[..k + 1][j] == p;
    assert order[j] == p;
    assert out[k].0 == order[k + 1] || out[k].0 == p;
    assert out[k].1 == order[k + 1] || out[k].1 == p;
  }

  /** Every vertex of a grown tree lies in the root's component of the kept edges. */
  lemma {:induction false} GrownTreeInComponent(valid: seq<Edge>, n: int, root: int, out: seq<Edge>, order: seq<int>, i: int)
    requires GrownTree(valid, n, root, out, order) && 0 <= i < |order|
    ensures Reachable(valid, root, order[i])
    decreases i
  {
    if i == 0 {
      WalkOfLengthZero(valid, root);
    } else {
      var p := OtherEnd(out[i - 1], order[i]);
      var j :| 0 <= j < i && order[..i][j] == p;
      GrownTreeInComponent(valid, n, root, out, order, j);
      var e := out[i - 1];
      var t :| 0 <= t < |valid| && Joins(valid[t], e.0, e.1);
      assert Joins(valid[t], p, order[i]);
      ReachableExtend(valid, root, p, order[i]);
    }
  }

  /** n distinct vertices of 0..n-1 are all of them. */
  lemma DistinctCovers(vs: seq<int>, n: int)
    requires SeqUtils.Distinct(vs) && |vs| == n
    requires forall i :: 0 <= i < |vs| ==> 0 <= vs[i] < n
    ensures forall v :: 0 <= v < n ==> v in vs
  {
    var s := set i | i in vs;
    forall x | x in s ensures x in Vertices(n) {
      var i :| 0 <= i < |vs| && vs[i] == x;
    }
    DistinctCard(vs);
    VerticesCard(n);
    assert Vertices(n) == s + (Vertices(n) - s);
    assert Vertices(n) - s == {};
    forall v | 0 <= v < n ensures v in vs {
      assert v in Vertices(n);
    }
  }

  // ------------------------------------------------------------ Prim's loop

  /** Every pooled candidate leaves a tree vertex along a kept edge. */
  ghost predicate PoolOk(valid: seq<Edge>, n: int, order: seq<int>, pool: seq<Candidate>) {
    forall c :: c in pool ==> c.from in order && 0 <= c.to < n && Adjacent(valid, c.from, c.to)
  }

  /** Some pooled candidate reaches u. */
  ghost predicate Offered(pool: seq<Candidate>, u: int) {
    exists c :: c in pool && c.to == u
  }

  /** Every kept edge leaving the tree is offered by the pool. */
  ghost predicate Frontier(valid: seq<Edge>, order: seq<int>, pool: seq<Candidate>) {
    forall v, u :: v in order && u !in order && Adjacent(valid, v, u) ==> Offered(pool, u)
  }

  /** The loop state: a grown tree, the membership flags, and a pool covering its frontier. */
  ghost predicate LoopState(valid: seq<Edge>, n: int, root: int, inTree: set<int>,
                            out: seq<Edge>, order: seq<int>, pool: seq<Candidate>) {
    && GrownTree(valid, n, root, out, order)
    && (forall v :: v in inTree <==> v in order)
    && PoolOk(valid, n, order, pool)
    && Frontier(valid, order, pool)
  }

  /** The kept edges and the tree vertices, each a spanning tree of the root's component. */
  ghost predicate SpanningTreeOf(valid: seq<Edge>, n: int, root: int, out: seq<Edge>, order: seq<int>) {
    && GrownTree(valid, n, root, out, order)
    && forall v :: v in order <==> 0 <= v < n && Reachable(valid, root, v)
  }

  lemma SeedState(valid: seq<Edge>, n: int, root: int, weight: (int, int) -> real)
    requires 0 <= root < n && forall k :: 0 <= k < |valid| ==> EdgeInRange(valid[k], n)
    ensures LoopState(valid, n, root, {root}, [], [root], Pushes(AdjacencyOf(valid, weight, root), root, {}))
  {
    var pool := Pushes(AdjacencyOf(valid, weight, root), root, {});
    forall c | c in pool ensures 0 <= c.to < n {
      var t :| 0 <= t < |valid| && Joins(valid[t], root, c.to);
    }
    forall v, u | v in [root] && u !in [root] && Adjacent(valid, v, u) ensures Offered(pool, u) {
      var a :| a in AdjacencyOf(valid, weight, root) && a.to == u;
      assert Candidate(a.weight, root, a.to) in pool;
    }
  }

  /** Popping a candidate whose target is already in the tree keeps the state. */
  lemma SkipStep(valid: seq<Edge>, n: int, root: int, inTree: set<int>,
                 out: seq<Edge>, order: seq<int>, pool: seq<Candidate>, k: int)
    requires LoopState(valid, n, root, inTree, out, order, pool)
    requires 0 <= k < |pool| && pool[k].to in inTree
    ensures LoopState(valid, n, root, inTree, out, order, RemoveAt(pool, k))
  {
    var rest := RemoveAt(pool, k);
    forall v, u | v in order && u !in order && Adjacent(valid, v, u) ensures Offered(rest, u) {
      var c :| c in pool && c.to == u;
      var j :| 0 <= j < |pool| && pool[j] == c;
      assert pool[j] in rest;
    }
  }

  /** Popping a candidate to a new vertex grows the tree by that edge and keeps the state. */
  lemma AddStep(valid: seq<Edge>, n: int, root: int, inTree: set<int>,
                out: seq<Edge>, order: seq<int>, pool: seq<Candidate>, k: int, weight: (int, int) -> real)
    requires LoopState(valid, n, root, inTree, out, order, pool)
    requires forall t :: 0 <= t < |valid| ==> EdgeInRange(valid[t], n)
    requires 0 <= k < |pool| && pool[k].to !in inTree
    ensures var b := pool[k];
      LoopState(valid, n, root, inTree + {b.to}, out + [Normalize(b.from, b.to)], order + [b.to],
        RemoveAt(pool, k) + Pushes(AdjacencyOf(valid, weight, b.to), b.to, inTree + {b.to}))
  {
    var b := pool[k];
    var out', order' := out + [Normalize(b.from, b.to)], order + [b.to];
    var adj := AdjacencyOf(valid, weight, b.to);
    var pushed := Pushes(adj, b.to, inTree + {b.to});
    var pool' := RemoveAt(pool, k) + pushed;
    GrowStep(valid, n, root, out, order, b);
    forall c | c in pool' ensures c.from in order' && 0 <= c.to < n && Adjacent(valid, c.from, c.to) {
      if c in pushed {
        assert WeightedEdge(c.to, c.weight) in adj;
        var t :| 0 <= t < |valid| && Joins(valid[t], b.to, c.to);
      }
    }
    forall v, u | v in order' && u !in order' && Adjacent(valid, v, u) ensures Offered(pool', u) {
      if v == b.to {
        var a :| a in adj && a.to == u;
        assert Candidate(a.weight, b.to, a.to) in pushed;
      } else {
        assert v in order;
        var c :| c in pool && c.to == u;
        var j :| 0 <= j < |pool| && pool[j] == c;
        assert j != k;
        assert pool[j] in pool';
      }
    }
  }

  lemma GrowStep(valid: seq<Edge>, n: int, root: int, out: seq<Edge>, order: seq<int>, b: Candidate)
    requires GrownTree(valid, n, root, out, order)
    requires b.from in order && b.to !in order && 0 <= b.to < n && Adjacent(valid, b.from, b.to)
    ensures GrownTree(valid, n, root, out + [Normalize(b.from, b.to)], order + [b.to])
  {
    var out', order' := out + [Normalize(b.from, b.to)], order + [b.to];
    var e := Normalize(b.from, b.to);
    var i := |out|;
    assert SeqUtils.Distinct(order') by {
      SeqUtils.DistinctSnoc(order, b.to);
    }
    assert forall j :: 0 <= j < |order'| ==> 0 <= order'[j] < n by {
      assert forall j :: 0 <= j < |order| ==> order'[j] == order[j];
    }
    assert Adjacent(valid, e.0, e.1) by {
      var t :| 0 <= t < |valid| && Joins(valid[t], b.from, b.to);
      assert Joins(valid[t], e.0, e.1);
    }
    forall j | 0 <= j < |out'|
      ensures out'[j].0 <= out'[j].1 && Adjacent(valid, out'[j].0, out'[j].1)
      ensures Joins(out'[j], order'[j + 1], OtherEnd(out'[j], order'[j + 1]))
      ensures OtherEnd(out'[j], order'[j + 1]) in order'[..j + 1]
    {
      if j < i {
        assert out'[j] == out[j] && order'[j + 1] == order[j + 1];
        assert order'[..j + 1] == order[..j + 1];
      } else {
        assert out'[j] == e && order'[j + 1] == b.to && OtherEnd(e, b.to) == b.from;
        assert order'[..j + 1] == order;
      }
    }
  }

  /** When the pool runs dry the tree is closed under adjacency, so it holds the whole component. */
  lemma ExhaustedSpans(valid: seq<Edge>, n: int, root: int, inTree: set<int>, out: seq<Edge>, order: seq<int>)
    requires LoopState(valid, n, root, inTree, out, order, [])
    ensures SpanningTreeOf(valid, n, root, out, order)
  {
    forall v | v in order ensures 0 <= v < n && Reachable(valid, root, v) {
      var i :| 0 <= i < |order| && order[i] == v;
      GrownTreeInComponent(valid, n, root, out, order, i);
    }
    var vs := set v | v in order;
    forall u, v | u in vs && Adjacent(valid, u, v) ensures v in vs {
      assert u in order && !Offered([], v);
    }
    forall v | 0 <= v < n && Reachable(valid, root, v) ensures v in order {
      var k: nat :| WalkOfLength(valid, root, v, k);
      ClosedContainsReachable(valid, vs, root, v, k);
    }
  }

  /** A tree holding all n vertices spans the root's component, which is everything. */
  lemma FullSpans(valid: seq<Edge>, n: int, root: int, out: seq<Edge>, order: seq<int>)
    requires GrownTree(valid, n, root, out, order) && |order| == n
    ensures SpanningTreeOf(valid, n, root, out, order)
  {
    DistinctCovers(order, n);
    forall v | v in order ensures 0 <= v < n && Reachable(valid, root, v) {
      var i :| 0 <= i < |order| && order[i] == v;
      GrownTreeInComponent(valid, n, root, out, order, i);
    }
  }

  // ------------------------------------------------------------ Heap order

  /**
   * The key the heap orders candidates by. The heap hands out the entry
   * least under its predicate; the source's predicate `A.Weight > B.Weight`
   * makes the heaviest candidate the least, which is the key -weight.
   * Lightest-first, the order Prim's algorithm needs, is the key weight.
   */
  function KeyOf(heaviestFirst: bool, w: real): (k: real)
    ensures heaviestFirst ==> k == -w
    ensures !heaviestFirst ==> k == w
  {
    if heaviestFirst then -w else w
  }

  /** The heap key of a candidate. */
  function HeapKey(heaviestFirst: bool, c: Candidate): real {
    KeyOf(heaviestFirst, c.weight)
  }

  /** Exactly one endpoint of f is in the tree. */
  predicate Crosses(f: Edge, tree: seq<int>) {
    (f.0 in tree) != (f.1 in tree)
  }

  /** The candidate for an edge leaving the tree: from its tree end to its other end. */
  function Crossing(f: Edge, w: real, tree: seq<int>): Candidate {
    if f.0 in tree then Candidate(w, f.0, f.1) else Candidate(w, f.1, f.0)
  }

  /** The weight the adjacency list gives kept edge t. */
  function EdgeWeight(valid: seq<Edge>, weight: (int, int) -> real, t: int): real
    requires 0 <= t < |valid|
  {
    weight(valid[t].0, valid[t].1)
  }

  /** Each pooled candidate carries the weight of a kept edge between its ends. */
  ghost predicate PoolWeighed(valid: seq<Edge>, weight: (int, int) -> real, pool: seq<Candidate>) {
    forall c :: c in pool ==>
      exists t :: 0 <= t < |valid| && Joins(valid[t], c.from, c.to) && EdgeWeight(valid, weight, t) == c.weight
  }

  /** Every kept edge leaving the tree waits in the pool as its candidate, with its weight. */
  ghost predicate CutInPool(valid: seq<Edge>, weight: (int, int) -> real, order: seq<int>, pool: seq<Candidate>) {
    forall t :: 0 <= t < |valid| && Crosses(valid[t], order) ==>
      Crossing(valid[t], EdgeWeight(valid, weight, t), order) in pool
  }

  /**
   * The greedy choice: edge i of the tree comes from a kept edge whose key
   * is no greater than that of any kept edge leaving the first i + 1 tree
   * vertices. With the key weight this is the cut rule of Prim's algorithm.
   */
  ghost predicate GreedyChoices(valid: seq<Edge>, weight: (int, int) -> real, out: seq<Edge>, order: seq<int>, heaviestFirst: bool) {
    && |order| == |out| + 1
    && forall i, t :: 0 <= i < |out| && 0 <= t < |valid| && Crosses(valid[t], order[..i + 1]) ==>
         exists s :: 0 <= s < |valid| && Joins(valid[s], out[i].0, out[i].1)
           && KeyOf(heaviestFirst, EdgeWeight(valid, weight, s)) <= KeyOf(heaviestFirst, EdgeWeight(valid, weight, t))
  }

  /** The adjacency list of v holds an entry, with its weight, for every kept edge at v. */
  lemma {:induction false} AdjacencyHas(valid: seq<Edge>, weight: (int, int) -> real, v: int, t: int)
    requires 0 <= t < |valid| && (valid[t].0 == v || valid[t].1 == v)
    ensures WeightedEdge(OtherEnd(valid[t], v), EdgeWeight(valid, weight, t)) in AdjacencyOf(valid, weight, v)
    decreases |valid|
  {
    var init := valid[..|valid| - 1];
    var e := valid[|valid| - 1];
    var w := weight(e.0, e.1);
    var post := (if e.0 == v then [WeightedEdge(e.1, w)] else []) + (if e.1 == v then [WeightedEdge(e.0, w)] else []);
    assert AdjacencyOf(valid, weight, v) == AdjacencyOf(init, weight, v) + post;
    if t < |init| {
      assert init[t] == valid[t];
      AdjacencyHas(init, weight, v, t);
    } else {
      assert WeightedEdge(OtherEnd(valid[t], v), EdgeWeight(valid, weight, t)) in post;
    }
  }

  /** Every entry of v's adjacency list comes from a kept edge at v and carries its weight. */
  lemma {:induction false} AdjacencyFrom(valid: seq<Edge>, weight: (int, int) -> real, v: int, a: WeightedEdge)
    requires a in AdjacencyOf(valid, weight, v)
    ensures exists t :: 0 <= t < |valid| && Joins(valid[t], v, a.to) && EdgeWeight(valid, weight, t) == a.weight
    decreases |valid|
  {
    var init := valid[..|valid| - 1];
    var e := valid[|valid| - 1];
    var w := weight(e.0, e.1);
    var post := (if e.0 == v then [WeightedEdge(e.1, w)] else []) + (if e.1 == v then [WeightedEdge(e.0, w)] else []);
    assert AdjacencyOf(valid, weight, v) == AdjacencyOf(init, weight, v) + post;
    if a in AdjacencyOf(init, weight, v) {
      AdjacencyFrom(init, weight, v, a);
      var t :| 0 <= t < |init| && Joins(init[t], v, a.to) && EdgeWeight(init, weight, t) == a.weight;
      assert valid[t] == init[t];
    } else {
      assert Joins(valid[|init|], v, a.to) && EdgeWeight(valid, weight, |init|) == a.weight;
    }
  }

  lemma SeedWeighed(valid: seq<Edge>, weight: (int, int) -> real, root: int)
    ensures PoolWeighed(valid, weight, Pushes(AdjacencyOf(valid, weight, root), root, {}))
    ensures CutInPool(valid, weight, [root], Pushes(AdjacencyOf(valid, weight, root), root, {}))
  {
    var adj := AdjacencyOf(valid, weight, root);
    forall c | c in Pushes(adj, root, {})
      ensures exists t :: 0 <= t < |valid| && Joins(valid[t], c.from, c.to) && EdgeWeight(valid, weight, t) == c.weight
    {
      AdjacencyFrom(valid, weight, root, WeightedEdge(c.to, c.weight));
    }
    forall t | 0 <= t < |valid| && Crosses(valid[t], [root])
      ensures Crossing(valid[t], EdgeWeight(valid, weight, t), [root]) in Pushes(adj, root, {})
    {
      AdjacencyHas(valid, weight, root, t);
    }
  }

  /** Dropping a candidate into the tree keeps every leaving edge in the pool. */
  lemma SkipWeighed(valid: seq<Edge>, weight: (int, int) -> real, order: seq<int>, pool: seq<Candidate>, k: int)
    requires PoolWeighed(valid, weight, pool) && CutInPool(valid, weight, order, pool)
    requires 0 <= k < |pool| && pool[k].to in order
    ensures PoolWeighed(valid, weight, RemoveAt(pool, k)) && CutInPool(valid, weight, order, RemoveAt(pool, k))
  {
    forall t | 0 <= t < |valid| && Crosses(valid[t], order)
      ensures Crossing(valid[t], EdgeWeight(valid, weight, t), order) in RemoveAt(pool, k)
    {
      var c := Crossing(valid[t], EdgeWeight(valid, weight, t), order);
      var j :| 0 <= j < |pool| && pool[j] == c;
      assert j != k;
    }
  }

  /** Adding candidate k's target and pushing its edges keeps both pool facts for the grown tree. */
  lemma AddWeighed(valid: seq<Edge>, weight: (int, int) -> real, order: seq<int>, pool: seq<Candidate>, k: int)
    requires PoolWeighed(valid, weight, pool) && CutInPool(valid, weight, order, pool)
    requires 0 <= k < |pool| && pool[k].to !in order
    ensures var b := pool[k];
      var pool' := RemoveAt(pool, k) + Pushes(AdjacencyOf(valid, weight, b.to), b.to, (set v | v in order) + {b.to});
      PoolWeighed(valid, weight, pool') && CutInPool(valid, weight, order + [b.to], pool')
  {
    var b := pool[k];
    var order' := order + [b.to];
    var adj := AdjacencyOf(valid, weight, b.to);
    var skip := (set v | v in order) + {b.to};
    var pushed := Pushes(adj, b.to, skip);
    var pool' := RemoveAt(pool, k) + pushed;
    forall c | c in pool'
      ensures exists t :: 0 <= t < |valid| && Joins(valid[t], c.from, c.to) && EdgeWeight(valid, weight, t) == c.weight
    {
      if c in pushed {
        AdjacencyFrom(valid, weight, b.to, WeightedEdge(c.to, c.weight));
      }
    }
    forall t | 0 <= t < |valid| && Crosses(valid[t], order')
      ensures Crossing(valid[t], EdgeWeight(valid, weight, t), order') in pool'
    {
      var f, w := valid[t], EdgeWeight(valid, weight, t);
      if f.0 == b.to || f.1 == b.to {
        var x := OtherEnd(f, b.to);
        assert x !in order' && x !in skip;
        assert Crossing(f, w, order') == Candidate(w, b.to, x);
        AdjacencyHas(valid, weight, b.to, t);
      } else {
        assert Crossing(f, w, order') == Crossing(f, w, order);
        var j :| 0 <= j < |pool| && pool[j] == Crossing(f, w, order);
        assert j != k;
        assert pool[j] in RemoveAt(pool, k);
      }
    }
  }

  /** Adding a candidate of least key extends the greedy choices by one. */
  lemma GreedyStep(valid: seq<Edge>, weight: (int, int) -> real, out: seq<Edge>, order: seq<int>,
                   pool: seq<Candidate>, k: int, heaviestFirst: bool)
    requires GreedyChoices(valid, weight, out, order, heaviestFirst)
    requires PoolWeighed(valid, weight, pool) && CutInPool(valid, weight, order, pool)
    requires IsMinimum(pool, c => HeapKey(heaviestFirst, c), k)
    ensures var b := pool[k];
      GreedyChoices(valid, weight, out + [Normalize(b.from, b.to)], order + [b.to], heaviestFirst)
  {
    var b := pool[k];
    var out', order' := out + [Normalize(b.from, b.to)], order + [b.to];
    var s :| 0 <= s < |valid| && Joins(valid[s], b.from, b.to) && EdgeWeight(valid, weight, s) == b.weight;
    forall i, t | 0 <= i < |out'| && 0 <= t < |valid| && Crosses(valid[t], order'[..i + 1])
      ensures exists s :: 0 <= s < |valid| && Joins(valid[s], out'[i].0, out'[i].1) &&
                KeyOf(heaviestFirst, EdgeWeight(valid, weight, s)) <= KeyOf(heaviestFirst, EdgeWeight(valid, weight, t))
    {
      assert order'[..i + 1] == order[..i + 1];
      if i < |out| {
        assert out'[i] == out[i];
      } else {
        assert order[..i + 1] == order;
        var c := Crossing(valid[t], EdgeWeight(valid, weight, t), order);
        var j :| 0 <= j < |pool| && pool[j] == c;
        assert HeapKey(heaviestFirst, b) <= HeapKey(heaviestFirst, pool[j]);
        assert Joins(valid[s], out'[i].0, out'[i].1);
      }
    }
  }

  // ------------------------------------------------------------ Prim's loop, run

  /** Everything Prim's loop keeps: the tree state, the weighed pool and the greedy history. */
  ghost predicate PrimState(valid: seq<Edge>, n: int, root: int, weight: (int, int) -> real, heaviestFirst: bool,
                            inTree: set<int>, out: seq<Edge>, order: seq<int>, pool: seq<Candidate>) {
    && LoopState(valid, n, root, inTree, out, order, pool)
    && PoolWeighed(valid, weight, pool) && CutInPool(valid, weight, order, pool)
    && GreedyChoices(valid, weight, out, order, heaviestFirst)
  }

  /** The membership flags are the set of the tree's vertices. */
  lemma FlagsAreOrder(inTree: set<int>, order: seq<int>)
    requires forall v :: v in inTree <==> v in order
    ensures inTree == set v | v in order
  {
    var vs := set v | v in order;
    assert forall v :: v in inTree <==> v in vs;
  }

  /** Dropping a popped candidate whose target is already in the tree keeps Prim's state. */
  lemma SkipPrim(valid: seq<Edge>, n: int, root: int, weight: (int, int) -> real, heaviestFirst: bool,
                 inTree: set<int>, out: seq<Edge>, order: seq<int>, pool: seq<Candidate>, k: int)
    requires PrimState(valid, n, root, weight, heaviestFirst, inTree, out, order, pool)
    requires 0 <= k < |pool| && pool[k].to in inTree
    ensures PrimState(valid, n, root, weight, heaviestFirst, inTree, out, order, RemoveAt(pool, k))
  {
    SkipStep(valid, n, root, inTree, out, order, pool, k);
    SkipWeighed(valid, weight, order, pool, k);
  }

  /** Adding the target of a popped candidate of least key keeps Prim's state for the grown tree. */
  lemma AddPrim(valid: seq<Edge>, n: int, root: int, weight: (int, int) -> real, heaviestFirst: bool,
                inTree: set<int>, out: seq<Edge>, order: seq<int>, pool: seq<Candidate>, k: int)
    requires forall t :: 0 <= t < |valid| ==> EdgeInRange(valid[t], n)
    requires PrimState(valid, n, root, weight, heaviestFirst, inTree, out, order, pool)
    requires IsMinimum(pool, c => HeapKey(heaviestFirst, c), k) && pool[k].to !in inTree
    ensures var b := pool[k];
      PrimState(valid, n, root, weight, heaviestFirst, inTree + {b.to}, out + [Normalize(b.from, b.to)], order + [b.to],
        RemoveAt(pool, k) + Pushes(AdjacencyOf(valid, weight, b.to), b.to, inTree + {b.to}))
    ensures |order| + 1 <= n
  {
    var b := pool[k];
    var inTree', out', order' := inTree + {b.to}, out + [Normalize(b.from, b.to)], order + [b.to];
    var pool' := RemoveAt(pool, k) + Pushes(AdjacencyOf(valid, weight, b.to), b.to, inTree');
    assert LoopState(valid, n, root, inTree', out', order', pool') by {
      AddStep(valid, n, root, inTree, out, order, pool, k, weight);
    }
    assert PoolWeighed(valid, weight, pool') && CutInPool(valid, weight, order', pool') by {
      FlagsAreOrder(inTree, order);
      AddWeighed(valid, weight, order, pool, k);
    }
    assert GreedyChoices(valid, weight, out', order', heaviestFirst) by {
      GreedyStep(valid, weight, out, order, pool, k, heaviestFirst);
    }
    assert |order| + 1 <= n by {
      GrownTreeSize(valid, n, root, out', order');
    }
  }

  /** One pop: a candidate into the tree is dropped, any other grows the tree by its edge. */
  method PopStep(valid: seq<Edge>, n: int, root: int, weight: (int, int) -> real, choose: seq<Candidate> -> int,
                 heaviestFirst: bool, inTree: set<int>, out: seq<Edge>, order: seq<int>, pool: seq<Candidate>)
    returns (inTree': set<int>, out': seq<Edge>, order': seq<int>, pool': seq<Candidate>)
    requires forall t :: 0 <= t < |valid| ==> EdgeInRange(valid[t], n)
    requires PrimState(valid, n, root, weight, heaviestFirst, inTree, out, order, pool)
    requires 0 < |pool|
    ensures PrimState(valid, n, root, weight, heaviestFirst, inTree', out', order', pool')
    ensures |order'| <= n
    ensures |order| < |order'| || (order' == order && |pool'| < |pool|)
  {
    var k := Pop(pool, c => HeapKey(heaviestFirst, c), choose);
    var best := pool[k];
    if best.to in inTree {
      SkipPrim(valid, n, root, weight, heaviestFirst, inTree, out, order, pool, k);
      GrownTreeSize(valid, n, root, out, order);
      return inTree, out, order, RemoveAt(pool, k);
    }
    AddPrim(valid, n, root, weight, heaviestFirst, inTree, out, order, pool, k);
    inTree' := inTree + {best.to};
    out' := out + [Normalize(best.from, best.to)];
    order' := order + [best.to];
    pool' := RemoveAt(pool, k) + Pushes(AdjacencyOf(valid, weight, best.to), best.to, inTree');
  }

  /**
   * Prim's algorithm from root, popping by the given heap order. With fewer
   * than two vertices or no edges the result is empty; otherwise the edges
   * returned, each stored (min, max), form a spanning tree of the root's
   * component over the in-range edges, `order` lists that component's
   * vertices in the order they joined, and each edge was the greedy choice
   * across the cut of the vertices before it.
   */
  method Prim(n: int, edges: seq<Edge>, weight: (int, int) -> real, root: int, choose: seq<Candidate> -> int,
              heaviestFirst: bool)
    returns (out: seq<Edge>, order: seq<int>)
    requires 1 < n && 0 < |edges| ==> 0 <= root < n
    ensures n <= 1 || |edges| == 0 ==> out == [] && order == []
    ensures 1 < n && 0 < |edges| ==> SpanningTreeOf(ValidEdges(edges, n), n, root, out, order)
    ensures 1 < n && 0 < |edges| ==> GreedyChoices(ValidEdges(edges, n), weight, out, order, heaviestFirst)
  {
    if n <= 1 || |edges| == 0 {
      return [], [];
    }
    var valid := ValidEdges(edges, n);
    var inTree := {root};
    out, order := [], [root];
    var pool := Pushes(AdjacencyOf(valid, weight, root), root, {});
    SeedState(valid, n, root, weight);
    SeedWeighed(valid, weight, root);
    while 0 < |pool| && |order| < n
      invariant PrimState(valid, n, root, weight, heaviestFirst, inTree, out, order, pool)
      invariant |order| <= n
      decreases n - |order|, |pool|
    {
      inTree, out, order, pool := PopStep(valid, n, root, weight, choose, heaviestFirst, inTree, out, order, pool);
    }
    if |pool| == 0 {
      ExhaustedSpans(valid, n, root, inTree, out, order);
    } else {
      FullSpans(valid, n, root, out, order);
    }
  }

  /**
   * Prim's loop as the source writes it: every push and pop uses the
   * predicate `A.Weight > B.Weight`, so the heap hands out the HEAVIEST
   * candidate first. The result is still a spanning tree of the root's
   * component, but each edge is the heaviest one leaving the tree so far.
   */
  method Compute(n: int, edges: seq<Edge>, weight: (int, int) -> real, root: int, choose: seq<Candidate> -> int)
    returns (out: seq<Edge>, order: seq<int>)
    requires 1 < n && 0 < |edges| ==> 0 <= root < n
    ensures n <= 1 || |edges| == 0 ==> out == [] && order == []
    ensures 1 < n && 0 < |edges| ==> SpanningTreeOf(ValidEdges(edges, n), n, root, out, order)
    ensures 1 < n && 0 < |edges| ==> GreedyChoices(ValidEdges(edges, n), weight, out, order, true)
  {
    out, order := Prim(n, edges, weight, root, choose, true);
  }

  /**
   * Prim's loop with the heap order the source's comments intend, a
   * min-heap on weight: each edge is the lightest one leaving the tree so
   * far, the cut rule of a minimum spanning tree.
   */
  method ComputeLightestFirst(n: int, edges: seq<Edge>, weight: (int, int) -> real, root: int, choose: seq<Candidate> -> int)
    returns (out: seq<Edge>, order: seq<int>)
    requires 1 < n && 0 < |edges| ==> 0 <= root < n
    ensures n <= 1 || |edges| == 0 ==> out == [] && order == []
    ensures 1 < n && 0 < |edges| ==> SpanningTreeOf(ValidEdges(edges, n), n, root, out, order)
    ensures 1 < n && 0 < |edges| ==> GreedyChoices(ValidEdges(edges, n), weight, out, order, false)
  {
    out, order := Prim(n, edges, weight, root, choose, false);
  }

  /** When every vertex is reachable from the root, the tree has exactly n - 1 edges. */
  lemma ConnectedTreeSize(valid: seq<Edge>, n: int, root: int, out: seq<Edge>, order: seq<int>)
    requires SpanningTreeOf(valid, n, root, out, order)
    requires forall v :: 0 <= v < n ==> Reachable(valid, root, v)
    ensures |out| == n - 1
  {
    GrownTreeSize(valid, n, root, out, order);
    var vs := set v | v in order;
    assert Vertices(n) <= vs;
    CardSubset(Vertices(n), vs);
    VerticesCard(n);
    DistinctCard(order);
  }

  // ------------------------------------------------------------ The heap order, on an example

  /** Three vertices joined pairwise. */
  function ExampleEdges(): seq<Edge> {
    [(0, 1), (0, 2), (1, 2)]
  }

  /** Weight 1 on (0, 1), 2 on (0, 2) and 3 on (1, 2). */
  function ExampleWeight(a: int, b: int): real {
    var e := Normalize(a, b);
    if e == (0, 1) then 1.0 else if e == (0, 2) then 2.0 else 3.0
  }

  lemma ExampleConnected()
    ensures ValidEdges(ExampleEdges(), 3) == ExampleEdges()
    ensures forall v :: 0 <= v < 3 ==> Reachable(ExampleEdges(), 0, v)
  {
    ExampleValid();
    ExampleReachable();
  }

  /** Every example edge joins two of the three vertices. */
  lemma ExampleValid()
    ensures ValidEdges(ExampleEdges(), 3) == ExampleEdges()
  {
    var es := ExampleEdges();
    assert ValidEdges(es[2..], 3) == es[2..];
    assert ValidEdges(es[1..], 3) == es[1..];
  }

  /** Vertex 0 reaches the other two example vertices by one edge each. */
  lemma ExampleReachable()
    ensures forall v :: 0 <= v < 3 ==> Reachable(ExampleEdges(), 0, v)
  {
    var es := ExampleEdges();
    WalkOfLengthZero(es, 0);
    assert Joins(es[0], 0, 1);
    ReachableExtend(es, 0, 0, 1);
    assert Joins(es[1], 0, 2);
    ReachableExtend(es, 0, 0, 2);
  }

  /** The kept edge behind the greedy choice of tree edge i against leaving edge t. */
  lemma ChoiceAt(valid: seq<Edge>, weight: (int, int) -> real, out: seq<Edge>, order: seq<int>, heaviestFirst: bool, i: int, t: int)
    returns (s: int)
    requires GreedyChoices(valid, weight, out, order, heaviestFirst)
    requires 0 <= i < |out| && 0 <= t < |valid| && Crosses(valid[t], order[..i + 1])
    ensures 0 <= s < |valid| && Joins(valid[s], out[i].0, out[i].1)
    ensures KeyOf(heaviestFirst, EdgeWeight(valid, weight, s)) <= KeyOf(heaviestFirst, EdgeWeight(valid, weight, t))
  {
    s :| 0 <= s < |valid| && Joins(valid[s], out[i].0, out[i].1)
      && KeyOf(heaviestFirst, EdgeWeight(valid, weight, s)) <= KeyOf(heaviestFirst, EdgeWeight(valid, weight, t));
  }

  /** Edge s of the example weighs s + 1. */
  lemma ExampleWeights()
    ensures forall s :: 0 <= s < 3 ==> EdgeWeight(ExampleEdges(), ExampleWeight, s) == (s + 1) as real
  {
    forall s | 0 <= s < 3 ensures EdgeWeight(ExampleEdges(), ExampleWeight, s) == (s + 1) as real {
      if s == 0 {
      } else if s == 1 {
      } else {
      }
    }
  }

  /** On the example, key order is index order: reversed when heaviest first. */
  lemma ExampleKeyOrder(s: int, t: int, heaviestFirst: bool)
    requires 0 <= s < 3 && 0 <= t < 3
    requires KeyOf(heaviestFirst, EdgeWeight(ExampleEdges(), ExampleWeight, s)) <= KeyOf(heaviestFirst, EdgeWeight(ExampleEdges(), ExampleWeight, t))
    ensures heaviestFirst ==> t <= s
    ensures !heaviestFirst ==> s <= t
  {
    ExampleWeights();
  }

  /** The only example edge among the first two that reaches vertex 2 is (0, 2). */
  lemma ExampleEdgeAtTwo(e: Edge, s: int)
    requires 0 <= s <= 1 && Joins(ExampleEdges()[s], e.0, e.1)
    requires (e.0 == 2 || e.1 == 2) && e.0 <= e.1
    ensures e == (0, 2)
  {
  }

  /** A spanning tree of the example from vertex 0 has two edges, the first leaving vertex 0. */
  lemma ExampleTreeShape(out: seq<Edge>, order: seq<int>)
    requires SpanningTreeOf(ExampleEdges(), 3, 0, out, order)
    ensures |out| == 2 && |order| == 3 && order[0] == 0
    ensures order[1] in {1, 2} && out[0] == (0, order[1])
    ensures order[2] in {1, 2} && order[2] != order[1] && Joins(out[1], order[2], OtherEnd(out[1], order[2]))
    ensures out[1].0 <= out[1].1 && OtherEnd(out[1], order[2]) in order[..2]
  {
    ExampleConnected();
    ConnectedTreeSize(ExampleEdges(), 3, 0, out, order);
    assert order[..1] == [0];
    assert order[0] != order[1] && order[1] != order[2] && order[0] != order[2];
  }

  /**
   * The heap order as written, on the example: every spanning tree from
   * vertex 0 whose edges are each the heaviest leaving the tree so far is
   * (0, 2), (1, 2), of weight 5, where the minimum spanning tree weighs 3.
   */
  lemma HeaviestFirstPicks(out: seq<Edge>, order: seq<int>)
    requires SpanningTreeOf(ExampleEdges(), 3, 0, out, order)
    requires GreedyChoices(ExampleEdges(), ExampleWeight, out, order, true)
    ensures out == [(0, 2), (1, 2)]
  {
    ExampleTreeShape(out, order);
    HeaviestFirstOpening(out, order);
    HeaviestFirstSecond(out, order);
    assert out == [out[0], out[1]];
  }

  /** The first heaviest-first pick on the example is (0, 2), so vertex 2 joins first. */
  lemma HeaviestFirstOpening(out: seq<Edge>, order: seq<int>)
    requires GreedyChoices(ExampleEdges(), ExampleWeight, out, order, true)
    requires |out| == 2 && |order| == 3 && order[0] == 0
    requires order[1] in {1, 2} && out[0] == (0, order[1])
    ensures out[0] == (0, 2) && order[..2] == [0, 2]
  {
    var es := ExampleEdges();
    assert order[..1] == [0] && Crosses(es[1], order[..1]);
    var s := ChoiceAt(es, ExampleWeight, out, order, true, 0, 1);
    ExampleKeyOrder(s, 1, true);
  }

  /** After the opening (0, 2), the heaviest edge leaving {0, 2} is (1, 2). */
  lemma HeaviestFirstSecond(out: seq<Edge>, order: seq<int>)
    requires GreedyChoices(ExampleEdges(), ExampleWeight, out, order, true)
    requires |out| == 2 && order[..2] == [0, 2]
    requires Joins(out[1], order[2], OtherEnd(out[1], order[2])) && order[2] == 1
    requires out[1].0 <= out[1].1 && OtherEnd(out[1], order[2]) in order[..2]
    ensures out[1] == (1, 2)
  {
    var es := ExampleEdges();
    assert Crosses(es[2], order[..2]);
    var s := ChoiceAt(es, ExampleWeight, out, order, true, 1, 2);
    ExampleKeyOrder(s, 2, true);
  }

  /**
   * The lightest-first order on the example: every spanning tree from
   * vertex 0 whose edges are each the lightest leaving the tree so far is
   * (0, 1), (0, 2), the minimum spanning tree, of weight 3.
   */
  lemma LightestFirstPicks(out: seq<Edge>, order: seq<int>)
    requires SpanningTreeOf(ExampleEdges(), 3, 0, out, order)
    requires GreedyChoices(ExampleEdges(), ExampleWeight, out, order, false)
    ensures out == [(0, 1), (0, 2)]
  {
    LightestFirstOpening(out, order);
    LightestFirstSecond(out, order);
    assert out == [out[0], out[1]];
  }

  /** After the opening (0, 1), the lightest edge leaving {0, 1} is (0, 2). */
  lemma LightestFirstSecond(out: seq<Edge>, order: seq<int>)
    requires GreedyChoices(ExampleEdges(), ExampleWeight, out, order, false)
    requires |out| == 2 && order[..2] == [0, 1]
    requires (out[1].0 == 2 || out[1].1 == 2) && out[1].0 <= out[1].1
    ensures out[1] == (0, 2)
  {
    var es := ExampleEdges();
    assert Crosses(es[1], order[..2]);
    var s := ChoiceAt(es, ExampleWeight, out, order, false, 1, 1);
    ExampleKeyOrder(s, 1, false);
    ExampleEdgeAtTwo(out[1], s);
  }

  /** The first lightest-first pick on the example is (0, 1), so vertex 2 joins second. */
  lemma LightestFirstOpening(out: seq<Edge>, order: seq<int>)
    requires SpanningTreeOf(ExampleEdges(), 3, 0, out, order)
    requires GreedyChoices(ExampleEdges(), ExampleWeight, out, order, false)
    ensures |out| == 2 && out[0] == (0, 1) && order[..2] == [0, 1]
    ensures (out[1].0 == 2 || out[1].1 == 2) && out[1].0 <= out[1].1
  {
    ExampleTreeShape(out, order);
    var es := ExampleEdges();
    assert order[..1] == [0] && Crosses(es[0], order[..1]);
    var s := ChoiceAt(es, ExampleWeight, out, order, false, 0, 0);
    ExampleKeyOrder(s, 0, false);
    ExampleOpening(out, order);
  }

  /** A first edge (0, order[1]) that is the example's edge (0, 1) leaves vertex 2 for the second edge. */
  lemma ExampleOpening(out: seq<Edge>, order: seq<int>)
    requires |out| == 2 && |order| == 3 && order[0] == 0
    requires order[1] in {1, 2} && out[0] == (0, order[1])
    requires order[2] in {1, 2} && order[2] != order[1] && Joins(out[1], order[2], OtherEnd(out[1], order[2]))
    requires out[1].0 <= out[1].1
    requires Joins(ExampleEdges()[0], out[0].0, out[0].1)
    ensures out[0] == (0, 1) && order[..2] == [0, 1]
    ensures (out[1].0 == 2 || out[1].1 == 2) && out[1].0 <= out[1].1
  {
  }

  /** The source's loop on the example returns the heaviest tree, (0, 2), (1, 2). */
  method HeaviestFirstExample(choose: seq<Candidate> -> int) returns (out: seq<Edge>, order: seq<int>)
    ensures out == [(0, 2), (1, 2)]
  {
    out, order := Compute(3, ExampleEdges(), ExampleWeight, 0, choose);
    ExampleConnected();
    HeaviestFirstPicks(out, order);
  }

  /** The lightest-first loop on the example returns the minimum spanning tree, (0, 1), (0, 2). */
  method LightestFirstExample(choose: seq<Candidate> -> int) returns (out: seq<Edge>, order: seq<int>)
    ensures out == [(0, 1), (0, 2)]
  {
    out, order := ComputeLightestFirst(3, ExampleEdges(), ExampleWeight, 0, choose);
    ExampleConnected();
    LightestFirstPicks(out, order);
  }
}

=== FILE: priority_queue.dfy ===
/**
 * The binary heap both Prim's algorithm and the hallway search pop from,
 * modelled as a pool of entries with a key each. The heap hands out an
 * entry that is least under its predicate, so the key is whatever the
 * predicate orders by: the f-score for the hallway search, the negated
 * weight for the tree's `A.Weight > B.Weight`. A pop returns an entry of
 * least key; which one among equals is a tie-breaking choice that stays a
 * parameter, so every property holds whatever order the heap uses.
 */
module PriorityQueue {
  /** Position k holds an entry of least key. */
  predicate IsMinimum<T>(pool: seq<T>, key: T -> real, k: int) {
    0 <= k < |pool| && forall j :: 0 <= j < |pool| ==> key(pool[k]) <= key(pool[j])
  }

  /** The first entry of least key. */
  function FirstMinimum<T>(pool: seq<T>, key: T -> real): (k: int)
    requires 0 < |pool|
    ensures IsMinimum(pool, key, k)
    ensures forall j :: 0 <= j < k ==> key(pool[k]) < key(pool[j])
  {
    if |pool| == 1 then 0
    else
      var k := FirstMinimum(pool[1..], key);
      assert forall j :: 1 <= j < |pool| ==> pool[j] == pool[1..][j - 1];
      if key(pool[0]) <= key(pool[1..][k]) then 0 else k + 1
  }

  /**
   * The heap's pop: the entry the tie-breaking choice names when it is a
   * minimum, and otherwise the first minimum. Any order in which a binary
   * heap may hand out equal keys is one such choice.
   */
  function Pop<T>(pool: seq<T>, key: T -> real, choose: seq<T> -> int): (k: int)
    requires 0 < |pool|
    ensures IsMinimum(pool, key, k)
    ensures IsMinimum(pool, key, choose(pool)) ==> k == choose(pool)
  {
    var c := choose(pool);
    if IsMinimum(pool, key, c) then c else FirstMinimum(pool, key)
  }

  /** The pool with the popped entry taken out. */
  function RemoveAt<T>(pool: seq<T>, k: int): (r: seq<T>)
    requires 0 <= k < |pool|
    ensures |r| == |pool| - 1
    ensures forall c :: c in r ==> c in pool
    ensures forall j :: 0 <= j < |pool| && j != k ==> pool[j] in r
  {
    assert forall j :: k < j < |pool| ==> pool[j] == pool[k + 1..][j - k - 1];
    pool[..k] + pool[k + 1..]
  }
}

=== FILE: room_placement.dfy ===
/**
 * Random room placement: each requested room gets a bounded number of
 * attempts at a random size and position; a candidate is kept when its box,
 * widened by the buffer on X and Y, meets no room placed before it.
 */
module RoomPlacement {
  import opened Wrappers
  import opened Arith
  import opened DungeonTypes
  import opened DungeonConfig
  import opened DungeonSeed
  import opened DungeonValidator

  // ------------------------------------------------------------ Overlap test

  /** The per-room test of DoesRoomOverlap, axis by axis as the placer writes it. */
  predicate CandidateMeets(p: Vec3, s: Vec3, other: DungeonRoom, buffer: int) {
    && p.x < other.position.x + other.size.x + buffer && p.x + s.x + buffer > other.position.x
    && p.y < other.position.y + other.size.y + buffer && p.y + s.y + buffer > other.position.y
    && p.z < other.position.z + other.size.z && p.z + s.z > other.position.z
  }

  /** A box with the given origin and extent, as the validator sees rooms. */
  function BoxOf(p: Vec3, s: Vec3): DungeonRoom {
    DefaultRoom.(position := p, size := s)
  }

  /**
   * DoesRoomOverlap: some existing room fails the validator's buffer test
   * against the candidate box.
   */
  function DoesRoomOverlap(p: Vec3, s: Vec3, existing: seq<DungeonRoom>, buffer: int): (r: bool)
    ensures r <==> exists k :: 0 <= k < |existing| && BufferedOverlap(existing[k], BoxOf(p, s), buffer)
  {
    if |existing| == 0 then false
    else
      var rest := DoesRoomOverlap(p, s, existing[1..], buffer);
      assert forall k :: 1 <= k < |existing| ==> existing[k] == existing[1..][k - 1];
      CandidateMeets(p, s, existing[0], buffer) || rest
  }

  /** With a non-negative buffer, the buffered test catches every real overlap. */
  lemma OverlapImpliesBuffered(a: DungeonRoom, b: DungeonRoom, buffer: int)
    requires 0 <= buffer
    ensures BoxesOverlap(a, b) ==> BufferedOverlap(a, b, buffer)
  {}

  /** The buffered test does not depend on which room comes first. */
  lemma BufferedOverlapSymmetric(a: DungeonRoom, b: DungeonRoom, buffer: int)
    ensures BufferedOverlap(a, b, buffer) <==> BufferedOverlap(b, a, buffer)
  {}

  // ------------------------------------------------------------ Stamping

  predicate InRoomBox(room: DungeonRoom, c: Vec3) {
    && room.position.x <= c.x < room.position.x + room.size.x
    && room.position.y <= c.y < room.position.y + room.size.y
    && room.position.z <= c.z < room.position.z + room.size.z
  }

  /** The cell a room writes: Room type, the room's index, and the Z layer truncated to a byte. */
  function RoomCell(old_: DungeonCell, room: DungeonRoom, c: Vec3): DungeonCell {
    old_.(cellType := Room, roomIndex := room.roomIndex, floorIndex := ToByte(c.z))
  }

  /**
   * StampRoomToGrid: every in-bounds cell of the room's box becomes a Room
   * cell of that room on its own floor; every other cell is left alone.
   */
  function StampRoomToGrid(g: DungeonGrid, room: DungeonRoom): (g': DungeonGrid)
    requires WellFormed(g)
    ensures WellFormed(g') && g'.size == g.size
    ensures forall c :: IsInBounds(g, c) && InRoomBox(room, c) ==>
      && GetCell(g', c).cellType == Room
      && GetCell(g', c).roomIndex == room.roomIndex
      && GetCell(g', c).floorIndex == ToByte(c.z)
      && GetCell(g', c).hallwayIndex == GetCell(g, c).hallwayIndex
      && GetCell(g', c).materialHint == GetCell(g, c).materialHint
      && GetCell(g', c).flags == GetCell(g, c).flags
    ensures forall c :: IsInBounds(g, c) && !InRoomBox(room, c) ==> GetCell(g', c) == GetCell(g, c)
  {
    MapGrid(g, (c, cell) => if InRoomBox(room, c) then RoomCell(cell, room, c) else cell)
  }

  /** Stamping the same room twice changes nothing the first stamp did not. */
  lemma StampIdempotent(g: DungeonGrid, room: DungeonRoom)
    requires WellFormed(g)
    ensures StampRoomToGrid(StampRoomToGrid(g, room), room) == StampRoomToGrid(g, room)
  {
    var once := StampRoomToGrid(g, room);
    var twice := StampRoomToGrid(once, room);
    forall c | IsInBounds(once, c)
      ensures GetCell(twice, c) == GetCell(once, c)
    {
      if InRoomBox(room, c) {
        assert GetCell(once, c) == RoomCell(GetCell(g, c), room, c);
      }
    }
    GridExtensionality(twice, once);
  }

  /** Stamps the rooms in list order. */
  function StampAll(g: DungeonGrid, rooms: seq<DungeonRoom>): (g': DungeonGrid)
    requires WellFormed(g)
    ensures WellFormed(g') && g'.size == g.size
    decreases |rooms|
  {
    if |rooms| == 0 then g
    else StampRoomToGrid(StampAll(g, rooms[..|rooms| - 1]), rooms[|rooms| - 1])
  }

  /**
   * After stamping pairwise-disjoint rooms, a cell inside room k's box holds
   * room k's index, and a cell outside every box is untouched.
   */
  lemma {:induction false} StampAllCell(g: DungeonGrid, rooms: seq<DungeonRoom>, c: Vec3)
    requires WellFormed(g) && IsInBounds(g, c)
    requires NoOverlap(rooms)
    ensures forall k :: 0 <= k < |rooms| && InRoomBox(rooms[k], c) ==>
      && GetCell(StampAll(g, rooms), c).cellType == Room
      && GetCell(StampAll(g, rooms), c).roomIndex == rooms[k].roomIndex
      && GetCell(StampAll(g, rooms), c).floorIndex == ToByte(c.z)
    ensures (forall k :: 0 <= k < |rooms| ==> !InRoomBox(rooms[k], c)) ==>
      GetCell(StampAll(g, rooms), c) == GetCell(g, c)
    decreases |rooms|
  {
    if |rooms| > 0 {
      var n := |rooms| - 1;
      var prefix := rooms[..n];
      assert NoOverlap(prefix) by {
        forall i, j | 0 <= i < j < |prefix| ensures !BoxesOverlap(prefix[i], prefix[j]) {
          assert prefix[i] == rooms[i] && prefix[j] == rooms[j];
        }
      }
      StampAllCell(g, prefix, c);
      forall k | 0 <= k < n
        ensures !(InRoomBox(prefix[k], c) && InRoomBox(rooms[n], c))
      {
        assert prefix[k] == rooms[k];
        SharedCellOverlaps(rooms[k], rooms[n], c);
      }
      assert rooms == prefix + [rooms[n]];
      StampCellStep(g, StampAll(g, prefix), prefix, rooms[n], c);
    }
  }

  /** One more stamp, for a room that shares cell c with none of the earlier ones. */
  lemma StampCellStep(g: DungeonGrid, before: DungeonGrid, prefix: seq<DungeonRoom>, room: DungeonRoom, c: Vec3)
    requires WellFormed(g) && WellFormed(before) && before.size == g.size && IsInBounds(g, c)
    requires forall k :: 0 <= k < |prefix| && InRoomBox(prefix[k], c) ==>
      && GetCell(before, c).cellType == Room
      && GetCell(before, c).roomIndex == prefix[k].roomIndex
      && GetCell(before, c).floorIndex == ToByte(c.z)
    requires (forall k :: 0 <= k < |prefix| ==> !InRoomBox(prefix[k], c)) ==> GetCell(before, c) == GetCell(g, c)
    requires forall k :: 0 <= k < |prefix| ==> !(InRoomBox(prefix[k], c) && InRoomBox(room, c))
    ensures var rooms := prefix + [room];
      && (forall k :: 0 <= k < |rooms| && InRoomBox(rooms[k], c) ==>
            && GetCell(StampRoomToGrid(before, room), c).cellType == Room
            && GetCell(StampRoomToGrid(before, room), c).roomIndex == rooms[k].roomIndex
            && GetCell(StampRoomToGrid(before, room), c).floorIndex == ToByte(c.z))
      && ((forall k :: 0 <= k < |rooms| ==> !InRoomBox(rooms[k], c)) ==>
            GetCell(StampRoomToGrid(before, room), c) == GetCell(g, c))
  {
    var rooms := prefix + [room];
    assert rooms[|prefix|] == room;
    forall k | 0 <= k < |prefix|
      ensures rooms[k] == prefix[k]
    {}
  }

  /** Two boxes that both contain a cell overlap. */
  lemma SharedCellOverlaps(a: DungeonRoom, b: DungeonRoom, c: Vec3)
    ensures InRoomBox(a, c) && InRoomBox(b, c) ==> BoxesOverlap(a, b)
  {
  }

  // ------------------------------------------------------------ Candidates

  /** The size the placer draws on one axis: the configured range, or its minimum when empty. */
  predicate SizeInRange(lo: int, hi: int, v: int) {
    if lo <= hi then lo <= v <= hi else v == lo
  }

  predicate SizeDrawable(cfg: DungeonConfiguration, s: Vec3) {
    && SizeInRange(cfg.minRoomSize.x, cfg.maxRoomSize.x, s.x)
    && SizeInRange(cfg.minRoomSize.y, cfg.maxRoomSize.y, s.y)
    && SizeInRange(cfg.minRoomSize.z, cfg.maxRoomSize.z, s.z)
  }

  /** The box fits: the buffer is kept from the grid edges on X and Y, none on Z. */
  predicate Fits(cfg: DungeonConfiguration, s: Vec3) {
    && cfg.roomBuffer <= cfg.gridSize.x - s.x - cfg.roomBuffer
    && cfg.roomBuffer <= cfg.gridSize.y - s.y - cfg.roomBuffer
    && 0 <= cfg.gridSize.z - s.z
  }

  predicate PositionDrawable(cfg: DungeonConfiguration, s: Vec3, p: Vec3) {
    && cfg.roomBuffer <= p.x <= cfg.gridSize.x - s.x - cfg.roomBuffer
    && cfg.roomBuffer <= p.y <= cfg.gridSize.y - s.y - cfg.roomBuffer
    && 0 <= p.z <= cfg.gridSize.z - s.z
  }

  /** The room record built for the `count`-th placed room (0-based). */
  function NewRoom(count: int, p: Vec3, s: Vec3): (room: DungeonRoom)
    ensures room.roomIndex == ToByte(count + 1) && room.roomType == Generic
    ensures room.position == p && room.size == s && room.floorLevel == p.z
    ensures 0 <= s.x && 0 <= s.y && 0 <= s.z ==> InRoomBox(room, room.center) || s.x == 0 || s.y == 0 || s.z == 0
  {
    DefaultRoom.(
      roomIndex := ToByte(count + 1),
      roomType := Generic,
      position := p,
      size := s,
      center := p.Plus(Vec3(TruncDiv(s.x, 2), TruncDiv(s.y, 2), TruncDiv(s.z, 2))),
      floorLevel := p.z)
  }

  /** What a successful attempt guarantees about the room it adds to `rooms`. */
  predicate Admissible(cfg: DungeonConfiguration, rooms: seq<DungeonRoom>, room: DungeonRoom) {
    && SizeDrawable(cfg, room.size)
    && PositionDrawable(cfg, room.size, room.position)
    && !DoesRoomOverlap(room.position, room.size, rooms, cfg.roomBuffer)
    && room == NewRoom(|rooms|, room.position, room.size)
  }

  /** The three size draws of one attempt. */
  function DrawSize(rng: Rng, cfg: DungeonConfiguration): (res: (Vec3, Rng))
    ensures SizeDrawable(cfg, res.0)
    ensures res.1.pos == rng.pos + 3 && res.1.raw == rng.raw && res.1.spawn == rng.spawn
  {
    var (sx, r1) := RandRange(rng, cfg.minRoomSize.x, cfg.maxRoomSize.x);
    var (sy, r2) := RandRange(r1, cfg.minRoomSize.y, cfg.maxRoomSize.y);
    var (sz, r3) := RandRange(r2, cfg.minRoomSize.z, cfg.maxRoomSize.z);
    (Vec3(sx, sy, sz), r3)
  }

  /** The three position draws, made only when the box fits. */
  function DrawPosition(rng: Rng, cfg: DungeonConfiguration, s: Vec3): (res: (Vec3, Rng))
    requires Fits(cfg, s)
    ensures PositionDrawable(cfg, s, res.0)
    ensures res.1.pos == rng.pos + 3 && res.1.raw == rng.raw && res.1.spawn == rng.spawn
  {
    var (px, r1) := RandRange(rng, cfg.roomBuffer, cfg.gridSize.x - s.x - cfg.roomBuffer);
    var (py, r2) := RandRange(r1, cfg.roomBuffer, cfg.gridSize.y - s.y - cfg.roomBuffer);
    var (pz, r3) := RandRange(r2, 0, cfg.gridSize.z - s.z);
    (Vec3(px, py, pz), r3)
  }

  /**
   * One attempt: a box too large to fit costs three draws and fails; otherwise
   * six draws, and the candidate is kept when it meets no earlier room.
   */
  function TryAttempt(rng: Rng, cfg: DungeonConfiguration, rooms: seq<DungeonRoom>): (res: (Option<DungeonRoom>, Rng))
    ensures res.0.Some? ==> Admissible(cfg, rooms, res.0.value)
    ensures res.1.raw == rng.raw && res.1.spawn == rng.spawn
    ensures !Fits(cfg, DrawSize(rng, cfg).0) ==> res.0.None? && res.1.pos == rng.pos + 3
    ensures Fits(cfg, DrawSize(rng, cfg).0) ==> res.1.pos == rng.pos + 6
  {
    var (s, r1) := DrawSize(rng, cfg);
    if !Fits(cfg, s) then (None, r1)
    else
      var (p, r2) := DrawPosition(r1, cfg, s);
      if DoesRoomOverlap(p, s, rooms, cfg.roomBuffer) then (None, r2)
      else (Some(NewRoom(|rooms|, p, s)), r2)
  }

  /** The attempt loop for one room, from attempt number `attempt` on; the first success wins. */
  function PlaceOne(rng: Rng, cfg: DungeonConfiguration, rooms: seq<DungeonRoom>, attempt: int): (res: (Option<DungeonRoom>, Rng))
    ensures res.0.Some? ==> Admissible(cfg, rooms, res.0.value)
    ensures res.1.raw == rng.raw && res.1.spawn == rng.spawn
    ensures cfg.maxPlacementAttempts <= attempt ==> res == (None, rng)
    decreases cfg.maxPlacementAttempts - attempt
  {
    if cfg.maxPlacementAttempts <= attempt then (None, rng)
    else
      var (room, r1) := TryAttempt(rng, cfg, rooms);
      if room.Some? then (room, r1) else PlaceOne(r1, cfg, rooms, attempt + 1)
  }

  /** Every room after position `from` was admissible when it was added. */
  predicate GrownAdmissibly(cfg: DungeonConfiguration, rooms: seq<DungeonRoom>, from: nat)
    requires from <= |rooms|
  {
    forall k :: from <= k < |rooms| ==> Admissible(cfg, rooms[..k], rooms[k])
  }

  /** The outer loop over requested rooms, from room number `i` on. */
  function PlaceFrom(rng: Rng, cfg: DungeonConfiguration, rooms: seq<DungeonRoom>, i: int): (res: (seq<DungeonRoom>, Rng))
    ensures |rooms| <= |res.0| && res.0[..|rooms|] == rooms
    ensures GrownAdmissibly(cfg, res.0, |rooms|)
    ensures |res.0| <= |rooms| + (if i < cfg.roomCount then cfg.roomCount - i else 0)
    ensures cfg.maxPlacementAttempts <= 0 ==> res.0 == rooms
    decreases cfg.roomCount - i
  {
    if cfg.roomCount <= i then (rooms, rng)
    else
      var (room, r1) := PlaceOne(rng, cfg, rooms, 0);
      var next := if room.Some? then rooms + [room.value] else rooms;
      assert room.Some? ==> next[..|rooms|] == rooms;
      var res := PlaceFrom(r1, cfg, next, i + 1);
      GrowStep(cfg, rooms, next, res.0);
      res
  }

  /** Growing `rooms` to `next` by at most one admissible room, then to `all`, is admissible growth. */
  lemma GrowStep(cfg: DungeonConfiguration, rooms: seq<DungeonRoom>, next: seq<DungeonRoom>, all: seq<DungeonRoom>)
    requires |next| <= |all| && all[..|next|] == next
    requires GrownAdmissibly(cfg, all, |next|)
    requires next == rooms || (|next| == |rooms| + 1 && next[..|rooms|] == rooms && Admissible(cfg, rooms, next[|rooms|]))
    ensures |rooms| <= |all| && all[..|rooms|] == rooms
    ensures GrownAdmissibly(cfg, all, |rooms|)
  {
    assert all[..|rooms|] == all[..|next|][..|rooms|];
    if next != rooms {
      assert all[|rooms|] == next[|rooms|];
    }
  }

  /** The outcome of PlaceRooms: the success flag, the stamped grid, the rooms and the caller's seed. */
  datatype Placement = Placement(ok: bool, grid: DungeonGrid, rooms: seq<DungeonRoom>, seed: Rng)

  /**
   * PlaceRooms: forks subsystem stream 1 from the caller's seed, runs the
   * placement loops on it, stamps every new room and reports whether at
   * least two rooms exist.
   */
  function PlaceRooms(g: DungeonGrid, cfg: DungeonConfiguration, seed: Rng, existing: seq<DungeonRoom>): (out: Placement)
    requires WellFormed(g)
    ensures out.ok <==> |out.rooms| >= 2
    ensures |existing| <= |out.rooms| && out.rooms[..|existing|] == existing
    ensures |out.rooms| <= |existing| + (if 0 < cfg.roomCount then cfg.roomCount else 0)
    ensures GrownAdmissibly(cfg, out.rooms, |existing|)
    ensures WellFormed(out.grid) && out.grid.size == g.size
    ensures out.grid == StampAll(g, out.rooms[|existing|..])
    ensures out.seed == Fork(seed, 1).1
  {
    var (roomSeed, parent) := Fork(seed, 1);
    var (rooms, _) := PlaceFrom(roomSeed, cfg, existing, 0);
    Placement(|rooms| >= 2, StampAll(g, rooms[|existing|..]), rooms, parent)
  }

  // ------------------------------------------------------------ What placement guarantees

  /** The new rooms sit in the grid of the configured size: origin and far corner in bounds. */
  predicate RoomInGrid(size: Vec3, room: DungeonRoom) {
    InBox(size, room.position) && InBox(size, MaxCorner(room))
  }

  /** The room numbered k carries the 1-based index k+1, truncated to a byte. */
  lemma PlacedIndices(g: DungeonGrid, cfg: DungeonConfiguration, seed: Rng, existing: seq<DungeonRoom>)
    requires WellFormed(g)
    ensures var out := PlaceRooms(g, cfg, seed, existing);
      forall k :: |existing| <= k < |out.rooms| ==>
        out.rooms[k].roomIndex == ToByte(k + 1) && out.rooms[k].roomType == Generic
        && out.rooms[k].floorLevel == out.rooms[k].position.z
  {
    var out := PlaceRooms(g, cfg, seed, existing);
    forall k | |existing| <= k < |out.rooms|
      ensures out.rooms[k].roomIndex == ToByte(k + 1)
    {
      assert Admissible(cfg, out.rooms[..k], out.rooms[k]);
    }
  }

  /**
   * A new room meets no room before it under the buffered test, and (with a
   * non-negative buffer and sizes of at least one cell) lies inside the grid.
   */
  lemma AdmissibleRoomSound(cfg: DungeonConfiguration, before: seq<DungeonRoom>, room: DungeonRoom)
    requires Admissible(cfg, before, room)
    ensures forall k :: 0 <= k < |before| ==> !BufferedOverlap(before[k], room, cfg.roomBuffer)
    ensures 0 <= cfg.roomBuffer ==> forall k :: 0 <= k < |before| ==> !BoxesOverlap(before[k], room)
    ensures 0 <= cfg.roomBuffer && 1 <= room.size.x && 1 <= room.size.y && 1 <= room.size.z ==>
      RoomInGrid(cfg.gridSize, room)
  {
    forall k | 0 <= k < |before|
      ensures !BufferedOverlap(before[k], room, cfg.roomBuffer)
    {
      var box := BoxOf(room.position, room.size);
      assert box.position == room.position && box.size == room.size;
      assert BufferedOverlap(before[k], room, cfg.roomBuffer) == BufferedOverlap(before[k], box, cfg.roomBuffer);
    }
    if 0 <= cfg.roomBuffer {
      forall k | 0 <= k < |before|
        ensures !BoxesOverlap(before[k], room)
      {
        OverlapImpliesBuffered(before[k], room, cfg.roomBuffer);
      }
    }
  }

  /** Sizes the placer can draw are at least one cell when the configured minimums are. */
  lemma DrawnSizePositive(cfg: DungeonConfiguration, s: Vec3)
    requires SizeDrawable(cfg, s)
    requires 1 <= cfg.minRoomSize.x && 1 <= cfg.minRoomSize.y && 1 <= cfg.minRoomSize.z
    ensures 1 <= s.x && 1 <= s.y && 1 <= s.z
  {}

  /**
   * The rooms placed into an empty list pass the validator's overlap, buffer
   * and bounds checks on a grid of the configured size, provided the buffer is
   * not negative and every minimum room extent is at least one cell.
   */
  lemma PlacementPassesChecks(g: DungeonGrid, cfg: DungeonConfiguration, seed: Rng)
    requires WellFormed(g) && g.size == cfg.gridSize
    requires 0 <= cfg.roomBuffer
    requires 1 <= cfg.minRoomSize.x && 1 <= cfg.minRoomSize.y && 1 <= cfg.minRoomSize.z
    ensures var rooms := PlaceRooms(g, cfg, seed, []).rooms;
      && NoOverlap(rooms)
      && BufferRespected(rooms, cfg.roomBuffer)
      && (forall k :: 0 <= k < |rooms| ==> RoomInGrid(cfg.gridSize, rooms[k]))
  {
    var rooms := PlaceRooms(g, cfg, seed, []).rooms;
    assert GrownAdmissibly(cfg, rooms, 0);
    forall i, j | 0 <= i < j < |rooms|
      ensures !BufferedOverlap(rooms[i], rooms[j], cfg.roomBuffer) && !BoxesOverlap(rooms[i], rooms[j])
    {
      var before := rooms[..j];
      AdmissibleRoomSound(cfg, before, rooms[j]);
      assert before[i] == rooms[i];
    }
    forall k | 0 <= k < |rooms|
      ensures RoomInGrid(cfg.gridSize, rooms[k])
    {
      DrawnSizePositive(cfg, rooms[k].size);
      AdmissibleRoomSound(cfg, rooms[..k], rooms[k]);
    }
  }

  /** Every cell of every placed room ends up a Room cell carrying that room's index. */
  lemma PlacedRoomsStamped(g: DungeonGrid, cfg: DungeonConfiguration, seed: Rng, c: Vec3)
    requires WellFormed(g) && g.size == cfg.gridSize && IsInBounds(g, c)
    requires 0 <= cfg.roomBuffer
    requires 1 <= cfg.minRoomSize.x && 1 <= cfg.minRoomSize.y && 1 <= cfg.minRoomSize.z
    ensures var out := PlaceRooms(g, cfg, seed, []);
      && (forall k :: 0 <= k < |out.rooms| && InRoomBox(out.rooms[k], c) ==>
            && GetCell(out.grid, c).cellType == Room
            && GetCell(out.grid, c).roomIndex == out.rooms[k].roomIndex)
      && ((forall k :: 0 <= k < |out.rooms| ==> !InRoomBox(out.rooms[k], c)) ==>
            GetCell(out.grid, c) == GetCell(g, c))
  {
    var out := PlaceRooms(g, cfg, seed, []);
    PlacementPassesChecks(g, cfg, seed);
    assert out.rooms[0..] == out.rooms;
    StampAllCell(g, out.rooms, c);
  }
}

=== FILE: room_semantics.dfy ===
/**
 * Room semantics: the entrance choice, the graph metrics computed by a
 * breadth-first search over the final edges, and the rule-driven assignment
 * of room types.
 */
module RoomSemantics {
  import opened Wrappers
  import opened DungeonTypes
  import opened DungeonConfig
  import opened DungeonSeed
  import Graphs

  // ------------------------------------------------------------ Entrance

  /** Whether a room qualifies for the configured entrance placement. */
  predicate EntranceCandidate(room: DungeonRoom, gridSize: Vec3, placement: EntrancePlacement) {
    match placement
    case BoundaryEdge =>
      || room.position.x == 0 || room.position.x + room.size.x >= gridSize.x
      || room.position.y == 0 || room.position.y + room.size.y >= gridSize.y
    case BottomFloor => room.position.z == 0
    case TopFloor => room.position.z + room.size.z >= gridSize.z
    case Any => true
  }

  /** The qualifying positions at or after `from`, in increasing order. */
  function CandidatesFrom(rooms: seq<DungeonRoom>, gridSize: Vec3, placement: EntrancePlacement, from: nat): (cs: seq<int>)
    requires from <= |rooms|
    ensures forall i :: i in cs <==> from <= i < |rooms| && EntranceCandidate(rooms[i], gridSize, placement)
    ensures forall a :: 0 <= a < |cs| ==> from <= cs[a]
    ensures forall a, b :: 0 <= a < b < |cs| ==> cs[a] < cs[b]
    decreases |rooms| - from
  {
    if from == |rooms| then []
    else
      var rest := CandidatesFrom(rooms, gridSize, placement, from + 1);
      if EntranceCandidate(rooms[from], gridSize, placement) then [from] + rest else rest
  }

  /** All positions 0..n-1. */
  function AllPositions(n: nat): (cs: seq<int>)
    ensures |cs| == n && forall i :: 0 <= i < n ==> cs[i] == i
  {
    seq(n, i => i)
  }

  /**
   * SelectEntranceRoom: -1 with no draw when there are no rooms; otherwise
   * one draw picks among the qualifying rooms, or among all rooms when none
   * qualifies.
   */
  function SelectEntranceRoom(rooms: seq<DungeonRoom>, gridSize: Vec3, placement: EntrancePlacement, rng: Rng): (res: (int, Rng))
    ensures |rooms| == 0 <==> res.0 == -1
    ensures |rooms| == 0 ==> res.1 == rng
    ensures |rooms| > 0 ==> 0 <= res.0 < |rooms| && res.1 == Next(rng).1
    ensures (exists i :: 0 <= i < |rooms| && EntranceCandidate(rooms[i], gridSize, placement)) ==>
      0 <= res.0 < |rooms| && EntranceCandidate(rooms[res.0], gridSize, placement)
  {
    if |rooms| == 0 then (-1, rng)
    else
      var qualifying := CandidatesFrom(rooms, gridSize, placement, 0);
      var candidates := if |qualifying| == 0 then AllPositions(|rooms|) else qualifying;
      assert candidates[0] in candidates;
      var (k, rng') := RandRange(rng, 0, |candidates| - 1);
      assert candidates[k] in candidates;
      (candidates[k], rng')
  }

  // ------------------------------------------------------------ Breadth-first distances

  /** The final edges only join existing rooms. */
  predicate EdgesInRange(edges: seq<Graphs.Edge>, n: int) {
    forall i :: 0 <= i < |edges| ==> 0 <= edges[i].0 < n && 0 <= edges[i].1 < n
  }

  lemma AdjacentInRange(edges: seq<Graphs.Edge>, n: int, u: int, v: int)
    requires EdgesInRange(edges, n) && Graphs.Adjacent(edges, u, v)
    ensures 0 <= u < n && 0 <= v < n
  {
    var i :| 0 <= i < |edges| && Graphs.Joins(edges[i], u, v);
  }

  /** The parent links: each labelled vertex other than s points at a neighbour one label lower. */
  ghost predicate ParentsValid(edges: seq<Graphs.Edge>, s: int, n: int, d: seq<int>, parent: seq<int>)
    requires |d| == n && |parent| == n && 0 <= s < n
  {
    && parent[s] == -1
    && (forall v :: 0 <= v < n && 0 < d[v] ==>
          0 <= parent[v] < n && Graphs.Adjacent(edges, parent[v], v) && d[parent[v]] == d[v] - 1)
    && (forall v :: 0 <= v < n && d[v] < 0 ==> parent[v] == -1)
  }

  /** s alone has label 0 and every label is at least -1. */
  ghost predicate LabelShape(s: int, n: int, d: seq<int>) {
    && |d| == n && 0 <= s < n && d[s] == 0
    && (forall v :: 0 <= v < n ==> -1 <= d[v])
    && (forall v :: 0 <= v < n && d[v] == 0 ==> v == s)
  }

  ghost predicate QueueInRange(n: int, queue: seq<int>) {
    forall j :: 0 <= j < |queue| ==> 0 <= queue[j] < n
  }

  /** A vertex is labelled exactly when it has been queued. */
  ghost predicate LabelledQueued(n: int, d: seq<int>, queue: seq<int>)
    requires |d| == n
  {
    forall v :: 0 <= v < n ==> (0 <= d[v] <==> v in queue)
  }

  /** Labels never decrease along the queue. */
  ghost predicate QueueMonotone(d: seq<int>, queue: seq<int>)
    requires QueueInRange(|d|, queue)
  {
    forall i, j :: 0 <= i <= j < |queue| ==> d[queue[i]] <= d[queue[j]]
  }

  /** What holds of the queue, the labels and the parents throughout the search. */
  ghost predicate BfsState(edges: seq<Graphs.Edge>, s: int, n: int, d: seq<int>, parent: seq<int>, queue: seq<int>)
  {
    && LabelShape(s, n, d) && |parent| == n
    && QueueInRange(n, queue)
    && LabelledQueued(n, d, queue)
    && ParentsValid(edges, s, n, d, parent)
    && QueueMonotone(d, queue)
  }

  lemma LabelShapeUpdate(s: int, n: int, d: seq<int>, v: int, l: int)
    requires LabelShape(s, n, d) && 0 <= v < n && d[v] == -1 && 1 <= l
    ensures LabelShape(s, n, d[v := l])
  {}

  lemma ParentsUpdate(edges: seq<Graphs.Edge>, s: int, n: int, d: seq<int>, parent: seq<int>, cur: int, v: int)
    requires LabelShape(s, n, d) && |parent| == n && ParentsValid(edges, s, n, d, parent)
    requires 0 <= cur < n && 0 <= d[cur] && 0 <= v < n && d[v] == -1 && Graphs.Adjacent(edges, cur, v)
    ensures ParentsValid(edges, s, n, d[v := d[cur] + 1], parent[v := cur])
  {
    var d', parent' := d[v := d[cur] + 1], parent[v := cur];
    forall w | 0 <= w < n && 0 < d'[w]
      ensures 0 <= parent'[w] < n && Graphs.Adjacent(edges, parent'[w], w) && d'[parent'[w]] == d'[w] - 1
    {
      if w != v {
        assert d[w] > 0 && parent'[w] == parent[w];
        assert parent[w] != v;
      }
    }
  }

  lemma QueuedUpdate(n: int, d: seq<int>, queue: seq<int>, v: int, l: int)
    requires |d| == n && LabelledQueued(n, d, queue) && 0 <= v < n && 0 <= l
    ensures LabelledQueued(n, d[v := l], queue + [v])
  {
    forall w | 0 <= w < n
      ensures 0 <= d[v := l][w] <==> w in queue + [v]
    {
      if w != v {
        assert w in queue + [v] <==> w in queue;
      }
    }
  }

  lemma MonotoneUpdate(n: int, d: seq<int>, queue: seq<int>, v: int, l: int)
    requires |d| == n && QueueInRange(n, queue) && QueueMonotone(d, queue) && 0 <= v < n
    requires forall j :: 0 <= j < |queue| ==> queue[j] != v && d[queue[j]] <= l
    ensures QueueInRange(n, queue + [v]) && QueueMonotone(d[v := l], queue + [v])
  {
    var d', queue' := d[v := l], queue + [v];
    forall i, j | 0 <= i <= j < |queue'|
      ensures d'[queue'[i]] <= d'[queue'[j]]
    {
      if j < |queue| {
        assert queue'[i] == queue[i] && queue'[j] == queue[j];
      } else if i < |queue| {
        assert queue'[i] == queue[i];
      }
    }
  }

  /** Labelling a fresh neighbour v of a labelled vertex one level further out keeps the search state. */
  lemma LabelKeepsState(edges: seq<Graphs.Edge>, s: int, n: int, d: seq<int>, parent: seq<int>, queue: seq<int>, cur: int, v: int, l: int)
    requires BfsState(edges, s, n, d, parent, queue)
    requires 0 <= cur < n && 0 <= d[cur] && 0 <= v < n && d[v] == -1 && Graphs.Adjacent(edges, cur, v)
    requires l == d[cur] + 1
    requires forall j :: 0 <= j < |queue| ==> d[queue[j]] <= l
    ensures BfsState(edges, s, n, d[v := l], parent[v := cur], queue + [v])
  {
    LabelShapeUpdate(s, n, d, v, d[cur] + 1);
    ParentsUpdate(edges, s, n, d, parent, cur, v);
    QueuedUpdate(n, d, queue, v, d[cur] + 1);
    assert forall j :: 0 <= j < |queue| ==> queue[j] != v by {
      forall j | 0 <= j < |queue| ensures queue[j] != v {
        assert queue[j] in queue;
      }
    }
    MonotoneUpdate(n, d, queue, v, d[cur] + 1);
  }

  /** The queue spans at most two levels from the head on, and every dequeued vertex's neighbours are labelled. */
  ghost predicate BfsProgress(edges: seq<Graphs.Edge>, n: int, d: seq<int>, queue: seq<int>, head: int)
    requires |d| == n && forall j :: 0 <= j < |queue| ==> 0 <= queue[j] < n
  {
    && 0 <= head <= |queue|
    && (head < |queue| ==> forall j :: 0 <= j < |queue| ==> d[queue[j]] <= d[queue[head]] + 1)
    && (forall j, v :: 0 <= j < head && Graphs.Adjacent(edges, queue[j], v) ==>
          0 <= v < n && 0 <= d[v] <= d[queue[j]] + 1)
  }

  /** While cur's neighbours are labelled: old labels stay, the queue only grows, and no label passes d[cur] + 1. */
  ghost predicate VisitFrame(n: int, d: seq<int>, queue: seq<int>, cur: int, d': seq<int>, queue': seq<int>) {
    && |d| == n && |d'| == n && 0 <= cur < n && 0 <= d[cur]
    && |queue| <= |queue'| && queue'[..|queue|] == queue
    && (forall v :: 0 <= v < n && 0 <= d[v] ==> d'[v] == d[v])
    && QueueInRange(n, queue')
    && (forall j :: 0 <= j < |queue'| ==> d'[queue'[j]] <= d[cur] + 1)
  }

  /** The termination measure is unchanged by enqueueing a fresh vertex. */
  ghost predicate VisitCount(queue: seq<int>, queue': seq<int>, visited: set<int>, visited': set<int>, universe: set<int>) {
    && visited' <= universe && (forall v :: v in visited' <==> v in queue')
    && |universe - visited'| + |queue'| == |universe - visited| + |queue|
  }

  ghost predicate VisitLoop(edges: seq<Graphs.Edge>, s: int, n: int, d: seq<int>, queue: seq<int>, cur: int,
                            d': seq<int>, parent': seq<int>, queue': seq<int>,
                            visited: set<int>, visited': set<int>, universe: set<int>)
  {
    && BfsState(edges, s, n, d', parent', queue')
    && VisitFrame(n, d, queue, cur, d', queue')
    && VisitCount(queue, queue', visited, visited', universe)
  }

  lemma FrameUpdate(n: int, d: seq<int>, queue: seq<int>, cur: int, d': seq<int>, queue': seq<int>, v: int)
    requires VisitFrame(n, d, queue, cur, d', queue') && 0 <= v < n && d'[v] == -1
    ensures VisitFrame(n, d, queue, cur, d'[v := d[cur] + 1], queue' + [v])
  {
    assert (queue' + [v])[..|queue|] == queue'[..|queue|];
  }

  lemma CountUpdate(queue: seq<int>, queue': seq<int>, visited: set<int>, visited': set<int>, universe: set<int>, v: int)
    requires VisitCount(queue, queue', visited, visited', universe) && v in universe && v !in queue'
    ensures VisitCount(queue, queue' + [v], visited, visited' + {v}, universe)
  {
    assert universe - visited' == (universe - (visited' + {v})) + {v};
  }

  /** Labels one neighbour v of cur if it has no label yet. */
  method LabelNeighbor(edges: seq<Graphs.Edge>, s: int, n: int, d: seq<int>, queue: seq<int>, cur: int, v: int,
                       d': seq<int>, parent': seq<int>, queue': seq<int>,
                       ghost visited: set<int>, ghost visited': set<int>, ghost universe: set<int>)
    returns (d'': seq<int>, parent'': seq<int>, queue'': seq<int>, ghost visited'': set<int>)
    requires universe == Graphs.Vertices(n)
    requires VisitLoop(edges, s, n, d, queue, cur, d', parent', queue', visited, visited', universe)
    requires 0 <= v < n && Graphs.Adjacent(edges, cur, v)
    ensures VisitLoop(edges, s, n, d, queue, cur, d'', parent'', queue'', visited, visited'', universe)
    ensures forall w :: 0 <= w < n && 0 <= d'[w] ==> d''[w] == d'[w]
    ensures 0 <= d''[v] <= d[cur] + 1
  {
    d'', parent'', queue'', visited'' := d', parent', queue', visited';
    if d'[v] == -1 {
      LabelStep(edges, s, n, d, queue, cur, v, d', parent', queue', visited, visited', universe);
      d'' := d'[v := d[cur] + 1];
      parent'' := parent'[v := cur];
      queue'' := queue' + [v];
      visited'' := visited' + {v};
    } else {
      AlreadyLabelled(edges, s, n, d, queue, cur, v, d', parent', queue', visited, visited', universe);
    }
  }

  /** Labelling an unlabelled neighbour v of cur with d[cur] + 1 keeps the visit loop's state. */
  lemma LabelStep(edges: seq<Graphs.Edge>, s: int, n: int, d: seq<int>, queue: seq<int>, cur: int, v: int,
                  d': seq<int>, parent': seq<int>, queue': seq<int>,
                  visited: set<int>, visited': set<int>, universe: set<int>)
    requires universe == Graphs.Vertices(n)
    requires VisitLoop(edges, s, n, d, queue, cur, d', parent', queue', visited, visited', universe)
    requires 0 <= v < n && Graphs.Adjacent(edges, cur, v) && d'[v] == -1
    ensures 0 <= d[cur]
    ensures VisitLoop(edges, s, n, d, queue, cur, d'[v := d[cur] + 1], parent'[v := cur], queue' + [v],
                      visited, visited' + {v}, universe)
  {
    LoopFacts(edges, s, n, d, queue, cur, v, d', parent', queue', visited, visited', universe);
    LabelKeepsState(edges, s, n, d', parent', queue', cur, v, d[cur] + 1);
    FrameUpdate(n, d, queue, cur, d', queue', v);
    CountUpdate(queue, queue', visited, visited', universe, v);
  }

  /** A neighbour of cur that already has a label carries one no higher than d[cur] + 1. */
  lemma AlreadyLabelled(edges: seq<Graphs.Edge>, s: int, n: int, d: seq<int>, queue: seq<int>, cur: int, v: int,
                        d': seq<int>, parent': seq<int>, queue': seq<int>,
                        visited: set<int>, visited': set<int>, universe: set<int>)
    requires VisitLoop(edges, s, n, d, queue, cur, d', parent', queue', visited, visited', universe)
    requires 0 <= v < n && d'[v] != -1
    ensures 0 <= d'[v] <= d[cur] + 1
  {
    assert 0 <= d'[v];
    var j :| 0 <= j < |queue'| && queue'[j] == v;
  }

  /** What the visit loop's state says about cur and a still unlabelled neighbour v. */
  lemma LoopFacts(edges: seq<Graphs.Edge>, s: int, n: int, d: seq<int>, queue: seq<int>, cur: int, v: int,
                  d': seq<int>, parent': seq<int>, queue': seq<int>,
                  visited: set<int>, visited': set<int>, universe: set<int>)
    requires universe == Graphs.Vertices(n)
    requires VisitLoop(edges, s, n, d, queue, cur, d', parent', queue', visited, visited', universe)
    requires 0 <= v < n && d'[v] == -1
    ensures 0 <= cur < n && d'[cur] == d[cur] && 0 <= d[cur]
    ensures v !in queue' && v in universe
    ensures forall j :: 0 <= j < |queue'| ==> d'[queue'[j]] <= d[cur] + 1
  {
    assert LabelledQueued(n, d', queue');
  }

  /** The first k neighbours carry labels no higher than the bound. */
  ghost predicate NeighboursLabelled(n: int, ns: seq<int>, k: int, d: seq<int>, bound: int) {
    && 0 <= k <= |ns| && |d| == n
    && forall j :: 0 <= j < k ==> 0 <= ns[j] < n && 0 <= d[ns[j]] <= bound
  }

  lemma NeighboursStep(n: int, ns: seq<int>, k: int, d: seq<int>, d': seq<int>, bound: int)
    requires NeighboursLabelled(n, ns, k, d, bound) && k < |ns| && |d'| == n
    requires forall w :: 0 <= w < n && 0 <= d[w] ==> d'[w] == d[w]
    requires 0 <= ns[k] < n && 0 <= d'[ns[k]] <= bound
    ensures NeighboursLabelled(n, ns, k + 1, d', bound)
  {
    forall j | 0 <= j < k + 1
      ensures 0 <= ns[j] < n && 0 <= d'[ns[j]] <= bound
    {
      if j < k {
        assert d'[ns[j]] == d[ns[j]];
      }
    }
  }

  /** Dequeues queue[head] and labels each unlabelled neighbour one level further out. */
  method BfsVisit(edges: seq<Graphs.Edge>, s: int, n: int, d: seq<int>, parent: seq<int>, queue: seq<int>, head: int,
                  ghost visited: set<int>, ghost universe: set<int>)
    returns (d': seq<int>, parent': seq<int>, queue': seq<int>, ghost visited': set<int>)
    requires EdgesInRange(edges, n)
    requires BfsState(edges, s, n, d, parent, queue) && BfsProgress(edges, n, d, queue, head) && head < |queue|
    requires universe == Graphs.Vertices(n)
    requires visited <= universe && forall v :: v in visited <==> v in queue
    ensures BfsState(edges, s, n, d', parent', queue') && BfsProgress(edges, n, d', queue', head + 1)
    ensures visited' <= universe && forall v :: v in visited' <==> v in queue'
    ensures |universe - visited'| + |queue'| == |universe - visited| + |queue|
  {
    var cur := queue[head];
    assert cur in queue;
    var ns := Graphs.Neighbors(edges, cur);
    d', parent', queue', visited' := d, parent, queue, visited;
    var k := 0;
    while k < |ns|
      invariant 0 <= k <= |ns|
      invariant VisitLoop(edges, s, n, d, queue, cur, d', parent', queue', visited, visited', universe)
      invariant NeighboursLabelled(n, ns, k, d', d[cur] + 1)
    {
      AdjacentInRange(edges, n, cur, ns[k]);
      ghost var before := d';
      d', parent', queue', visited' := LabelNeighbor(edges, s, n, d, queue, cur, ns[k], d', parent', queue', visited, visited', universe);
      NeighboursStep(n, ns, k, before, d', d[cur] + 1);
      k := k + 1;
    }
    BfsVisitProgress(edges, n, d, queue, head, ns, d', queue');
  }

  lemma BfsVisitProgress(edges: seq<Graphs.Edge>, n: int, d: seq<int>, queue: seq<int>, head: int, ns: seq<int>,
                         d': seq<int>, queue': seq<int>)
    requires EdgesInRange(edges, n) && |d| == n && |d'| == n
    requires forall j :: 0 <= j < |queue'| ==> 0 <= queue'[j] < n
    requires forall i, j :: 0 <= i <= j < |queue'| ==> d'[queue'[i]] <= d'[queue'[j]]
    requires forall j :: 0 <= j < |queue| ==> 0 <= queue[j] < n && 0 <= d[queue[j]]
    requires BfsProgress(edges, n, d, queue, head) && head < |queue|
    requires |queue| <= |queue'| && queue'[..|queue|] == queue
    requires forall v :: 0 <= v < n && 0 <= d[v] ==> d'[v] == d[v]
    requires forall j :: 0 <= j < |queue'| ==> d'[queue'[j]] <= d[queue[head]] + 1
    requires 0 <= d[queue[head]]
    requires forall v :: v in ns <==> Graphs.Adjacent(edges, queue[head], v)
    requires forall j :: 0 <= j < |ns| ==> 0 <= ns[j] < n && 0 <= d'[ns[j]] <= d[queue[head]] + 1
    ensures BfsProgress(edges, n, d', queue', head + 1)
  {
    forall j | 0 <= j < |queue|
      ensures queue'[j] == queue[j]
    {
      assert queue'[..|queue|][j] == queue[j];
    }
    forall j, v | 0 <= j < head + 1 && Graphs.Adjacent(edges, queue'[j], v)
      ensures 0 <= v < n && 0 <= d'[v] <= d'[queue'[j]] + 1
    {
      AdjacentInRange(edges, n, queue'[j], v);
      assert queue'[j] == queue[j];
      if j == head {
        var i :| 0 <= i < |ns| && ns[i] == v;
      } else {
        assert 0 <= d[queue[j]];
      }
    }
  }

  /**
   * The breadth-first search from the entrance: the labels are hop distances
   * (-1 for unreachable rooms) and each parent is a neighbour one hop closer.
   */
  method BreadthFirstDistances(edges: seq<Graphs.Edge>, n: int, s: int) returns (d: seq<int>, parent: seq<int>)
    requires 0 <= s < n && EdgesInRange(edges, n)
    ensures Graphs.DistanceLabelling(edges, s, n, d)
    ensures |parent| == n && ParentsValid(edges, s, n, d, parent)
  {
    d := seq(n, i => if i == s then 0 else -1);
    parent := seq(n, _ => -1);
    var queue := [s];
    var head := 0;
    ghost var universe := Graphs.Vertices(n);
    ghost var visited := {s};
    BfsStart(edges, s, n, d, parent);
    while head < |queue|
      invariant BfsState(edges, s, n, d, parent, queue) && BfsProgress(edges, n, d, queue, head)
      invariant visited <= universe && forall v :: v in visited <==> v in queue
      decreases |universe - visited| + |queue| - head
    {
      d, parent, queue, visited := BfsVisit(edges, s, n, d, parent, queue, head, visited, universe);
      head := head + 1;
    }
    BfsFinished(edges, s, n, d, parent, queue);
  }

  /** The start: s alone is labelled 0 and queued, and nothing has a parent. */
  lemma BfsStart(edges: seq<Graphs.Edge>, s: int, n: int, d: seq<int>, parent: seq<int>)
    requires 0 <= s < n
    requires d == seq(n, i => if i == s then 0 else -1) && parent == seq(n, _ => -1)
    ensures BfsState(edges, s, n, d, parent, [s]) && BfsProgress(edges, n, d, [s], 0)
    ensures {s} <= Graphs.Vertices(n) && forall v :: v in {s} <==> v in [s]
  {
  }

  /** Once every queued vertex is visited, the labels are the BFS distances and the parents are valid. */
  lemma BfsFinished(edges: seq<Graphs.Edge>, s: int, n: int, d: seq<int>, parent: seq<int>, queue: seq<int>)
    requires BfsState(edges, s, n, d, parent, queue) && BfsProgress(edges, n, d, queue, |queue|)
    ensures Graphs.DistanceLabelling(edges, s, n, d)
    ensures |parent| == n && ParentsValid(edges, s, n, d, parent)
  {
    forall u, v | 0 <= u < n && 0 <= d[u] && Graphs.Adjacent(edges, u, v)
      ensures 0 <= v < n && 0 <= d[v] <= d[u] + 1
    {
      var j :| 0 <= j < |queue| && queue[j] == u;
    }
  }

  // ------------------------------------------------------------ Graph metrics

  /**
   * The farthest room: the largest distance (at least 0) and the lowest
   * position that reaches it; the entrance when nothing is farther.
   */
  predicate FarthestIn(d: seq<int>, maxDistance: int, farthest: int) {
    && 0 <= maxDistance && 0 <= farthest < |d| && d[farthest] == maxDistance
    && (forall i :: 0 <= i < |d| ==> d[i] <= maxDistance)
    && (forall i :: 0 <= i < farthest ==> d[i] < maxDistance)
  }

  method FarthestRoom(d: seq<int>, s: int) returns (maxDistance: int, farthest: int)
    requires 0 <= s < |d| && d[s] == 0
    requires forall v :: 0 <= v < |d| ==> -1 <= d[v] && (d[v] == 0 ==> v == s)
    ensures FarthestIn(d, maxDistance, farthest)
  {
    maxDistance, farthest := 0, s;
    var i := 0;
    while i < |d|
      invariant 0 <= i <= |d| && 0 <= maxDistance
      invariant 0 <= farthest < |d| && d[farthest] == maxDistance
      invariant forall j :: 0 <= j < i ==> d[j] <= maxDistance
      invariant maxDistance == 0 ==> farthest == s
      invariant 0 < maxDistance ==> farthest < i && forall j :: 0 <= j < farthest ==> d[j] < maxDistance
    {
      if d[i] > maxDistance {
        maxDistance, farthest := d[i], i;
      } else if d[i] == maxDistance && i < farthest {
        farthest := i;
      }
      i := i + 1;
    }
  }

  /** path walks down the labels from top, one edge and one label per step. */
  ghost predicate DescendingWalk(edges: seq<Graphs.Edge>, n: int, d: seq<int>, top: int, path: seq<int>)
    requires |d| == n
  {
    && (forall i :: 0 <= i < |path| ==> 0 <= path[i] < n && d[path[i]] == top - i)
    && (forall i :: 0 <= i < |path| - 1 ==> Graphs.Adjacent(edges, path[i], path[i + 1]))
  }

  lemma DescendingWalkSnoc(edges: seq<Graphs.Edge>, n: int, d: seq<int>, top: int, path: seq<int>, cur: int)
    requires |d| == n && DescendingWalk(edges, n, d, top, path)
    requires 0 <= cur < n && d[cur] == top - |path|
    requires 0 < |path| ==> Graphs.Adjacent(edges, path[|path| - 1], cur)
    ensures DescendingWalk(edges, n, d, top, path + [cur])
  {
  }

  /** One step back along the parent links: the parent is adjacent and one label lower. */
  lemma ParentStep(edges: seq<Graphs.Edge>, s: int, n: int, d: seq<int>, parent: seq<int>, cur: int)
    requires LabelShape(s, n, d) && |parent| == n && ParentsValid(edges, s, n, d, parent)
    requires 0 <= cur < n && 0 <= d[cur]
    ensures d[cur] == 0 ==> cur == s && parent[cur] == -1
    ensures 0 < d[cur] ==> 0 <= parent[cur] < n && d[parent[cur]] == d[cur] - 1
    ensures 0 < d[cur] ==> Graphs.Adjacent(edges, cur, parent[cur])
  {
    if 0 < d[cur] {
      Graphs.AdjacentSymmetric(edges, parent[cur], cur);
    }
  }

  /** A shortest walk from `from` down to s: one edge and one label per step. */
  ghost predicate MainPathOf(edges: seq<Graphs.Edge>, s: int, n: int, d: seq<int>, from: int, path: seq<int>)
    requires |d| == n && 0 <= from < n
  {
    && 0 <= d[from] && |path| == d[from] + 1 && path[0] == from && path[|path| - 1] == s
    && DescendingWalk(edges, n, d, d[from], path)
  }

  /**
   * Follows parent links from `from` back to the entrance: a walk whose
   * labels fall by one at each step, ending at s.
   */
  method TraceMainPath(edges: seq<Graphs.Edge>, s: int, n: int, d: seq<int>, parent: seq<int>, from: int)
    returns (path: seq<int>)
    requires LabelShape(s, n, d) && |parent| == n && ParentsValid(edges, s, n, d, parent)
    requires 0 <= from < n && 0 <= d[from]
    ensures MainPathOf(edges, s, n, d, from, path)
  {
    var cur := from;
    path := [];
    while cur != -1
      invariant cur != -1 ==> 0 <= cur < n && 0 <= d[cur] && d[cur] == d[from] - |path|
      invariant cur != -1 && 0 < |path| ==> Graphs.Adjacent(edges, path[|path| - 1], cur)
      invariant cur == -1 ==> |path| == d[from] + 1 && path[|path| - 1] == s
      invariant 0 < |path| ==> path[0] == from
      invariant |path| == 0 ==> cur == from
      invariant DescendingWalk(edges, n, d, d[from], path)
      decreases if cur == -1 then 0 else d[cur] + 1
    {
      DescendingWalkSnoc(edges, n, d, d[from], path, cur);
      ParentStep(edges, s, n, d, parent, cur);
      path := path + [cur];
      cur := parent[cur];
    }
  }

  /** The distinct elements of xs, in order of first occurrence. */
  function Dedup(xs: seq<int>): (r: seq<int>)
    ensures forall x :: x in r <==> x in xs
    ensures forall i, j :: 0 <= i < j < |r| ==> r[i] != r[j]
  {
    if |xs| == 0 then []
    else
      var p := Dedup(xs[..|xs| - 1]);
      assert forall x :: x in xs <==> x in xs[..|xs| - 1] || x == xs[|xs| - 1] by {
        assert xs == xs[..|xs| - 1] + [xs[|xs| - 1]];
      }
      if xs[|xs| - 1] in p then p else p + [xs[|xs| - 1]]
  }

  /** A leaf: listed in no edge at all, or with exactly one distinct neighbour. */
  function IsLeaf(edges: seq<Graphs.Edge>, i: int): (leaf: bool)
    ensures leaf <==> forall u, v :: Graphs.Adjacent(edges, i, u) && Graphs.Adjacent(edges, i, v) ==> u == v
  {
    var ns := Dedup(Graphs.Neighbors(edges, i));
    if |ns| >= 2 then
      assert ns[0] in ns && ns[1] in ns;
      false
    else
      assert forall u :: u in ns ==> u == ns[0];
      if |ns| == 0 then true else |ns| == 1
  }

  /** What the generator learns about one room from the graph. */
  datatype RoomSemanticContext = RoomSemanticContext(
    roomArrayIndex: int,
    graphDistance: int,
    normalizedDistance: real,
    isLeafNode: bool,
    onMainPath: bool,
    spansMultipleFloors: bool)

  const DefaultContext := RoomSemanticContext(-1, -1, 0.0, false, false, false)

  /** The distance as a fraction of the largest one; 0 when unreachable or when nothing is farther than the entrance. */
  function NormalizedDistance(distance: int, maxDistance: int): (r: real)
    ensures 0 < maxDistance && 0 <= distance <= maxDistance ==> 0.0 <= r <= 1.0
    ensures 0 < maxDistance && distance == maxDistance ==> r == 1.0
    ensures distance == 0 || distance < 0 || maxDistance <= 0 ==> r == 0.0
  {
    if maxDistance > 0 && distance >= 0 then distance as real / maxDistance as real else 0.0
  }

  /** The metrics of one pass: per-room contexts, the updated rooms and the main path. */
  datatype GraphMetrics = GraphMetrics(
    contexts: seq<RoomSemanticContext>,
    rooms: seq<DungeonRoom>,
    maxDistance: int,
    farthest: int,
    mainPath: seq<int>)

  /** The room after ComputeGraphMetrics writes its distance and main-path flag back. */
  function WithMetrics(room: DungeonRoom, distance: int, onMainPath: bool): DungeonRoom {
    room.(graphDistanceFromEntrance := distance, onMainPath := onMainPath)
  }

  /**
   * ComputeGraphMetrics: breadth-first distances from the entrance over the
   * final edges, the farthest room, the main path back from it, and the leaf
   * and multi-floor flags of every room. With no rooms or no entrance, every
   * context is the default and the rooms are untouched.
   */
  method ComputeGraphMetrics(rooms: seq<DungeonRoom>, entrance: int, edges: seq<Graphs.Edge>)
    returns (m: GraphMetrics)
    requires 0 <= entrance && 0 < |rooms| ==> entrance < |rooms| && EdgesInRange(edges, |rooms|)
    ensures |m.contexts| == |rooms| && |m.rooms| == |rooms|
    ensures (|rooms| == 0 || entrance < 0) ==>
      m.rooms == rooms && forall i :: 0 <= i < |rooms| ==> m.contexts[i] == DefaultContext
    ensures 0 < |rooms| && 0 <= entrance ==> MetricsHold(rooms, entrance, edges, m)
  {
    var n := |rooms|;
    if n == 0 || entrance < 0 {
      return GraphMetrics(seq(n, _ => DefaultContext), rooms, 0, entrance, []);
    }
    var d, parent := BreadthFirstDistances(edges, n, entrance);
    var maxDistance, farthest := FarthestRoom(d, entrance);
    var path := TraceMainPath(edges, entrance, n, d, parent, farthest);
    var contexts := BuildContexts(rooms, edges, d, maxDistance, path);
    var rooms' := WriteBack(rooms, d, path);
    m := GraphMetrics(contexts, rooms', maxDistance, farthest, path);
    MetricsFromParts(rooms, entrance, edges, d, m);
  }

  function BuildContexts(rooms: seq<DungeonRoom>, edges: seq<Graphs.Edge>, d: seq<int>, maxDistance: int, path: seq<int>)
    : (cs: seq<RoomSemanticContext>)
    requires |d| == |rooms|
    ensures |cs| == |rooms|
    ensures forall i :: 0 <= i < |rooms| ==>
      cs[i] == RoomSemanticContext(i, d[i], NormalizedDistance(d[i], maxDistance), IsLeaf(edges, i), i in path, rooms[i].size.z > 1)
  {
    seq(|rooms|, i requires 0 <= i < |rooms| =>
      RoomSemanticContext(i, d[i], NormalizedDistance(d[i], maxDistance), IsLeaf(edges, i), i in path, rooms[i].size.z > 1))
  }

  function WriteBack(rooms: seq<DungeonRoom>, d: seq<int>, path: seq<int>): (rs: seq<DungeonRoom>)
    requires |d| == |rooms|
    ensures |rs| == |rooms|
    ensures forall i :: 0 <= i < |rooms| ==> rs[i] == WithMetrics(rooms[i], d[i], i in path)
  {
    seq(|rooms|, i requires 0 <= i < |rooms| => WithMetrics(rooms[i], d[i], i in path))
  }

  lemma MetricsFromParts(rooms: seq<DungeonRoom>, entrance: int, edges: seq<Graphs.Edge>, d: seq<int>, m: GraphMetrics)
    requires Graphs.DistanceLabelling(edges, entrance, |rooms|, d)
    requires FarthestIn(d, m.maxDistance, m.farthest)
    requires MainPathOf(edges, entrance, |rooms|, d, m.farthest, m.mainPath)
    requires m.contexts == BuildContexts(rooms, edges, d, m.maxDistance, m.mainPath)
    requires m.rooms == WriteBack(rooms, d, m.mainPath)
    ensures MetricsHold(rooms, entrance, edges, m)
  {
    DistancesFromLabelling(edges, entrance, |rooms|, d, m.contexts);
    FarthestFromParts(m.contexts, d, m.maxDistance, m.farthest);
    MainPathFromParts(edges, entrance, rooms, d, m);
    FlagsFromParts(rooms, edges, d, m.contexts, m.maxDistance, m.mainPath);
    WriteBackFromParts(rooms, d, m.contexts, m.rooms, m.mainPath);
  }

  lemma FarthestFromParts(cs: seq<RoomSemanticContext>, d: seq<int>, maxDistance: int, farthest: int)
    requires |cs| == |d| && forall i :: 0 <= i < |cs| ==> cs[i].graphDistance == d[i]
    requires FarthestIn(d, maxDistance, farthest)
    ensures FarthestHolds(cs, maxDistance, farthest)
  {
  }

  lemma MainPathFromParts(edges: seq<Graphs.Edge>, entrance: int, rooms: seq<DungeonRoom>, d: seq<int>, m: GraphMetrics)
    requires FarthestIn(d, m.maxDistance, m.farthest) && |d| == |rooms|
    requires MainPathOf(edges, entrance, |rooms|, d, m.farthest, m.mainPath)
    requires m.contexts == BuildContexts(rooms, edges, d, m.maxDistance, m.mainPath)
    ensures MainPathHolds(edges, entrance, m.contexts, m)
  {
  }

  lemma FlagsFromParts(rooms: seq<DungeonRoom>, edges: seq<Graphs.Edge>, d: seq<int>, cs: seq<RoomSemanticContext>,
                       maxDistance: int, path: seq<int>)
    requires |d| == |rooms| && cs == BuildContexts(rooms, edges, d, maxDistance, path)
    ensures FlagsHold(rooms, edges, cs, maxDistance)
  {
  }

  lemma WriteBackFromParts(rooms: seq<DungeonRoom>, d: seq<int>, cs: seq<RoomSemanticContext>, rs: seq<DungeonRoom>, path: seq<int>)
    requires |d| == |rooms| == |cs| && rs == WriteBack(rooms, d, path)
    requires forall i :: 0 <= i < |cs| ==> cs[i].graphDistance == d[i] && cs[i].onMainPath == (i in path)
    ensures forall i :: 0 <= i < |rooms| ==>
      rs[i] == WithMetrics(rooms[i], cs[i].graphDistance, cs[i].onMainPath)
  {
  }

  lemma DistancesFromLabelling(edges: seq<Graphs.Edge>, entrance: int, n: int, d: seq<int>, cs: seq<RoomSemanticContext>)
    requires Graphs.DistanceLabelling(edges, entrance, n, d)
    requires |cs| == n && forall i :: 0 <= i < n ==> cs[i].graphDistance == d[i]
    ensures DistancesHold(edges, entrance, cs)
  {
    forall i | 0 <= i < n
      ensures -1 <= d[i]
      ensures 0 <= d[i] <==> Graphs.Reachable(edges, entrance, i)
      ensures 0 <= d[i] ==> Graphs.IsDistance(edges, entrance, i, d[i])
    {
      Graphs.LabellingIsDistance(edges, entrance, n, d, i);
    }
  }

  /** Distances are hop distances from the entrance, -1 exactly for unreachable rooms. */
  ghost predicate DistancesHold(edges: seq<Graphs.Edge>, entrance: int, cs: seq<RoomSemanticContext>) {
    && (forall i :: 0 <= i < |cs| ==> -1 <= cs[i].graphDistance)
    && (forall i :: 0 <= i < |cs| ==>
          (0 <= cs[i].graphDistance <==> Graphs.Reachable(edges, entrance, i)))
    && (forall i :: 0 <= i < |cs| && 0 <= cs[i].graphDistance ==>
          Graphs.IsDistance(edges, entrance, i, cs[i].graphDistance))
  }

  /** The farthest room is the first room at the largest distance. */
  predicate FarthestHolds(cs: seq<RoomSemanticContext>, maxDistance: int, farthest: int) {
    && 0 <= farthest < |cs| && cs[farthest].graphDistance == maxDistance && 0 <= maxDistance
    && (forall i :: 0 <= i < |cs| ==> cs[i].graphDistance <= maxDistance)
    && (forall i :: 0 <= i < farthest ==> cs[i].graphDistance < maxDistance)
  }

  /** The main path is a shortest walk from the farthest room back to the entrance, and it sets the flags. */
  ghost predicate MainPathHolds(edges: seq<Graphs.Edge>, entrance: int, cs: seq<RoomSemanticContext>, m: GraphMetrics) {
    && 0 <= m.maxDistance && |m.mainPath| == m.maxDistance + 1
    && m.mainPath[0] == m.farthest && m.mainPath[|m.mainPath| - 1] == entrance
    && (forall k :: 0 <= k < |m.mainPath| - 1 ==> Graphs.Adjacent(edges, m.mainPath[k], m.mainPath[k + 1]))
    && (forall i :: 0 <= i < |cs| ==> (cs[i].onMainPath <==> i in m.mainPath))
  }

  /** The per-room flags. */
  ghost predicate FlagsHold(rooms: seq<DungeonRoom>, edges: seq<Graphs.Edge>, cs: seq<RoomSemanticContext>, maxDistance: int)
    requires |cs| == |rooms|
  {
    && (forall i :: 0 <= i < |cs| ==> cs[i].roomArrayIndex == i)
    && (forall i :: 0 <= i < |cs| ==>
          cs[i].normalizedDistance == NormalizedDistance(cs[i].graphDistance, maxDistance))
    && (forall i :: 0 <= i < |cs| ==> (cs[i].isLeafNode <==>
          forall u, v :: Graphs.Adjacent(edges, i, u) && Graphs.Adjacent(edges, i, v) ==> u == v))
    && (forall i :: 0 <= i < |cs| ==> (cs[i].spansMultipleFloors <==> rooms[i].size.z > 1))
  }

  /** Everything ComputeGraphMetrics promises when there is an entrance. */
  ghost predicate MetricsHold(rooms: seq<DungeonRoom>, entrance: int, edges: seq<Graphs.Edge>, m: GraphMetrics)
    requires 0 <= entrance < |rooms| && |m.contexts| == |rooms| && |m.rooms| == |rooms|
  {
    && DistancesHold(edges, entrance, m.contexts)
    && FarthestHolds(m.contexts, m.maxDistance, m.farthest)
    && MainPathHolds(edges, entrance, m.contexts, m)
    && FlagsHold(rooms, edges, m.contexts, m.maxDistance)
    && (forall i :: 0 <= i < |rooms| ==>
          m.rooms[i] == WithMetrics(rooms[i], m.contexts[i].graphDistance, m.contexts[i].onMainPath))
  }
}

=== FILE: room_type_assignment.dfy ===
/**
 * Rule-driven room typing: the entrance keeps its type, the rules run in
 * descending priority, each rule types its best-scoring eligible rooms, a
 * Boss rule with no match relaxes its distance filter, and a last pass
 * guarantees a Boss when the configuration asks for one.
 *
 * Scores are exact reals; the source's float scores compared with a small
 * tolerance are not modelled.
 */
module RoomTypeAssignment {
  import opened Wrappers
  import opened DungeonTypes
  import opened DungeonConfig
  import opened RoomSemantics
  import SeqUtils

  // ------------------------------------------------------------ Rule order

  predicate SortedByPriority(rules: seq<RoomTypeRule>) {
    forall i, j :: 0 <= i < j < |rules| ==> rules[i].priority >= rules[j].priority
  }

  /** The rules of one priority, in list order. */
  function WithPriority(rules: seq<RoomTypeRule>, p: int): seq<RoomTypeRule> {
    if |rules| == 0 then []
    else (if rules[0].priority == p then [rules[0]] else []) + WithPriority(rules[1..], p)
  }

  function Keep(x: RoomTypeRule, p: int): seq<RoomTypeRule> {
    if x.priority == p then [x] else []
  }

  lemma WithPriorityCons(x: RoomTypeRule, rest: seq<RoomTypeRule>, p: int)
    ensures WithPriority([x] + rest, p) == Keep(x, p) + WithPriority(rest, p)
  {
    assert ([x] + rest)[1..] == rest;
  }

  lemma {:induction false} WithPriorityAppend(a: seq<RoomTypeRule>, b: seq<RoomTypeRule>, p: int)
    ensures WithPriority(a + b, p) == WithPriority(a, p) + WithPriority(b, p)
  {
    if |a| == 0 {
      assert a + b == b;
    } else {
      assert a + b == [a[0]] + (a[1..] + b);
      assert a == [a[0]] + a[1..];
      WithPriorityCons(a[0], a[1..] + b, p);
      WithPriorityCons(a[0], a[1..], p);
      WithPriorityAppend(a[1..], b, p);
    }
  }

  lemma {:induction false} WithPriorityNone(rules: seq<RoomTypeRule>, p: int)
    requires forall k :: 0 <= k < |rules| ==> rules[k].priority < p
    ensures WithPriority(rules, p) == []
  {
    if |rules| > 0 {
      WithPriorityNone(rules[1..], p);
    }
  }

  /** Puts r after every rule of the same or a higher priority. */
  function InsertByPriority(sorted: seq<RoomTypeRule>, r: RoomTypeRule): (out: seq<RoomTypeRule>)
    ensures multiset(out) == multiset(sorted) + multiset{r}
  {
    if |sorted| == 0 then [r]
    else if sorted[0].priority >= r.priority then
      assert sorted == [sorted[0]] + sorted[1..];
      [sorted[0]] + InsertByPriority(sorted[1..], r)
    else [r] + sorted
  }

  lemma {:induction false} InsertByPrioritySorted(sorted: seq<RoomTypeRule>, r: RoomTypeRule)
    requires SortedByPriority(sorted)
    ensures SortedByPriority(InsertByPriority(sorted, r))
  {
    if |sorted| > 0 && sorted[0].priority >= r.priority {
      var rest := InsertByPriority(sorted[1..], r);
      InsertByPrioritySorted(sorted[1..], r);
      forall x | x in rest
        ensures x.priority <= sorted[0].priority
      {
        assert x in multiset(sorted[1..]) + multiset{r};
      }
    }
  }

  /** The source's stable sort of the rules by descending priority. */
  function SortRules(rules: seq<RoomTypeRule>): (sorted: seq<RoomTypeRule>)
    ensures multiset(sorted) == multiset(rules)
    ensures SortedByPriority(sorted)
  {
    if |rules| == 0 then []
    else
      var init := SortRules(rules[..|rules| - 1]);
      assert rules == rules[..|rules| - 1] + [rules[|rules| - 1]];
      InsertByPrioritySorted(init, rules[|rules| - 1]);
      InsertByPriority(init, rules[|rules| - 1])
  }

  lemma {:induction false} InsertKeepsOrder(sorted: seq<RoomTypeRule>, r: RoomTypeRule, p: int)
    requires SortedByPriority(sorted)
    ensures WithPriority(InsertByPriority(sorted, r), p) == WithPriority(sorted, p) + Keep(r, p)
  {
    if |sorted| == 0 {
      WithPriorityCons(r, [], p);
      assert [r] == [r] + [];
    } else if sorted[0].priority >= r.priority {
      InsertKeepsOrder(sorted[1..], r, p);
      InsertAfterHead(sorted, r, p);
    } else {
      InsertBeforeAll(sorted, r, p);
    }
  }

  lemma InsertAfterHead(sorted: seq<RoomTypeRule>, r: RoomTypeRule, p: int)
    requires 0 < |sorted| && sorted[0].priority >= r.priority
    requires WithPriority(InsertByPriority(sorted[1..], r), p) == WithPriority(sorted[1..], p) + Keep(r, p)
    ensures WithPriority(InsertByPriority(sorted, r), p) == WithPriority(sorted, p) + Keep(r, p)
  {
    var rest := InsertByPriority(sorted[1..], r);
    var k, tail := Keep(sorted[0], p), WithPriority(sorted[1..], p);
    WithPriorityCons(sorted[0], rest, p);
    calc {
      WithPriority(InsertByPriority(sorted, r), p);
      WithPriority([sorted[0]] + rest, p);
      k + (tail + Keep(r, p));
      { AppendAssoc(k, tail, Keep(r, p)); }
      (k + tail) + Keep(r, p);
      WithPriority(sorted, p) + Keep(r, p);
    }
  }

  lemma AppendAssoc<T>(a: seq<T>, b: seq<T>, c: seq<T>)
    ensures a + (b + c) == (a + b) + c
  {
  }

  lemma InsertBeforeAll(sorted: seq<RoomTypeRule>, r: RoomTypeRule, p: int)
    requires SortedByPriority(sorted)
    requires 0 < |sorted| && sorted[0].priority < r.priority
    ensures WithPriority(InsertByPriority(sorted, r), p) == WithPriority(sorted, p) + Keep(r, p)
  {
    WithPriorityNone(sorted, r.priority);
    WithPriorityCons(r, sorted, p);
  }

  lemma StableStep(sortedInit: seq<RoomTypeRule>, init: seq<RoomTypeRule>, last: RoomTypeRule, p: int)
    requires SortedByPriority(sortedInit)
    requires WithPriority(sortedInit, p) == WithPriority(init, p)
    ensures WithPriority(InsertByPriority(sortedInit, last), p) == WithPriority(init + [last], p)
  {
    InsertKeepsOrder(sortedInit, last, p);
    WithPriorityAppend(init, [last], p);
    WithPriorityCons(last, [], p);
    assert [last] + [] == [last];
  }

  /** Stability: rules of equal priority keep their list order. */
  lemma {:induction false} SortRulesStable(rules: seq<RoomTypeRule>, p: int)
    ensures WithPriority(SortRules(rules), p) == WithPriority(rules, p)
  {
    if |rules| > 0 {
      var init, last := rules[..|rules| - 1], rules[|rules| - 1];
      assert rules == init + [last];
      SortRulesStable(init, p);
      StableStep(SortRules(init), init, last, p);
    }
  }

  // ------------------------------------------------------------ Eligibility and scores

  predicate MeetsMinSize(rule: RoomTypeRule, room: DungeonRoom) {
    rule.minSize == ZeroVec ||
    (rule.minSize.x <= room.size.x && rule.minSize.y <= room.size.y && rule.minSize.z <= room.size.z)
  }

  /** The hard filters: unassigned, reachable, inside the rule's distance band, multi-floor and size. */
  predicate Eligible(rule: RoomTypeRule, ctx: RoomSemanticContext, room: DungeonRoom, taken: set<int>, i: int) {
    && i !in taken
    && 0 <= ctx.graphDistance
    && rule.minGraphDistanceFromEntrance <= ctx.normalizedDistance <= rule.maxGraphDistanceFromEntrance
    && (rule.requireMultiFloor ==> ctx.spansMultipleFloors)
    && MeetsMinSize(rule, room)
  }

  function Abs(x: real): (r: real)
    ensures 0.0 <= r && (r == x || r == -x)
  {
    if x < 0.0 then -x else x
  }

  /** Leaf and main-path bonuses plus a bonus for lying near the middle of the distance band. */
  function Score(rule: RoomTypeRule, ctx: RoomSemanticContext): (s: real)
    ensures s <= 2.5
  {
    var mid := (rule.minGraphDistanceFromEntrance + rule.maxGraphDistanceFromEntrance) * 0.5;
    (if rule.preferLeafNodes && ctx.isLeafNode then 1.0 else 0.0)
    + (if rule.preferMainPath && ctx.onMainPath then 1.0 else 0.0)
    + 0.5 * (1.0 - Abs(ctx.normalizedDistance - mid))
  }

  function Scores(rule: RoomTypeRule, contexts: seq<RoomSemanticContext>): (sc: seq<real>)
    ensures |sc| == |contexts|
    ensures forall i :: 0 <= i < |contexts| ==> sc[i] == Score(rule, contexts[i])
  {
    seq(|contexts|, i requires 0 <= i < |contexts| => Score(rule, contexts[i]))
  }

  /** The eligible rooms at or after `from`, in ascending order. */
  function EligibleFrom(rule: RoomTypeRule, contexts: seq<RoomSemanticContext>, rooms: seq<DungeonRoom>,
                        taken: set<int>, from: nat): (cs: seq<int>)
    requires |contexts| == |rooms| && from <= |rooms|
    ensures forall i :: i in cs <==> from <= i < |rooms| && Eligible(rule, contexts[i], rooms[i], taken, i)
    ensures forall a, b :: 0 <= a < b < |cs| ==> cs[a] < cs[b]
    ensures forall a :: 0 <= a < |cs| ==> from <= cs[a] < |rooms|
    decreases |rooms| - from
  {
    if from == |rooms| then []
    else
      var rest := EligibleFrom(rule, contexts, rooms, taken, from + 1);
      if Eligible(rule, contexts[from], rooms[from], taken, from) then [from] + rest else rest
  }

  // ------------------------------------------------------------ Ranking

  /** a ranks before b: a higher score, or the same score and a lower index. */
  predicate Better(sc: seq<real>, a: int, b: int)
    requires 0 <= a < |sc| && 0 <= b < |sc|
  {
    sc[a] > sc[b] || (sc[a] == sc[b] && a < b)
  }

  predicate InRange(sc: seq<real>, cs: seq<int>) {
    forall k :: 0 <= k < |cs| ==> 0 <= cs[k] < |sc|
  }


  /** Every candidate ranks before every later one. */
  predicate Ranked(sc: seq<real>, cs: seq<int>)
    requires InRange(sc, cs)
  {
    forall a, b :: 0 <= a < b < |cs| ==> Better(sc, cs[a], cs[b])
  }

  function InsertCandidate(sc: seq<real>, sorted: seq<int>, c: int): (out: seq<int>)
    requires InRange(sc, sorted) && 0 <= c < |sc|
    ensures multiset(out) == multiset(sorted) + multiset{c}
    ensures InRange(sc, out)
  {
    if |sorted| == 0 then [c]
    else if Better(sc, sorted[0], c) then
      var rest := InsertCandidate(sc, sorted[1..], c);
      assert sorted == [sorted[0]] + sorted[1..];
      [sorted[0]] + rest
    else [c] + sorted
  }

  /** Insertion sort of the candidates by rank. */
  function SortCandidates(sc: seq<real>, cs: seq<int>): (out: seq<int>)
    requires InRange(sc, cs)
    ensures multiset(out) == multiset(cs)
    ensures InRange(sc, out)
  {
    if |cs| == 0 then []
    else
      assert cs == cs[..|cs| - 1] + [cs[|cs| - 1]];
      InsertCandidate(sc, SortCandidates(sc, cs[..|cs| - 1]), cs[|cs| - 1])
  }

  /** A ranked list stays ranked under a head that outranks all of it. */
  lemma RankedCons(sc: seq<real>, h: int, xs: seq<int>)
    requires 0 <= h < |sc| && InRange(sc, xs) && Ranked(sc, xs)
    requires forall k :: 0 <= k < |xs| ==> Better(sc, h, xs[k])
    ensures InRange(sc, [h] + xs) && Ranked(sc, [h] + xs)
  {
    var out := [h] + xs;
    forall a, b | 0 <= a < b < |out|
      ensures Better(sc, out[a], out[b])
    {
      assert out[b] == xs[b - 1];
      if a > 0 {
        assert out[a] == xs[a - 1];
      }
    }
  }

  /** An element of a ranked list's tail ranks below its head. */
  lemma HeadOutranksTail(sc: seq<real>, sorted: seq<int>, x: int)
    requires InRange(sc, sorted) && Ranked(sc, sorted) && |sorted| > 0 && x in sorted[1..]
    ensures Better(sc, sorted[0], x)
  {
    var j :| 0 <= j < |sorted[1..]| && sorted[1..][j] == x;
    assert sorted[j + 1] == x;
  }

  /** A candidate that outranks the head of a ranked list can go in front of it. */
  lemma RankedInFront(sc: seq<real>, sorted: seq<int>, c: int)
    requires InRange(sc, sorted) && Ranked(sc, sorted) && |sorted| > 0
    requires 0 <= c < |sc| && Better(sc, c, sorted[0])
    ensures InRange(sc, [c] + sorted) && Ranked(sc, [c] + sorted)
  {
    forall k | 0 <= k < |sorted|
      ensures Better(sc, c, sorted[k])
    {
      if k > 0 {
        assert Better(sc, sorted[0], sorted[k]);
      }
    }
    RankedCons(sc, c, sorted);
  }

  /** A head that outranks the new candidate stays in front of the ranked rest. */
  lemma RankedBehindHead(sc: seq<real>, sorted: seq<int>, c: int, rest: seq<int>)
    requires InRange(sc, sorted) && Ranked(sc, sorted) && |sorted| > 0
    requires 0 <= c < |sc| && Better(sc, sorted[0], c)
    requires InRange(sc, rest) && Ranked(sc, rest)
    requires multiset(rest) == multiset(sorted[1..]) + multiset{c}
    ensures InRange(sc, [sorted[0]] + rest) && Ranked(sc, [sorted[0]] + rest)
  {
    forall k | 0 <= k < |rest|
      ensures Better(sc, sorted[0], rest[k])
    {
      assert rest[k] in multiset(rest);
      if rest[k] != c {
        HeadOutranksTail(sc, sorted, rest[k]);
      }
    }
    RankedCons(sc, sorted[0], rest);
  }

  lemma {:induction false} InsertCandidateRanked(sc: seq<real>, sorted: seq<int>, c: int)
    requires InRange(sc, sorted) && 0 <= c < |sc| && c !in sorted
    requires Ranked(sc, sorted)
    ensures Ranked(sc, InsertCandidate(sc, sorted, c))
  {
    if |sorted| == 0 {
    } else if Better(sc, sorted[0], c) {
      var tail := sorted[1..];
      var rest := InsertCandidate(sc, tail, c);
      assert InsertCandidate(sc, sorted, c) == [sorted[0]] + rest;
      assert c !in tail;
      InsertCandidateRanked(sc, tail, c);
      RankedBehindHead(sc, sorted, c, rest);
    } else {
      assert InsertCandidate(sc, sorted, c) == [c] + sorted;
      assert sorted[0] in sorted;
      assert Better(sc, c, sorted[0]);
      RankedInFront(sc, sorted, c);
    }
  }

  lemma {:induction false} SortCandidatesRanked(sc: seq<real>, cs: seq<int>)
    requires InRange(sc, cs) && SeqUtils.Distinct(cs)
    ensures Ranked(sc, SortCandidates(sc, cs))
  {
    if |cs| > 0 {
      var init, last := cs[..|cs| - 1], cs[|cs| - 1];
      SortCandidatesRanked(sc, init);
      var s := SortCandidates(sc, init);
      assert last !in multiset(init) by {
        forall k | 0 <= k < |init|
          ensures init[k] != last
        {
          assert init[k] == cs[k];
        }
      }
      assert last !in s;
      InsertCandidateRanked(sc, s, last);
    }
  }

  /** The head of a ranked list outranks every other element. */
  lemma HeadBest(sc: seq<real>, cs: seq<int>, x: int)
    requires InRange(sc, cs) && Ranked(sc, cs) && x in cs
    ensures x == cs[0] || Better(sc, cs[0], x)
  {
    var i :| 0 <= i < |cs| && cs[i] == x;
    if i > 0 {
      assert Better(sc, cs[0], cs[i]);
    }
  }

  /** A ranked list of distinct candidates is determined by its elements. */
  lemma {:induction false} RankedUnique(sc: seq<real>, a: seq<int>, b: seq<int>)
    requires InRange(sc, a) && InRange(sc, b) && Ranked(sc, a) && Ranked(sc, b)
    requires multiset(a) == multiset(b)
    ensures a == b
  {
    if |a| == 0 {
      assert |b| == |multiset(b)| == 0;
    } else {
      assert |b| == |multiset(b)| == |multiset(a)| == |a|;
      assert a[0] == b[0] by {
        assert a[0] in multiset(b) && b[0] in multiset(a);
        HeadBest(sc, a, b[0]);
        HeadBest(sc, b, a[0]);
      }
      assert multiset(a[1..]) == multiset(b[1..]) by {
        assert a == [a[0]] + a[1..] && b == [b[0]] + b[1..];
        assert multiset(a[1..]) == multiset(a) - multiset{a[0]};
        assert multiset(b[1..]) == multiset(b) - multiset{b[0]};
      }
      RankedTail(sc, a);
      RankedTail(sc, b);
      RankedUnique(sc, a[1..], b[1..]);
      assert a == [a[0]] + a[1..] && b == [b[0]] + b[1..];
    }
  }

  /** The tail of a ranked list is ranked. */
  lemma RankedTail(sc: seq<real>, a: seq<int>)
    requires InRange(sc, a) && Ranked(sc, a) && |a| > 0
    ensures InRange(sc, a[1..]) && Ranked(sc, a[1..])
  {
    forall x, y | 0 <= x < y < |a[1..]|
      ensures Better(sc, a[1..][x], a[1..][y])
    {
      assert a[1..][x] == a[x + 1] && a[1..][y] == a[y + 1];
    }
  }

  /** How many rooms a rule types: its count, clamped to [0, number of candidates]. */
  function TakeCount(count: int, available: nat): (k: nat)
    ensures k <= available
    ensures count <= 0 ==> k == 0
    ensures 0 < count ==> k <= count && (k == available || k == count)
  {
    if count <= 0 then 0 else if count < available then count else available
  }

  /** The rooms one rule types in its main phase: the first TakeCount of the ranked candidates. */
  function RuleChoice(rule: RoomTypeRule, contexts: seq<RoomSemanticContext>, rooms: seq<DungeonRoom>,
                      taken: set<int>): (chosen: seq<int>)
    requires |contexts| == |rooms|
    ensures forall k :: 0 <= k < |chosen| ==> 0 <= chosen[k] < |rooms|
  {
    var sc := Scores(rule, contexts);
    var ranked := SortCandidates(sc, EligibleFrom(rule, contexts, rooms, taken, 0));
    ranked[..TakeCount(rule.count, |ranked|)]
  }

  lemma SeqCard(cs: seq<int>)
    requires SeqUtils.Distinct(cs)
    ensures |set x | x in cs| == |cs|
  {
    if |cs| > 0 {
      var init := cs[..|cs| - 1];
      SeqCard(init);
      assert (set x | x in cs) == (set x | x in init) + {cs[|cs| - 1]};
    }
  }

  lemma RankedDistinct(sc: seq<real>, cs: seq<int>)
    requires InRange(sc, cs) && Ranked(sc, cs)
    ensures SeqUtils.Distinct(cs)
  {
    forall a, b | 0 <= a < b < |cs|
      ensures cs[a] != cs[b]
    {
      assert Better(sc, cs[a], cs[b]);
    }
  }

  /** The rooms that pass a rule's hard filters. */
  function EligibleSet(rule: RoomTypeRule, contexts: seq<RoomSemanticContext>, rooms: seq<DungeonRoom>,
                       taken: set<int>): (e: set<int>)
    requires |contexts| == |rooms|
    ensures forall i :: i in e <==> 0 <= i < |rooms| && Eligible(rule, contexts[i], rooms[i], taken, i)
  {
    set i | 0 <= i < |rooms| && Eligible(rule, contexts[i], rooms[i], taken, i)
  }

  /**
   * chosen is a top-count selection from eligible: eligible and distinct
   * members, exactly as many as the clamped count, each outranking every
   * eligible room left out.
   */
  predicate TopChoice(sc: seq<real>, eligible: set<int>, count: int, chosen: seq<int>)
    requires InRange(sc, chosen)
    requires forall u :: u in eligible ==> 0 <= u < |sc|
  {
    && (forall c :: c in chosen ==> c in eligible)
    && SeqUtils.Distinct(chosen)
    && |chosen| == TakeCount(count, |eligible|)
    && (forall a, u :: 0 <= a < |chosen| && u in eligible && u !in chosen ==> Better(sc, chosen[a], u))
  }

  lemma RankedPrefixIsTop(sc: seq<real>, ranked: seq<int>, eligible: set<int>, count: int)
    requires InRange(sc, ranked) && Ranked(sc, ranked)
    requires forall x :: x in ranked <==> x in eligible
    ensures forall u :: u in eligible ==> 0 <= u < |sc|
    ensures TopChoice(sc, eligible, count, ranked[..TakeCount(count, |ranked|)])
  {
    RankedDistinct(sc, ranked);
    var members := set x | x in ranked;
    forall x
      ensures x in members <==> x in eligible
    {
    }
    assert members == eligible;
    SeqCard(ranked);
    var k := TakeCount(count, |ranked|);
    var chosen := ranked[..k];
    forall a, u | 0 <= a < |chosen| && u in eligible && u !in chosen
      ensures Better(sc, chosen[a], u)
    {
      var j :| 0 <= j < |ranked| && ranked[j] == u;
    }
  }

  /** The main phase of a rule types the top TakeCount eligible rooms. */
  lemma RuleChoiceIsTop(rule: RoomTypeRule, contexts: seq<RoomSemanticContext>,
                        rooms: seq<DungeonRoom>, taken: set<int>)
    requires |contexts| == |rooms|
    ensures TopChoice(Scores(rule, contexts), EligibleSet(rule, contexts, rooms, taken), rule.count,
                      RuleChoice(rule, contexts, rooms, taken))
  {
    var sc := Scores(rule, contexts);
    var cs := EligibleFrom(rule, contexts, rooms, taken, 0);
    var ranked := SortCandidates(sc, cs);
    assert SeqUtils.Distinct(cs) by {
      forall a, b | 0 <= a < b < |cs|
        ensures cs[a] != cs[b]
      {
        assert cs[a] < cs[b];
      }
    }
    SortCandidatesRanked(sc, cs);
    var eligible := EligibleSet(rule, contexts, rooms, taken);
    forall x
      ensures x in ranked <==> x in eligible
    {
      assert x in ranked <==> x in multiset(cs);
    }
    RankedPrefixIsTop(sc, ranked, eligible, rule.count);
  }

  // ------------------------------------------------------------ Best single room

  /**
   * A left-to-right scan that keeps the first candidate scoring strictly
   * above the best so far, starting from (bestIdx, bestScore).
   */
  function BestFrom(sc: seq<real>, cs: seq<int>, bestIdx: int, bestScore: real): (r: (int, real))
    requires InRange(sc, cs)
    requires forall a, b :: 0 <= a < b < |cs| ==> cs[a] < cs[b]
    requires forall k :: 0 <= k < |cs| ==> bestIdx < cs[k]
    ensures forall k :: 0 <= k < |cs| ==> sc[cs[k]] <= r.1
    ensures bestScore <= r.1
    ensures (r.0 == bestIdx && r.1 == bestScore) || (r.0 in cs && sc[r.0] == r.1 && bestScore < r.1)
    ensures r.0 in cs ==> sc[r.0] == r.1 && forall k :: 0 <= k < |cs| && cs[k] == r.0 ==>
      forall j :: 0 <= j < k ==> sc[cs[j]] < r.1
  {
    if |cs| == 0 then (bestIdx, bestScore)
    else
      AscendingTail(sc, cs);
      if sc[cs[0]] > bestScore then BestFrom(sc, cs[1..], cs[0], sc[cs[0]])
      else BestFrom(sc, cs[1..], bestIdx, bestScore)
  }

  /** The tail of a strictly ascending candidate list is in range, ascending, and above its head. */
  lemma AscendingTail(sc: seq<real>, cs: seq<int>)
    requires InRange(sc, cs) && |cs| > 0
    requires forall a, b :: 0 <= a < b < |cs| ==> cs[a] < cs[b]
    ensures InRange(sc, cs[1..])
    ensures forall a, b :: 0 <= a < b < |cs[1..]| ==> cs[1..][a] < cs[1..][b]
    ensures forall k :: 0 <= k < |cs[1..]| ==> cs[0] < cs[1..][k] && cs[1..][k] == cs[k + 1]
  {
  }

  /** The first candidate with the strictly highest score above -1, as the source's scan finds it. */
  function PickBest(sc: seq<real>, cs: seq<int>): (r: Option<int>)
    requires InRange(sc, cs)
    requires forall a, b :: 0 <= a < b < |cs| ==> cs[a] < cs[b]
    requires forall k :: 0 <= k < |cs| ==> 0 <= cs[k]
    ensures r.None? <==> forall k :: 0 <= k < |cs| ==> sc[cs[k]] <= -1.0
    ensures r.Some? ==> r.value in cs && -1.0 < sc[r.value]
    ensures r.Some? ==> forall k :: 0 <= k < |cs| ==> sc[cs[k]] <= sc[r.value]
    ensures r.Some? ==> forall k :: 0 <= k < |cs| && cs[k] < r.value ==> sc[cs[k]] < sc[r.value]
  {
    var best := BestFrom(sc, cs, -1, -1.0);
    if best.0 >= 0 then
      assert best.0 in cs;
      Some(best.0)
    else
      None
  }

  /** The reachable rooms not yet typed, at or after `from`, ascending. */
  function OpenFrom(contexts: seq<RoomSemanticContext>, taken: set<int>, from: nat): (cs: seq<int>)
    requires from <= |contexts|
    ensures forall i :: i in cs <==> from <= i < |contexts| && i !in taken && 0 <= contexts[i].graphDistance
    ensures forall a, b :: 0 <= a < b < |cs| ==> cs[a] < cs[b]
    ensures forall a :: 0 <= a < |cs| ==> from <= cs[a] < |contexts|
    decreases |contexts| - from
  {
    if from == |contexts| then []
    else
      var rest := OpenFrom(contexts, taken, from + 1);
      if from !in taken && 0 <= contexts[from].graphDistance then [from] + rest else rest
  }

  /** The relaxed Boss score: the main-path bonus when the rule prefers it, plus the normalised distance. */
  function FallbackScores(rule: RoomTypeRule, contexts: seq<RoomSemanticContext>): (sc: seq<real>)
    ensures |sc| == |contexts|
    ensures forall i :: 0 <= i < |contexts| ==> 0.0 <= contexts[i].normalizedDistance ==> 0.0 <= sc[i]
  {
    seq(|contexts|, i requires 0 <= i < |contexts| =>
      (if rule.preferMainPath && contexts[i].onMainPath then 1.0 else 0.0) + contexts[i].normalizedDistance)
  }

  /** The global Boss score: the normalised distance plus 10 on the main path. */
  function GlobalScores(contexts: seq<RoomSemanticContext>): (sc: seq<real>)
    ensures |sc| == |contexts|
    ensures forall i :: 0 <= i < |contexts| && contexts[i].onMainPath ==> sc[i] >= 10.0 + contexts[i].normalizedDistance
    ensures forall i :: 0 <= i < |contexts| && !contexts[i].onMainPath ==> sc[i] == contexts[i].normalizedDistance
  {
    seq(|contexts|, i requires 0 <= i < |contexts| =>
      contexts[i].normalizedDistance + (if contexts[i].onMainPath then 10.0 else 0.0))
  }

  // ------------------------------------------------------------ Applying the rules

  /** The room types so far, the rooms already typed, and whether a Boss has been placed. */
  datatype Assignment = Assignment(types: seq<RoomType>, taken: set<int>, bossAssigned: bool)

  /** Gives every listed room type t. */
  function Retype(types: seq<RoomType>, chosen: seq<int>, t: RoomType): (out: seq<RoomType>)
    ensures |out| == |types|
    ensures forall i :: 0 <= i < |types| ==> out[i] == (if i in chosen then t else types[i])
  {
    seq(|types|, i requires 0 <= i < |types| => if i in chosen then t else types[i])
  }

  function Take(st: Assignment, chosen: seq<int>, t: RoomType): (st': Assignment)
    ensures |st'.types| == |st.types|
  {
    Assignment(Retype(st.types, chosen, t), st.taken + (set c | c in chosen), st.bossAssigned)
  }

  /**
   * One rule: Entrance rules are skipped; otherwise the top-ranked eligible
   * rooms take the rule's type, and a Boss rule that typed nothing falls
   * back, when the configuration guarantees a Boss, to the best reachable
   * untyped room with the distance band ignored.
   */
  function ApplyRule(st: Assignment, rule: RoomTypeRule, contexts: seq<RoomSemanticContext>,
                     rooms: seq<DungeonRoom>, guaranteeBoss: bool): (st': Assignment)
    requires |st.types| == |rooms| == |contexts|
    ensures |st'.types| == |st.types|
  {
    if rule.roomType == RoomType.Entrance then st
    else
      var main := MainStep(st, rule, contexts, rooms);
      if rule.roomType == Boss && main.taken == st.taken && guaranteeBoss then Fallback(main, rule, contexts)
      else main
  }

  /** The main phase of a rule: its top choice takes the rule's type. */
  function MainStep(st: Assignment, rule: RoomTypeRule, contexts: seq<RoomSemanticContext>,
                    rooms: seq<DungeonRoom>): (st': Assignment)
    requires |st.types| == |rooms| == |contexts|
    ensures |st'.types| == |st.types|
  {
    var chosen := RuleChoice(rule, contexts, rooms, st.taken);
    Take(st, chosen, rule.roomType).(bossAssigned := st.bossAssigned || (rule.roomType == Boss && |chosen| > 0))
  }

  /** The relaxed Boss choice: the best reachable untaken room by FallbackScores, if any. */
  function Fallback(st: Assignment, rule: RoomTypeRule, contexts: seq<RoomSemanticContext>): (st': Assignment)
    requires |st.types| == |contexts|
    ensures |st'.types| == |st.types|
  {
    match PickBest(FallbackScores(rule, contexts), OpenFrom(contexts, st.taken, 0))
    case Some(b) => Take(st, [b], Boss).(bossAssigned := true)
    case None => st
  }

  function ApplyRules(st: Assignment, rules: seq<RoomTypeRule>, contexts: seq<RoomSemanticContext>,
                      rooms: seq<DungeonRoom>, guaranteeBoss: bool): (st': Assignment)
    requires |st.types| == |rooms| == |contexts|
    ensures |st'.types| == |st.types|
    decreases |rules|
  {
    if |rules| == 0 then st
    else ApplyRules(ApplyRule(st, rules[0], contexts, rooms, guaranteeBoss), rules[1..], contexts, rooms, guaranteeBoss)
  }

  /** With a Boss guaranteed and none placed, the best reachable untyped room by GlobalScores becomes the Boss. */
  function GlobalBoss(st: Assignment, contexts: seq<RoomSemanticContext>, guaranteeBoss: bool): (st': Assignment)
    requires |st.types| == |contexts|
    ensures |st'.types| == |st.types|
  {
    if guaranteeBoss && !st.bossAssigned then
      match PickBest(GlobalScores(contexts), OpenFrom(contexts, st.taken, 0))
      case Some(b) => Take(st, [b], Boss).(bossAssigned := true)
      case None => st
    else st
  }

  function TypesOf(rooms: seq<DungeonRoom>): (ts: seq<RoomType>)
    ensures |ts| == |rooms| && forall i :: 0 <= i < |rooms| ==> ts[i] == rooms[i].roomType
  {
    seq(|rooms|, i requires 0 <= i < |rooms| => rooms[i].roomType)
  }

  /** The entrance, when its position is valid, is typed first and counts as taken. */
  function Initial(rooms: seq<DungeonRoom>, entrance: int): (st: Assignment)
    ensures |st.types| == |rooms|
  {
    if 0 <= entrance < |rooms| then Assignment(TypesOf(rooms)[entrance := RoomType.Entrance], {entrance}, false)
    else Assignment(TypesOf(rooms), {}, false)
  }

  function FinalAssignment(rooms: seq<DungeonRoom>, entrance: int, contexts: seq<RoomSemanticContext>,
                           cfg: DungeonConfiguration): (st: Assignment)
    requires |contexts| == |rooms|
    ensures |st.types| == |rooms|
  {
    var st := ApplyRules(Initial(rooms, entrance), SortRules(cfg.roomTypeRules), contexts, rooms, cfg.guaranteeBossRoom);
    GlobalBoss(st, contexts, cfg.guaranteeBossRoom)
  }

  function WithTypes(rooms: seq<DungeonRoom>, types: seq<RoomType>): (out: seq<DungeonRoom>)
    requires |types| == |rooms|
    ensures |out| == |rooms|
    ensures forall i :: 0 <= i < |rooms| ==> out[i] == rooms[i].(roomType := types[i])
  {
    seq(|rooms|, i requires 0 <= i < |rooms| => rooms[i].(roomType := types[i]))
  }

  /** AssignRoomTypes: the rooms with their new types; an empty room list is returned as is. */
  function AssignRoomTypes(rooms: seq<DungeonRoom>, entrance: int, contexts: seq<RoomSemanticContext>,
                           cfg: DungeonConfiguration): (out: seq<DungeonRoom>)
    requires |contexts| == |rooms|
    ensures |out| == |rooms|
    ensures forall i :: 0 <= i < |rooms| ==> out[i] == rooms[i].(roomType := out[i].roomType)
  {
    if |rooms| == 0 then rooms
    else WithTypes(rooms, FinalAssignment(rooms, entrance, contexts, cfg).types)
  }

  // ------------------------------------------------------------ Properties

  /** Some taken room is typed Boss. */
  predicate HasTakenBoss(st: Assignment) {
    exists i :: 0 <= i < |st.types| && i in st.taken && st.types[i] == Boss
  }

  /**
   * What every stage keeps: taken rooms are in range and are the entrance
   * or reachable, untaken rooms keep their original type, the entrance is
   * taken and typed Entrance, and a recorded Boss is a taken room.
   */
  predicate Sound(st: Assignment, types0: seq<RoomType>, contexts: seq<RoomSemanticContext>, entrance: int)
    requires |st.types| == |types0| == |contexts|
  {
    && (forall i :: i in st.taken ==> 0 <= i < |types0| && (i == entrance || 0 <= contexts[i].graphDistance))
    && (forall i :: 0 <= i < |types0| && i !in st.taken ==> st.types[i] == types0[i])
    && (0 <= entrance < |types0| ==> entrance in st.taken && st.types[entrance] == RoomType.Entrance)
    && (st.bossAssigned ==> HasTakenBoss(st))
  }

  /** A later stage only adds taken rooms and never retypes a taken one. */
  predicate Grows(st: Assignment, st': Assignment)
    requires |st.types| == |st'.types|
  {
    && st.taken <= st'.taken
    && (forall i :: 0 <= i < |st.types| && (i in st.taken || i !in st'.taken) ==> st'.types[i] == st.types[i])
  }

  /** Rooms that may be taken: in range, untaken and reachable. */
  predicate Fresh(st: Assignment, contexts: seq<RoomSemanticContext>, chosen: seq<int>)
    requires |st.types| == |contexts|
  {
    forall c :: c in chosen ==> 0 <= c < |contexts| && c !in st.taken && 0 <= contexts[c].graphDistance
  }

  lemma TakeSound(st: Assignment, types0: seq<RoomType>, contexts: seq<RoomSemanticContext>, entrance: int,
                  chosen: seq<int>, t: RoomType)
    requires |st.types| == |types0| == |contexts|
    requires Sound(st, types0, contexts, entrance) && Fresh(st, contexts, chosen)
    ensures Sound(Take(st, chosen, t), types0, contexts, entrance)
    ensures Grows(st, Take(st, chosen, t))
    ensures forall i :: i in Take(st, chosen, t).taken - st.taken ==> i in chosen && Take(st, chosen, t).types[i] == t
  {
    var st' := Take(st, chosen, t);
    if st.bossAssigned {
      var j :| 0 <= j < |st.types| && j in st.taken && st.types[j] == Boss;
      assert j !in chosen;
      assert st'.types[j] == Boss;
    }
  }

  /** Taking a room as Boss records a taken Boss. */
  lemma TakeBoss(st: Assignment, contexts: seq<RoomSemanticContext>, b: int)
    requires |st.types| == |contexts| && 0 <= b < |contexts|
    ensures HasTakenBoss(Take(st, [b], Boss))
  {
    assert b in [b];
    assert Take(st, [b], Boss).types[b] == Boss;
  }

  lemma RuleChoiceFresh(rule: RoomTypeRule, st: Assignment, contexts: seq<RoomSemanticContext>, rooms: seq<DungeonRoom>)
    requires |st.types| == |rooms| == |contexts|
    ensures Fresh(st, contexts, RuleChoice(rule, contexts, rooms, st.taken))
  {
    RuleChoiceIsTop(rule, contexts, rooms, st.taken);
  }

  lemma PickFresh(st: Assignment, contexts: seq<RoomSemanticContext>, sc: seq<real>, b: int)
    requires |st.types| == |contexts| == |sc|
    requires b in OpenFrom(contexts, st.taken, 0)
    ensures Fresh(st, contexts, [b])
  {
  }

  lemma MainStepSound(st: Assignment, rule: RoomTypeRule, contexts: seq<RoomSemanticContext>,
                      rooms: seq<DungeonRoom>, types0: seq<RoomType>, entrance: int)
    requires |st.types| == |rooms| == |contexts| == |types0|
    requires Sound(st, types0, contexts, entrance)
    ensures var st' := MainStep(st, rule, contexts, rooms);
      && Sound(st', types0, contexts, entrance)
      && Grows(st, st')
      && (forall i :: i in st'.taken - st.taken ==> st'.types[i] == rule.roomType)
      && st'.taken - st.taken == (set c | c in RuleChoice(rule, contexts, rooms, st.taken))
      && (st'.taken == st.taken <==> RuleChoice(rule, contexts, rooms, st.taken) == [])
      && (st'.bossAssigned <==> st.bossAssigned || (rule.roomType == Boss && st'.taken != st.taken))
  {
    var chosen := RuleChoice(rule, contexts, rooms, st.taken);
    RuleChoiceFresh(rule, st, contexts, rooms);
    TakeSound(st, types0, contexts, entrance, chosen, rule.roomType);
    var main := MainStep(st, rule, contexts, rooms);
    if |chosen| > 0 {
      assert chosen[0] in main.taken - st.taken;
      if rule.roomType == Boss {
        assert main.types[chosen[0]] == Boss;
      }
    }
  }

  lemma FallbackSound(st: Assignment, rule: RoomTypeRule, contexts: seq<RoomSemanticContext>,
                      types0: seq<RoomType>, entrance: int)
    requires |st.types| == |contexts| == |types0|
    requires Sound(st, types0, contexts, entrance)
    ensures var st' := Fallback(st, rule, contexts);
      && Sound(st', types0, contexts, entrance)
      && Grows(st, st')
      && (forall i :: i in st'.taken - st.taken ==> st'.types[i] == Boss)
      && |st'.taken - st.taken| <= 1
      && (st'.bossAssigned <==> st.bossAssigned || st'.taken != st.taken)
  {
    var pick := PickBest(FallbackScores(rule, contexts), OpenFrom(contexts, st.taken, 0));
    if pick.Some? {
      PickFresh(st, contexts, FallbackScores(rule, contexts), pick.value);
      TakeBossSound(st, contexts, types0, entrance, pick.value);
    }
  }

  /** Taking one fresh room as Boss. */
  lemma TakeBossSound(st: Assignment, contexts: seq<RoomSemanticContext>, types0: seq<RoomType>, entrance: int, b: int)
    requires |st.types| == |contexts| == |types0|
    requires Sound(st, types0, contexts, entrance) && Fresh(st, contexts, [b])
    ensures var st' := Take(st, [b], Boss).(bossAssigned := true);
      && Sound(st', types0, contexts, entrance)
      && Grows(st, st')
      && st'.taken - st.taken == {b}
      && st'.types[b] == Boss
  {
    assert b in [b];
    TakeSound(st, types0, contexts, entrance, [b], Boss);
    TakeBoss(st, contexts, b);
  }

  /**
   * One rule keeps the stage sound and only grows it; the rooms it newly
   * takes all get the rule's type; it records a Boss exactly when a Boss
   * rule took a room; and what it takes is the rule's top choice, or,
   * for a Boss rule with an empty choice, at most one fallback room.
   */
  lemma ApplyRuleSound(st: Assignment, rule: RoomTypeRule, contexts: seq<RoomSemanticContext>,
                       rooms: seq<DungeonRoom>, guaranteeBoss: bool, types0: seq<RoomType>, entrance: int)
    requires |st.types| == |rooms| == |contexts| == |types0|
    requires Sound(st, types0, contexts, entrance)
    ensures var st' := ApplyRule(st, rule, contexts, rooms, guaranteeBoss);
      && Sound(st', types0, contexts, entrance)
      && Grows(st, st')
      && (forall i :: i in st'.taken - st.taken ==> st'.types[i] == rule.roomType)
      && (st'.bossAssigned <==> st.bossAssigned || (rule.roomType == Boss && st'.taken != st.taken))
      && (rule.roomType == RoomType.Entrance ==> st' == st)
      && (rule.roomType != RoomType.Entrance ==>
            var chosen := RuleChoice(rule, contexts, rooms, st.taken);
            st'.taken - st.taken == (set c | c in chosen) ||
            (rule.roomType == Boss && guaranteeBoss && chosen == [] && |st'.taken - st.taken| <= 1))
  {
    if rule.roomType != RoomType.Entrance {
      var main := MainStep(st, rule, contexts, rooms);
      MainStepSound(st, rule, contexts, rooms, types0, entrance);
      if rule.roomType == Boss && main.taken == st.taken && guaranteeBoss {
        FallbackSound(main, rule, contexts, types0, entrance);
      }
    }
  }

  lemma {:induction false} ApplyRulesSound(st: Assignment, rules: seq<RoomTypeRule>, contexts: seq<RoomSemanticContext>,
                                           rooms: seq<DungeonRoom>, guaranteeBoss: bool, types0: seq<RoomType>, entrance: int)
    requires |st.types| == |rooms| == |contexts| == |types0|
    requires Sound(st, types0, contexts, entrance)
    ensures Sound(ApplyRules(st, rules, contexts, rooms, guaranteeBoss), types0, contexts, entrance)
    ensures Grows(st, ApplyRules(st, rules, contexts, rooms, guaranteeBoss))
    decreases |rules|
  {
    if |rules| > 0 {
      var st1 := ApplyRule(st, rules[0], contexts, rooms, guaranteeBoss);
      ApplyRuleSound(st, rules[0], contexts, rooms, guaranteeBoss, types0, entrance);
      ApplyRulesSound(st1, rules[1..], contexts, rooms, guaranteeBoss, types0, entrance);
    }
  }

  /**
   * The global pass keeps the stage sound, and when a Boss is guaranteed
   * and every normalised distance is non-negative it leaves a taken Boss
   * unless no reachable room is left untaken.
   */
  lemma GlobalBossSound(st: Assignment, contexts: seq<RoomSemanticContext>, guaranteeBoss: bool,
                        types0: seq<RoomType>, entrance: int)
    requires |st.types| == |contexts| == |types0|
    requires Sound(st, types0, contexts, entrance)
    ensures var st' := GlobalBoss(st, contexts, guaranteeBoss);
      && Sound(st', types0, contexts, entrance)
      && Grows(st, st')
      && |st'.taken - st.taken| <= 1
      && (guaranteeBoss && (forall i :: 0 <= i < |contexts| ==> 0.0 <= contexts[i].normalizedDistance) ==>
            HasTakenBoss(st') || forall i :: 0 <= i < |contexts| && 0 <= contexts[i].graphDistance ==> i in st'.taken)
  {
    if guaranteeBoss && !st.bossAssigned {
      var open := OpenFrom(contexts, st.taken, 0);
      var pick := PickBest(GlobalScores(contexts), open);
      if pick.Some? {
        PickFresh(st, contexts, GlobalScores(contexts), pick.value);
        TakeBossSound(st, contexts, types0, entrance, pick.value);
      }
    }
  }

  lemma InitialSound(rooms: seq<DungeonRoom>, entrance: int, contexts: seq<RoomSemanticContext>)
    requires |contexts| == |rooms|
    ensures Sound(Initial(rooms, entrance), TypesOf(rooms), contexts, entrance)
    ensures !Initial(rooms, entrance).bossAssigned
  {
  }

  /**
   * The whole pass: only room types change; the entrance is typed Entrance;
   * every other room whose type changes is reachable; rooms no stage took
   * are untouched; and with a Boss guaranteed (and non-negative normalised
   * distances, as ComputeGraphMetrics produces) some room is a Boss unless
   * every reachable room was already taken by another type.
   */
  lemma AssignRoomTypesSound(rooms: seq<DungeonRoom>, entrance: int, contexts: seq<RoomSemanticContext>,
                             cfg: DungeonConfiguration)
    requires |contexts| == |rooms|
    ensures var out := AssignRoomTypes(rooms, entrance, contexts, cfg);
      var st := FinalAssignment(rooms, entrance, contexts, cfg);
      && (0 <= entrance < |rooms| ==> out[entrance].roomType == RoomType.Entrance)
      && (forall i :: 0 <= i < |rooms| && out[i].roomType != rooms[i].roomType ==>
            i == entrance || 0 <= contexts[i].graphDistance)
      && (forall i :: 0 <= i < |rooms| && i !in st.taken ==> out[i] == rooms[i])
      && (cfg.guaranteeBossRoom && (forall i :: 0 <= i < |contexts| ==> 0.0 <= contexts[i].normalizedDistance) ==>
            (exists i :: 0 <= i < |rooms| && out[i].roomType == Boss) ||
            forall i :: 0 <= i < |rooms| && 0 <= contexts[i].graphDistance ==> i in st.taken)
  {
    if |rooms| > 0 {
      var types0 := TypesOf(rooms);
      var st0 := Initial(rooms, entrance);
      var rules := SortRules(cfg.roomTypeRules);
      InitialSound(rooms, entrance, contexts);
      ApplyRulesSound(st0, rules, contexts, rooms, cfg.guaranteeBossRoom, types0, entrance);
      var st1 := ApplyRules(st0, rules, contexts, rooms, cfg.guaranteeBossRoom);
      GlobalBossSound(st1, contexts, cfg.guaranteeBossRoom, types0, entrance);
      var st := FinalAssignment(rooms, entrance, contexts, cfg);
      var out := AssignRoomTypes(rooms, entrance, contexts, cfg);
      forall i | 0 <= i < |rooms| && i !in st.taken
        ensures out[i] == rooms[i]
      {
        assert out[i] == rooms[i].(roomType := types0[i]);
      }
      if HasTakenBoss(st) {
        var j :| 0 <= j < |st.types| && j in st.taken && st.types[j] == Boss;
        assert out[j].roomType == Boss;
      }
    }
  }
}

=== FILE: seq_utils.dfy ===
/** Sequence helpers shared by the modules: concatenation, distinctness, positions, reversal, subsequences. */
module SeqUtils {
  /** Concatenation of a sequence of sequences, the shape of every "for each ... append" loop. */
  function Flatten<T>(ss: seq<seq<T>>): (r: seq<T>)
    ensures |ss| == 0 ==> r == []
  {
    if |ss| == 0 then [] else Flatten(ss[..|ss| - 1]) + ss[|ss| - 1]
  }

  /** An element is in the concatenation iff it is in one of the parts. */
  lemma {:induction false} FlattenMember<T>(ss: seq<seq<T>>, x: T)
    ensures x in Flatten(ss) <==> exists i :: 0 <= i < |ss| && x in ss[i]
    decreases |ss|
  {
    if |ss| > 0 {
      var init := ss[..|ss| - 1];
      FlattenMember(init, x);
      assert forall i :: 0 <= i < |init| ==> init[i] == ss[i];
      if x in ss[|ss| - 1] {
        assert x in Flatten(ss);
      }
    }
  }

  /** Concatenating empty parts gives the empty sequence, and only then. */
  lemma FlattenEmpty<T>(ss: seq<seq<T>>)
    ensures Flatten(ss) == [] <==> forall i :: 0 <= i < |ss| ==> ss[i] == []
  {
    if Flatten(ss) == [] {
      forall i | 0 <= i < |ss|
        ensures ss[i] == []
      {
        if ss[i] != [] {
          FlattenMember(ss, ss[i][0]);
        }
      }
    } else {
      var x := Flatten(ss)[0];
      FlattenMember(ss, x);
    }
  }

  /** Appending one more part to a loop's output. */
  lemma FlattenSnoc<T>(f: int -> seq<T>, n: nat)
    ensures Flatten(seq(n + 1, f)) == Flatten(seq(n, f)) + f(n)
  {
    assert seq(n + 1, f)[..n] == seq(n, f);
  }

  /** Concatenating |ss| parts of length at most `bound` gives at most |ss| * bound elements. */
  lemma {:induction false} FlattenLength<T>(ss: seq<seq<T>>, bound: nat)
    requires forall i :: 0 <= i < |ss| ==> |ss[i]| <= bound
    ensures |Flatten(ss)| <= |ss| * bound
    decreases |ss|
  {
    if |ss| > 0 {
      FlattenLength(ss[..|ss| - 1], bound);
    }
  }

  /** A prefix one element longer is the shorter prefix with that element appended. */
  lemma PrefixSnoc<T>(xs: seq<T>, i: int)
    requires 0 <= i < |xs|
    ensures xs[..i + 1] == xs[..i] + [xs[i]]
  {
  }

  /** No element occurs twice. */
  predicate Distinct<T(==)>(xs: seq<T>) {
    forall i, j :: 0 <= i < j < |xs| ==> xs[i] != xs[j]
  }

  lemma DistinctSnoc<T>(xs: seq<T>, y: T)
    requires Distinct(xs) && y !in xs
    ensures Distinct(xs + [y])
  {
  }

  /** The position of the first occurrence of x. */
  function IndexOf<T(==)>(xs: seq<T>, x: T): (i: nat)
    requires x in xs
    ensures i < |xs| && xs[i] == x
    ensures forall j :: 0 <= j < i ==> xs[j] != x
  {
    if xs[0] == x then 0 else 1 + IndexOf(xs[1..], x)
  }

  /** In a sequence without repeats, each element's position is the one it sits at. */
  lemma IndexOfDistinct<T>(xs: seq<T>, i: int)
    requires Distinct(xs) && 0 <= i < |xs|
    ensures IndexOf(xs, xs[i]) == i
  {
  }

  /** Appending keeps the positions of the elements already present; a new element lands last. */
  lemma IndexOfAppend<T>(xs: seq<T>, y: T, x: T)
    requires x in xs + [y]
    ensures x in xs ==> IndexOf(xs + [y], x) == IndexOf(xs, x)
    ensures x !in xs ==> IndexOf(xs + [y], x) == |xs|
  {
    var i := IndexOf(xs + [y], x);
    if x in xs {
      var j := IndexOf(xs, x);
      assert (xs + [y])[j] == x;
      assert i <= j;
      assert xs[i] == x;
    }
  }

  /** xs is ys with some elements left out, order kept (matched greedily from the back). */
  predicate Subsequence<T(==)>(xs: seq<T>, ys: seq<T>)
    decreases |ys|
  {
    if |xs| == 0 then true
    else if |ys| == 0 then false
    else if xs[|xs| - 1] == ys[|ys| - 1] then Subsequence(xs[..|xs| - 1], ys[..|ys| - 1])
    else Subsequence(xs, ys[..|ys| - 1])
  }

  /** Dropping the last element of a subsequence leaves a subsequence. */
  lemma {:induction false} SubsequenceDropLast<T>(xs: seq<T>, ys: seq<T>)
    requires |xs| > 0 && Subsequence(xs, ys)
    ensures Subsequence(xs[..|xs| - 1], ys)
    decreases |ys|
  {
    var init := xs[..|xs| - 1];
    if |init| > 0 && |ys| > 0 {
      var ys' := ys[..|ys| - 1];
      if xs[|xs| - 1] == ys[|ys| - 1] {
        assert Subsequence(init, ys');
        if init[|init| - 1] == ys[|ys| - 1] {
          SubsequenceDropLast(init, ys');
          assert init[..|init| - 1] == xs[..|xs| - 2];
        } else {
          assert Subsequence(init, ys');
        }
      } else {
        SubsequenceDropLast(xs, ys');
        if init[|init| - 1] == ys[|ys| - 1] {
          SubsequenceDropLast(init, ys');
        }
      }
    }
  }

  /** A subsequence of ys stays one when ys grows, whether or not xs grows with it. */
  lemma SubsequenceSnoc<T>(xs: seq<T>, ys: seq<T>, y: T)
    requires Subsequence(xs, ys)
    ensures Subsequence(xs, ys + [y])
    ensures Subsequence(xs + [y], ys + [y])
  {
    assert (ys + [y])[..|ys|] == ys;
    assert (xs + [y])[..|xs|] == xs;
    if |xs| > 0 && xs[|xs| - 1] == y {
      SubsequenceDropLast(xs, ys);
    }
  }

  /** Every element of a subsequence occurs in the longer sequence. */
  lemma {:induction false} SubsequenceMembers<T>(xs: seq<T>, ys: seq<T>, x: T)
    requires Subsequence(xs, ys) && x in xs
    ensures x in ys
    decreases |ys|
  {
    var ys' := ys[..|ys| - 1];
    if xs[|xs| - 1] == ys[|ys| - 1] {
      if x != xs[|xs| - 1] {
        assert x in xs[..|xs| - 1];
        SubsequenceMembers(xs[..|xs| - 1], ys', x);
      }
    } else {
      SubsequenceMembers(xs, ys', x);
    }
  }

  /** A subsequence is never longer. */
  lemma {:induction false} SubsequenceLength<T>(xs: seq<T>, ys: seq<T>)
    requires Subsequence(xs, ys)
    ensures |xs| <= |ys|
    decreases |ys|
  {
    if |xs| > 0 {
      if xs[|xs| - 1] == ys[|ys| - 1] {
        SubsequenceLength(xs[..|xs| - 1], ys[..|ys| - 1]);
      } else {
        SubsequenceLength(xs, ys[..|ys| - 1]);
      }
    }
  }

  /** The elements of xs that `keep` accepts, in their original order. */
  function Filter<T(!new)>(xs: seq<T>, keep: T -> bool): (r: seq<T>)
    ensures forall x :: x in r <==> x in xs && keep(x)
    ensures Subsequence(r, xs)
    decreases |xs|
  {
    if |xs| == 0 then []
    else
      var init, last := xs[..|xs| - 1], xs[|xs| - 1];
      var kept := Filter(init, keep);
      assert init + [last] == xs;
      SubsequenceSnoc(kept, init, last);
      if keep(last) then kept + [last] else kept
  }
}

=== FILE: voxel_world_mode.dfy ===
/**
 * The dungeon world mode: the voxel engine asks it for the density and the
 * material at a world position, and it answers from a copy of the dungeon
 * grid. Positions arrive here already converted to grid coordinates.
 */
module VoxelDungeonWorldMode {
  import opened Wrappers
  import opened DungeonTypes
  import opened DungeonVoxelConfig
  import DungeonVoxelStamper

  /** The integer state of the world mode; the float geometry fields are not part of this model. */
  datatype WorldMode = WorldMode(
    initialized: bool,
    grid: DungeonGrid,
    rooms: seq<DungeonRoom>,
    voxelsPerCell: int,
    wallThickness: int,
    materials: Materials,
    biome: Byte,
    roomTypeOverrides: map<RoomType, Byte>)

  /** A world mode before Initialize: four voxels per cell, one wall layer, material 2 everywhere. */
  const Fresh := WorldMode(false, DungeonGrid(ZeroVec, []), [], 4, 1, DefaultMaterials, 0, map[])

  /**
   * Initialize: copy the grid and rooms and mark the mode initialised; with a
   * configuration, also copy its scale and material settings, and without
   * one keep whatever settings the mode already had.
   */
  function Initialize(w: WorldMode, result: DungeonResult, cfg: Option<VoxelConfig>, voxelSize: real): (w': WorldMode)
    requires cfg.Some? ==> cfg.value.voxelsPerCellOverride > 0 || voxelSize != 0.0
    ensures w'.initialized && w'.grid == result.grid && w'.rooms == result.rooms
    ensures cfg.Some? ==>
      && w'.materials == cfg.value.materials
      && w'.roomTypeOverrides == cfg.value.roomTypeOverrides
      && w'.wallThickness == cfg.value.wallThickness
      && w'.biome == cfg.value.biome
      && w'.voxelsPerCell == GetEffectiveVoxelsPerCell(cfg.value, result.cellWorldSize, voxelSize)
    ensures cfg.None? ==> w' == w.(initialized := true, grid := result.grid, rooms := result.rooms)
  {
    var base := w.(initialized := true, grid := result.grid, rooms := result.rooms);
    match cfg
    case None => base
    case Some(c) =>
      base.(voxelsPerCell := GetEffectiveVoxelsPerCell(c, result.cellWorldSize, voxelSize),
            wallThickness := c.wallThickness,
            materials := c.materials,
            biome := c.biome,
            roomTypeOverrides := c.roomTypeOverrides)
  }

  /** The world mode's own copy of the open-cell test; it is the stamper's. */
  function IsOpenCell(t: CellType): (b: bool)
    ensures b == DungeonVoxelStamper.IsOpenCell(t)
  {
    t == Room || t == Hallway || t == Staircase || t == StaircaseHead || t == Door || t == CellType.Entrance
  }

  /**
   * GetMaterialForPosition: stairs and doors take their fixed materials, then
   * a cell with a valid 1-based room index takes its room type's override;
   * everything else, including positions outside the grid, is wall.
   */
  function GetMaterialForPosition(w: WorldMode, gc: Vec3): (m: Byte)
    requires WellFormed(w.grid)
    ensures !IsInBounds(w.grid, gc) ==> m == w.materials.wall
    ensures IsInBounds(w.grid, gc) ==>
      var cell := GetCell(w.grid, gc);
      var indexed := 0 < cell.roomIndex <= ToByte(|w.rooms|);
      && (IsStairFamily(cell.cellType) ==> m == w.materials.staircase)
      && (cell.cellType == Door ==> m == w.materials.doorFrame)
      && (!IsStairFamily(cell.cellType) && cell.cellType != Door ==>
            if indexed && w.rooms[cell.roomIndex - 1].roomType in w.roomTypeOverrides
            then m == w.roomTypeOverrides[w.rooms[cell.roomIndex - 1].roomType]
            else m == w.materials.wall)
  {
    if !IsInBounds(w.grid, gc) then w.materials.wall
    else
      var cell := GetCell(w.grid, gc);
      if cell.cellType == Staircase || cell.cellType == StaircaseHead then w.materials.staircase
      else if cell.cellType == Door then w.materials.doorFrame
      else if 0 < cell.roomIndex <= ToByte(|w.rooms|)
              && w.rooms[cell.roomIndex - 1].roomType in w.roomTypeOverrides
      then w.roomTypeOverrides[w.rooms[cell.roomIndex - 1].roomType]
      else w.materials.wall
  }

  /**
   * For the interior of a cell the world mode picks the material the stamper
   * would pick, given the same configuration, except for doors: there the
   * world mode always uses the door-frame material, while the stamper lets a
   * room-type override win. Room-family cells are assumed to carry a valid
   * room index and other cells none, as generated grids do.
   */
  lemma MaterialMatchesStamper(w: WorldMode, cfg: VoxelConfig, gc: Vec3)
    requires WellFormed(w.grid) && IsInBounds(w.grid, gc)
    requires w.materials == cfg.materials && w.roomTypeOverrides == cfg.roomTypeOverrides
    requires IsRoomFamily(GetCell(w.grid, gc).cellType) ==> 0 < GetCell(w.grid, gc).roomIndex <= ToByte(|w.rooms|)
    requires !IsRoomFamily(GetCell(w.grid, gc).cellType) ==> GetCell(w.grid, gc).roomIndex == 0
    ensures
      var cell := GetCell(w.grid, gc);
      var rt := DungeonVoxelStamper.GetRoomTypeForCell(cell, w.rooms);
      var stamped := GetMaterialForCell(cfg, cell.cellType, rt, -1);
      && (cell.cellType != Door ==> GetMaterialForPosition(w, gc) == stamped)
      && (cell.cellType == Door ==>
            (GetMaterialForPosition(w, gc) == stamped <==>
               rt !in cfg.roomTypeOverrides || cfg.roomTypeOverrides[rt] == cfg.materials.doorFrame))
  {
  }

  /**
   * The lambda NeedsWallCheck: whether the face of `cell` towards grid
   * position `n` is a boundary. Outside the grid and towards closed cells it
   * is; a shared non-zero room or hallway index opens it; otherwise it is
   * open only when both indices match.
   */
  function NeedsWallCheck(w: WorldMode, cell: DungeonCell, n: Vec3): (b: bool)
    requires WellFormed(w.grid)
    ensures !IsInBounds(w.grid, n) ==> b
    ensures IsInBounds(w.grid, n) ==>
      var nb := GetCell(w.grid, n);
      && (!IsOpenCell(nb.cellType) ==> b)
      && (IsOpenCell(nb.cellType) ==>
            (!b <==>
               || (cell.roomIndex == nb.roomIndex && (cell.roomIndex != 0 || cell.hallwayIndex == nb.hallwayIndex))
               || (cell.hallwayIndex == nb.hallwayIndex && cell.hallwayIndex != 0)))
  {
    if !IsInBounds(w.grid, n) then true
    else
      var nb := GetCell(w.grid, n);
      if !IsOpenCell(nb.cellType) then true
      else if cell.roomIndex != 0 && nb.roomIndex != 0 && cell.roomIndex == nb.roomIndex then false
      else if cell.hallwayIndex != 0 && nb.hallwayIndex != 0 && cell.hallwayIndex == nb.hallwayIndex then false
      else cell.roomIndex != nb.roomIndex || cell.hallwayIndex != nb.hallwayIndex
  }

  /** Between two open cells both sides agree on whether their shared face is a boundary. */
  lemma WallCheckSymmetric(w: WorldMode, p: Vec3, q: Vec3)
    requires WellFormed(w.grid) && IsInBounds(w.grid, p) && IsInBounds(w.grid, q)
    requires IsOpenCell(GetCell(w.grid, p).cellType) && IsOpenCell(GetCell(w.grid, q).cellType)
    ensures NeedsWallCheck(w, GetCell(w.grid, p), q) == NeedsWallCheck(w, GetCell(w.grid, q), p)
  {
  }

  /** Between two Room cells outside any hallway the check agrees with the stamper's wall and floor tests. */
  lemma WallCheckMatchesStamperInRooms(w: WorldMode, p: Vec3, q: Vec3)
    requires WellFormed(w.grid) && IsInBounds(w.grid, p) && IsInBounds(w.grid, q)
    requires GetCell(w.grid, p).cellType == Room && GetCell(w.grid, q).cellType == Room
    requires GetCell(w.grid, p).hallwayIndex == 0 && GetCell(w.grid, q).hallwayIndex == 0
    ensures NeedsWallCheck(w, GetCell(w.grid, p), q) == DungeonVoxelStamper.NeedsWall(w.grid, GetCell(w.grid, p), q)
    ensures NeedsWallCheck(w, GetCell(w.grid, p), q) == DungeonVoxelStamper.NeedsVerticalBoundary(w.grid, GetCell(w.grid, p), q)
    ensures NeedsWallCheck(w, GetCell(w.grid, p), q) <==> GetCell(w.grid, p).roomIndex != GetCell(w.grid, q).roomIndex
  {
  }

  /**
   * Where two different hallways meet side by side, the stamper leaves the
   * face open but the world mode's simplified check seals it.
   */
  lemma HallwayJunctionSealed(w: WorldMode, p: Vec3, q: Vec3)
    requires WellFormed(w.grid) && IsInBounds(w.grid, p) && IsInBounds(w.grid, q)
    requires GetCell(w.grid, p).cellType == Hallway && GetCell(w.grid, q).cellType == Hallway
    requires GetCell(w.grid, p).roomIndex == 0 && GetCell(w.grid, q).roomIndex == 0
    requires GetCell(w.grid, p).hallwayIndex != GetCell(w.grid, q).hallwayIndex
    ensures NeedsWallCheck(w, GetCell(w.grid, p), q)
    ensures !DungeonVoxelStamper.NeedsWall(w.grid, GetCell(w.grid, p), q)
  {
  }

  /** The six face directions, in face-code order: +X, -X, +Y, -Y, +Z, -Z. */
  const Directions: seq<Vec3> := [Vec3(1, 0, 0), Vec3(-1, 0, 0), Vec3(0, 1, 0), Vec3(0, -1, 0), Vec3(0, 0, 1), Vec3(0, 0, -1)]

  /**
   * Which branch of GetDensityAt answers: the fixed solid value 1.0, the
   * taper outside the grid, or the distance field of an open cell, which
   * only counts the faces whose entry in `boundary` is set.
   */
  datatype DensityCase = SolidDensity | OutsideGrid | OpenSpace(boundary: seq<bool>)

  /** GetDensityAt, up to its float distance arithmetic, at grid coordinate `gc`. */
  function GetDensityAt(w: WorldMode, gc: Vec3): (d: DensityCase)
    requires WellFormed(w.grid)
    ensures d == SolidDensity <==>
      !w.initialized || (IsInBounds(w.grid, gc) && !IsOpenCell(GetCell(w.grid, gc).cellType))
    ensures d == OutsideGrid <==> w.initialized && !IsInBounds(w.grid, gc)
    ensures d.OpenSpace? ==>
      && |d.boundary| == 6
      && forall f :: 0 <= f < 6 ==>
           d.boundary[f] == NeedsWallCheck(w, GetCell(w.grid, gc), gc.Plus(Directions[f]))
  {
    if !w.initialized then SolidDensity
    else if !IsInBounds(w.grid, gc) then OutsideGrid
    else
      var cell := GetCell(w.grid, gc);
      if cell.cellType == Empty || cell.cellType == RoomWall then SolidDensity
      else OpenSpace(seq(6, f requires 0 <= f < 6 => NeedsWallCheck(w, cell, gc.Plus(Directions[f]))))
  }

  /** An open cell is a boundary on every face that leaves the grid. */
  lemma GridEdgeIsBoundary(w: WorldMode, gc: Vec3, f: int)
    requires WellFormed(w.grid) && 0 <= f < 6
    requires GetDensityAt(w, gc).OpenSpace? && !IsInBounds(w.grid, gc.Plus(Directions[f]))
    ensures GetDensityAt(w, gc).boundary[f]
  {
  }

  /**
   * GetMaterialAtDepth: wall before initialisation; afterwards exactly the
   * material of the position, whose own out-of-grid answer is the wall.
   */
  function GetMaterialAtDepth(w: WorldMode, gc: Vec3): (m: Byte)
    requires WellFormed(w.grid)
    ensures !w.initialized ==> m == w.materials.wall
    ensures w.initialized ==> m == GetMaterialForPosition(w, gc)
    ensures !IsInBounds(w.grid, gc) ==> m == w.materials.wall
  {
    if !w.initialized then w.materials.wall
    else if IsInBounds(w.grid, gc) then GetMaterialForPosition(w, gc)
    else w.materials.wall
  }
}

=== FILE: wrappers.dfy ===
/** Optional values, used where the source returns null or a sentinel. */
module Wrappers {
  datatype Option<+T> = None | Some(value: T)
  {
    predicate IsFailure() {
      None?
    }

    function UnwrapOr(default: T): (r: T)
      ensures Some? ==> r == value
      ensures None? ==> r == default
    {
      match this
      case None => default
      case Some(v) => v
    }
  }
}
